=== FILE: README.md ===
# Conference app core, modelled in Dafny

This project models the deterministic core of a conference application. The application has three parts: an Express/PostgreSQL backend, an attendee progressive web app, and an admin dashboard. The model states in Dafny what the code does and proves properties of it.

Each core source file becomes one module:

- **Backend**
  - `Visibility`: department parsing and the session-visibility rule shared by the listing, the single-session check and the date list.
  - `EventsRoutes`: event creation and partial update, and the delete-then-regenerate `event_days` projection of an event's date range.
  - `AppRoutes`: the favourites ledger, the scope source, the team list and the profile update.
  - `SessionsRoutes`: partial session update, topics with their `has_topics` flag, and deletes.
  - `Schemas`: the Zod request validators and their defaults.
  - `ErrorMiddleware`: the error-to-status chain and the error constructors.
  - `UploadMiddleware`: the extension filter, the per-asset PDF policy and the stored file name.
- **Attendee app**
  - `PwaApi`: the in-memory demo API with its mutable favourite set.
  - `ProfilePage`: department selection, serialisation and the toggle that keeps "ALL" exclusive.
  - `SchedulePage`: day tabs, department chips and filter, optimistic favourite flip, tag colours.
  - `HomePage`: the "up next" session.
  - `FavoritesPage`: ordinals, grouping by date, optimistic unfavourite.
  - `PwaUtils`: 24-hour to 12-hour time.
- **Admin dashboard**
  - `SessionsSection`: duration, day tabs, the session payload, create and update guards.
  - `CreateEventPage`: the slug and the submitted event.
  - `WifiSection`: network edits and the index remap of shown passwords.
  - `QuickLinksSection`: link edits and the saved list.
  - `ImportantUpdatesSection`: update and link edits, the delete that waits for the server, and the PUT/POST save loop.

Shared modules:

- `Wrappers`: `Option`.
- `Text`: the JavaScript string operations used, such as trim, split, case mapping and digit parsing.
- `Lists`: filter and single-position edits.
- `Sorting`: code-point order and an insertion sort.
- `CivilDate`: proleptic Gregorian dates with a verified next-day function and ISO 8601 `YYYY-MM-DD` parse and format that round-trip.
- `Rows`: database rows and the `SET` clause built by partial updates.
- `PgDate`: PostgreSQL's reading of date text bound to a `DATE` column, and its two refusal errors.

Modelling choices:

- Database tables are Dafny values held by classes whose methods state the new table.
- The clock, the browser's ISO conversion, the server's answers and failures are parameters.
- The three implementations of day generation are proved to agree: the backend's, the schedule page's fallback and the sessions section's fallback.
- Where the visibility service's doc comment and its code disagree, the model follows the code:
  - a user whose department text parses to an empty list (absent, empty, or only commas and blanks) gets no filter;
  - the team clause never changes the outcome;
  - the single-session check has no draft filter.

## Model

| member | source | states |
|---|---|---|
| CivilDate.NextDay | backend/src/routes/events.routes.ts:36 | the next day of a valid date is valid and exactly one day later |
| CivilDate.AddDays | backend/src/routes/events.routes.ts:28-36 | k days after a valid date is valid and exactly k days later |
| CivilDate.EnumerateDays | backend/src/routes/events.routes.ts:29-37 | the inclusive range holds end − start + 1 valid consecutive days, none when the start is later |
| CivilDate.FormatIso | backend/src/routes/events.routes.ts:30 | the date text has ten characters with '-' at positions 4 and 7 |
| CivilDate.ParseIso | backend/src/routes/events.routes.ts:22-25 | only a YYYY-MM-DD text naming a real calendar day of years 0 to 9999 parses |
| CivilDate.ParseFormat | backend/src/routes/events.routes.ts:22-30 | parsing a formatted date gives the date back |
| CivilDate.FormatParse | backend/src/routes/events.routes.ts:22-30 | formatting a parsed date gives the text back |
| PgDate.PgDateInput | backend/src/config/database.ts:10 | a date text PostgreSQL reads comes back as `YYYY-MM-DD` text naming a calendar day from year 1 on; it is read exactly when, white space skipped, it has a four-digit year and one- or two-digit month and day that name such a day |
| PgDate.DateInputError | backend/src/routes/events.routes.ts:105-147 | a refused date text is the out-of-range error 22008 exactly when its fields were read, and the syntax error 22007 otherwise |
| PgDate.DateSyntaxError | backend/src/middleware/error.middleware.ts:40-75 | the syntax error carries SQLSTATE 22007, is not operational, and is answered 500 |
| PgDate.DateRangeError | backend/src/middleware/error.middleware.ts:40-75 | the range error carries SQLSTATE 22008, is not operational, and is answered 500 |
| PgDate.FirstBadDate | backend/src/routes/events.routes.ts:109-136 | a date reported is a text given in one of the date columns that PostgreSQL refuses; none is reported only when every given date text is read |
| PgDate.StoredDates | backend/src/routes/events.routes.ts:109-138 | the stored data has the same keys, every readable date text replaced by its `YYYY-MM-DD` reading, and every other value kept |
| PgDate.PgDateOfIso | backend/src/config/database.ts:10 | a `YYYY-MM-DD` date text is stored and given back unchanged |
| PgDate.PgDateRefusesDigitless | backend/src/routes/events.routes.ts:127-128 | text with no digit, such as "" or "tbd", is refused with the syntax error |
| PgDate.PgDateUnpaddedMonth | backend/src/config/database.ts:10 | "2026-3-16" is read and given back as "2026-03-16" |
| PgDate.PgDateRefusesNonDay | backend/src/routes/events.routes.ts:127-128 | `YYYY-MM-DD` text naming no calendar day, such as "2026-02-30", is refused with the range error |
| Visibility.TrimmedNonEmpty | backend/src/services/visibility.service.ts:23 | every piece kept is non-empty with no surrounding white space, and the pieces kept are exactly the non-empty trimmed inputs |
| Visibility.TrimmedNonEmptyAppend | backend/src/services/visibility.service.ts:23 | the pieces kept from two lists joined are those of the first followed by those of the second, so input order and repeats are kept |
| Visibility.TrimmedNonEmptyOne | backend/src/services/visibility.service.ts:23 | a single piece is kept, trimmed, unless it trims to nothing |
| Visibility.ParseDepartments | backend/src/services/visibility.service.ts:20-24 | "ALL" in any letter case means every department; an absent or empty field gives no list; otherwise the list is the comma pieces, trimmed, with empty ones dropped, in input order, each a non-empty, trimmed, comma-free name |
| Visibility.SingleDepartment | backend/src/services/visibility.service.ts:14-24 | a field with no comma lists exactly its trimmed text ("BREAST" lists "BREAST"), or nothing when it is blank |
| Visibility.ParseFirstPiece | backend/src/services/visibility.service.ts:20-24 | the piece before the first comma is listed first, followed by the pieces after it in their order |
| Visibility.ParseJoined | backend/src/services/visibility.service.ts:20-24 | names joined with ',' parse back to the same list, unless the join reads as "ALL" |
| Visibility.AdmitsIgnoresTeam | backend/src/services/visibility.service.ts:69-78 | the team disjunct of the visibility condition adds nothing: a session is visible exactly when no filter applies, it is generic, or its department is listed; the team never matters |
| Visibility.NullDepartmentHidden | backend/src/services/visibility.service.ts:71-75 | with an explicit department list, a non-generic session with no department is hidden |
| Visibility.BlankDepartmentSeesAll | backend/src/services/visibility.service.ts:20-24 | a department field of only white space and commas imposes no filter, like an absent one |
| Visibility.GetVisibleSessions | backend/src/services/visibility.service.ts:32-90 | the listing is ordered by date, then start time, and is a reordering of exactly the selected rows: the sessions of published events that pass the event, date, visibility and favourites conditions, each stamped with its favourite flag; the date condition compares `session_date` with PostgreSQL's reading of the date text |
| Visibility.IsoDateFilter | backend/src/services/visibility.service.ts:59-63 | a `YYYY-MM-DD` date filter keeps exactly the sessions stored on that date |
| Visibility.UnpaddedDateFilter | backend/src/services/visibility.service.ts:59-63 | a date filter with a one-digit month ("2026-3-16") keeps exactly the sessions stored on the padded date ("2026-03-16") |
| Visibility.DigitlessDateFilter | backend/src/services/visibility.service.ts:59-63 | a non-empty date filter with no digit keeps no session |
| Visibility.FavouritesOnlyKeepsFavourites | backend/src/services/visibility.service.ts:38-41 | every listed row carries whether the user favourited it; asking for favourites only keeps exactly the favourited rows of the full listing |
| Visibility.GetSessionWithVisibilityCheck | backend/src/services/visibility.service.ts:95-126 | the result is a session with the asked id that passes the visibility condition, stamped with its event's slug and name and its favourite flag; it is null exactly when no session with that id passes |
| Visibility.CheckAgreesWithListing | backend/src/services/visibility.service.ts:95-126 | for a session of a published event, the single check returns exactly the row that the unfiltered listing holds for that id |
| Visibility.DraftSessionPassesCheck | backend/src/services/visibility.service.ts:101-109 | a session of a draft event passes the single check although the listing drops it |
| Visibility.GetSessionDates | backend/src/services/visibility.service.ts:131-162 | the dates are strictly ascending, and they are exactly the dates of the published event's sessions that pass the visibility condition |
| Visibility.DatesAgreeWithListing | backend/src/services/visibility.service.ts:131-162 | the date picker offers exactly the distinct dates, ascending, of the sessions the listing shows for the same event |
| ErrorMiddleware.OperationalError | backend/src/middleware/error.middleware.ts:78-88 | the constructed error is operational, keeps its message and status, and carries no SQLSTATE code |
| ErrorMiddleware.OperationalErrorDefault | backend/src/middleware/error.middleware.ts:82 | the status defaults to 500 |
| ErrorMiddleware.Details | backend/src/middleware/error.middleware.ts:22-25 | one detail per issue, in order, with the issue path joined by '.' and its message |
| ErrorMiddleware.HandleError | backend/src/middleware/error.middleware.ts:9-75 | a validation failure gives 400 with the details; an operational error gives its message with its status, or 500 when that is missing or 0; a unique, foreign-key or not-null violation gives 409 "Resource already exists", 400 "Referenced resource not found" or 400 "Required field missing", with its detail; anything else gives 500, with the message hidden in production |
| ErrorMiddleware.ConstructorStatuses | backend/src/middleware/error.middleware.ts:91-104 | the error creators are answered with 404 "… not found", 400, 401 "Unauthorized", 403 "Forbidden", 409 and 500 |
| ErrorMiddleware.OperationalBeatsConstraint | backend/src/middleware/error.middleware.ts:31-40 | an operational error that also carries a SQLSTATE code is answered with its own status |
| ErrorMiddleware.StatusOutcomes | backend/src/middleware/error.middleware.ts:17-75 | a status other than 500 comes only from a validation failure, an operational error or a known constraint violation; a non-operational error is answered with 400, 409 or 500 |
| ErrorMiddleware.JoinPathExample | backend/src/middleware/error.middleware.ts:23 | the path wifi, 0, wifi_name is reported as "wifi.0.wifi_name" |
| UploadMiddleware.LastIndexOf | backend/src/middleware/upload.middleware.ts:37 | the index found holds the character and no later position does; none is found exactly when the character is absent |
| UploadMiddleware.StripTrailingSlashes | backend/src/middleware/upload.middleware.ts:37 | the result is a prefix that does not end in '/', and only slashes were removed |
| UploadMiddleware.BaseName | backend/src/middleware/upload.middleware.ts:37 | the base name holds no '/' |
| UploadMiddleware.Extname | backend/src/middleware/upload.middleware.ts:37 | the extension is empty or a '.' followed by neither '.' nor '/' |
| UploadMiddleware.Rejection | backend/src/middleware/upload.middleware.ts:42 | the filter's rejection is a plain error: not operational and without a SQLSTATE code |
| UploadMiddleware.RejectionIsServerError | backend/src/middleware/upload.middleware.ts:42 | a rejected upload reaches the error handler as a 500 |
| UploadMiddleware.StoredName | backend/src/middleware/upload.middleware.ts:28-31 | the stored name is the unique suffix, '-', then the original name in which text without white space is kept and each maximal run of white space becomes one '_'; a name without white space is kept whole, and nothing after the suffix is white space |
| UploadMiddleware.StoredNameOneRun | backend/src/middleware/upload.middleware.ts:30 | two words separated by any run of white space are stored joined by a single '_' |
| Text.ReplaceSpaceRunsOfRun | backend/src/middleware/upload.middleware.ts:30 | `replace(/\s+/g, rep)` keeps the text before a maximal white-space run, puts one `rep` for the run, and carries on after it |
| UploadMiddleware.AcceptsIffListed | backend/src/middleware/upload.middleware.ts:35-45 | a file is accepted exactly when its lower-cased extension is .png, .jpg, .jpeg or .webp, or .pdf where PDFs are allowed |
| UploadMiddleware.PdfPolicy | backend/src/middleware/upload.middleware.ts:57-63 | a PDF is refused for banners and logos and accepted for venue maps and general uploads |
| UploadMiddleware.AcceptsIgnoresCase | backend/src/middleware/upload.middleware.ts:37 | the decision does not depend on the letter case of the file name |
| UploadMiddleware.ExtnameLower | backend/src/middleware/upload.middleware.ts:37 | taking the extension commutes with lower-casing |
| UploadMiddleware.ExtnameExamples | backend/src/middleware/upload.middleware.ts:37 | "Venue Map.PDF" has extension ".PDF"; ".bashrc", ".." and "README" have none; "archive." has "." |
| UploadMiddleware.AllowPdfWidens | backend/src/middleware/upload.middleware.ts:20-21 | a file accepted without PDFs is accepted with them |
| EventsRoutes.Inserted | backend/src/routes/events.routes.ts:105-139 | the created row has exactly the inserted columns plus the new id, each taken from the validated body (NULL when absent) |
| EventsRoutes.CreateDropsListFields | backend/src/routes/events.routes.ts:105-139 | venue maps, banners and quick links are not stored on creation; wifi is |
| EventsRoutes.DaysFrom | backend/src/routes/events.routes.ts:27-37 | one row per day from d to the end inclusive (none when d is later), numbered on from num, each dated k days after d |
| EventsRoutes.EventStore.constructor | backend/src/routes/events.routes.ts:15 | the store starts empty |
| EventsRoutes.EventStore.GenerateEventDays | backend/src/routes/events.routes.ts:15-38 | the day table afterwards is the other events' rows followed by the freshly generated rows of this event |
| EventsRoutes.EventStore.InsertDays | backend/src/routes/events.routes.ts:27-37 | the insert loop appends exactly the generated rows, in order, and ON CONFLICT never fires |
| EventsRoutes.EventStore.CreateEvent | backend/src/routes/events.routes.ts:105-147 | when a date text is refused by PostgreSQL the first refused one, start date before end date, gives error 22007 or 22008 and nothing changes; otherwise the event is stored under the next id with its dates in `YYYY-MM-DD` form, and its days are generated from the two dates as sent |
| EventsRoutes.EventStore.InsertEvent | backend/src/routes/events.routes.ts:109-141 | the inserted row is the stored data under the next id, the id counter moves on by one, and the days are regenerated for that id |
| EventsRoutes.InsertedDatesAreIso | backend/src/routes/events.routes.ts:109-138 | after an insert every given date column holds PostgreSQL's `YYYY-MM-DD` reading of the text sent, which parses as a calendar day |
| EventsRoutes.StartDateReportedFirst | backend/src/routes/events.routes.ts:113-128 | a refused start date is the one reported, whatever the end date holds |
| EventsRoutes.EventStore.UpdateEvent | backend/src/routes/events.routes.ts:150-231 | with no field supplied the stored row or 404 comes back and nothing changes; a supplied date text PostgreSQL refuses gives error 22007 or 22008 and nothing changes; otherwise a missing event is a 404, and an existing one gets exactly the supplied fields with dates in `YYYY-MM-DD` form, with days regenerated from the stored dates only when a date was supplied |
| EventsRoutes.EventStore.SetColumns | backend/src/routes/events.routes.ts:150-231 | the `UPDATE` of readable values: no field gives the stored row or 404; a missing event is a 404; an existing one gets exactly the supplied fields, and its days are regenerated from the new row's dates only when a date was given |
| EventsRoutes.GenerateStep | backend/src/routes/events.routes.ts:28-36 | each turn of the insert loop writes the next generated row, dated by the loop's day, and that row clashes with no row already present |
| EventsRoutes.EventDaysShape | backend/src/routes/events.routes.ts:19-37 | a valid range gives end − start + 1 rows (none when reversed); row k is day k+1 dated k days after the start, and the last row is the end date |
| EventsRoutes.EventDaysDistinct | backend/src/routes/events.routes.ts:32 | the generated dates are pairwise distinct |
| EventsRoutes.InvalidRangeLeavesNoDays | backend/src/routes/events.routes.ts:17-25 | an unparseable date or a reversed range leaves the event with no days, since the delete has already happened |
| EventsRoutes.RegeneratedFrame | backend/src/routes/events.routes.ts:17-37 | other events' rows are untouched, and this event's rows are exactly its generated days |
| EventsRoutes.RegenerateIdempotent | backend/src/routes/events.routes.ts:15-38 | regenerating with the same range gives the same table |
| EventsRoutes.TimePartIgnored | backend/src/routes/events.routes.ts:19-21 | anything after the first 10 characters of either date is ignored |
| EventsRoutes.FourDayExample | backend/src/routes/events.routes.ts:27-37 | 2026-02-16 to 2026-02-19 gives days 1 to 4 dated 16 to 19 February |
| EventsRoutes.UpdateRegenerationRule | backend/src/routes/events.routes.ts:219-225 | the days are regenerated exactly when a date is among the fields set |
| Rows.Supplied | backend/src/routes/events.routes.ts:166-171 | the supplied fields are exactly those of the list present in the body, no more of them than the list holds |
| Rows.SuppliedAppend | backend/src/routes/events.routes.ts:166-171 | the fields supplied from two lists joined are those of the first followed by those of the second, so list order is kept |
| Rows.SuppliedStep | backend/src/routes/events.routes.ts:166-171 | one more field of the list adds that field at the end exactly when the body has it |
| Rows.BuildSetClause | backend/src/routes/events.routes.ts:166-200 | one SET item per supplied field, in field order, numbered $1.. $n, each with the body's value |
| Rows.Restrict | backend/src/routes/events.routes.ts:166-200 | the body restricted to the listed fields |
| Rows.SetClauseEffect | backend/src/routes/events.routes.ts:207-211 | applying the built SET clause to a row overwrites exactly the supplied fields |
| AppRoutes.CurrentValue | backend/src/routes/app.routes.ts:131-132 | the stored value is used when it is a non-empty text, and otherwise the token's value |
| AppRoutes.RowWithId | backend/src/routes/app.routes.ts:127-130 | the row found has the asked id; none is found only when no row has it |
| AppRoutes.WithFavourite | backend/src/routes/app.routes.ts:307-311 | the (user, session) pair is present afterwards, no other pair is added, existing pairs keep their row, and a new pair records the session's event |
| AppRoutes.WithoutFavourite | backend/src/routes/app.routes.ts:325-328 | exactly the (user, session) pair is removed; every other pair keeps its row |
| AppRoutes.FavouriteRows | backend/src/routes/app.routes.ts:271-281 | the rows are exactly the caller's favourited sessions whose event exists, each as its favourite row |
| AppRoutes.FavouriteRowOf | backend/src/routes/app.routes.ts:272-278 | a favourite row holds exactly the ten selected session columns the session has, with their values, and the slug and name of the event the favourite was recorded under |
| AppRoutes.InvalidIntegerError | backend/src/middleware/error.middleware.ts:39-74 | an integer column given unreadable text raises SQLSTATE 22P02, which is not operational and not one of the recognised codes, so the answer is 500 |
| AppRoutes.StoredDepartment | backend/src/routes/app.routes.ts:396-399 | every falsy body value is stored as NULL; a non-empty text is stored as it is, a non-zero number as its decimal text and `true` as "true" |
| AppRoutes.Teammates | backend/src/routes/app.routes.ts:341-351 | the members listed are exactly the attendees of the team other than the caller, with the listed columns |
| AppRoutes.AppStore.constructor | backend/src/routes/app.routes.ts:1-16 | the store holds the given tables and attendees |
| AppRoutes.AppStore.GetSessions | backend/src/routes/app.routes.ts:121-148 | a non-empty date text PostgreSQL refuses gives error 22007 or 22008 (answered 500); otherwise the listing is the visible-session listing for the event, with the stored department and team when non-empty and the token's otherwise, and favourites only when asked with "true" |
| AppRoutes.AppStore.GetDates | backend/src/routes/app.routes.ts:150-166 | the dates are ascending, distinct, and exactly those of the event's visible sessions for the token's department and team |
| AppRoutes.AppStore.GetSession | backend/src/routes/app.routes.ts:168-188 | a path id `parseInt` cannot read fails with 500; otherwise a 404 comes back exactly when no session with the parsed id passes the check for the token's scope, and else the single check's row: the session with that id, visible to that scope, with its event's slug and name and its favourite flag |
| AppRoutes.AppStore.ListFavourites | backend/src/routes/app.routes.ts:269-289 | the list is ordered by date then start time, is a reordering of the favourite rows, holds exactly the caller's favourited sessions, and carries only the selected session columns |
| AppRoutes.AppStore.AddFavourite | backend/src/routes/app.routes.ts:291-319 | a path id `parseInt` cannot read fails with 500 and changes nothing; a session the visibility check does not return gives 404 and changes nothing; path text PostgreSQL cannot read as an integer (such as "12abc") then fails with 500 and changes nothing; otherwise the pair is added if absent and the answer says it is favourited |
| AppRoutes.AppStore.RemoveFavourite | backend/src/routes/app.routes.ts:321-337 | path text PostgreSQL cannot read as an integer fails with 500 and changes nothing; otherwise the answer is 204 and only the (user, session) pair goes |
| AppRoutes.AppStore.MyTeam | backend/src/routes/app.routes.ts:339-360 | no team gives an empty list; otherwise a reordering of the team's other members, ordered by email; the caller is never listed |
| AppRoutes.AppStore.UpdateProfile | backend/src/routes/app.routes.ts:392-410 | a missing user gives 404; otherwise that user's row gets the body value as department (NULL when falsy, otherwise its JavaScript text, so 5 is stored as "5") and the clock reading as `updated_at`, no other row changes, and the profile columns come back |
| AppRoutes.AddFavouriteIdempotent | backend/src/routes/app.routes.ts:307-311 | adding a favourite twice is adding it once |
| AppRoutes.RemoveOnlyThatPair | backend/src/routes/app.routes.ts:325-328 | removing leaves every other pair as it was, and removing twice is removing once |
| AppRoutes.RemoveUndoesAdd | backend/src/routes/app.routes.ts:307-328 | removing a newly added favourite restores the favourites |
| AppRoutes.AddedShowsAsFavourite | backend/src/routes/app.routes.ts:307-328 | after adding, the session is stamped as a favourite of that user; after removing, it is not |
| AppRoutes.EmptyDepartmentRules | backend/src/routes/app.routes.ts:131-398 | an empty department is stored as NULL, and the listing then falls back to the token's department |
| AppRoutes.TruthyDepartmentRead | backend/src/routes/app.routes.ts:131-398 | a truthy department is read back by the listing as the stored text, so a body department 5 scopes the listing to "5" |
| Rows.PgIntegerAgreesWithParseInt | backend/src/routes/app.routes.ts:296-311 | text PostgreSQL reads as an integer is read as the same integer by `parseInt` |
| Rows.PgIntegerOfDigits | backend/src/routes/app.routes.ts:296-311 | a plain digit string is read as its decimal value by both |
| Rows.PgIntegerRefusesTrailingText | backend/src/routes/app.routes.ts:296-311 | digits followed by other text are read by `parseInt` as the digits and refused by PostgreSQL |
| Text.JsParseIntOfHex | backend/src/routes/app.routes.ts:173 | `parseInt` without a radix reads `0x` followed by hexadecimal digits in base 16 |
| Rows.PgIntegerRefusesWord | backend/src/routes/app.routes.ts:296-311 | text with no digit or sign at its head is refused by both |
| SessionsRoutes.Coalesce | backend/src/routes/sessions.routes.ts:216-218 | a given value wins; an absent one keeps the current value |
| SessionsRoutes.UpdatedTopic | backend/src/routes/sessions.routes.ts:214-221 | the topic keeps its session, and each of name, location and type is replaced only when given |
| SessionsRoutes.SetHasTopics | backend/src/routes/sessions.routes.ts:200-255 | only the named session's flag changes; no session is added or removed |
| SessionsRoutes.SessionStore.constructor | backend/src/routes/sessions.routes.ts:1-18 | the store starts empty |
| SessionsRoutes.SessionStore.UpdateSession | backend/src/routes/sessions.routes.ts:100-147 | a missing session is a 404; with no field supplied the stored row comes back unchanged; a `session_date` PostgreSQL refuses gives error 22007 or 22008 and nothing changes; otherwise exactly the supplied fields are set, the date in `YYYY-MM-DD` form |
| SessionsRoutes.SessionStore.SetColumns | backend/src/routes/sessions.routes.ts:117-142 | the `UPDATE` of readable values: a missing session is a 404, no field returns the stored row, otherwise exactly the supplied fields are set |
| SessionsRoutes.SessionStore.DeleteSession | backend/src/routes/sessions.routes.ts:149-166 | a missing session is a 404 and changes nothing; otherwise it goes with its topics and speaker assignments, 204 comes back, and every remaining topic still has a flagged session |
| SessionsRoutes.SessionStore.AddTopic | backend/src/routes/sessions.routes.ts:187-206 | a session that is not stored fails the foreign key with 23503 (answered 400) and nothing changes; otherwise the topic is stored under the next id and the session's has_topics becomes true, so every topic still has a flagged session |
| SessionsRoutes.TopicSessionMissing | backend/src/routes/sessions.routes.ts:192-197 | inserting a topic for a session that is not stored raises a non-operational error with SQLSTATE 23503 and a detail naming the missing key |
| SessionsRoutes.TopicSessionMissingAnswer | backend/src/middleware/error.middleware.ts:51-56 | that error is answered 400 "Referenced resource not found" with its detail, in every environment |
| SessionsRoutes.TopicsWithout | backend/src/routes/sessions.routes.ts:153-156 | exactly the topics of other sessions are kept, unchanged |
| SessionsRoutes.SessionStore.UpdateTopic | backend/src/routes/sessions.routes.ts:209-233 | a missing topic is a 404; otherwise the topic's given fields change and the rest are kept |
| SessionsRoutes.SessionStore.DeleteTopic | backend/src/routes/sessions.routes.ts:235-265 | a missing topic is a 404 and changes nothing; otherwise the topic keyed by its id alone goes, and the session named in the path has its flag cleared exactly when it has no topic left |
| SessionsRoutes.SessionStore.UnassignSpeaker | backend/src/routes/sessions.routes.ts:286-304 | a missing assignment is a 404; otherwise exactly that assignment goes and 204 comes back |
| SessionsRoutes.TopicUpdateRules | backend/src/routes/sessions.routes.ts:214-221 | an update with nothing given changes nothing, and repeating an update changes nothing more |
| SessionsRoutes.DeleteTopicFlag | backend/src/routes/sessions.routes.ts:248-256 | after a delete, the path session's flag is false exactly when it has no topic left or was already false; other sessions are untouched |
| SessionsRoutes.DeleteThroughOtherSession | backend/src/routes/sessions.routes.ts:237-256 | deleting session 10's only topic through session 20's path clears session 20's flag and leaves session 10 flagged |
| SessionsRoutes.AddKeepsFlagged | backend/src/routes/sessions.routes.ts:192-200 | adding a topic to a stored session keeps every topic's session stored and flagged |
| SessionsRoutes.DeleteKeepsFlagged | backend/src/routes/sessions.routes.ts:237-256 | deleting a topic keeps every remaining topic's session stored and flagged |
| SessionsRoutes.DeleteSessionKeepsFlagged | backend/src/routes/sessions.routes.ts:153-156 | deleting a session with its topics keeps every remaining topic's session stored and flagged, and leaves no topic of the deleted session |
| Schemas.Coerce | backend/src/models/schemas.ts:4 | `z.coerce.number()`: null coerces to 0, a missing value stays missing, the empty array reads as 0 and an array of two or more elements is NaN |
| Schemas.StringIssues | backend/src/models/schemas.ts:7-198 | a string passes exactly when it is a valid email where one is asked and its length is within the bounds |
| Schemas.NumberIssues | backend/src/models/schemas.ts:4 | a number passes exactly when it is a positive integer |
| Schemas.Parse | backend/src/models/schemas.ts:4-198 | a failed parse reports at least one issue, and a successful parse of a present value yields a value |
| Schemas.ParseString | backend/src/models/schemas.ts:7-198 | a string rule accepts exactly a string within its length bounds (and an email where asked), unchanged |
| Schemas.ParseNumber | backend/src/models/schemas.ts:4 | the id rule accepts exactly values coercing to a positive integer, and yields that number |
| Schemas.Partial | backend/src/models/schemas.ts:23-142 | `.partial()` makes every field optional and keeps the field names and order |
| Schemas.Omit | backend/src/models/schemas.ts:142 | `.omit()` drops exactly the named field |
| Schemas.StringBounds | backend/src/models/schemas.ts:7-198 | `z.string().min(a).max(b)` accepts exactly strings with length from a to b |
| Schemas.DefaultRule | backend/src/models/schemas.ts:26-198 | `.default(d)` parses d when the field is missing and the given value otherwise |
| Schemas.IdAcceptsPositiveIntegers | backend/src/models/schemas.ts:4 | the id schema accepts exactly values coercing to a positive integer |
| Schemas.IdOfDigits | backend/src/models/schemas.ts:4 | a digit string is accepted as its value when positive, and "0" and "" are refused as not positive |
| Schemas.IdFromUrl | backend/src/models/schemas.ts:4 | "42" gives 42; "0" and "" are refused |
| Schemas.IdRejectsText | backend/src/models/schemas.ts:4 | a text starting with something other than a digit or sign is not a number |
| Schemas.IdRejectsFraction | backend/src/models/schemas.ts:4 | 2.5 is not an integer; -0.5 is neither an integer nor positive |
| Schemas.CoerceSingleton | backend/src/models/schemas.ts:4 | a one-element array coerces as its element does, except a boolean, whose text is NaN |
| Schemas.IdOfSingleton | backend/src/models/schemas.ts:4 | the id schema judges `[x]` as it judges `x` (so `[7]` passes as 7), and refuses `[true]` as not a number |
| Schemas.IdOfOtherArrays | backend/src/models/schemas.ts:4 | `[]` is refused as not positive, and an array of two or more elements as not a number |
| Schemas.CreateSessionRules | backend/src/models/schemas.ts:121-140 | an accepted session has a name of length 1 to 255 and text date and start time; missing visibility flags default to generic and dept-generic, and has_topics to false |
| Schemas.MinimalSessionAccepted | backend/src/models/schemas.ts:121-140 | an event id, a 1 to 255 character name, any date text and any start-time text are enough |
| Schemas.UpdateSessionShape | backend/src/models/schemas.ts:142 | the update schema has every create field but event_id, each optional |
| Schemas.UpdateSessionEmptyAndEventId | backend/src/models/schemas.ts:142 | an empty update body is accepted as empty, and an event_id in it is dropped |
| Schemas.CreateEventRules | backend/src/models/schemas.ts:68-89 | an accepted event has pwa_name and event_name of length 1 to 255, and is_draft defaults to true |
| Schemas.CreateEventInfoLists | backend/src/models/schemas.ts:81-82 | missing wifi and helpdesk lists default to empty lists |
| Schemas.CreateEventLinkLists | backend/src/models/schemas.ts:83-85 | missing venue maps and quick links default to empty lists |
| Schemas.EventBannersDefault | backend/src/models/schemas.ts:60-64 | a missing banners object defaults to an empty object |
| Schemas.WifiRules | backend/src/models/schemas.ts:26-31 | a WiFi entry needs non-empty title, wifi_name and wifi_password, and desc defaults to "" |
| Schemas.PasswordMinimums | backend/src/models/schemas.ts:169-198 | admin and attendee creation need a password of at least 6 characters; login needs at least 1 |
| Schemas.ShortPasswordLogsIn | backend/src/models/schemas.ts:195-198 | a 5-character password is accepted at login |
| Schemas.ShortPasswordResponse | backend/src/models/schemas.ts:169-173 | a too-short password is answered with 400 and one detail for the password field |
| PwaApi.LoadFavourites | pwa/src/config/api.ts:15-21 | saved ids are used when present; otherwise the set starts as the initial favourite ids |
| PwaApi.DateParam | pwa/src/config/api.ts:59-60 | the date found is non-empty and holds no '&'; none is found exactly when the URL has no "date=" followed by a character other than '&' |
| PwaApi.FavouritePath | pwa/src/config/api.ts:122-135 | a URL matches exactly when it is "/app/favourites/" followed by one or more digits, and the id is their value |
| PwaApi.Stamp | pwa/src/config/api.ts:65-71 | the stamped session has its old fields unchanged plus is_favourite, true exactly when its id is in the set |
| PwaApi.StampAll | pwa/src/config/api.ts:65-71 | every session is stamped, in order |
| PwaApi.OnDate | pwa/src/config/api.ts:61-63 | exactly the sessions dated on the asked date are kept |
| PwaApi.FavouriteList | pwa/src/config/api.ts:81-98 | the favourites list holds only favourited sessions, projected to the listed columns, and is no longer than the sessions |
| PwaApi.MockApi.constructor | pwa/src/config/api.ts:15-23 | the favourite set starts from the saved ids, or from the initial ids when nothing is saved |
| PwaApi.MockApi.Get | pwa/src/config/api.ts:36-113 | session listings are stamped with the current favourite set and are no longer than the sessions; the favourites list holds only favourited sessions |
| PwaApi.DatedSessionsRoute | pwa/src/config/api.ts:57-67 | a sessions URL with `?date=d` answers exactly the sessions dated d, each stamped with the current favourite flag |
| PwaApi.SessionsRoute | pwa/src/config/api.ts:69-73 | a sessions URL with no query answers every session, each stamped with the current favourite flag |
| PwaApi.FavouritesRoute | pwa/src/config/api.ts:80-99 | "/app/favourites" answers the favourite list of the current sessions and favourite set |
| PwaApi.MockApi.Post | pwa/src/config/api.ts:115-131 | login answers the token; a favourite path adds its id (adding an id already there changes nothing); any other URL answers null |
| PwaApi.MockApi.Delete | pwa/src/config/api.ts:133-144 | a favourite path removes its id, and an absent id is a successful no-op; any other URL answers null |
| PwaApi.MockApi.Patch | pwa/src/config/api.ts:146-154 | a profile patch answers the profile overwritten by the given fields; any other URL answers null |
| PwaApi.MockApi.Put | pwa/src/config/api.ts:156-159 | every PUT answers null |
| PwaApi.DateFilterCommutes | pwa/src/config/api.ts:58-66 | filtering by date and stamping commute |
| PwaApi.FavouritesAreFlagged | pwa/src/config/api.ts:81-98 | the favourites list is exactly the stamped listing's flagged sessions, in listing order, projected to the listed columns |
| PwaApi.EventRouteFirst | pwa/src/config/api.ts:48-55 | "/app/events/days" matches the event route before the days route |
| PwaApi.DaysRoute | pwa/src/config/api.ts:53-55 | an event's days URL answers the stored days |
| PwaApi.UnmatchedRoute | pwa/src/config/api.ts:111-112 | a URL without '/' matches no route and answers null instead of failing |
| PwaApi.FavouritePathExamples | pwa/src/config/api.ts:122 | "/app/favourites/007" names 7; an empty or non-digit id matches nothing |
| ProfilePage.ParseDepartmentValue | pwa/src/pages/ProfilePage.tsx:14-18 | a missing or empty value gives no selection; "ALL" in any case gives ["ALL"]; otherwise the comma pieces, trimmed, with empty ones dropped, in input order, each a non-empty, trimmed, comma-free name |
| ProfilePage.SerializeDepartments | pwa/src/pages/ProfilePage.tsx:20-23 | a selection holding "ALL" is saved as "ALL" |
| ProfilePage.Toggled | pwa/src/pages/ProfilePage.tsx:77-99 | toggling "ALL" gives ["ALL"] when absent and [] when present; toggling another name drops "ALL", flips that name and keeps every other name |
| ProfilePage.SaveValue | pwa/src/pages/ProfilePage.tsx:105-107 | an empty selection is saved as null, and a selection holding "ALL" as "ALL" |
| ProfilePage.DeptOptions | pwa/src/pages/ProfilePage.tsx:130 | the options are exactly the departments not named "ALL" in any case |
| ProfilePage.Selection.constructor | pwa/src/pages/ProfilePage.tsx:29-31 | nothing is selected at first |
| ProfilePage.Selection.LoadProfile | pwa/src/pages/ProfilePage.tsx:60-64 | a non-empty stored department replaces the selection with its parse; otherwise the selection stays |
| ProfilePage.Selection.ToggleDept | pwa/src/pages/ProfilePage.tsx:77-99 | the selection becomes the toggled one, the saved notice clears, and "ALL" never appears beside another name |
| ProfilePage.ToggleKeepsAllExclusive | pwa/src/pages/ProfilePage.tsx:77-99 | after any toggle, a selection holding "ALL" is exactly ["ALL"] |
| ProfilePage.ToggleAppendsThenRemoves | pwa/src/pages/ProfilePage.tsx:89-98 | a new name goes to the end (with "ALL" dropped), and toggling it again removes it |
| ProfilePage.AgreesWithBackend | pwa/src/pages/ProfilePage.tsx:14-18 | the page reads a department value as the backend's parser does: ["ALL"] for every department, otherwise the same list |
| ProfilePage.SerializeRoundTrip | pwa/src/pages/ProfilePage.tsx:14-23 | for trimmed, non-empty, comma-free names without "ALL", reading back what is saved gives the same list |
| ProfilePage.SerializeAllRoundTrip | pwa/src/pages/ProfilePage.tsx:14-23 | ["ALL"] reads back as ["ALL"] |
| ProfilePage.LowerCaseAllReadsAsEverything | pwa/src/pages/ProfilePage.tsx:14-23 | a department named "All" is saved as "All" and read back as every department |
| ProfilePage.SaveRoundTrip | pwa/src/pages/ProfilePage.tsx:14-107 | reading back the saved value of a well-formed selection gives the same selection |
| SchedulePage.StoredTabs | pwa/src/pages/SchedulePage.tsx:106-111 | one tab per stored day, in order, with the day number kept and the date cut to 10 characters |
| SchedulePage.BuildFallbackTabs | pwa/src/pages/SchedulePage.tsx:112-126 | without either event date there are no tabs; otherwise the tabs are exactly the backend's generated day rows for the same dates |
| SchedulePage.TabsFromTo | pwa/src/pages/SchedulePage.tsx:118-126 | the loop's tabs are the backend's day rows from start to end, numbered from 1 |
| SchedulePage.DayTabs | pwa/src/pages/SchedulePage.tsx:105-127 | non-empty stored days are used as they are (dates cut to 10 characters); otherwise the fallback is used |
| SchedulePage.DepartmentNames | pwa/src/pages/SchedulePage.tsx:219-225 | the names are strictly ascending, and exactly the departments of the non-generic sessions that name one |
| SchedulePage.ByDepartment | pwa/src/pages/SchedulePage.tsx:228-230 | with no department chosen the list is unchanged; otherwise exactly the generic sessions and those of that department are kept |
| SchedulePage.SortedByStart | pwa/src/pages/SchedulePage.tsx:208-216 | the sessions are reordered, not changed, and ascend by start time |
| SchedulePage.Flip | pwa/src/pages/SchedulePage.tsx:181-187 | only the sessions with that id have their favourite flag set to the opposite of the flag shown |
| SchedulePage.TagColor | pwa/src/pages/SchedulePage.tsx:56-59 | no tag gives the default colour; a known tag, in any case, gives its colour; an unknown tag gives the default |
| SchedulePage.ScheduleState.constructor | pwa/src/pages/SchedulePage.tsx:80-81 | no date and no department are chosen at first |
| SchedulePage.ScheduleState.InitialDate | pwa/src/pages/SchedulePage.tsx:130-132 | the first tab's date is chosen when there are tabs and no date is chosen yet |
| SchedulePage.ScheduleState.SelectDate | pwa/src/pages/SchedulePage.tsx:252-255 | choosing a date clears the department filter |
| SchedulePage.ScheduleState.ClickChip | pwa/src/pages/SchedulePage.tsx:278 | clicking the active chip deselects it; clicking another selects it |
| SchedulePage.ScheduleState.OnMutate | pwa/src/pages/SchedulePage.tsx:174-189 | the cached list before the change is returned and the flag of that session is flipped in the cache |
| SchedulePage.ScheduleState.OnError | pwa/src/pages/SchedulePage.tsx:190-197 | after an error the list before the change comes back |
| SchedulePage.FallbackAgreesWithBackend | pwa/src/pages/SchedulePage.tsx:112-126 | the page's fallback tabs and the backend's generated days agree for any event |
| SchedulePage.FlipRestores | pwa/src/pages/SchedulePage.tsx:181-197 | flipping back after a flip restores the list |
| SchedulePage.ByDepartmentKeepsOrder | pwa/src/pages/SchedulePage.tsx:228-230 | the department filter keeps the order of the list |
| SchedulePage.CaseIgnored | pwa/src/pages/SchedulePage.tsx:56-73 | the tag colour and the transport test ignore letter case |
| SchedulePage.TagExamples | pwa/src/pages/SchedulePage.tsx:46-59 | no tag and "Lunch" give the default colour; "KeyNote" gives the keynote colour |
| PwaUtils.JsRem | pwa/src/lib/utils.ts:12 | JavaScript's remainder: the Euclidean one for a non-negative dividend, and the negated remainder of the negation otherwise |
| PwaUtils.Hour12 | pwa/src/lib/utils.ts:12 | an unparseable hour shows as 12; a non-negative hour shows as 1 to 12 and agrees with it modulo 12 |
| PwaUtils.Meridiem | pwa/src/lib/utils.ts:11 | the suffix is "PM" exactly when the hour parses and is at least 12, "AM" otherwise |
| PwaUtils.Clock12 | pwa/src/lib/utils.ts:13 | the text ends in " PM" exactly when the hour is at least 12, and in " AM" otherwise |
| PwaUtils.FormatTime | pwa/src/lib/utils.ts:8-14 | the text ends in " PM" exactly when the part before the first ':' parses to at least 12 |
| PwaUtils.ClockHour | pwa/src/lib/utils.ts:12 | an hour 0 to 23 shows as 1 to 12 |
| PwaUtils.FormatClockTime | pwa/src/lib/utils.ts:8-14 | for a digit hour below 24, the text is the 12-hour clock hour, ':', the minutes as written, and AM or PM; anything after the second ':' is ignored |
| PwaUtils.ClockHourDistinct | pwa/src/lib/utils.ts:11-12 | two hours with the same shown hour and suffix are the same hour |
| PwaUtils.MorningExample | pwa/src/lib/utils.ts:9-13 | "08:00:00" shows as "8:00 AM" |
| PwaUtils.MidnightExample | pwa/src/lib/utils.ts:12 | "00:30" shows as "12:30 AM" |
| PwaUtils.AfternoonExample | pwa/src/lib/utils.ts:12 | "13:05:00" shows as "1:05 PM" |
| HomePage.FirstNotEnded | pwa/src/pages/HomePage.tsx:60-68 | the index found is the first session that has not ended, a same-day session with a null end time counting as not qualifying; none is found only when every session has ended |
| HomePage.UpNext | pwa/src/pages/HomePage.tsx:53-71 | no list or an empty list gives null; otherwise the first session that has not ended, or the first session of the list when all have ended; a same-day session with a null end time is passed over instead of throwing |
| HomePage.PastAndFuture | pwa/src/pages/HomePage.tsx:61-62 | a session dated before today never qualifies, and one dated after today always does |
| HomePage.SameDay | pwa/src/pages/HomePage.tsx:64-67 | a session of today qualifies exactly when it has an end time whose minutes are later than the current minute, and the page's own test throws on it exactly when its end time is null |
| HomePage.FirstFutureBound | pwa/src/pages/HomePage.tsx:60-68 | a session dated after today guarantees that one is found at or before it |
| HomePage.AllOverShowsFirst | pwa/src/pages/HomePage.tsx:70 | when every session is in the past the first session is shown |
| HomePage.FindAsWritten | pwa/src/pages/HomePage.tsx:60-68 | the search as written ends at a qualifying session, or throws at a same-day session with a null end time, and every session before either point is neither |
| HomePage.UpNextAsWritten | pwa/src/pages/HomePage.tsx:53-71 | the page crashes exactly when the search as written throws; no list or an empty list gives null; a session shown is one of the list |
| HomePage.NullEndThrows | pwa/src/pages/HomePage.tsx:64 | a single session dated today with a null end time crashes the page as written, and is shown by the corrected page |
| HomePage.AsWrittenAgrees | pwa/src/pages/HomePage.tsx:53-71 | whenever the search as written does not throw it finds the same session as the corrected one, and the page shows the same card |
| HomePage.ThrowsExactly | pwa/src/pages/HomePage.tsx:60-68 | the search as written throws at the first same-day null-end session when no earlier session qualifies |
| FavoritesPage.TrailingDigits | pwa/src/pages/FavoritesPage.tsx:63 | the count is the length of the longest run of digits ending the text |
| FavoritesPage.OrdinalSuffix | pwa/src/pages/FavoritesPage.tsx:65-73 | the suffix is one of "st", "nd", "rd" and "th" |
| FavoritesPage.AddOrdinal | pwa/src/pages/FavoritesPage.tsx:61-75 | a text not ending in a digit is returned unchanged; otherwise the text followed by a two-letter suffix |
| FavoritesPage.OrdinalIsEnglish | pwa/src/pages/FavoritesPage.tsx:65-73 | for every number below 100, and so every day of a month, the suffix is the English one: "th" for 11 to 13, else "st", "nd", "rd" for a last digit 1 to 3, else "th" |
| FavoritesPage.OrdinalAboveHundred | pwa/src/pages/FavoritesPage.tsx:67 | only 11, 12 and 13 themselves are excepted: 111 gets "st" |
| FavoritesPage.AddOrdinalOf | pwa/src/pages/FavoritesPage.tsx:63-74 | a text ending in a run of digits gets the suffix of the run's value |
| FavoritesPage.OrdinalExample | pwa/src/pages/FavoritesPage.tsx:62 | "Tuesday, March 17" becomes "Tuesday, March 17th" |
| FavoritesPage.KeysOf | pwa/src/pages/FavoritesPage.tsx:96 | every session is keyed by the first 10 characters of its date |
| FavoritesPage.FirstAppearances | pwa/src/pages/FavoritesPage.tsx:97 | the keys are distinct and are exactly those that occur |
| FavoritesPage.OfDate | pwa/src/pages/FavoritesPage.tsx:98 | a group holds exactly the sessions with that key |
| FavoritesPage.Grouped | pwa/src/pages/FavoritesPage.tsx:93-101 | there is one group per distinct key |
| FavoritesPage.GroupByDate | pwa/src/pages/FavoritesPage.tsx:93-101 | the loop's groups are the grouping: keys in first-appearance order, each with its sessions in input order |
| FavoritesPage.GroupStep | pwa/src/pages/FavoritesPage.tsx:95-99 | one turn of the loop adds the session's key at the end of the key order exactly when it is new |
| FavoritesPage.GroupMapStep | pwa/src/pages/FavoritesPage.tsx:95-99 | opening the group of a new key and appending the session keeps every group equal to the sessions so far with that key, in list order |
| FavoritesPage.GroupsPartition | pwa/src/pages/FavoritesPage.tsx:93-101 | every session is in exactly one group, the one of its key |
| FavoritesPage.FirstAppearancesOrdered | pwa/src/pages/FavoritesPage.tsx:93-101 | the groups come in the order in which their keys first appear |
| FavoritesPage.OfDateSplit | pwa/src/pages/FavoritesPage.tsx:95-99 | each group keeps input order |
| FavoritesPage.WithoutSession | pwa/src/pages/FavoritesPage.tsx:111-113 | exactly the sessions with that id are removed |
| FavoritesPage.FavouritesCache.constructor | pwa/src/pages/FavoritesPage.tsx:84-90 | the cache holds the fetched list |
| FavoritesPage.FavouritesCache.OnMutate | pwa/src/pages/FavoritesPage.tsx:108-115 | the list before the change is returned and the sessions with that id leave the cache |
| FavoritesPage.FavouritesCache.OnError | pwa/src/pages/FavoritesPage.tsx:116-120 | after an error the list before the change comes back |
| FavoritesPage.UnfavouriteFails | pwa/src/pages/FavoritesPage.tsx:104-120 | a failed unfavourite leaves the cache as it was |
| FavoritesPage.CountLabel | pwa/src/pages/FavoritesPage.tsx:145 | the header is "1 Session" for one session and the decimal count followed by " Sessions" otherwise |
| SessionsSection.MonthText | admin-dashboard/src/components/events/SessionsSection.tsx:143-144 | months 1 to 12 give their three-letter abbreviation; any other month reads "undefined" |
| SessionsSection.CalcDuration | admin-dashboard/src/components/events/SessionsSection.tsx:101-108 | no end time gives ""; an unreadable time gives "NaN min"; otherwise "" exactly when the end is not after the start, and the minute difference's digits followed by " min" when it is |
| SessionsSection.FormatTime | admin-dashboard/src/components/events/SessionsSection.tsx:110-112 | the first five characters, or the whole text when shorter |
| SessionsSection.StoredTabs | admin-dashboard/src/components/events/SessionsSection.tsx:180-188 | one tab per stored day, in order, labelled "DAY n" with the date cut to 10 characters |
| SessionsSection.AdminTabsOf | admin-dashboard/src/components/events/SessionsSection.tsx:159-168 | one tab per generated day row, in order |
| SessionsSection.BuildFallbackTabs | admin-dashboard/src/components/events/SessionsSection.tsx:148-170 | an unparseable date gives no tabs; for date texts of at most ten characters the tabs are exactly the backend's generated day rows for the same dates |
| SessionsSection.TabsFromTo | admin-dashboard/src/components/events/SessionsSection.tsx:157-169 | the loop's tabs are the backend's day rows from start to end, numbered from 1 |
| SessionsSection.LoadDayTabs | admin-dashboard/src/components/events/SessionsSection.tsx:172-205 | stored days are used when there are any; otherwise, and when the fetch fails, the fallback is used |
| SessionsSection.SelectedAfterLoad | admin-dashboard/src/components/events/SessionsSection.tsx:190-203 | a chosen day stays; otherwise the first tab's date is chosen, if any |
| SessionsSection.BuildPayload | admin-dashboard/src/components/events/SessionsSection.tsx:325-344 | a generic session sends no department, dept-generic true and no team; a dept-generic one sends no team; every empty optional text is sent as null |
| SessionsSection.EditForm | admin-dashboard/src/components/events/SessionsSection.tsx:284-306 | the edit form holds the session's name and flags and its times cut to five characters |
| SessionsSection.CreateAction | admin-dashboard/src/components/events/SessionsSection.tsx:346-371 | a missing name or start time is refused with its message; otherwise the session is posted for the selected day with the built payload, whose start time is then never empty |
| SessionsSection.UpdateAction | admin-dashboard/src/components/events/SessionsSection.tsx:373-391 | with no session being edited (or id 0) nothing happens; a missing name is refused; otherwise the built payload is put to that session |
| SessionsSection.SortedByStart | admin-dashboard/src/components/events/SessionsSection.tsx:406-408 | the sessions are reordered, not changed, and ascend by start time |
| SessionsSection.Editor.constructor | admin-dashboard/src/components/events/SessionsSection.tsx:125-133 | no tabs, no day chosen, the panel closed and the form empty |
| SessionsSection.Editor.FetchEventDays | admin-dashboard/src/components/events/SessionsSection.tsx:172-205 | the tabs come from the stored days or the fallback, and the chosen day is kept or becomes the first tab's |
| SessionsSection.Editor.SelectDay | admin-dashboard/src/components/events/SessionsSection.tsx:417 | choosing a tab chooses its date |
| SessionsSection.Editor.OpenAddPanel | admin-dashboard/src/components/events/SessionsSection.tsx:278-282 | the panel opens with an empty form and nothing being edited |
| SessionsSection.Editor.OpenEditPanel | admin-dashboard/src/components/events/SessionsSection.tsx:284-308 | the panel opens on that session's edit form |
| SessionsSection.Editor.ClosePanel | admin-dashboard/src/components/events/SessionsSection.tsx:310-314 | the panel closes and the form empties |
| SessionsSection.Editor.Deleted | admin-dashboard/src/components/events/SessionsSection.tsx:393-403 | deleting the session being edited closes the panel; deleting another leaves it |
| SessionsSection.ShortDateOfIso | admin-dashboard/src/components/events/SessionsSection.tsx:141-145 | for a valid ISO date the short date is its month abbreviation and day number |
| SessionsSection.ShortDateExample | admin-dashboard/src/components/events/SessionsSection.tsx:140-145 | "2026-03-06" shows as "Mar 6" |
| SessionsSection.FallbackTabsLabelled | admin-dashboard/src/components/events/SessionsSection.tsx:159-168 | fallback tab k is labelled "DAY k+1", carries a valid date, and shows that date's short form |
| SessionsSection.DurationExample | admin-dashboard/src/components/events/SessionsSection.tsx:101-108 | "09:00" to "10:30" is "90 min" |
| SessionsSection.DurationOfMinutes | admin-dashboard/src/components/events/SessionsSection.tsx:103-107 | with readable times the duration is "" when the end is not after the start, and the difference in minutes otherwise |
| SessionsSection.EditRoundTrip | admin-dashboard/src/components/events/SessionsSection.tsx:284-344 | editing a stored, normalised session and saving it unchanged sends back what is stored, with times cut to five characters |
| SessionsSection.StartTimeOnlyCheckedOnCreate | admin-dashboard/src/components/events/SessionsSection.tsx:346-379 | a session without a start time cannot be created but can be updated |
| SessionsSection.SortedKeepsSessions | admin-dashboard/src/components/events/SessionsSection.tsx:406-408 | sorting keeps every session and no other |
| CreateEventPage.Slug | admin-dashboard/src/pages/events/CreateEventPage.tsx:67-72 | the slug holds only lower-case letters, digits and single '-', never starts or ends with '-', and keeps every letter and digit of the lower-cased name, in order |
| CreateEventPage.Submit | admin-dashboard/src/pages/events/CreateEventPage.tsx:74-101 | an empty name and then a missing date are refused with their messages; otherwise a draft is posted with the name's slug, the display name or else the name as home-screen name, and empty optional texts as null |
| CreateEventPage.CollapseShape | admin-dashboard/src/pages/events/CreateEventPage.tsx:70 | replacing every run of other characters with one '-' gives a hyphenated text |
| CreateEventPage.CollapseKeeps | admin-dashboard/src/pages/events/CreateEventPage.tsx:70 | that replacement keeps the letters and digits, in order |
| CreateEventPage.TrimShape | admin-dashboard/src/pages/events/CreateEventPage.tsx:71 | dropping a '-' at either end of a hyphenated text leaves neither end a '-' and keeps the letters and digits |
| CreateEventPage.DropLeading | admin-dashboard/src/pages/events/CreateEventPage.tsx:71 | dropping a leading '-' keeps the letters and digits and leaves no '-' in front |
| CreateEventPage.DropTrailing | admin-dashboard/src/pages/events/CreateEventPage.tsx:71 | dropping a trailing '-' keeps the letters and digits and leaves no '-' at the end |
| CreateEventPage.CollapseOfHyphenated | admin-dashboard/src/pages/events/CreateEventPage.tsx:70 | a hyphenated text passes through the replacement unchanged |
| CreateEventPage.SlugIdempotent | admin-dashboard/src/pages/events/CreateEventPage.tsx:67-72 | the slug of a slug is itself |
| CreateEventPage.CollapseWord | admin-dashboard/src/pages/events/CreateEventPage.tsx:70 | a run of letters and digits is copied unchanged |
| CreateEventPage.SlugExample | admin-dashboard/src/pages/events/CreateEventPage.tsx:67-72 | "Tech Day!" has the slug "tech-day" |
| CreateEventPage.CollapseRun | admin-dashboard/src/pages/events/CreateEventPage.tsx:69-70 | a run of characters that are not lower-case letters or digits becomes one '-', or nothing right after another run |
| CreateEventPage.SlugOneRun | admin-dashboard/src/pages/events/CreateEventPage.tsx:67-72 | two slug words joined by any run of other characters give the two words joined by one '-' |
| CreateEventPage.TrimExample | admin-dashboard/src/pages/events/CreateEventPage.tsx:71 | "tech-day-" loses its final '-' |
| CreateEventPage.SubmittedNamesPresent | admin-dashboard/src/pages/events/CreateEventPage.tsx:77-93 | a created event always carries a non-empty event name and home-screen name |
| WifiSection.Edited | admin-dashboard/src/components/events/WifiSection.tsx:61-69 | editing a field sets that field only, and typing the network name also sets the title |
| WifiSection.Toggled | admin-dashboard/src/components/events/WifiSection.tsx:73-80 | the position is shown afterwards exactly when it was hidden, and no other position changes |
| WifiSection.SavePayload | admin-dashboard/src/components/events/WifiSection.tsx:82-96 | at most as many networks are sent as are held, and each one sent has a title, a name and a password |
| WifiSection.Editor.constructor | admin-dashboard/src/components/events/WifiSection.tsx:29-33 | no networks and no password shown |
| WifiSection.Editor.Load | admin-dashboard/src/components/events/WifiSection.tsx:35-38 | the networks become the stored ones |
| WifiSection.Editor.AddNetwork | admin-dashboard/src/components/events/WifiSection.tsx:40-42 | one empty network is appended |
| WifiSection.Editor.RemoveNetwork | admin-dashboard/src/components/events/WifiSection.tsx:44-54 | the network at the position goes, and the shown positions are those after the removal |
| WifiSection.Editor.UpdateNetwork | admin-dashboard/src/components/events/WifiSection.tsx:56-71 | the network at the position is edited and every other stays |
| WifiSection.Editor.TogglePasswordVisibility | admin-dashboard/src/components/events/WifiSection.tsx:73-80 | the shown set becomes the toggled one |
| WifiSection.Remap | admin-dashboard/src/components/events/WifiSection.tsx:46-53 | the loop over the shown positions drops the removed one and moves later ones down by one |
| WifiSection.RemapStep | admin-dashboard/src/components/events/WifiSection.tsx:48-51 | one position handled adds its shifted place to the result, unless it is the removed one |
| WifiSection.RemapAdd | admin-dashboard/src/components/events/WifiSection.tsx:49-50 | handling one more position adds exactly its shifted place, or nothing for the removed one |
| WifiSection.RemoveKeepsFlags | admin-dashboard/src/components/events/WifiSection.tsx:44-53 | after a removal every remaining network is shown exactly when it was shown before |
| WifiSection.ToggleTwice | admin-dashboard/src/components/events/WifiSection.tsx:73-80 | toggling a position twice restores the shown set |
| WifiSection.NameSetsTitle | admin-dashboard/src/components/events/WifiSection.tsx:64-67 | typing a network name sets the name and the title and nothing else |
| WifiSection.SaveSplits | admin-dashboard/src/components/events/WifiSection.tsx:83-95 | saving keeps order: the list sent for two parts is the lists for each part, one after the other |
| WifiSection.SaveMembers | admin-dashboard/src/components/events/WifiSection.tsx:83-95 | a network is sent, as its entry, exactly when its name and password are not blank |
| WifiSection.EmptyNetworkNotSent | admin-dashboard/src/components/events/WifiSection.tsx:40-85 | a network just added is not sent |
| WifiSection.SaveOne | admin-dashboard/src/components/events/WifiSection.tsx:83-95 | a single network is sent as its entry exactly when it is complete |
| QuickLinksSection.Loaded | admin-dashboard/src/components/events/QuickLinksSection.tsx:27-35 | one link per stored entry, in order, with a missing title or url made empty |
| QuickLinksSection.AddLink | admin-dashboard/src/components/events/QuickLinksSection.tsx:37-39 | one empty link is appended and the others stay |
| QuickLinksSection.RemoveLink | admin-dashboard/src/components/events/QuickLinksSection.tsx:41-43 | the link at a valid position goes and the later ones move down; another position changes nothing |
| QuickLinksSection.WithField | admin-dashboard/src/components/events/QuickLinksSection.tsx:51 | editing a field sets that field only |
| QuickLinksSection.UpdateField | admin-dashboard/src/components/events/QuickLinksSection.tsx:45-53 | the link at the position is edited and every other stays |
| QuickLinksSection.Entry | admin-dashboard/src/components/events/QuickLinksSection.tsx:61-64 | the url is kept and the title is never empty; a non-empty title is kept |
| QuickLinksSection.Payload | admin-dashboard/src/components/events/QuickLinksSection.tsx:59-64 | at most as many links are sent as are held, each with a non-empty title |
| QuickLinksSection.PayloadSplits | admin-dashboard/src/components/events/QuickLinksSection.tsx:59-64 | saving keeps order: the list sent for two parts is the lists for each part, one after the other |
| QuickLinksSection.PayloadOne | admin-dashboard/src/components/events/QuickLinksSection.tsx:59-64 | a single link is sent as its entry exactly when its title or url is not blank |
| QuickLinksSection.PayloadMembers | admin-dashboard/src/components/events/QuickLinksSection.tsx:59-64 | a link is sent, as its entry, exactly when its title or url is not blank |
| QuickLinksSection.AddedLinkNotSent | admin-dashboard/src/components/events/QuickLinksSection.tsx:37-60 | a link just added is not sent |
| QuickLinksSection.BlankTitleKept | admin-dashboard/src/components/events/QuickLinksSection.tsx:60-62 | a title of spaces beside a url is sent as it is, not replaced by "Untitled Link" |
| QuickLinksSection.RemoveThenSave | admin-dashboard/src/components/events/QuickLinksSection.tsx:41-64 | removing a link and saving sends the entries of the links before it and after it |
| ImportantUpdatesSection.Loaded | admin-dashboard/src/components/events/ImportantUpdatesSection.tsx:33-50 | one update per stored one, in order, with missing texts empty, missing links an empty list, and a time of at most 16 characters |
| ImportantUpdatesSection.AddUpdate | admin-dashboard/src/components/events/ImportantUpdatesSection.tsx:52-64 | a blank unsaved update stamped with the current minute goes first and the others follow unchanged |
| ImportantUpdatesSection.WithField | admin-dashboard/src/components/events/ImportantUpdatesSection.tsx:80-88 | editing a field sets that field only |
| ImportantUpdatesSection.AtIndex | admin-dashboard/src/components/events/ImportantUpdatesSection.tsx:80-119 | the update at the position is replaced and every other stays |
| ImportantUpdatesSection.UpdateField | admin-dashboard/src/components/events/ImportantUpdatesSection.tsx:80-88 | the update at the position gets the field edited and every other stays |
| ImportantUpdatesSection.AddLink | admin-dashboard/src/components/events/ImportantUpdatesSection.tsx:90-96 | an empty link is appended to that update's links and nothing else changes |
| ImportantUpdatesSection.UpdateLink | admin-dashboard/src/components/events/ImportantUpdatesSection.tsx:98-109 | only the chosen link of the chosen update changes |
| ImportantUpdatesSection.RemoveLink | admin-dashboard/src/components/events/ImportantUpdatesSection.tsx:111-119 | only the chosen link of the chosen update goes |
| ImportantUpdatesSection.Payload | admin-dashboard/src/components/events/ImportantUpdatesSection.tsx:126-131 | the title is never empty and a non-empty one is kept; an empty description is sent as null; exactly the non-blank links are sent; the time is kept |
| ImportantUpdatesSection.RequestFor | admin-dashboard/src/components/events/ImportantUpdatesSection.tsx:133-137 | an update with a non-zero id is put to that id, any other is posted to the event, always with its payload |
| ImportantUpdatesSection.Requests | admin-dashboard/src/components/events/ImportantUpdatesSection.tsx:124-138 | one request per update, in order |
| ImportantUpdatesSection.Save | admin-dashboard/src/components/events/ImportantUpdatesSection.tsx:121-147 | the loop succeeds exactly when no request is refused and then has sent every request in order; otherwise it has sent the requests up to and including the refused one |
| ImportantUpdatesSection.Editor.constructor | admin-dashboard/src/components/events/ImportantUpdatesSection.tsx:26 | no updates at first |
| ImportantUpdatesSection.Editor.RemoveUpdate | admin-dashboard/src/components/events/ImportantUpdatesSection.tsx:66-78 | an unsaved update goes at once; a saved one goes only when the server delete succeeded |
| ImportantUpdatesSection.AddThenRemoveLink | admin-dashboard/src/components/events/ImportantUpdatesSection.tsx:90-119 | adding a link and removing that last link restores the updates |
| ImportantUpdatesSection.LinksKeepOrder | admin-dashboard/src/components/events/ImportantUpdatesSection.tsx:129 | the links sent keep the order in which they were typed |
| ImportantUpdatesSection.NewUpdateSaved | admin-dashboard/src/components/events/ImportantUpdatesSection.tsx:52-137 | a blank update saved unchanged is posted titled "Untitled Update" with no description and no links |
| ImportantUpdatesSection.ZeroIdPosted | admin-dashboard/src/components/events/ImportantUpdatesSection.tsx:133 | an update whose id is 0 is posted again rather than put |

## Left out

- PostgreSQL and Express: tables are sequences of rows, and queries are the predicates and orderings they encode. `ORDER BY` leaves the order of rows with equal keys open; the model's sort fixes one, and the contracts state only sortedness and the rows kept.
- Authentication is not part of this model: JWT signing and verification, bcrypt, and the auth and admin middleware. The token is a parameter.
- The trivial CRUD routes and their pagination are not part of this model: departments, teams, tags, session types, speakers, admin, updates and attendees.
- Upload plumbing: multer storage, directory creation, and the time-and-random file-name suffix. The suffix is a parameter. The 10 MiB limit is a constant, and its enforcement by multer is not modelled.
- Concurrency and atomicity: day generation runs as separate queries with no transaction, and interleavings are not modelled.
- JavaScript `Date` leniency, such as "2026-02-30" rolling over: date validity is an explicit predicate, and only strict `YYYY-MM-DD` text of years 0 to 9999 parses.
- Locale and time-zone formatting (`toLocaleDateString`, `toISOString` on local times) is left out. The update editor's ISO conversion is the parameter `toIso`, so ImportantUpdatesSection.Loaded states only that the shown time has at most 16 characters.
- Case mapping covers ASCII letters only. Other Unicode case mappings of `toLowerCase` and `toUpperCase` are left out.
- String lengths and comparisons are over Unicode scalar values. JavaScript and Zod count and compare UTF-16 code units, which differ only outside the Basic Multilingual Plane. `localeCompare` is approximated by code-point order.
- `Number` is modelled on integer text: an optional sign and decimal digits, with the surrounding white space it skips. Fractions, exponents, hexadecimal and `Infinity` read as not-a-number in the model's `Number`.
- `parseInt` is modelled as JavaScript reads it without a radix: leading white space, an optional sign, then `0x`/`0X` and hexadecimal digits, or else decimal digits, stopping at the first other character. So "1.5" and "1e3" read as 1 and "0x1A" as 26. `Infinity` and numbers beyond 2^53 losing precision are left out.
- PostgreSQL's reading of text bound to an integer column is modelled on its decimal form. The non-decimal and underscore forms of PostgreSQL 16 are left out. So is the 32-bit range of `integer` columns; a value outside it fails with SQLSTATE 22003, which the error middleware would also answer with 500.
- Path ids of the events and sessions routes are taken as integers. Their failure on text PostgreSQL cannot read as an integer (a 500) is modelled only for the session and favourite ids of the app routes.
- AppRoutes.AppStore.MyTeam: the email order is code-point order, which is PostgreSQL's order under the C collation. Under a linguistic collation such as en_US the order can differ ("ab@x.com" before "a.c@x.com"), and the model does not capture it.
- The `DATE` type of `event_start_date`, `event_end_date` and `session_date` is taken from the type parser the backend registers for `DATE`; the table definitions are not part of this model.
- PgDate.PgDateInput: only PostgreSQL's year-month-day form is modelled (a four-digit year, a one- or two-digit month and day, white space around). Other forms PostgreSQL reads are refused in the model: month names, other field orders under `DateStyle`, two-digit or five-digit years, `BC`, the words `today`, `epoch` and `infinity`, and a time after the date.
- SessionsRoutes.SessionStore.UpdateSession: the `TIME` columns `session_start_time` and `session_end_time` are stored as sent; PostgreSQL's refusal of text that is not a time (such as "") is not modelled.
- EventsRoutes.EventStore.CreateEvent: the days are generated from the two date texts as sent, which the day generator reads with `Date`. The model reads them strictly as `YYYY-MM-DD`, so a date PostgreSQL accepts in another form (such as "2026-3-16") generates no days in the model, whatever `Date`'s fallback parser makes of it.
- EventsRoutes.EventStore.CreateEvent: the JSON fields go through `JSON.stringify` and back through PostgreSQL's `jsonb` input. The model takes that round trip as the identity.
- EventsRoutes.EventStore.UpdateEvent: as for CreateEvent, the stringify-then-`jsonb` round trip of the JSON fields is taken as the identity.
- SchedulePage.TagColor: `TAG_COLORS` is a plain object, so a tag whose lower-case form is "constructor" or "__proto__" reads a member inherited from `Object.prototype` (a function or an object, which React would not render as a class name) instead of a colour. The model gives the default colour for these two tags.
- SessionsRoutes.SessionStore.DeleteSession: the cascade from a deleted session to its favourites is not modelled here, because the favourites live in the app routes' tables (AppRoutes); the cascade to topics and speaker assignments follows the delete script's note that deleting sessions "cascades to favourites, session_topics, etc." (backend/src/db/replace-data.ts:51), as the table definitions are not part of this model.
- AppRoutes.StoredDepartment: the body value is modelled as null, text, an integer or a boolean. A fractional number, an object or an array (stored through its JavaScript text form) is left out.
- The email pattern of Zod's `.email()` is a parameter, not the library's regular expression.
- `localStorage` persistence, React rendering, TanStack Query caching beyond the optimistic list edits, and toasts are left out.
- Network outcomes are parameters: a fetch failure (`fetched`), a refused delete (`deleted`) and the position of a refused save (`failsAt`).
- Scripts and fixtures (seeding, data replacement, the static demo data) are left out. The demo API receives its fixtures when it is created.
- SessionsSection.BuildFallbackTabs: agreement with the backend's day rows is stated for date texts of at most ten characters. For longer texts the backend cuts to ten characters while the page hands the whole text to `Date`, whose parsing of such texts is left out.

## Findings

| source | as written | input that shows it | evidently intended | confidence | as-written member | corrected member |
|---|---|---|---|---|---|---|
| pwa/src/pages/HomePage.tsx:64 | the end time of a same-day session is split with no null check, although `session_end_time` may be null | a list whose first session not in the past is dated today and has a null `session_end_time`: `find` throws a TypeError and the home page fails to render | such a session is passed over like one whose end time does not read, as the schedule page does with a null end time | not executed | HomePage.UpNextAsWritten (with HomePage.NullEndThrows and HomePage.ThrowsExactly) | HomePage.UpNext (with HomePage.AsWrittenAgrees) |

=== FILE: app_routes.dfy ===
/**
 * The attendee app routes (backend/src/routes/app.routes.ts): the personalised
 * listing and its scope source, session detail, the favourites ledger, the team
 * list and the profile update.
 */
module AppRoutes {
  import opened Wrappers
  import opened Text
  import opened Sorting
  import opened Rows
  import opened Visibility
  import opened ErrorMiddleware
  import opened PgDate

  /** The claims the auth middleware puts on the request (`req.user`). */
  datatype Token = Token(userId: int, department: Option<string>, team: Option<string>)

  datatype Outcome<T> = Ok(value: T) | Err(error: Thrown)

  /** The body `sendCreated` answers an added favourite with. */
  datatype Favourited = Favourited(sessionId: int, favourited: bool)

  /** A row of the favourites list: the selected session columns and its event's
      slug and name. */
  datatype FavouriteRow = FavouriteRow(session: Row, eventSlug: Value, eventName: Value)

  /** The session columns `GET /favourites` selects. */
  const FavouriteColumns: set<string> := {"id", "session_name", "session_description", "session_date",
    "session_start_time", "session_end_time", "session_tag", "session_location", "timezone", "department"}

  /** The error PostgreSQL raises for a text bound to an integer column that it cannot
      read (SQLSTATE `22P02`); the error middleware answers it with 500. */
  function InvalidIntegerError(text: string): (e: Thrown)
    ensures e.Failure? && !e.isOperational && e.code == Some("22P02")
    ensures forall production :: HandleError(e, production).status == 500
  {
    Failure("invalid input syntax for type integer: \"" + text + "\"", None, false, Some("22P02"), None)
  }

  /** `parseInt` gives NaN, which node-postgres sends as the text "NaN". */
  const NaNText := "NaN"

  /** `rows[0]?.col || tokenValue`: the stored value unless the row is missing or the
      value is `NULL` or empty. */
  function CurrentValue(row: Option<Row>, col: string, tokenValue: Option<string>): (r: Option<string>)
    ensures (row.Some? && col in row.value && row.value[col].Str? && row.value[col].s != "") ==> r == Some(row.value[col].s)
    ensures !(row.Some? && col in row.value && row.value[col].Str? && row.value[col].s != "") ==> r == tokenValue
  {
    if row.Some? && col in row.value && row.value[col].Str? && row.value[col].s != "" then Some(row.value[col].s)
    else tokenValue
  }

  /** The first row of `rows` whose `id` is `id`. */
  function RowWithId(rows: seq<Row>, id: int): (r: Option<Row>)
    ensures r.Some? ==> r.value in rows && IntIs(r.value, "id", id)
    ensures r.None? ==> forall a :: a in rows ==> !IntIs(a, "id", id)
  {
    if |rows| == 0 then None
    else if IntIs(rows[0], "id", id) then Some(rows[0])
    else
      assert forall a :: a in rows ==> a == rows[0] || a in rows[1..];
      RowWithId(rows[1..], id)
  }

  /** The `event_id` of a session row (0 when it has none). */
  function EventIdOf(s: Row): int {
    if "event_id" in s && s["event_id"].Int? then s["event_id"].i else 0
  }

  /** `INSERT ... ON CONFLICT DO NOTHING` on the (user, session) key. */
  function WithFavourite(favs: map<(int, int), int>, userId: int, sessionId: int, eventId: int): (r: map<(int, int), int>)
    ensures (userId, sessionId) in r
    ensures forall k :: k in r <==> k in favs || k == (userId, sessionId)
    ensures forall k :: k in favs ==> r[k] == favs[k]
    ensures (userId, sessionId) !in favs ==> r[(userId, sessionId)] == eventId
  {
    if (userId, sessionId) in favs then favs else favs[(userId, sessionId) := eventId]
  }

  /** `DELETE ... WHERE user_id = $1 AND session_id = $2`. */
  function WithoutFavourite(favs: map<(int, int), int>, userId: int, sessionId: int): (r: map<(int, int), int>)
    ensures forall k :: k in r <==> k in favs && k != (userId, sessionId)
    ensures forall k :: k in r ==> r[k] == favs[k]
  {
    favs - {(userId, sessionId)}
  }

  /** `JOIN sessions s ON f.session_id = s.id JOIN events e ON f.event_id = e.id
      WHERE f.user_id = $1`: the caller's favourites that join. */
  predicate FavouriteOf(t: Tables, userId: int, s: Row) {
    "id" in s && s["id"].Int? && (userId, s["id"].i) in t.favourites
    && t.favourites[(userId, s["id"].i)] in t.events
  }

  /** The selected session columns, then `e.event_slug, e.event_name` of the event the
      favourite was recorded under. */
  function FavouriteRowOf(t: Tables, userId: int, s: Row): (r: FavouriteRow)
    requires FavouriteOf(t, userId, s)
    ensures forall c :: c in r.session <==> c in s && c in FavouriteColumns
    ensures forall c :: c in r.session ==> r.session[c] == s[c]
    ensures var e := t.events[t.favourites[(userId, s["id"].i)]];
      r.eventSlug == Get(e, "event_slug") && r.eventName == Get(e, "event_name")
  {
    var e := t.events[t.favourites[(userId, s["id"].i)]];
    FavouriteRow(Project(s, FavouriteColumns), Get(e, "event_slug"), Get(e, "event_name"))
  }

  function FavouriteRows(t: Tables, userId: int, rows: seq<Row>): (r: seq<FavouriteRow>)
    ensures forall f :: f in r <==> exists s :: s in rows && FavouriteOf(t, userId, s) && f == FavouriteRowOf(t, userId, s)
  {
    if |rows| == 0 then []
    else
      assert forall s :: s in rows <==> s == rows[0] || s in rows[1..];
      (if FavouriteOf(t, userId, rows[0]) then [FavouriteRowOf(t, userId, rows[0])] else [])
      + FavouriteRows(t, userId, rows[1..])
  }

  function FavouriteKey(f: FavouriteRow): Key {
    (TextOf(f.session, "session_date"), TextOf(f.session, "session_start_time"))
  }

  /** `department || null` bound to the text column: every falsy body value is stored
      as `NULL`, and node-postgres sends any other value as its JavaScript text, so
      a number or `true` is stored as text. */
  function StoredDepartment(v: Value): (r: Value)
    ensures r.Null? <==> (v.Null? || v == Str("") || v == Bool(false) || v == Int(0))
    ensures !r.Null? ==> r.Str? && r.s != ""
    ensures v.Str? && v.s != "" ==> r == v
    ensures v.Int? && v.i != 0 ==> r == Str(IntToString(v.i))
    ensures v == Bool(true) ==> r == Str("true")
  {
    match v
    case Null => Null
    case Str(t) => if t == "" then Null else v
    case Bool(b) => if b then Str("true") else Null
    case Int(i) => if i == 0 then Null else Str(IntToString(i))
  }

  const TeamColumns: set<string> := {"id", "email", "department", "team"}
  const ProfileColumns: set<string> := {"id", "email", "department", "team", "last_login", "created_at"}

  /** `WHERE team = $1 AND id != $2`. */
  predicate Teammate(a: Row, team: string, userId: int) {
    TextIs(a, "team", team) && "id" in a && a["id"].Int? && a["id"].i != userId
  }

  function Teammates(rows: seq<Row>, team: string, userId: int): (r: seq<Row>)
    ensures forall m :: m in r <==> exists a :: a in rows && Teammate(a, team, userId) && m == Project(a, TeamColumns)
  {
    if |rows| == 0 then []
    else
      assert forall a :: a in rows <==> a == rows[0] || a in rows[1..];
      (if Teammate(rows[0], team, userId) then [Project(rows[0], TeamColumns)] else [])
      + Teammates(rows[1..], team, userId)
  }

  function EmailKey(m: Row): Key {
    (TextOf(m, "email"), "")
  }

  class AppStore {
    /** `sessions`, `events` and `user_favourite_sessions`. */
    var tables: Tables
    /** `attendees` in physical order. */
    var attendees: seq<Row>

    constructor (t: Tables, a: seq<Row>)
      ensures tables == t && attendees == a
    {
      tables, attendees := t, a;
    }

    /** `GET /events/:slug/sessions`: the listing under the stored department and
        team, each falling back to the token's value when the stored one is `NULL`
        or empty; `favourites=true` keeps only favourites. A date PostgreSQL cannot
        read fails the query (500). */
    method GetSessions(token: Token, slug: string, date: Option<string>, favourites: Option<string>)
      returns (r: Outcome<seq<Listed>>)
      ensures date.Some? && date.value != "" && PgDateInput(date.value).None? ==>
        r == Err(DateInputError(date.value))
      ensures !(date.Some? && date.value != "" && PgDateInput(date.value).None?) ==>
        var row := RowWithId(attendees, token.userId);
        r == Ok(GetVisibleSessions(tables, Query(None, Some(slug), token.userId,
          CurrentValue(row, "department", token.department), CurrentValue(row, "team", token.team),
          date, favourites == Some("true"))))
    {
      if date.Some? && date.value != "" && PgDateInput(date.value).None? {
        return Err(DateInputError(date.value));
      }
      var row := RowWithId(attendees, token.userId);
      var dept := CurrentValue(row, "department", token.department);
      var team := CurrentValue(row, "team", token.team);
      r := Ok(GetVisibleSessions(tables, Query(None, Some(slug), token.userId, dept, team, date, favourites == Some("true"))));
    }

    /** `GET /events/:slug/dates`: under the token's department and team. */
    method GetDates(token: Token, slug: string) returns (r: seq<string>)
      ensures StrictlyAscending(r)
      ensures forall d :: d in r <==> (exists s :: (s in tables.sessions
        && DatedIn(tables, slug, ParseDepartments(token.department), token.team, s) && d == TextOf(s, "session_date")))
    {
      r := GetSessionDates(tables, slug, token.department, token.team);
    }

    /** `GET /sessions/:id`: the path text is read by `parseInt`; NaN fails in the
        query, and otherwise the session comes back if the token's scope may see it,
        else 404. */
    method GetSession(token: Token, idText: string) returns (r: Outcome<Listed>)
      ensures JsParseInt(idText).None? ==> r == Err(InvalidIntegerError(NaNText))
      ensures JsParseInt(idText).Some? ==>
        var sessionId := JsParseInt(idText).value;
        (r.Err? <==> forall s :: s in tables.sessions ==> !Checked(tables, sessionId, ParseDepartments(token.department), token.team, s))
        && (r.Err? ==> r.error == NotFoundError("Session"))
        && (r.Ok? ==> (r.value.session in tables.sessions && IntIs(r.value.session, "id", sessionId)
              && Admits(ParseDepartments(token.department), token.team, r.value.session)
              && Some(r.value) == GetSessionWithVisibilityCheck(tables, sessionId, token.userId, token.department, token.team)
              && EventOf(tables, r.value.session).Some? && r.value == Stamp(tables, token.userId, r.value.session)))
    {
      var parsed := JsParseInt(idText);
      if parsed.None? {
        return Err(InvalidIntegerError(NaNText));
      }
      var sessionId := parsed.value;
      var found := GetSessionWithVisibilityCheck(tables, sessionId, token.userId, token.department, token.team);
      if found.None? {
        return Err(NotFoundError("Session"));
      }
      r := Ok(found.value);
    }

    /** `GET /favourites`: the caller's favourites, by date then start time. */
    method ListFavourites(token: Token) returns (r: seq<FavouriteRow>)
      ensures SortedBy(r, FavouriteKey)
      ensures multiset(r) == multiset(FavouriteRows(tables, token.userId, tables.sessions))
      ensures forall f :: f in r <==> (exists s :: (s in tables.sessions
        && FavouriteOf(tables, token.userId, s) && f == FavouriteRowOf(tables, token.userId, s)))
      ensures forall f :: f in r ==> forall c :: c in f.session ==> c in FavouriteColumns
    {
      var c := FavouriteRows(tables, token.userId, tables.sessions);
      r := SortBy(c, FavouriteKey);
      forall f ensures f in r <==> f in c { SortByMembership(c, FavouriteKey, f); }
    }

    /**
     * `POST /favourites/:sessionId`: the visibility check runs on `parseInt` of the
     * path text (NaN fails in the query) and refuses with 404 a session it does not
     * return; the insert then binds the raw path text, which PostgreSQL must read as
     * an integer. The pair is inserted if absent and the answer is the same either way.
     */
    method AddFavourite(token: Token, sessionIdText: string) returns (r: Outcome<Favourited>)
      modifies this`tables
      ensures JsParseInt(sessionIdText).None? ==> r == Err(InvalidIntegerError(NaNText)) && tables == old(tables)
      ensures JsParseInt(sessionIdText).Some? ==>
        var sessionId := JsParseInt(sessionIdText).value;
        var found := GetSessionWithVisibilityCheck(old(tables), sessionId, token.userId, token.department, token.team);
        if found.None? then r == Err(NotFoundError("Session")) && tables == old(tables)
        else if PgIntegerInput(sessionIdText).None? then
          r == Err(InvalidIntegerError(sessionIdText)) && tables == old(tables)
        else (r == Ok(Favourited(sessionId, true))
          && tables == old(tables).(favourites := WithFavourite(old(tables).favourites, token.userId, sessionId,
                                                               EventIdOf(found.value.session))))
    {
      var parsed := JsParseInt(sessionIdText);
      if parsed.None? {
        return Err(InvalidIntegerError(NaNText));
      }
      var sessionId := parsed.value;
      var found := GetSessionWithVisibilityCheck(tables, sessionId, token.userId, token.department, token.team);
      if found.None? {
        return Err(NotFoundError("Session"));
      }
      var bound := PgIntegerInput(sessionIdText);
      if bound.None? {
        return Err(InvalidIntegerError(sessionIdText));
      }
      PgIntegerAgreesWithParseInt(sessionIdText);
      var key := (token.userId, bound.value);
      if key !in tables.favourites {
        tables := tables.(favourites := tables.favourites[key := EventIdOf(found.value.session)]);
      }
      r := Ok(Favourited(sessionId, true));
    }

    /** `DELETE /favourites/:sessionId`: binds the raw path text; text PostgreSQL cannot
        read as an integer fails with 500, and otherwise the pair goes if present and
        the answer is 204. */
    method RemoveFavourite(token: Token, sessionIdText: string) returns (r: Outcome<int>)
      modifies this`tables
      ensures PgIntegerInput(sessionIdText).None? ==>
        r == Err(InvalidIntegerError(sessionIdText)) && tables == old(tables)
      ensures PgIntegerInput(sessionIdText).Some? ==>
        r == Ok(204)
        && tables == old(tables).(favourites := WithoutFavourite(old(tables).favourites, token.userId,
                                                                 PgIntegerInput(sessionIdText).value))
    {
      var bound := PgIntegerInput(sessionIdText);
      if bound.None? {
        return Err(InvalidIntegerError(sessionIdText));
      }
      tables := tables.(favourites := tables.favourites - {(token.userId, bound.value)});
      r := Ok(204);
    }

    /** `GET /my-team`: nothing without a token team; otherwise the other attendees
        of that team, by email. */
    method MyTeam(token: Token) returns (r: seq<Row>)
      ensures token.team.None? || token.team == Some("") ==> r == []
      ensures token.team.Some? && token.team.value != "" ==>
        SortedBy(r, EmailKey)
        && multiset(r) == multiset(Teammates(attendees, token.team.value, token.userId))
        && forall m :: m in r <==> exists a :: a in attendees && Teammate(a, token.team.value, token.userId)
                                               && m == Project(a, TeamColumns)
      ensures forall m :: m in r ==> "id" in m && m["id"] != Int(token.userId)
    {
      if token.team.None? || token.team.value == "" {
        return [];
      }
      var c := Teammates(attendees, token.team.value, token.userId);
      r := SortBy(c, EmailKey);
      forall m ensures m in r <==> m in c { SortByMembership(c, EmailKey, m); }
    }

    /** `PATCH /profile`: stores `department || null` and `updated_at = NOW()` (the
        clock reading `now`) on the caller's row and answers the updated row's profile
        columns, or 404 when the caller has no row. */
    method UpdateProfile(token: Token, department: Value, now: Value) returns (r: Outcome<Row>)
      modifies this`attendees
      ensures RowWithId(old(attendees), token.userId).None? ==>
        r == Err(NotFoundError("User")) && attendees == old(attendees)
      ensures RowWithId(old(attendees), token.userId).Some? ==>
        |attendees| == |old(attendees)|
        && (forall k :: 0 <= k < |attendees| ==>
              (attendees[k] == if IntIs(old(attendees)[k], "id", token.userId)
                               then old(attendees)[k]["department" := StoredDepartment(department)]["updated_at" := now]
                               else old(attendees)[k]))
        && r == Ok(Project(RowWithId(old(attendees), token.userId).value["department" := StoredDepartment(department)],
                           ProfileColumns))
    {
      var row := RowWithId(attendees, token.userId);
      if row.None? {
        return Err(NotFoundError("User"));
      }
      var stored := StoredDepartment(department);
      var before := attendees;
      attendees := seq(|before|, k requires 0 <= k < |before| =>
        if IntIs(before[k], "id", token.userId) then before[k]["department" := stored]["updated_at" := now] else before[k]);
      r := Ok(Project(row.value["department" := stored], ProfileColumns));
    }
  }

  // ----- properties -----

  /** Adding the same favourite twice leaves the table as adding it once. */
  lemma AddFavouriteIdempotent(favs: map<(int, int), int>, userId: int, sessionId: int, e1: int, e2: int)
    ensures WithFavourite(WithFavourite(favs, userId, sessionId, e1), userId, sessionId, e2)
      == WithFavourite(favs, userId, sessionId, e1)
  {
  }

  /** Removing touches no other pair, and removing twice is removing once. */
  lemma RemoveOnlyThatPair(favs: map<(int, int), int>, userId: int, sessionId: int, other: (int, int))
    requires other != (userId, sessionId)
    ensures other in WithoutFavourite(favs, userId, sessionId) <==> other in favs
    ensures WithoutFavourite(WithoutFavourite(favs, userId, sessionId), userId, sessionId)
      == WithoutFavourite(favs, userId, sessionId)
  {
  }

  /** Remove undoes an add of a pair that was not there. */
  lemma RemoveUndoesAdd(favs: map<(int, int), int>, userId: int, sessionId: int, eventId: int)
    requires (userId, sessionId) !in favs
    ensures WithoutFavourite(WithFavourite(favs, userId, sessionId, eventId), userId, sessionId) == favs
  {
  }

  /** The listing then shows the added session as a favourite of that user. */
  lemma AddedShowsAsFavourite(t: Tables, userId: int, s: Row, eventId: int)
    requires "id" in s && s["id"].Int?
    ensures IsFavourite(t.(favourites := WithFavourite(t.favourites, userId, s["id"].i, eventId)), userId, s)
    ensures !IsFavourite(t.(favourites := WithoutFavourite(t.favourites, userId, s["id"].i)), userId, s)
  {
  }

  /** An empty department in the profile is stored as `NULL`, and a stored `NULL` or
      empty department in the database gives way to the token's value. */
  lemma EmptyDepartmentRules(a: Row, tokenDept: Option<string>)
    ensures StoredDepartment(Str("")) == Null
    ensures forall d :: d != "" ==> StoredDepartment(Str(d)) == Str(d)
    ensures CurrentValue(Some(a["department" := StoredDepartment(Str(""))]), "department", tokenDept) == tokenDept
  {
  }

  /** A truthy department is read back by the listing as the text stored, so a
      numeric body department 5 scopes the listing to department "5". */
  lemma TruthyDepartmentRead(a: Row, v: Value, tokenDept: Option<string>)
    requires !StoredDepartment(v).Null?
    ensures CurrentValue(Some(a["department" := StoredDepartment(v)]), "department", tokenDept)
      == Some(StoredDepartment(v).s)
    ensures v == Int(5) ==> StoredDepartment(v) == Str("5")
  {
    assert NatToString(5) == "5";
  }
}

=== FILE: civil_date.dfy ===
/**
 * Calendar dates of the proleptic Gregorian calendar, as ISO 8601 writes them
 * (`YYYY-MM-DD`), with the day arithmetic the application performs through
 * `Date.prototype.setUTCDate(getUTCDate() + 1)` on dates pinned to 12:00 UTC.
 *
 * `DayIndex` numbers the days consecutively from 0000-01-01; comparing two
 * JavaScript `Date` values that both sit at noon UTC is comparing their indices.
 */
module CivilDate {
  import opened Wrappers
  import opened Text

  datatype Date = Date(year: int, month: int, day: int)

  predicate IsLeapYear(y: int) {
    y % 4 == 0 && (y % 100 != 0 || y % 400 == 0)
  }

  function DaysInMonth(y: int, m: int): (n: int)
    requires 1 <= m <= 12
    ensures 28 <= n <= 31
    ensures m == 2 ==> (n == 29 <==> IsLeapYear(y))
  {
    if m == 2 then (if IsLeapYear(y) then 29 else 28)
    else if m == 4 || m == 6 || m == 9 || m == 11 then 30
    else 31
  }

  /** A real calendar day of a year the four-digit ISO form can write or follow. */
  predicate Valid(d: Date) {
    0 <= d.year && 1 <= d.month <= 12 && 1 <= d.day <= DaysInMonth(d.year, d.month)
  }

  function DaysInYear(y: int): int {
    if IsLeapYear(y) then 366 else 365
  }

  /** Number of days in the months of year `y` before month `m` (`m` may be 13). */
  function DaysBeforeMonth(y: int, m: int): (n: nat)
    requires 1 <= m <= 13
    decreases m
  {
    if m == 1 then 0 else DaysBeforeMonth(y, m - 1) + DaysInMonth(y, m - 1)
  }

  /** Number of days in the years 0 .. y-1: 365 each plus one per leap year,
      counted as the multiples of 4, less those of 100, plus those of 400. */
  function DaysBeforeYear(y: nat): nat {
    365 * y + (y + 3) / 4 - (y + 99) / 100 + (y + 399) / 400
  }

  /** Days since 0000-01-01. */
  function DayIndex(d: Date): int
    requires Valid(d)
  {
    DaysBeforeYear(d.year) + DaysBeforeMonth(d.year, d.month) + d.day - 1
  }

  // ----- the arithmetic behind DayIndex -----

  lemma CeilStep4(y: nat)
    ensures (y + 4) / 4 - (y + 3) / 4 == if y % 4 == 0 then 1 else 0
  {
  }

  lemma CeilStep100(y: nat)
    ensures (y + 100) / 100 - (y + 99) / 100 == if y % 100 == 0 then 1 else 0
  {
  }

  lemma CeilStep400(y: nat)
    ensures (y + 400) / 400 - (y + 399) / 400 == if y % 400 == 0 then 1 else 0
  {
  }

  lemma CenturyIsQuadrennial(y: nat)
    ensures y % 100 == 0 ==> y % 4 == 0
    ensures y % 400 == 0 ==> y % 100 == 0
  {
    if y % 100 == 0 {
      var q := y / 100;
      assert y == 4 * (25 * q);
    }
    if y % 400 == 0 {
      var q := y / 400;
      assert y == 100 * (4 * q);
    }
  }

  lemma DaysBeforeNextYear(y: nat)
    ensures DaysBeforeYear(y + 1) == DaysBeforeYear(y) + DaysInYear(y)
  {
    CeilStep4(y);
    CeilStep100(y);
    CeilStep400(y);
    CenturyIsQuadrennial(y);
    var a0, a1 := (y + 3) / 4, (y + 1 + 3) / 4;
    var b0, b1 := (y + 99) / 100, (y + 1 + 99) / 100;
    var c0, c1 := (y + 399) / 400, (y + 1 + 399) / 400;
    assert DaysBeforeYear(y) == 365 * y + a0 - b0 + c0;
    assert DaysBeforeYear(y + 1) == 365 * y + 365 + a1 - b1 + c1;
    assert DaysInYear(y) == 365 + (a1 - a0) - (b1 - b0) + (c1 - c0);
  }

  lemma DaysBeforeYearMonotone(y: nat, z: nat)
    requires y <= z
    ensures DaysBeforeYear(y) + 365 * (z - y) <= DaysBeforeYear(z)
    decreases z - y
  {
    if y < z {
      DaysBeforeNextYear(y);
      DaysBeforeYearMonotone(y + 1, z);
    }
  }

  lemma {:induction false} DaysBeforeMonthMonotone(y: int, m: int, n: int)
    requires 1 <= m <= n <= 13
    ensures DaysBeforeMonth(y, m) + 28 * (n - m) <= DaysBeforeMonth(y, n)
    decreases n - m
  {
    if m < n { DaysBeforeMonthMonotone(y, m + 1, n); }
  }

  lemma WholeYear(y: int)
    ensures DaysBeforeMonth(y, 13) == DaysInYear(y)
  {
  }

  /** Every day of a year falls before the first day of the next. */
  lemma DayIndexBelowNextYear(d: Date)
    requires Valid(d)
    ensures DaysBeforeYear(d.year) <= DayIndex(d) < DaysBeforeYear(d.year + 1)
  {
    DaysBeforeMonthMonotone(d.year, d.month + 1, 13);
    WholeYear(d.year);
    DaysBeforeNextYear(d.year);
  }

  /** Different valid dates have different indices. */
  lemma DayIndexInjective(a: Date, b: Date)
    requires Valid(a) && Valid(b) && DayIndex(a) == DayIndex(b)
    ensures a == b
  {
    SameYearOfIndex(a, b);
    SameMonthOfIndex(a, b);
  }

  /** Dates with the same index fall in the same year. */
  lemma SameYearOfIndex(a: Date, b: Date)
    requires Valid(a) && Valid(b) && DayIndex(a) == DayIndex(b)
    ensures a.year == b.year
  {
    if a.year < b.year {
      YearBefore(a, b);
    } else if b.year < a.year {
      YearBefore(b, a);
    }
  }

  /** A day of an earlier year has a smaller index. */
  lemma YearBefore(a: Date, b: Date)
    requires Valid(a) && Valid(b) && a.year < b.year
    ensures DayIndex(a) < DayIndex(b)
  {
    DayIndexBelowNextYear(a);
    DayIndexBelowNextYear(b);
    DaysBeforeYearMonotone(a.year + 1, b.year);
  }

  /** Within one year, dates with the same day count fall in the same month. */
  lemma SameMonthOfIndex(a: Date, b: Date)
    requires Valid(a) && Valid(b) && a.year == b.year
    requires DaysBeforeMonth(a.year, a.month) + a.day == DaysBeforeMonth(b.year, b.month) + b.day
    ensures a.month == b.month
  {
    if a.month < b.month {
      MonthBefore(a, b);
    } else if b.month < a.month {
      MonthBefore(b, a);
    }
  }

  /** A day of an earlier month of the same year has a smaller day count. */
  lemma MonthBefore(a: Date, b: Date)
    requires Valid(a) && Valid(b) && a.year == b.year && a.month < b.month
    ensures DaysBeforeMonth(a.year, a.month) + a.day < DaysBeforeMonth(b.year, b.month) + b.day
  {
    var y := a.year;
    DaysBeforeMonthMonotone(y, a.month + 1, b.month);
    assert DaysBeforeMonth(y, a.month + 1) == DaysBeforeMonth(y, a.month) + DaysInMonth(y, a.month);
  }

  /** Dates are ordered like their indices; later years have larger indices. */
  lemma YearOrder(a: Date, b: Date)
    requires Valid(a) && Valid(b) && DayIndex(a) <= DayIndex(b)
    ensures a.year <= b.year
  {
    DayIndexBelowNextYear(a);
    DayIndexBelowNextYear(b);
  }

  // ----- the next day -----

  /** `d.setUTCDate(d.getUTCDate() + 1)`. */
  function NextDay(d: Date): (r: Date)
    requires Valid(d)
    ensures Valid(r)
    ensures DayIndex(r) == DayIndex(d) + 1
  {
    if d.day < DaysInMonth(d.year, d.month) then
      Date(d.year, d.month, d.day + 1)
    else if d.month < 12 then
      NextMonthIndex(d);
      Date(d.year, d.month + 1, 1)
    else
      NextYearIndex(d);
      Date(d.year + 1, 1, 1)
  }

  /** The last day of a month other than December is followed by the first of the
      next month. */
  lemma NextMonthIndex(d: Date)
    requires Valid(d) && d.day == DaysInMonth(d.year, d.month) && d.month < 12
    ensures Valid(Date(d.year, d.month + 1, 1))
    ensures DayIndex(Date(d.year, d.month + 1, 1)) == DayIndex(d) + 1
  {
    assert DaysBeforeMonth(d.year, d.month + 1) == DaysBeforeMonth(d.year, d.month) + DaysInMonth(d.year, d.month);
  }

  /** The 31st of December is followed by the 1st of January of the next year. */
  lemma NextYearIndex(d: Date)
    requires Valid(d) && d.day == DaysInMonth(d.year, d.month) && d.month == 12
    ensures Valid(Date(d.year + 1, 1, 1))
    ensures DayIndex(Date(d.year + 1, 1, 1)) == DayIndex(d) + 1
  {
    YearEndIndex(d);
    NewYearIndex(d.year + 1);
    DaysBeforeNextYear(d.year);
  }

  /** The last day of a year is the day before the next year's count starts. */
  lemma YearEndIndex(d: Date)
    requires Valid(d) && d.month == 12 && d.day == DaysInMonth(d.year, 12)
    ensures DayIndex(d) == DaysBeforeYear(d.year) + DaysInYear(d.year) - 1
  {
    WholeYear(d.year);
    assert DaysBeforeMonth(d.year, 13) == DaysBeforeMonth(d.year, 12) + DaysInMonth(d.year, 12);
  }

  /** The 1st of January starts the year's count. */
  lemma NewYearIndex(y: nat)
    ensures Valid(Date(y, 1, 1)) && DayIndex(Date(y, 1, 1)) == DaysBeforeYear(y)
  {
  }

  /** The day `k` days after `d`. */
  function AddDays(d: Date, k: nat): (r: Date)
    requires Valid(d)
    ensures Valid(r) && DayIndex(r) == DayIndex(d) + k
  {
    if k == 0 then d else NextDay(AddDays(d, k - 1))
  }

  // ----- inclusive ranges -----

  /** The days from `start` to `end`, both inclusive; empty when `start` is after `end`. */
  function EnumerateDays(start: Date, end: Date): (r: seq<Date>)
    requires Valid(start) && Valid(end)
    ensures |r| == if DayIndex(start) <= DayIndex(end) then DayIndex(end) - DayIndex(start) + 1 else 0
    ensures forall k :: 0 <= k < |r| ==> Valid(r[k]) && DayIndex(r[k]) == DayIndex(start) + k
    decreases DayIndex(end) - DayIndex(start) + 1
  {
    if DayIndex(start) > DayIndex(end) then []
    else [start] + EnumerateDays(NextDay(start), end)
  }

  /** Each day of a range is the start plus its position, the range runs from `start` to
      `end`, and its days are pairwise distinct. */
  lemma {:induction false} EnumerateDaysShape(start: Date, end: Date)
    requires Valid(start) && Valid(end) && DayIndex(start) <= DayIndex(end)
    ensures var r := EnumerateDays(start, end);
      r[0] == start && r[|r| - 1] == end
      && (forall k :: 0 <= k < |r| ==> r[k] == AddDays(start, k))
      && (forall i, j :: 0 <= i < j < |r| ==> r[i] != r[j])
  {
    var r := EnumerateDays(start, end);
    EnumerateDayAt(start, end, r, 0);
    EnumerateDayAt(start, end, r, |r| - 1);
    forall k | 0 <= k < |r| ensures r[k] == AddDays(start, k) {
      EnumerateDayAt(start, end, r, k);
    }
    forall i, j | 0 <= i < j < |r| ensures r[i] != r[j] {
      EnumerateDistinct(start, end, r, i, j);
    }
  }

  /** Two positions of a range hold different days. */
  lemma EnumerateDistinct(start: Date, end: Date, r: seq<Date>, i: nat, j: nat)
    requires Valid(start) && Valid(end) && r == EnumerateDays(start, end) && i < j < |r|
    ensures r[i] != r[j]
  {
    assert DayIndex(r[i]) == DayIndex(start) + i && DayIndex(r[j]) == DayIndex(start) + j;
  }

  /** Day `k` of a range is `k` days after its start. */
  lemma EnumerateDayAt(start: Date, end: Date, r: seq<Date>, k: nat)
    requires Valid(start) && Valid(end) && r == EnumerateDays(start, end) && k < |r|
    ensures r[k] == AddDays(start, k)
    ensures k == |r| - 1 ==> r[k] == end
  {
    DayIndexInjective(r[k], AddDays(start, k));
    if k == |r| - 1 {
      DayIndexInjective(r[k], end);
    }
  }

  /** Every day of a range is no later in the calendar than its end, so no year
      in it exceeds the end's year. */
  lemma EnumerateDaysYears(start: Date, end: Date)
    requires Valid(start) && Valid(end)
    ensures forall d :: d in EnumerateDays(start, end) ==> d.year <= end.year
  {
    var r := EnumerateDays(start, end);
    forall d | d in r ensures d.year <= end.year {
      var k :| 0 <= k < |r| && r[k] == d;
      YearOrder(d, end);
    }
  }

  // ----- ISO 8601 text -----

  /** `n` as exactly `w` decimal digits, with leading zeros. */
  function PadDigits(n: nat, w: nat): (r: string)
    requires n < Pow10(w)
    ensures |r| == w && AllDigits(r) && DigitsValue(r) == n
  {
    if w == 0 then ""
    else
      var r := PadDigits(n / 10, w - 1) + [DigitChar(n % 10)];
      assert r[..|r| - 1] == PadDigits(n / 10, w - 1);
      r
  }

  function Pow10(w: nat): (p: nat)
    ensures p >= 1
  {
    if w == 0 then 1 else 10 * Pow10(w - 1)
  }

  /** Fixed-width digit strings are determined by their value. */
  lemma {:induction false} PadDigitsOfValue(s: string)
    requires AllDigits(s)
    ensures DigitsValue(s) < Pow10(|s|)
    ensures PadDigits(DigitsValue(s), |s|) == s
  {
    if |s| > 0 {
      var p := s[..|s| - 1];
      PadDigitsOfValue(p);
      var n, q, d := DigitsValue(s), DigitsValue(p), DigitValue(s[|s| - 1]);
      assert n == q * 10 + d;
      LastDigit(n, q, d, Pow10(|p|));
      assert DigitChar(d) == s[|s| - 1];
      assert PadDigits(n, |s|) == PadDigits(q, |p|) + [DigitChar(d)];
      assert s == p + [s[|s| - 1]];
    }
  }

  /** Splitting off the last decimal digit. */
  lemma LastDigit(n: nat, q: nat, d: nat, bound: nat)
    requires d < 10 && n == q * 10 + d && q < bound
    ensures n / 10 == q && n % 10 == d && n < 10 * bound
  {
  }

  /** `toISOString().split('T')[0]` for a date of years 0 to 9999. */
  function FormatIso(d: Date): (s: string)
    requires Valid(d) && d.year <= 9999
    ensures |s| == 10 && s[4] == '-' && s[7] == '-'
  {
    assert Pow10(4) == 10000 && Pow10(2) == 100;
    PadDigits(d.year, 4) + "-" + PadDigits(d.month, 2) + "-" + PadDigits(d.day, 2)
  }

  /** Four digits, '-', two digits, '-', two digits. */
  predicate IsIsoShape(s: string) {
    |s| == 10 && s[4] == '-' && s[7] == '-'
    && AllDigits(s[..4]) && AllDigits(s[5..7]) && AllDigits(s[8..])
  }

  /** The strict `YYYY-MM-DD` form of a calendar day; anything else is `None`
      (an invalid `Date`). */
  function ParseIso(s: string): (r: Option<Date>)
    ensures r.Some? ==> Valid(r.value) && 0 <= r.value.year <= 9999
  {
    if IsIsoShape(s) then
      var d := Date(DigitsValue(s[..4]), DigitsValue(s[5..7]), DigitsValue(s[8..]));
      PadDigitsOfValue(s[..4]);
      assert Pow10(4) == 10000;
      if Valid(d) then Some(d) else None
    else None
  }

  /** Formatting then parsing gives the date back. */
  lemma ParseFormat(d: Date)
    requires Valid(d) && d.year <= 9999
    ensures ParseIso(FormatIso(d)) == Some(d)
  {
    var s := FormatIso(d);
    assert Pow10(4) == 10000 && Pow10(2) == 100;
    assert s[..4] == PadDigits(d.year, 4);
    assert s[5..7] == PadDigits(d.month, 2);
    assert s[8..] == PadDigits(d.day, 2);
  }

  /** A string that parses is the formatted form of its date. */
  lemma FormatParse(s: string)
    requires ParseIso(s).Some?
    ensures FormatIso(ParseIso(s).value) == s
  {
    assert IsIsoShape(s);
    var y, m, dd := s[..4], s[5..7], s[8..];
    var d := ParseIso(s).value;
    assert d == Date(DigitsValue(y), DigitsValue(m), DigitsValue(dd));
    FormatOfDigits(y, m, dd);
    IsoPieces(s);
  }

  lemma FormatOfDigits(y: string, m: string, dd: string)
    requires |y| == 4 && |m| == 2 && |dd| == 2 && AllDigits(y) && AllDigits(m) && AllDigits(dd)
    requires Valid(Date(DigitsValue(y), DigitsValue(m), DigitsValue(dd)))
    ensures DigitsValue(y) <= 9999
    ensures FormatIso(Date(DigitsValue(y), DigitsValue(m), DigitsValue(dd))) == y + "-" + m + "-" + dd
  {
    PadDigitsOfValue(y);
    PadDigitsOfValue(m);
    PadDigitsOfValue(dd);
    assert Pow10(4) == 10000 && Pow10(2) == 100;
  }

  lemma IsoPieces(s: string)
    requires |s| == 10 && s[4] == '-' && s[7] == '-'
    ensures s == s[..4] + "-" + s[5..7] + "-" + s[8..]
  {
  }
}

=== FILE: create_event_page.dfy ===
/**
 * The admin dashboard's "create event" form
 * (admin-dashboard/src/pages/events/CreateEventPage.tsx): the URL slug derived
 * from the event name, the checks made before submitting, and the body posted to
 * `/admin/events`.
 */
module CreateEventPage {
  import opened Wrappers
  import opened Text
  import opened Lists

  // ----- the slug -----

  /** A character the slug keeps: `[a-z0-9]`. */
  predicate IsSlugChar(c: char) {
    IsLowerAscii(c) || IsDigit(c)
  }

  /** `.replace(/[^a-z0-9]+/g, '-')`: every maximal run of other characters becomes
      one '-'. `inRun` says the character before `s` was already such a character
      (its '-' has been written). */
  function CollapseRuns(s: string, inRun: bool): string {
    if s == [] then []
    else if IsSlugChar(s[0]) then [s[0]] + CollapseRuns(s[1..], false)
    else (if inRun then [] else "-") + CollapseRuns(s[1..], true)
  }

  /** `.replace(/^-|-$/g, '')`: one leading '-' and then one trailing '-' go. */
  function TrimHyphens(t: string): string {
    var a := if |t| > 0 && t[0] == '-' then t[1..] else t;
    if |a| > 0 && a[|a| - 1] == '-' then a[..|a| - 1] else a
  }

  /** `generateSlug`: lower-case the name, turn every run of other characters into
      one '-', and drop a '-' at either end. */
  function Slug(name: string): (r: string)
    ensures SlugShaped(r)
    ensures SlugChars(r) == SlugChars(Lower(name))
  {
    var t := CollapseRuns(Lower(name), false);
    CollapseShape(Lower(name), false);
    CollapseKeeps(Lower(name), false);
    TrimShape(t);
    TrimHyphens(t)
  }

  /** The letters and digits of `s`, in order. */
  function SlugChars(s: string): string {
    Filter(s, IsSlugChar)
  }

  /** Only `[a-z0-9-]`, never two '-' in a row. */
  predicate Hyphenated(s: string) {
    (forall i :: 0 <= i < |s| ==> IsSlugChar(s[i]) || s[i] == '-')
    && (forall i :: 0 <= i < |s| - 1 ==> !(s[i] == '-' && s[i + 1] == '-'))
  }

  /** What a slug looks like: hyphenated, with no '-' at either end. */
  predicate SlugShaped(s: string) {
    Hyphenated(s) && (s != [] ==> s[0] != '-' && s[|s| - 1] != '-')
  }

  // ----- submitting -----

  /** The form's fields; the time zone is shown but not sent. */
  datatype EventForm = EventForm(
    name: string, pwaDisplayName: string, description: string, departmentId: string,
    startDate: string, endDate: string, timezone: string, venue: string, locationMapUrl: string)

  /** The body posted to `/admin/events`; `null` is `None`. */
  datatype EventPayload = EventPayload(
    eventSlug: string, eventName: string, pwaName: string, eventDescription: Option<string>,
    eventLocation: Option<string>, eventLocationMapUrl: Option<string>,
    eventStartDate: string, eventEndDate: string, department: Option<string>, isDraft: bool)

  /** What pressing "create" does. */
  datatype Submission = Rejected(message: string) | Post(payload: EventPayload)

  /** `handleSubmit`: a name and both dates are required; the event is created as
      a draft named on the home screen by its display name or else its name, with
      empty optional texts sent as `null`. */
  function Submit(f: EventForm): (s: Submission)
    ensures f.name == "" ==> s == Rejected("Event name is required")
    ensures f.name != "" && (f.startDate == "" || f.endDate == "") ==> s == Rejected("Start and end dates are required")
    ensures f.name != "" && f.startDate != "" && f.endDate != "" ==>
      s.Post? && s.payload.isDraft
      && s.payload.eventName == f.name && s.payload.eventSlug == Slug(f.name)
      && s.payload.pwaName == (if f.pwaDisplayName != "" then f.pwaDisplayName else f.name)
      && s.payload.eventStartDate == f.startDate && s.payload.eventEndDate == f.endDate
      && s.payload.eventDescription == OrNull(f.description) && s.payload.eventLocation == OrNull(f.venue)
      && s.payload.eventLocationMapUrl == OrNull(f.locationMapUrl) && s.payload.department == OrNull(f.departmentId)
  {
    if f.name == "" then Rejected("Event name is required")
    else if f.startDate == "" || f.endDate == "" then Rejected("Start and end dates are required")
    else
      Post(EventPayload(
        Slug(f.name), f.name, if f.pwaDisplayName != "" then f.pwaDisplayName else f.name,
        OrNull(f.description), OrNull(f.venue), OrNull(f.locationMapUrl),
        f.startDate, f.endDate, OrNull(f.departmentId), true))
  }

  // ----- properties -----

  /** The collapsed text is hyphenated, and starts with a letter or digit when the
      previous character already was a replaced one. */
  lemma {:induction false} CollapseShape(s: string, inRun: bool)
    ensures Hyphenated(CollapseRuns(s, inRun))
    ensures inRun && CollapseRuns(s, inRun) != [] ==> CollapseRuns(s, inRun)[0] != '-'
  {
    if s != [] {
      var rest := CollapseRuns(s[1..], !IsSlugChar(s[0]));
      CollapseShape(s[1..], !IsSlugChar(s[0]));
      var head: string := if IsSlugChar(s[0]) then [s[0]] else if inRun then [] else "-";
      assert CollapseRuns(s, inRun) == head + rest;
      HyphenatedCons(head, rest);
    }
  }

  /** Putting a letter, a digit, nothing, or a '-' before a hyphenated text that does
      not start with '-', keeps it hyphenated. */
  lemma HyphenatedCons(head: string, rest: string)
    requires |head| <= 1 && Hyphenated(rest)
    requires head != [] ==> IsSlugChar(head[0]) || head[0] == '-'
    requires head == "-" && rest != [] ==> rest[0] != '-'
    ensures Hyphenated(head + rest)
  {
    var s := head + rest;
    forall i | 0 <= i < |s| - 1
      ensures !(s[i] == '-' && s[i + 1] == '-')
    {
      if i >= |head| {
        assert s[i] == rest[i - |head|] && s[i + 1] == rest[i - |head| + 1];
      }
    }
  }

  /** Collapsing drops only the replaced characters: the letters and digits stay,
      in order. */
  lemma {:induction false} CollapseKeeps(s: string, inRun: bool)
    ensures SlugChars(CollapseRuns(s, inRun)) == SlugChars(s)
  {
    if s != [] {
      CollapseKeeps(s[1..], !IsSlugChar(s[0]));
      var head: string := if IsSlugChar(s[0]) then [s[0]] else if inRun then [] else "-";
      FilterConcat(head, CollapseRuns(s[1..], !IsSlugChar(s[0])), IsSlugChar);
      assert s == [s[0]] + s[1..];
      FilterConcat([s[0]], s[1..], IsSlugChar);
    }
  }

  /** Trimming a hyphenated text gives a slug-shaped one with the same letters and
      digits. */
  lemma TrimShape(t: string)
    requires Hyphenated(t)
    ensures SlugShaped(TrimHyphens(t))
    ensures SlugChars(TrimHyphens(t)) == SlugChars(t)
  {
    var a := if |t| > 0 && t[0] == '-' then t[1..] else t;
    if |t| > 0 && t[0] == '-' {
      DropLeading(t);
    }
    assert Hyphenated(a) && (a != [] ==> a[0] != '-') && SlugChars(a) == SlugChars(t);
    if |a| > 0 && a[|a| - 1] == '-' {
      DropTrailing(a);
      assert TrimHyphens(t) == a[..|a| - 1];
    } else {
      assert TrimHyphens(t) == a;
    }
  }

  /** Dropping a leading '-' keeps the letters and digits, and what is left does
      not start with '-'. */
  lemma DropLeading(t: string)
    requires Hyphenated(t) && t != [] && t[0] == '-'
    ensures Hyphenated(t[1..]) && (t[1..] != [] ==> t[1] != '-')
    ensures SlugChars(t[1..]) == SlugChars(t)
  {
    assert t == [t[0]] + t[1..];
    FilterConcat([t[0]], t[1..], IsSlugChar);
  }

  /** Dropping a trailing '-' keeps the letters and digits, and what is left neither
      ends with '-' nor starts with one unless the text did. */
  lemma DropTrailing(a: string)
    requires Hyphenated(a) && a != [] && a[|a| - 1] == '-'
    ensures var b := a[..|a| - 1];
      Hyphenated(b) && (b != [] ==> b[|b| - 1] != '-' && b[0] == a[0])
      && SlugChars(b) == SlugChars(a)
  {
    var b := a[..|a| - 1];
    assert a == b + [a[|a| - 1]];
    FilterConcat(b, [a[|a| - 1]], IsSlugChar);
    if b != [] {
      assert b[|b| - 1] == a[|a| - 2];
    }
  }

  /** A non-empty run of other characters becomes one '-' (none when the character
      before was already replaced), whatever its length. */
  lemma {:induction false} CollapseRun(w: string, q: string, inRun: bool)
    requires w != [] && forall i :: 0 <= i < |w| ==> !IsSlugChar(w[i])
    ensures CollapseRuns(w + q, inRun) == (if inRun then "" else "-") + CollapseRuns(q, true)
  {
    assert (w + q)[1..] == w[1..] + q;
    if |w| > 1 {
      CollapseRun(w[1..], q, true);
    }
  }

  /** Two words of letters and digits joined by any run of other characters (none
      of them an upper-case letter) give the two words joined by one '-'. */
  lemma SlugOneRun(p: string, w: string, q: string)
    requires p != [] && forall i :: 0 <= i < |p| ==> IsSlugChar(p[i])
    requires q != [] && forall i :: 0 <= i < |q| ==> IsSlugChar(q[i])
    requires w != [] && forall i :: 0 <= i < |w| ==> !IsSlugChar(w[i]) && !IsUpperAscii(w[i])
    ensures Slug(p + w + q) == p + "-" + q
  {
    var s := p + w + q;
    forall i | 0 <= i < |s| ensures !IsUpperAscii(s[i]) {
      if i < |p| { assert s[i] == p[i]; }
      else if i < |p| + |w| { assert s[i] == w[i - |p|]; }
      else { assert s[i] == q[i - |p| - |w|]; }
    }
    assert Lower(s) == s;
    CollapseOneRun(p, w, q);
    var t := p + "-" + q;
    assert t[0] == p[0] && t[|t| - 1] == q[|q| - 1];
  }

  lemma CollapseOneRun(p: string, w: string, q: string)
    requires p != [] && forall i :: 0 <= i < |p| ==> IsSlugChar(p[i])
    requires q != [] && forall i :: 0 <= i < |q| ==> IsSlugChar(q[i])
    requires w != [] && forall i :: 0 <= i < |w| ==> !IsSlugChar(w[i])
    ensures CollapseRuns(p + w + q, false) == p + "-" + q
  {
    CollapseWord(p, w + q, false);
    assert p + w + q == p + (w + q);
    CollapseRun(w, q, false);
    CollapseWord(q, [], true);
    assert q + [] == q;
  }

  /** A slug-shaped text passes through `CollapseRuns` unchanged. */
  lemma {:induction false} CollapseOfHyphenated(t: string, inRun: bool)
    requires Hyphenated(t)
    requires t != [] && t[0] == '-' ==> !inRun
    ensures CollapseRuns(t, inRun) == t
  {
    if t != [] {
      assert Hyphenated(t[1..]);
      CollapseOfHyphenated(t[1..], !IsSlugChar(t[0]));
      assert t == [t[0]] + t[1..];
    }
  }

  /** `generateSlug` is idempotent: a slug is its own slug. */
  lemma SlugIdempotent(name: string)
    ensures Slug(Slug(name)) == Slug(name)
  {
    var s := Slug(name);
    assert Lower(s) == s;
    CollapseOfHyphenated(s, false);
  }

  /** A run of letters and digits is copied as it is. */
  lemma {:induction false} CollapseWord(a: string, rest: string, inRun: bool)
    requires forall i :: 0 <= i < |a| ==> IsSlugChar(a[i])
    ensures CollapseRuns(a + rest, inRun) == a + CollapseRuns(rest, if a == [] then inRun else false)
  {
    if a != [] {
      assert (a + rest)[1..] == a[1..] + rest;
      CollapseWord(a[1..], rest, false);
    } else {
      assert a + rest == rest;
    }
  }

  /** "Tech Day!" gets the slug "tech-day": the space becomes '-' and the '-' the
      final '!' becomes is dropped. */
  lemma SlugExample(name: string)
    requires name == "Tech Day!"
    ensures Slug(name) == "tech-day"
  {
    var l := Lower(name);
    assert l == "tech" + (" " + ("day" + "!"));
    CollapseWord("tech", " " + ("day" + "!"), false);
    assert CollapseRuns(" " + ("day" + "!"), false) == "-" + CollapseRuns("day" + "!", true);
    CollapseWord("day", "!", true);
    assert CollapseRuns("!", false) == "-";
    assert CollapseRuns(l, false) == "tech" + ("-" + ("day" + "-"));
    TrimExample(CollapseRuns(l, false), "tech-day");
  }

  /** "tech-day-" loses its final '-'. */
  lemma TrimExample(c: string, r: string)
    requires c == "tech" + ("-" + ("day" + "-")) && r == "tech-day"
    ensures TrimHyphens(c) == r
  {
    assert c[0] == 't' && c[|c| - 1] == '-';
    assert c[..|c| - 1] == r;
  }

  /** A created event always has a non-empty event name and home-screen name, as
      the backend's event schema demands. */
  lemma SubmittedNamesPresent(f: EventForm)
    requires Submit(f).Post?
    ensures Submit(f).payload.eventName != "" && Submit(f).payload.pwaName != ""
  {
  }
}

=== FILE: error_middleware.dfy ===
/**
 * The backend's error handling (backend/src/middleware/error.middleware.ts): the
 * errors route handlers throw, and the status and body the error middleware
 * answers with.
 */
module ErrorMiddleware {
  import opened Wrappers
  import opened Text

  /** One step of a validation issue's path: an object key or an array index. */
  datatype PathKey = Field(name: string) | Index(n: nat)

  datatype Issue = Issue(path: seq<PathKey>, message: string)

  /**
   * What a handler can throw: a Zod validation failure, or an `Error` with the
   * optional `statusCode`, `isOperational` and PostgreSQL `code`/`detail`
   * properties (`code` is `None` when the property is absent).
   */
  datatype Thrown =
    | ZodFailure(issues: seq<Issue>)
    | Failure(message: string, statusCode: Option<int>, isOperational: bool,
              code: Option<string>, detail: Option<string>)

  /** `new OperationalError(message, statusCode)`. */
  function OperationalError(message: string, statusCode: int): (e: Thrown)
    ensures e.Failure? && e.isOperational && e.message == message && e.statusCode == Some(statusCode)
    ensures e.code.None?
  {
    Failure(message, Some(statusCode), true, None, None)
  }

  /** `new OperationalError(message)`: the status defaults to 500. */
  function OperationalErrorDefault(message: string): (e: Thrown)
    ensures e == OperationalError(message, 500)
  {
    OperationalError(message, 500)
  }

  function NotFoundError(resource: string): Thrown {
    OperationalError(resource + " not found", 404)
  }

  function BadRequestError(message: string): Thrown {
    OperationalError(message, 400)
  }

  /** `UnauthorizedError(message = 'Unauthorized')`. */
  function UnauthorizedError(message: Option<string>): Thrown {
    OperationalError(message.GetOr("Unauthorized"), 401)
  }

  /** `ForbiddenError(message = 'Forbidden')`. */
  function ForbiddenError(message: Option<string>): Thrown {
    OperationalError(message.GetOr("Forbidden"), 403)
  }

  function ConflictError(message: string): Thrown {
    OperationalError(message, 409)
  }

  datatype FieldMessage = FieldMessage(field: string, message: string)

  /** The JSON body after `success: false`. */
  datatype Body =
    | ValidationBody(details: seq<FieldMessage>)
    | MessageBody(error: string)
    | ConstraintBody(error: string, detail: Option<string>)

  datatype Response = Response(status: int, body: Body)

  /** `e.path.join('.')`: keys as they are, indices in decimal. */
  function JoinPath(path: seq<PathKey>): string {
    Join(seq(|path|, i requires 0 <= i < |path| => PathText(path[i])), ".")
  }

  function PathText(k: PathKey): string {
    match k
    case Field(name) => name
    case Index(n) => NatToString(n)
  }

  function Details(issues: seq<Issue>): (r: seq<FieldMessage>)
    ensures |r| == |issues|
    ensures forall k :: 0 <= k < |r| ==> r[k] == FieldMessage(JoinPath(issues[k].path), issues[k].message)
  {
    seq(|issues|, k requires 0 <= k < |issues| => FieldMessage(JoinPath(issues[k].path), issues[k].message))
  }

  /** The SQLSTATE codes the middleware recognises. */
  predicate KnownConstraint(code: Option<string>) {
    code == Some("23505") || code == Some("23503") || code == Some("23502")
  }

  /**
   * `errorMiddleware`: validation failures first, then operational errors, then
   * the three recognised PostgreSQL codes, then a 500 whose message is hidden in
   * production.
   */
  function HandleError(err: Thrown, production: bool): (r: Response)
    ensures err.ZodFailure? ==> r.status == 400 && r.body == ValidationBody(Details(err.issues))
    ensures err.Failure? && err.isOperational ==>
      r.body == MessageBody(err.message)
      && r.status == (if err.statusCode.Some? && err.statusCode.value != 0 then err.statusCode.value else 500)
    ensures err.Failure? && !err.isOperational && KnownConstraint(err.code) ==>
      r.body.ConstraintBody? && r.body.detail == err.detail
      && r.status == (if err.code == Some("23505") then 409 else 400)
      && r.body.error == (if err.code == Some("23505") then "Resource already exists"
                          else if err.code == Some("23503") then "Referenced resource not found"
                          else "Required field missing")
    ensures err.Failure? && !err.isOperational && !KnownConstraint(err.code) ==>
      r == Response(500, MessageBody(if production then "Internal server error" else err.message))
  {
    match err
    case ZodFailure(issues) => Response(400, ValidationBody(Details(issues)))
    case Failure(message, statusCode, isOperational, code, detail) =>
      if isOperational then
        Response(if statusCode.Some? && statusCode.value != 0 then statusCode.value else 500, MessageBody(message))
      else if code == Some("23505") then Response(409, ConstraintBody("Resource already exists", detail))
      else if code == Some("23503") then Response(400, ConstraintBody("Referenced resource not found", detail))
      else if code == Some("23502") then Response(400, ConstraintBody("Required field missing", detail))
      else Response(500, MessageBody(if production then "Internal server error" else message))
  }

  /** Each error constructor is answered with its own status and message, whatever
      the environment. */
  lemma ConstructorStatuses(resource: string, message: string, production: bool)
    ensures HandleError(NotFoundError(resource), production) == Response(404, MessageBody(resource + " not found"))
    ensures HandleError(BadRequestError(message), production) == Response(400, MessageBody(message))
    ensures HandleError(UnauthorizedError(None), production) == Response(401, MessageBody("Unauthorized"))
    ensures HandleError(ForbiddenError(None), production) == Response(403, MessageBody("Forbidden"))
    ensures HandleError(ConflictError(message), production) == Response(409, MessageBody(message))
    ensures HandleError(OperationalErrorDefault(message), production) == Response(500, MessageBody(message))
  {
  }

  /** The operational check comes before the PostgreSQL one: an operational error
      that also carries a SQLSTATE keeps its own status. */
  lemma OperationalBeatsConstraint(message: string, status: int, code: string, production: bool)
    requires status != 0
    ensures HandleError(Failure(message, Some(status), true, Some(code), None), production).status == status
  {
  }

  /** Only a validation failure, an operational error or one of the three
      recognised codes escapes status 500. */
  lemma StatusOutcomes(err: Thrown, production: bool)
    ensures var r := HandleError(err, production);
      r.status != 500 ==> err.ZodFailure? || (err.Failure? && (err.isOperational || KnownConstraint(err.code)))
    ensures err.Failure? && !err.isOperational ==> HandleError(err, production).status in {400, 409, 500}
  {
  }

  /** The validation body names a top-level field by its key and a nested one by the
      dotted path. */
  lemma JoinPathExample()
    ensures JoinPath([Field("wifi"), Index(0), Field("wifi_name")]) == "wifi.0.wifi_name"
    ensures JoinPath([Field("session_name")]) == "session_name"
  {
    var p := [Field("wifi"), Index(0), Field("wifi_name")];
    assert NatToString(0) == "0";
    var xs := ["wifi", "0", "wifi_name"];
    assert seq(|p|, i requires 0 <= i < |p| => PathText(p[i])) == xs;
    assert xs[1..] == ["0", "wifi_name"] && xs[1..][1..] == ["wifi_name"];
    assert Join(xs[1..], ".") == "0" + "." + "wifi_name";
    var q := [Field("session_name")];
    assert seq(|q|, i requires 0 <= i < |q| => PathText(q[i])) == ["session_name"];
  }
}

=== FILE: events_routes.dfy ===
/**
 * The admin event routes (backend/src/routes/events.routes.ts): creating and
 * partially updating an event, and the `event_days` rows generated from an
 * event's date range.
 */
module EventsRoutes {
  import opened Wrappers
  import opened Text
  import opened CivilDate
  import opened Rows
  import opened ErrorMiddleware
  import opened PgDate

  /** A row of `event_days`. */
  datatype DayRow = DayRow(eventId: int, dayNumber: int, dayDate: string)

  datatype Outcome = Ok(row: Row) | Err(error: Thrown)

  /** `String(v)` for a column value. */
  function JsString(v: Value): string {
    match v
    case Null => "null"
    case Str(s) => s
    case Bool(b) => if b then "true" else "false"
    case Int(i) => IntToString(i)
  }

  /** The columns a `PUT` may set, in the order their `SET` items are numbered: the
      plain fields, then the JSON fields. The route sends each JSON field through
      `JSON.stringify` and PostgreSQL reads the text back as `jsonb`; the model takes
      that round trip as the identity and stores the parsed value. */
  const EventFields: seq<string> := [
    "event_slug", "pwa_name", "pwa_logo_url", "event_name", "event_banner_url",
    "event_description", "department", "event_location", "event_location_map_url",
    "event_start_date", "event_end_date", "event_venue_map_url", "event_app_url",
    "is_draft", "manifest_url",
    "wifi", "helpdesk", "venue_maps", "event_banners", "quick_links"]

  /** The `DATE` columns of `events`, in the order their parameters are bound. */
  const EventDates: seq<string> := ["event_start_date", "event_end_date"]

  /** The columns `POST /` inserts: the list fields other than `wifi` and `helpdesk`
      are not among them. */
  const InsertedColumns: set<string> := {
    "event_slug", "pwa_name", "pwa_logo_url", "event_name", "event_banner_url",
    "event_description", "department", "event_location", "event_location_map_url",
    "event_start_date", "event_end_date", "event_venue_map_url", "event_app_url",
    "wifi", "helpdesk", "is_draft", "manifest_url"}

  /** The row `INSERT ... RETURNING *` gives back, as far as the inserted columns and
      the new id go. */
  function Inserted(data: Row, id: int): (r: Row)
    ensures forall c :: c in r <==> c in InsertedColumns || c == "id"
    ensures r["id"] == Int(id)
    ensures forall c :: c in InsertedColumns && c != "id" ==> r[c] == Get(data, c)
  {
    (map c | c in InsertedColumns :: Get(data, c))["id" := Int(id)]
  }

  /** Venue maps, banners and quick links sent with a new event are not stored. */
  lemma CreateDropsListFields(data: Row, id: int)
    ensures "venue_maps" !in Inserted(data, id) && "event_banners" !in Inserted(data, id)
      && "quick_links" !in Inserted(data, id)
    ensures Inserted(data, id)["wifi"] == Get(data, "wifi")
  {
    assert "wifi" in InsertedColumns && "wifi" != "id";
    assert "venue_maps" !in InsertedColumns && "venue_maps" != "id";
    assert "event_banners" !in InsertedColumns && "event_banners" != "id";
    assert "quick_links" !in InsertedColumns && "quick_links" != "id";
  }

  /** An inserted event whose dates PostgreSQL read holds them in `YYYY-MM-DD` form,
      which is what `generateEventDays` and the listings read back. */
  lemma InsertedDatesAreIso(data: Row, id: int, c: string)
    requires FirstBadDate(data, EventDates).None?
    requires c in EventDates && c in data && data[c].Str?
    ensures Inserted(StoredDates(data, EventDates), id)[c] == Str(PgDateInput(data[c].s).value)
    ensures ParseIso(JsString(Inserted(StoredDates(data, EventDates), id)[c])).Some?
  {
    assert c in InsertedColumns && c != "id";
  }

  /** The start date is read first: when PostgreSQL refuses it, that text is the one
      reported, whatever the end date. */
  lemma StartDateReportedFirst(data: Row, text: string)
    requires "event_start_date" in data && data["event_start_date"] == Str(text)
    requires PgDateInput(text).None?
    ensures FirstBadDate(data, EventDates) == Some(text)
  {
  }

  // ----- the generated days -----

  /** `new Date(s.substring(0, 10) + 'T12:00:00Z')` for both ends, or `None` when
      either is not a valid date. */
  function DayRange(startDate: string, endDate: string): Option<(Date, Date)> {
    var s := ParseIso(Prefix(startDate, 10));
    var e := ParseIso(Prefix(endDate, 10));
    if s.None? || e.None? then None else Some((s.value, e.value))
  }

  /** The rows the loop inserts from day `d` on, numbering from `num`. */
  function DaysFrom(eventId: int, d: Date, end: Date, num: int): (r: seq<DayRow>)
    requires Valid(d) && Valid(end) && end.year <= 9999
    ensures |r| == if DayIndex(d) <= DayIndex(end) then DayIndex(end) - DayIndex(d) + 1 else 0
    ensures forall k :: 0 <= k < |r| ==>
      r[k].eventId == eventId && r[k].dayNumber == num + k
      && ParseIso(r[k].dayDate).Some? && DayIndex(ParseIso(r[k].dayDate).value) == DayIndex(d) + k
    decreases DayIndex(end) - DayIndex(d) + 1
  {
    if DayIndex(d) > DayIndex(end) then []
    else
      YearOrder(d, end);
      ParseFormat(d);
      [DayRow(eventId, num, FormatIso(d))] + DaysFrom(eventId, NextDay(d), end, num + 1)
  }

  /** The rows `generateEventDays` inserts: none for an invalid date or a reversed
      range, otherwise one per day from start to end, numbered from 1. */
  function EventDays(eventId: int, startDate: string, endDate: string): seq<DayRow> {
    var range := DayRange(startDate, endDate);
    if range.None? then [] else DaysFrom(eventId, range.value.0, range.value.1, 1)
  }

  /** `DELETE FROM event_days WHERE event_id = $1`. */
  function OtherEvents(days: seq<DayRow>, eventId: int): seq<DayRow> {
    if |days| == 0 then []
    else (if days[0].eventId == eventId then [] else [days[0]]) + OtherEvents(days[1..], eventId)
  }

  /** The delete keeps exactly the rows of other events. */
  lemma {:induction false} OtherEventsMembers(days: seq<DayRow>, eventId: int)
    ensures forall x :: x in OtherEvents(days, eventId) <==> x in days && x.eventId != eventId
  {
    if |days| > 0 {
      OtherEventsMembers(days[1..], eventId);
      assert days == [days[0]] + days[1..];
    }
  }

  /** The rows of one event. */
  function RowsOf(days: seq<DayRow>, eventId: int): seq<DayRow> {
    if |days| == 0 then []
    else (if days[0].eventId == eventId then [days[0]] else []) + RowsOf(days[1..], eventId)
  }

  /** The table after `generateEventDays`. */
  function Regenerated(days: seq<DayRow>, eventId: int, startDate: string, endDate: string): seq<DayRow> {
    OtherEvents(days, eventId) + EventDays(eventId, startDate, endDate)
  }

  /** `ON CONFLICT (event_id, day_date)`: a row for that event and date exists. */
  predicate Conflicts(days: seq<DayRow>, eventId: int, date: string) {
    exists x :: x in days && x.eventId == eventId && x.dayDate == date
  }

  class EventStore {
    /** `events` by id. */
    var events: map<int, Row>
    /** `event_days` in insertion order. */
    var days: seq<DayRow>
    /** The next value of the `events.id` sequence. */
    var nextId: int

    constructor ()
      ensures events == map[] && days == [] && nextId == 1
    {
      events, days, nextId := map[], [], 1;
    }

    /** `generateEventDays`: delete the event's days, then insert one row per day of
        the range, skipping any (event, date) pair that already exists. */
    method GenerateEventDays(eventId: int, startDate: string, endDate: string)
      modifies this`days
      ensures days == Regenerated(old(days), eventId, startDate, endDate)
    {
      days := OtherEvents(days, eventId);
      var startStr := Prefix(startDate, 10);
      var endStr := Prefix(endDate, 10);
      var start := ParseIso(startStr);
      var end := ParseIso(endStr);
      if start.None? || end.None? || DayIndex(start.value) > DayIndex(end.value) {
        return;
      }
      OtherEventsMembers(old(days), eventId);
      InsertDays(eventId, start.value, end.value);
    }

    /** The insert loop of `generateEventDays`, over the days from `start` to `end`. */
    method InsertDays(eventId: int, start: Date, end: Date)
      requires Valid(start) && Valid(end) && end.year <= 9999 && DayIndex(start) <= DayIndex(end)
      requires forall x :: x in days ==> x.eventId != eventId
      modifies this`days
      ensures days == old(days) + DaysFrom(eventId, start, end, 1)
    {
      ghost var base := days;
      ghost var all := DaysFrom(eventId, start, end, 1);
      var dayNum := 1;
      var d := start;
      while DayIndex(d) <= DayIndex(end)
        invariant Valid(d) && DayIndex(start) <= DayIndex(d) <= DayIndex(end) + 1
        invariant dayNum == DayIndex(d) - DayIndex(start) + 1
        invariant days == base + all[..dayNum - 1]
        invariant all[dayNum - 1..] == DaysFrom(eventId, d, end, dayNum)
        decreases DayIndex(end) - DayIndex(d)
      {
        YearOrder(d, end);
        var dateStr := FormatIso(d);
        var row := DayRow(eventId, dayNum, dateStr);
        GenerateStep(base, all, eventId, start, end, d, dayNum);
        assert row == all[dayNum - 1] && !Conflicts(days, eventId, dateStr);
        if !Conflicts(days, eventId, dateStr) {
          days := days + [row];
        }
        SnocPrefix(base, all, dayNum);
        dayNum := dayNum + 1;
        d := NextDay(d);
      }
      assert all[..dayNum - 1] == all;
    }

    /** `POST /`: insert the validated event's columns (absent ones as `NULL`) and
        generate its days from the submitted dates. A date PostgreSQL cannot read
        fails the insert, and nothing is stored. */
    method CreateEvent(data: Row) returns (r: Outcome)
      requires "event_start_date" in data && data["event_start_date"].Str?
      requires "event_end_date" in data && data["event_end_date"].Str?
      modifies this
      ensures FirstBadDate(data, EventDates).Some? ==>
        r == Err(DateInputError(FirstBadDate(data, EventDates).value))
        && events == old(events) && days == old(days) && nextId == old(nextId)
      ensures FirstBadDate(data, EventDates).None? ==>
        r == Ok(Inserted(StoredDates(data, EventDates), old(nextId)))
        && events == old(events)[old(nextId) := Inserted(StoredDates(data, EventDates), old(nextId))]
        && nextId == old(nextId) + 1
        && days == Regenerated(old(days), old(nextId), data["event_start_date"].s, data["event_end_date"].s)
    {
      var bad := FirstBadDate(data, EventDates);
      if bad.Some? {
        return Err(DateInputError(bad.value));
      }
      var created := InsertEvent(StoredDates(data, EventDates), data["event_start_date"].s, data["event_end_date"].s);
      r := Ok(created);
    }

    /** The insert once the dates have been read, then `generateEventDays` on the
        dates as submitted. */
    method InsertEvent(stored: Row, startDate: string, endDate: string) returns (created: Row)
      modifies this
      ensures created == Inserted(stored, old(nextId))
      ensures events == old(events)[old(nextId) := created] && nextId == old(nextId) + 1
      ensures days == Regenerated(old(days), old(nextId), startDate, endDate)
    {
      created := Inserted(stored, nextId);
      events := events[nextId := created];
      var id := nextId;
      nextId := nextId + 1;
      GenerateEventDays(id, startDate, endDate);
    }

    /** `PUT /:id`: set exactly the supplied fields; with none supplied, answer the
        stored row; a supplied date PostgreSQL cannot read fails the update, and
        otherwise the stored dates are in `YYYY-MM-DD` form; regenerate the days from
        the stored dates when either date was supplied. */
    method UpdateEvent(id: int, data: map<string, Value>) returns (r: Outcome)
      modifies this`events, this`days
      ensures Supplied(EventFields, data) == [] ==>
        events == old(events) && days == old(days)
        && r == if id in old(events) then Ok(old(events)[id]) else Err(NotFoundError("Event"))
      ensures Supplied(EventFields, data) != [] && FirstBadDate(data, EventDates).Some? ==>
        events == old(events) && days == old(days) && r == Err(DateInputError(FirstBadDate(data, EventDates).value))
      ensures Supplied(EventFields, data) != [] && FirstBadDate(data, EventDates).None? && id !in old(events) ==>
        events == old(events) && days == old(days) && r == Err(NotFoundError("Event"))
      ensures Supplied(EventFields, data) != [] && FirstBadDate(data, EventDates).None? && id in old(events) ==>
        var updated := old(events)[id] + Restrict(StoredDates(data, EventDates), EventFields);
        r == Ok(updated) && events == old(events)[id := updated]
        && days == if "event_start_date" in data || "event_end_date" in data
                   then Regenerated(old(days), id, Prefix(JsString(Get(updated, "event_start_date")), 10),
                                    Prefix(JsString(Get(updated, "event_end_date")), 10))
                   else old(days)
    {
      var stored := StoredDates(data, EventDates);
      SuppliedOfKeys(EventFields, stored, data);
      if Supplied(EventFields, data) != [] {
        var bad := FirstBadDate(data, EventDates);
        if bad.Some? {
          return Err(DateInputError(bad.value));
        }
      }
      r := SetColumns(id, stored, "event_start_date" in data || "event_end_date" in data);
    }

    /** The `UPDATE` once every supplied date has been read: the columns as stored,
        and whether a date was among them. */
    method SetColumns(id: int, data: map<string, Value>, datesGiven: bool) returns (r: Outcome)
      modifies this`events, this`days
      ensures Supplied(EventFields, data) == [] ==>
        events == old(events) && days == old(days)
        && r == if id in old(events) then Ok(old(events)[id]) else Err(NotFoundError("Event"))
      ensures Supplied(EventFields, data) != [] && id !in old(events) ==>
        events == old(events) && days == old(days) && r == Err(NotFoundError("Event"))
      ensures Supplied(EventFields, data) != [] && id in old(events) ==>
        r == Ok(old(events)[id] + Restrict(data, EventFields)) && events == old(events)[id := r.row]
      ensures Supplied(EventFields, data) != [] && id in old(events) && datesGiven ==>
        days == Regenerated(old(days), id, Prefix(JsString(Get(r.row, "event_start_date")), 10),
                            Prefix(JsString(Get(r.row, "event_end_date")), 10))
      ensures Supplied(EventFields, data) != [] && id in old(events) && !datesGiven ==> days == old(days)
    {
      var updates, values := BuildSetClause(EventFields, data);
      if |updates| == 0 {
        if id !in events {
          return Err(NotFoundError("Event"));
        }
        return Ok(events[id]);
      }
      if id !in events {
        return Err(NotFoundError("Event"));
      }
      var updated := ApplySet(events[id], updates, values);
      SetClauseEffect(events[id], EventFields, data, updates, values);
      assert updated == old(events)[id] + Restrict(data, EventFields);
      events := events[id := updated];
      if datesGiven {
        var startDate := Prefix(JsString(Get(updated, "event_start_date")), 10);
        var endDate := Prefix(JsString(Get(updated, "event_end_date")), 10);
        GenerateEventDays(id, startDate, endDate);
      }
      r := Ok(updated);
    }
  }

  /** One turn of the loop: the row about to be inserted is the next generated row,
      and it clashes with nothing, since other events' rows have another id and
      earlier rows of this event have earlier dates. */
  lemma GenerateStep(base: seq<DayRow>, all: seq<DayRow>, eventId: int, s: Date, e: Date, d: Date, dayNum: int)
    requires Valid(s) && Valid(e) && e.year <= 9999 && Valid(d)
    requires all == DaysFrom(eventId, s, e, 1)
    requires DayIndex(s) <= DayIndex(d) <= DayIndex(e) && dayNum == DayIndex(d) - DayIndex(s) + 1
    requires all[dayNum - 1..] == DaysFrom(eventId, d, e, dayNum)
    requires forall x :: x in base ==> x.eventId != eventId
    ensures d.year <= 9999
    ensures all[dayNum - 1] == DayRow(eventId, dayNum, FormatIso(d))
    ensures all[dayNum..] == DaysFrom(eventId, NextDay(d), e, dayNum + 1)
    ensures all[..dayNum] == all[..dayNum - 1] + [all[dayNum - 1]]
    ensures !Conflicts(base + all[..dayNum - 1], eventId, FormatIso(d))
  {
    YearOrder(d, e);
    GenerateNext(all, eventId, d, e, dayNum);
    GenerateFresh(base, all, eventId, s, e, dayNum - 1);
  }

  /** The row at `dayNum - 1` is the one for `d`, and the rows after it start from
      the next day. */
  lemma GenerateNext(all: seq<DayRow>, eventId: int, d: Date, e: Date, dayNum: int)
    requires Valid(d) && Valid(e) && e.year <= 9999 && DayIndex(d) <= DayIndex(e)
    requires 1 <= dayNum <= |all| && all[dayNum - 1..] == DaysFrom(eventId, d, e, dayNum)
    ensures d.year <= 9999
    ensures all[dayNum - 1] == DayRow(eventId, dayNum, FormatIso(d))
    ensures all[dayNum..] == DaysFrom(eventId, NextDay(d), e, dayNum + 1)
    ensures all[..dayNum] == all[..dayNum - 1] + [all[dayNum - 1]]
  {
    YearOrder(d, e);
    var rest := DaysFrom(eventId, d, e, dayNum);
    assert rest[0] == DayRow(eventId, dayNum, FormatIso(d));
    assert rest[1..] == DaysFrom(eventId, NextDay(d), e, dayNum + 1);
    assert all[dayNum..] == all[dayNum - 1..][1..];
  }

  /** No row already present shares the event and the date of row `k`. */
  lemma GenerateFresh(base: seq<DayRow>, all: seq<DayRow>, eventId: int, s: Date, e: Date, k: nat)
    requires Valid(s) && Valid(e) && e.year <= 9999
    requires all == DaysFrom(eventId, s, e, 1) && k < |all|
    requires forall x :: x in base ==> x.eventId != eventId
    ensures !Conflicts(base + all[..k], eventId, all[k].dayDate)
  {
    forall x | x in base + all[..k] && x.eventId == eventId ensures x.dayDate != all[k].dayDate {
      assert x in all[..k];
      var j :| 0 <= j < k && all[j] == x;
      DaysDistinct(all, eventId, s, e, j, k);
    }
  }

  /** Taking one more row of `all` adds that row at the end. */
  lemma SnocPrefix(base: seq<DayRow>, all: seq<DayRow>, n: int)
    requires 0 < n <= |all|
    ensures base + all[..n] == (base + all[..n - 1]) + [all[n - 1]]
  {
    assert all[..n] == all[..n - 1] + [all[n - 1]];
  }

  lemma DaysDistinct(all: seq<DayRow>, eventId: int, s: Date, e: Date, i: nat, j: nat)
    requires Valid(s) && Valid(e) && e.year <= 9999
    requires all == DaysFrom(eventId, s, e, 1) && i < j < |all|
    ensures all[i].dayDate != all[j].dayDate
  {
  }

  // ----- properties of the generated days -----

  /** A valid range yields (end - start) + 1 rows; row k is day number k + 1 on the
      date k days after the start, and the last row is the end date. */
  lemma EventDaysShape(eventId: int, startDate: string, endDate: string, s: Date, e: Date)
    requires DayRange(startDate, endDate) == Some((s, e))
    ensures var r := EventDays(eventId, startDate, endDate);
      |r| == (if DayIndex(s) <= DayIndex(e) then DayIndex(e) - DayIndex(s) + 1 else 0)
      && (forall k :: 0 <= k < |r| ==>
            r[k].eventId == eventId && r[k].dayNumber == k + 1 && ParseIso(r[k].dayDate) == Some(AddDays(s, k)))
      && (|r| > 0 ==> r[|r| - 1].dayDate == FormatIso(e))
  {
    DaysFromShape(eventId, s, e, EventDays(eventId, startDate, endDate));
  }

  /** The same, for the rows generated between two valid dates. */
  lemma DaysFromShape(eventId: int, s: Date, e: Date, r: seq<DayRow>)
    requires Valid(s) && Valid(e) && e.year <= 9999 && r == DaysFrom(eventId, s, e, 1)
    ensures |r| == (if DayIndex(s) <= DayIndex(e) then DayIndex(e) - DayIndex(s) + 1 else 0)
    ensures forall k :: 0 <= k < |r| ==>
      r[k].eventId == eventId && r[k].dayNumber == k + 1 && ParseIso(r[k].dayDate) == Some(AddDays(s, k))
    ensures |r| > 0 ==> r[|r| - 1].dayDate == FormatIso(e)
  {
    forall k | 0 <= k < |r| ensures ParseIso(r[k].dayDate) == Some(AddDays(s, k)) {
      EventDayAt(eventId, s, e, r, k);
    }
    if |r| > 0 {
      EventDayAt(eventId, s, e, r, |r| - 1);
    }
  }

  /** Row `k` of the generated days is dated `k` days after the start, and the last
      row is dated the end. */
  lemma EventDayAt(eventId: int, s: Date, e: Date, r: seq<DayRow>, k: nat)
    requires Valid(s) && Valid(e) && e.year <= 9999 && r == DaysFrom(eventId, s, e, 1) && k < |r|
    ensures ParseIso(r[k].dayDate) == Some(AddDays(s, k))
    ensures k == |r| - 1 ==> r[k].dayDate == FormatIso(e)
  {
    DayIndexInjective(ParseIso(r[k].dayDate).value, AddDays(s, k));
    if k == |r| - 1 {
      DayIndexInjective(ParseIso(r[k].dayDate).value, e);
      FormatParse(r[k].dayDate);
    }
  }

  /** The generated dates are pairwise distinct, so `ON CONFLICT` never fires. */
  lemma EventDaysDistinct(eventId: int, startDate: string, endDate: string)
    ensures var r := EventDays(eventId, startDate, endDate);
      forall i, j :: 0 <= i < j < |r| ==> r[i].dayDate != r[j].dayDate
  {
  }

  /** An invalid date or a reversed range leaves the event with no days, since the
      old ones were deleted first. */
  lemma InvalidRangeLeavesNoDays(days: seq<DayRow>, eventId: int, startDate: string, endDate: string)
    requires DayRange(startDate, endDate).None?
      || DayIndex(DayRange(startDate, endDate).value.0) > DayIndex(DayRange(startDate, endDate).value.1)
    ensures RowsOf(Regenerated(days, eventId, startDate, endDate), eventId) == []
  {
    assert EventDays(eventId, startDate, endDate) == [];
    assert Regenerated(days, eventId, startDate, endDate) == OtherEvents(days, eventId);
    OtherEventsHasNone(days, eventId);
  }

  lemma {:induction false} OtherEventsHasNone(days: seq<DayRow>, eventId: int)
    ensures RowsOf(OtherEvents(days, eventId), eventId) == []
  {
    if |days| > 0 {
      OtherEventsHasNone(days[1..], eventId);
      RowsOfAppend(if days[0].eventId == eventId then [] else [days[0]], OtherEvents(days[1..], eventId), eventId);
    }
  }

  lemma {:induction false} RowsOfAppend(a: seq<DayRow>, b: seq<DayRow>, eventId: int)
    ensures RowsOf(a + b, eventId) == RowsOf(a, eventId) + RowsOf(b, eventId)
  {
    if |a| > 0 {
      assert (a + b)[1..] == a[1..] + b;
      RowsOfAppend(a[1..], b, eventId);
    } else {
      assert a + b == b;
    }
  }

  /** Generating keeps every other event's rows exactly, and leaves this event with
      exactly the generated rows. */
  lemma RegeneratedFrame(days: seq<DayRow>, eventId: int, other: int, startDate: string, endDate: string)
    requires other != eventId
    ensures RowsOf(Regenerated(days, eventId, startDate, endDate), other) == RowsOf(days, other)
    ensures RowsOf(Regenerated(days, eventId, startDate, endDate), eventId) == EventDays(eventId, startDate, endDate)
  {
    var g := EventDays(eventId, startDate, endDate);
    RowsOfAppend(OtherEvents(days, eventId), g, other);
    RowsOfAppend(OtherEvents(days, eventId), g, eventId);
    OtherEventsKeeps(days, eventId, other);
    OtherEventsHasNone(days, eventId);
    AllOfEvent(g, eventId, other);
  }

  lemma {:induction false} OtherEventsKeeps(days: seq<DayRow>, eventId: int, other: int)
    requires other != eventId
    ensures RowsOf(OtherEvents(days, eventId), other) == RowsOf(days, other)
  {
    if |days| > 0 {
      OtherEventsKeeps(days[1..], eventId, other);
      RowsOfAppend(if days[0].eventId == eventId then [] else [days[0]], OtherEvents(days[1..], eventId), other);
    }
  }

  lemma {:induction false} AllOfEvent(g: seq<DayRow>, eventId: int, other: int)
    requires other != eventId
    requires forall k :: 0 <= k < |g| ==> g[k].eventId == eventId
    ensures RowsOf(g, eventId) == g && RowsOf(g, other) == []
  {
    if |g| > 0 {
      AllOfEvent(g[1..], eventId, other);
      assert g == [g[0]] + g[1..];
    }
  }

  /** Generating twice with the same range gives the same table as generating once. */
  lemma RegenerateIdempotent(days: seq<DayRow>, eventId: int, startDate: string, endDate: string)
    ensures Regenerated(Regenerated(days, eventId, startDate, endDate), eventId, startDate, endDate)
      == Regenerated(days, eventId, startDate, endDate)
  {
    EventDaysOwn(eventId, startDate, endDate);
    ReplaceTwice(days, eventId, EventDays(eventId, startDate, endDate));
  }

  lemma ReplaceTwice(days: seq<DayRow>, eventId: int, g: seq<DayRow>)
    requires forall k :: 0 <= k < |g| ==> g[k].eventId == eventId
    ensures OtherEvents(OtherEvents(days, eventId) + g, eventId) + g == OtherEvents(days, eventId) + g
  {
    var o := OtherEvents(days, eventId);
    OtherEventsAppend(o, g, eventId);
    OtherEventsTwice(days, eventId);
    OtherEventsOfOwn(g, eventId);
    assert OtherEvents(o + g, eventId) == o + [];
  }

  lemma EventDaysOwn(eventId: int, startDate: string, endDate: string)
    ensures var g := EventDays(eventId, startDate, endDate);
      forall k :: 0 <= k < |g| ==> g[k].eventId == eventId
  {
  }

  lemma {:induction false} OtherEventsAppend(a: seq<DayRow>, b: seq<DayRow>, eventId: int)
    ensures OtherEvents(a + b, eventId) == OtherEvents(a, eventId) + OtherEvents(b, eventId)
  {
    if |a| > 0 {
      assert (a + b)[1..] == a[1..] + b;
      OtherEventsAppend(a[1..], b, eventId);
    } else {
      assert a + b == b;
    }
  }

  lemma {:induction false} OtherEventsTwice(days: seq<DayRow>, eventId: int)
    ensures OtherEvents(OtherEvents(days, eventId), eventId) == OtherEvents(days, eventId)
  {
    if |days| > 0 {
      OtherEventsTwice(days[1..], eventId);
      OtherEventsAppend(if days[0].eventId == eventId then [] else [days[0]], OtherEvents(days[1..], eventId), eventId);
    }
  }

  lemma {:induction false} OtherEventsOfOwn(g: seq<DayRow>, eventId: int)
    requires forall k :: 0 <= k < |g| ==> g[k].eventId == eventId
    ensures OtherEvents(g, eventId) == []
  {
    if |g| > 0 { OtherEventsOfOwn(g[1..], eventId); }
  }

  /** Only the first ten characters of each date matter: a date-time or a timestamp
      behaves like its date. */
  lemma TimePartIgnored(eventId: int, startDate: string, endDate: string, startRest: string, endRest: string)
    requires |startDate| == 10 && |endDate| == 10
    ensures EventDays(eventId, startDate + startRest, endDate + endRest) == EventDays(eventId, startDate, endDate)
  {
    assert Prefix(startDate + startRest, 10) == startDate == Prefix(startDate, 10);
    assert Prefix(endDate + endRest, 10) == endDate == Prefix(endDate, 10);
  }

  /** The range 2026-02-16 .. 2026-02-19 gives four numbered days. */
  lemma FourDayExample(eventId: int)
    ensures EventDays(eventId, "2026-02-16", "2026-02-19") == [
      DayRow(eventId, 1, "2026-02-16"), DayRow(eventId, 2, "2026-02-17"),
      DayRow(eventId, 3, "2026-02-18"), DayRow(eventId, 4, "2026-02-19")]
  {
    FebruaryDay("2026-02-16", "16", 16);
    FebruaryDay("2026-02-17", "17", 17);
    FebruaryDay("2026-02-18", "18", 18);
    FebruaryDay("2026-02-19", "19", 19);
    FebruaryNext(16);
    FebruaryNext(17);
    FebruaryNext(18);
    FourDays(eventId, "2026-02-16", "2026-02-17", "2026-02-18", "2026-02-19",
             Date(2026, 2, 16), Date(2026, 2, 17), Date(2026, 2, 18), Date(2026, 2, 19));
  }

  /** In February 2026 the day after the n-th is the (n+1)-th. */
  lemma FebruaryNext(n: int)
    requires 16 <= n <= 18
    ensures Valid(Date(2026, 2, n)) && NextDay(Date(2026, 2, n)) == Date(2026, 2, n + 1)
  {
  }

  /** Date strings of four consecutive days, from the first to the last, are the
      generated rows in order. */
  lemma FourDays(eventId: int, t0: string, t1: string, t2: string, t3: string, d0: Date, d1: Date, d2: Date, d3: Date)
    requires ParseIso(t0) == Some(d0) && ParseIso(t1) == Some(d1)
    requires ParseIso(t2) == Some(d2) && ParseIso(t3) == Some(d3)
    requires d1 == NextDay(d0) && d2 == NextDay(d1) && d3 == NextDay(d2)
    ensures EventDays(eventId, t0, t3) == [
      DayRow(eventId, 1, t0), DayRow(eventId, 2, t1), DayRow(eventId, 3, t2), DayRow(eventId, 4, t3)]
  {
    FourDaysIndexed(eventId, t0, t1, t2, t3, d0, d1, d2, d3);
    RowsOfFour(EventDays(eventId, t0, t3), eventId, t0, t1, t2, t3, DayIndex(d0));
  }

  /** Four rows numbered from 1 whose dates are one day apart are the rows of
      the four date strings that name those days. */
  lemma RowsOfFour(r: seq<DayRow>, eventId: int, t0: string, t1: string, t2: string, t3: string, i0: int)
    requires |r| == 4 && forall k :: 0 <= k < 4 ==>
      r[k].eventId == eventId && r[k].dayNumber == k + 1 && ParseIso(r[k].dayDate).Some?
      && DayIndex(ParseIso(r[k].dayDate).value) == i0 + k
    requires ParseIso(t0).Some? && DayIndex(ParseIso(t0).value) == i0
    requires ParseIso(t1).Some? && DayIndex(ParseIso(t1).value) == i0 + 1
    requires ParseIso(t2).Some? && DayIndex(ParseIso(t2).value) == i0 + 2
    requires ParseIso(t3).Some? && DayIndex(ParseIso(t3).value) == i0 + 3
    ensures r == [DayRow(eventId, 1, t0), DayRow(eventId, 2, t1), DayRow(eventId, 3, t2), DayRow(eventId, 4, t3)]
  {
    SameIndexSameText(r[0].dayDate, t0);
    SameIndexSameText(r[1].dayDate, t1);
    SameIndexSameText(r[2].dayDate, t2);
    SameIndexSameText(r[3].dayDate, t3);
  }

  /** The rows for four consecutive days: four of them, numbered from 1, dated one
      day apart from the first. */
  lemma FourDaysIndexed(eventId: int, t0: string, t1: string, t2: string, t3: string, d0: Date, d1: Date, d2: Date, d3: Date)
    requires ParseIso(t0) == Some(d0) && ParseIso(t1) == Some(d1)
    requires ParseIso(t2) == Some(d2) && ParseIso(t3) == Some(d3)
    requires d1 == NextDay(d0) && d2 == NextDay(d1) && d3 == NextDay(d2)
    ensures var r := EventDays(eventId, t0, t3);
      |r| == 4 && forall k :: 0 <= k < 4 ==>
        r[k].eventId == eventId && r[k].dayNumber == k + 1 && ParseIso(r[k].dayDate).Some?
        && DayIndex(ParseIso(r[k].dayDate).value) == DayIndex(d0) + k
  {
    assert DayRange(t0, t3) == Some((d0, d3)) by {
      FormatParse(t0);
      FormatParse(t3);
    }
    assert EventDays(eventId, t0, t3) == DaysFrom(eventId, d0, d3, 1);
  }

  /** Two date strings that parse to days of the same index are equal. */
  lemma SameIndexSameText(a: string, b: string)
    requires ParseIso(a).Some? && ParseIso(b).Some?
    requires DayIndex(ParseIso(a).value) == DayIndex(ParseIso(b).value)
    ensures a == b
  {
    DayIndexInjective(ParseIso(a).value, ParseIso(b).value);
    FormatParse(a);
    FormatParse(b);
  }

  lemma FebruaryDay(t: string, dd: string, n: nat)
    requires t == "2026-02-" + dd && |dd| == 2 && IsDigit(dd[0]) && IsDigit(dd[1])
    requires 16 <= n <= 19 && DigitValue(dd[0]) == 1 && DigitValue(dd[1]) == n - 10
    ensures ParseIso(t) == Some(Date(2026, 2, n))
  {
    assert "2026"[..3] == "202" && "202"[..2] == "20" && "20"[..1] == "2" && "2"[..0] == "";
    assert "02"[..1] == "0" && "0"[..0] == "";
    assert t[..4] == "2026" && t[5..7] == "02" && t[8..] == dd;
    assert dd[..1] == [dd[0]] && [dd[0]][..0] == "";
    assert DigitsValue(dd[..1]) == DigitValue(dd[0]);
    assert DigitsValue(dd) == n;
    assert Valid(Date(2026, 2, n));
  }

  /** After a date-changing update the days follow the stored dates; an update that
      supplies neither date leaves them alone. */
  lemma UpdateRegenerationRule(data: map<string, Value>)
    ensures ("event_start_date" in data || "event_end_date" in data) <==>
      ("event_start_date" in Restrict(data, EventFields) || "event_end_date" in Restrict(data, EventFields))
  {
  }
}

=== FILE: favorites_page.dfy ===
/**
 * The attendee favourites page (pwa/src/pages/FavoritesPage.tsx): the ordinal suffix
 * on day headings, the grouping of favourites by date, the optimistic unfavourite
 * and the session count in the header.
 */
module FavoritesPage {
  import opened Wrappers
  import opened Text
  import opened Lists

  /** The fields of a favourite the page reads. */
  datatype FavSession = FavSession(id: int, date: string, startTime: string)

  // ----- ordinal suffix -----

  /** Length of the run of ASCII digits at the end of `s` (what `/(\d+)$/` matches). */
  function TrailingDigits(s: string): (n: nat)
    ensures n <= |s| && AllDigits(s[|s| - n..])
    ensures n < |s| ==> !IsDigit(s[|s| - n - 1])
  {
    if |s| > 0 && IsDigit(s[|s| - 1]) then
      var n := 1 + TrailingDigits(s[..|s| - 1]);
      assert s[|s| - n..] == s[..|s| - 1][|s| - n..] + [s[|s| - 1]];
      n
    else 0
  }

  /** The suffix chain of `addOrdinal` for the day number. */
  function OrdinalSuffix(day: nat): (r: string)
    ensures r in {"st", "nd", "rd", "th"}
  {
    if day % 10 == 1 && day != 11 then "st"
    else if day % 10 == 2 && day != 12 then "nd"
    else if day % 10 == 3 && day != 13 then "rd"
    else "th"
  }

  /** `addOrdinal`: a heading ending in digits gains the suffix of that number; any
      other heading is returned as it is. */
  function AddOrdinal(dateStr: string): (r: string)
    ensures TrailingDigits(dateStr) == 0 ==> r == dateStr
    ensures TrailingDigits(dateStr) > 0 ==> |r| == |dateStr| + 2 && r[..|dateStr|] == dateStr
    ensures TrailingDigits(dateStr) > 0 ==> r[|dateStr|..] in {"st", "nd", "rd", "th"}
  {
    var n := TrailingDigits(dateStr);
    if n == 0 then dateStr
    else
      var suffix := OrdinalSuffix(DigitsValue(dateStr[|dateStr| - n..]));
      assert (dateStr + suffix)[|dateStr|..] == suffix;
      dateStr + suffix
  }

  /** English ordinal suffixes: "th" for 11, 12 and 13 of every hundred, otherwise by
      the last digit. */
  function EnglishSuffix(n: nat): string {
    if 11 <= n % 100 <= 13 then "th"
    else if n % 10 == 1 then "st"
    else if n % 10 == 2 then "nd"
    else if n % 10 == 3 then "rd"
    else "th"
  }

  /** For every number below 100, and so for every day of a month, the page's suffix is
      the English one. */
  lemma OrdinalIsEnglish(day: nat)
    requires day < 100
    ensures OrdinalSuffix(day) == EnglishSuffix(day)
  {
  }

  /** The source compares with 11, 12 and 13 themselves, so 111 would read "111st";
      day numbers never get there. */
  lemma OrdinalAboveHundred()
    ensures OrdinalSuffix(111) == "st" && EnglishSuffix(111) == "th"
  {
  }

  /** A heading `p` + digits `d`, where `p` does not end in a digit, gains the suffix
      of the number `d` spells. */
  lemma {:induction false} AddOrdinalOf(s: string, p: string, d: string)
    requires s == p + d && |d| >= 1 && AllDigits(d)
    requires p == "" || !IsDigit(p[|p| - 1])
    ensures AddOrdinal(s) == s + OrdinalSuffix(DigitsValue(d))
  {
    TrailingOf(p, d);
    assert s[|s| - |d|..] == d;
  }

  lemma {:induction false} TrailingOf(p: string, d: string)
    requires AllDigits(d)
    requires p == "" || !IsDigit(p[|p| - 1])
    ensures TrailingDigits(p + d) == |d|
    decreases |d|
  {
    if d == [] {
      assert p + d == p;
    } else {
      var s := p + d;
      assert s[..|s| - 1] == p + d[..|d| - 1];
      TrailingOf(p, d[..|d| - 1]);
    }
  }

  /** "Tuesday, March 17" becomes "Tuesday, March 17th". */
  lemma OrdinalExample(p: string, s: string)
    requires p == "Tuesday, March " && s == p + "17"
    ensures AddOrdinal(s) == s + "th"
  {
    assert DigitsValue("17") == 17 by {
      assert "17"[..1] == "1" && "1"[..0] == "";
    }
    AddOrdinalOf(s, p, "17");
  }

  // ----- grouping by date -----

  /** `session_date.substring(0, 10)`: the group key. */
  function DateKey(s: FavSession): string {
    Prefix(s.date, 10)
  }

  function KeysOf(sessions: seq<FavSession>): (r: seq<string>)
    ensures |r| == |sessions| && forall i :: 0 <= i < |r| ==> r[i] == DateKey(sessions[i])
  {
    seq(|sessions|, i requires 0 <= i < |sessions| => DateKey(sessions[i]))
  }

  /** The distinct strings of `xs` in the order they first appear: the key order of a
      JavaScript `Map` filled from `xs`. */
  function FirstAppearances(xs: seq<string>): (r: seq<string>)
    ensures forall x :: x in r <==> x in xs
    ensures forall i, j :: 0 <= i < j < |r| ==> r[i] != r[j]
  {
    if xs == [] then []
    else
      var r := FirstAppearances(xs[..|xs| - 1]);
      assert forall x :: x in xs <==> x in xs[..|xs| - 1] || x == xs[|xs| - 1] by {
        assert xs == xs[..|xs| - 1] + [xs[|xs| - 1]];
      }
      if xs[|xs| - 1] in r then r else r + [xs[|xs| - 1]]
  }

  /** The sessions with key `k`, in list order. */
  function OfDate(sessions: seq<FavSession>, k: string): (r: seq<FavSession>)
    ensures forall s :: s in r <==> s in sessions && DateKey(s) == k
  {
    if sessions == [] then []
    else
      var last := sessions[|sessions| - 1];
      assert forall s :: s in sessions <==> s in sessions[..|sessions| - 1] || s == last by {
        assert sessions == sessions[..|sessions| - 1] + [last];
      }
      OfDate(sessions[..|sessions| - 1], k) + (if DateKey(last) == k then [last] else [])
  }

  /** The groups the page shows: one per distinct key, in first-appearance order, each
      holding its sessions in list order. */
  function Grouped(sessions: seq<FavSession>): (r: seq<(string, seq<FavSession>)>)
    ensures |r| == |FirstAppearances(KeysOf(sessions))|
  {
    var keys := FirstAppearances(KeysOf(sessions));
    seq(|keys|, i requires 0 <= i < |keys| => (keys[i], OfDate(sessions, keys[i])))
  }

  /** The `grouped` memo: a `Map` from key to sessions filled by `forEach`, then its
      entries in insertion order. */
  method GroupByDate(sessions: seq<FavSession>) returns (groups: seq<(string, seq<FavSession>)>)
    ensures groups == Grouped(sessions)
  {
    var keys: seq<string> := [];
    var m: map<string, seq<FavSession>> := map[];
    var i := 0;
    while i < |sessions|
      invariant 0 <= i <= |sessions|
      invariant keys == FirstAppearances(KeysOf(sessions[..i]))
      invariant forall k :: k in m <==> k in keys
      invariant forall k :: k in m ==> m[k] == OfDate(sessions[..i], k)
    {
      GroupStep(sessions, i);
      GroupMapStep(sessions, i, m, keys);
      var date := DateKey(sessions[i]);
      if date !in m {
        m := m[date := []];
        keys := keys + [date];
      }
      m := m[date := m[date] + [sessions[i]]];
      i := i + 1;
    }
    assert sessions[..i] == sessions;
    groups := seq(|keys|, j requires 0 <= j < |keys| => (keys[j], m[keys[j]]));
    GroupsOfMap(sessions, keys, m, groups);
  }

  /** The map's entries in key order are the groups. */
  lemma GroupsOfMap(sessions: seq<FavSession>, keys: seq<string>, m: map<string, seq<FavSession>>,
                    groups: seq<(string, seq<FavSession>)>)
    requires keys == FirstAppearances(KeysOf(sessions))
    requires forall k :: k in m <==> k in keys
    requires forall k :: k in m ==> m[k] == OfDate(sessions, k)
    requires |groups| == |keys| && forall j :: 0 <= j < |keys| ==> groups[j] == (keys[j], m[keys[j]])
    ensures groups == Grouped(sessions)
  {
    var g := Grouped(sessions);
    forall j | 0 <= j < |keys| ensures groups[j] == g[j] {
      assert keys[j] in m;
    }
  }

  /** One turn of the loop adds the session's key at the end when it is new. */
  lemma GroupStep(sessions: seq<FavSession>, i: nat)
    requires i < |sessions|
    ensures FirstAppearances(KeysOf(sessions[..i + 1])) ==
      (var r := FirstAppearances(KeysOf(sessions[..i]));
       if DateKey(sessions[i]) in r then r else r + [DateKey(sessions[i])])
  {
    var ss := sessions[..i + 1];
    assert ss[..|ss| - 1] == sessions[..i];
    assert KeysOf(ss)[..|ss| - 1] == KeysOf(sessions[..i]);
  }

  /** Adding a session to its key's group, opening the group if it is new, keeps
      every group equal to the sessions so far with that key. */
  lemma GroupMapStep(sessions: seq<FavSession>, i: nat, m: map<string, seq<FavSession>>, keys: seq<string>)
    requires i < |sessions|
    requires keys == FirstAppearances(KeysOf(sessions[..i]))
    requires forall k :: k in m <==> k in keys
    requires forall k :: k in m ==> m[k] == OfDate(sessions[..i], k)
    ensures var date := DateKey(sessions[i]);
      var withKey := if date in m then m else m[date := []];
      var m' := withKey[date := withKey[date] + [sessions[i]]];
      forall k :: k in m' ==> m'[k] == OfDate(sessions[..i + 1], k)
  {
    var date := DateKey(sessions[i]);
    var withKey := if date in m then m else m[date := []];
    var m' := withKey[date := withKey[date] + [sessions[i]]];
    var ss := sessions[..i + 1];
    assert ss[..|ss| - 1] == sessions[..i] && ss[|ss| - 1] == sessions[i];
    forall k | k in m' ensures m'[k] == OfDate(ss, k) {
      OfDateSnoc(ss, k);
      if k != date {
        assert m'[k] == m[k];
      } else if date !in m {
        NoKeyNoGroup(sessions[..i], date);
      }
    }
  }

  /** A key that no session has has an empty group. */
  lemma NoKeyNoGroup(sessions: seq<FavSession>, k: string)
    requires k !in FirstAppearances(KeysOf(sessions))
    ensures OfDate(sessions, k) == []
  {
    if OfDate(sessions, k) != [] {
      KeyOfMember(sessions, k);
    }
  }

  /** A key with a non-empty group is the key of some session. */
  lemma KeyOfMember(sessions: seq<FavSession>, k: string)
    requires OfDate(sessions, k) != []
    ensures k in KeysOf(sessions)
  {
    var x := OfDate(sessions, k)[0];
    assert x in OfDate(sessions, k);
    var j :| 0 <= j < |sessions| && sessions[j] == x;
    assert KeysOf(sessions)[j] == k;
  }

  // ----- properties of the grouping -----

  /** Every session is in exactly one group, the one of its key; keys are distinct. */
  lemma GroupsPartition(sessions: seq<FavSession>, s: FavSession)
    requires s in sessions
    ensures var g := Grouped(sessions);
      exists i :: 0 <= i < |g| && g[i].0 == DateKey(s) && s in g[i].1
    ensures var g := Grouped(sessions);
      forall i, j :: 0 <= i < |g| && 0 <= j < |g| && s in g[i].1 && s in g[j].1 ==> i == j
  {
    var keys := FirstAppearances(KeysOf(sessions));
    var n :| 0 <= n < |sessions| && sessions[n] == s;
    assert KeysOf(sessions)[n] == DateKey(s);
    assert DateKey(s) in KeysOf(sessions);
    var i :| 0 <= i < |keys| && keys[i] == DateKey(s);
    assert Grouped(sessions)[i].0 == DateKey(s);
  }

  /** The index of the first appearance of `x` in `xs`. */
  function FirstIndex(xs: seq<string>, x: string): (r: nat)
    requires x in xs
    ensures r < |xs| && xs[r] == x && forall j :: 0 <= j < r ==> xs[j] != x
  {
    if xs[0] == x then 0 else 1 + FirstIndex(xs[1..], x)
  }

  /** Keys come in the order of their first appearance in the list. */
  lemma {:induction false} FirstAppearancesOrdered(xs: seq<string>, i: nat, j: nat)
    requires i < j < |FirstAppearances(xs)|
    ensures var r := FirstAppearances(xs);
      FirstIndex(xs, r[i]) < FirstIndex(xs, r[j])
    decreases |xs|
  {
    var r := FirstAppearances(xs);
    var init := xs[..|xs| - 1];
    var r0 := FirstAppearances(init);
    var last := xs[|xs| - 1];
    assert xs == init + [last];
    if r[j] in init {
      PrefixFirstIndex(init, last, r[j]);
      PrefixFirstIndex(init, last, r[i]);
      FirstAppearancesOrdered(init, i, j);
    } else {
      assert last !in r0 && r == r0 + [last] && j == |r0|;
      assert r[i] in init;
      PrefixFirstIndex(init, last, r[i]);
    }
  }

  lemma PrefixFirstIndex(init: seq<string>, last: string, x: string)
    requires x in init
    ensures FirstIndex(init + [last], x) == FirstIndex(init, x) < |init|
  {
    var xs := init + [last];
    var k := FirstIndex(init, x);
    assert xs[k] == x;
    assert forall j :: 0 <= j < |init| ==> xs[j] == init[j];
  }

  /** A group keeps the list order of its sessions: the sessions before a split of the
      list come first. */
  lemma {:induction false} OfDateSplit(a: seq<FavSession>, b: seq<FavSession>, k: string)
    ensures OfDate(a + b, k) == OfDate(a, k) + OfDate(b, k)
    decreases |b|
  {
    if b == [] {
      assert a + b == a;
    } else {
      var ab := a + b;
      var init := b[..|b| - 1];
      var last := b[|b| - 1];
      assert ab[..|ab| - 1] == a + init && ab[|ab| - 1] == last;
      var tail := if DateKey(last) == k then [last] else [];
      OfDateSnoc(ab, k);
      OfDateSnoc(b, k);
      OfDateSplit(a, init, k);
      assert OfDate(ab, k) == (OfDate(a, k) + OfDate(init, k)) + tail;
    }
  }

  /** The sessions of a date in a non-empty list: those before the last, then the
      last if it is of that date. */
  lemma OfDateSnoc(xs: seq<FavSession>, k: string)
    requires xs != []
    ensures OfDate(xs, k) == OfDate(xs[..|xs| - 1], k) + (if DateKey(xs[|xs| - 1]) == k then [xs[|xs| - 1]] else [])
  {
  }

  // ----- unfavourite and header -----

  /** `old?.filter((s) => s.id !== sessionId)`. */
  function WithoutSession(sessions: seq<FavSession>, id: int): (r: seq<FavSession>)
    ensures forall s :: s in r <==> s in sessions && s.id != id
  {
    Filter(sessions, (s: FavSession) => s.id != id)
  }

  /** The cached `['favourites']` list. */
  class FavouritesCache {
    var cached: Option<seq<FavSession>>

    constructor (initial: Option<seq<FavSession>>)
      ensures cached == initial
    {
      cached := initial;
    }

    /** `onMutate`: remember the list, then drop the session optimistically. */
    method OnMutate(id: int) returns (prev: Option<seq<FavSession>>)
      modifies this
      ensures prev == old(cached)
      ensures cached == if prev.Some? then Some(WithoutSession(prev.value, id)) else None
    {
      prev := cached;
      if cached.Some? {
        cached := Some(WithoutSession(cached.value, id));
      }
    }

    /** `onError`: put the remembered list back. */
    method OnError(prev: Option<seq<FavSession>>)
      modifies this
      ensures prev.Some? ==> cached == prev
      ensures prev.None? ==> cached == old(cached)
    {
      if prev.Some? {
        cached := prev;
      }
    }
  }

  /** A failed unfavourite leaves the cache as it was before the click. */
  method UnfavouriteFails(cache: FavouritesCache, id: int)
    modifies cache
    ensures cache.cached == old(cache.cached)
  {
    var prev := cache.OnMutate(id);
    cache.OnError(prev);
  }

  /** The header: the count, then "Session" for exactly one and "Sessions" otherwise. */
  function CountLabel(n: nat): (r: string)
    ensures StartsWith(r, NatToString(n) + " ")
    ensures EndsWith(r, "Sessions") <==> n != 1
    ensures n == 1 ==> r == "1 Session"
    ensures n != 1 ==> r == NatToString(n) + " Sessions"
  {
    var word := if n == 1 then "Session" else "Sessions";
    var r := NatToString(n) + " " + word;
    assert r[..|NatToString(n) + " "|] == NatToString(n) + " ";
    assert n == 1 ==> r[|r| - 8..] != "Sessions" by {
      if n == 1 {
        assert NatToString(1) == "1";
        assert r == "1 Session";
      }
    }
    assert r[|r| - |word|..] == word;
    r
  }
}

=== FILE: home_page.dfy ===
/**
 * The "up next" card of the attendee home page (pwa/src/pages/HomePage.tsx): the
 * first session that has not ended, or the first session of the list. Today's
 * `YYYY-MM-DD` date and the minutes since midnight are parameters: the page takes
 * the first from the UTC clock and the second from the local one.
 */
module HomePage {
  import opened Wrappers
  import opened Text
  import opened Sorting

  /** The fields of a listed session the search reads; the end time is nullable. */
  datatype Session = Session(id: int, date: string, endTime: Option<string>)

  /** The test inside `find`, with the null end time guarded: dates compare as
      strings; a same-day session qualifies while its end lies after the current
      minute, and one whose end is missing or reads as NaN does not. */
  predicate NotEnded(s: Session, today: string, nowMinutes: int) {
    if LexLess(s.date, today) then false
    else if LexLess(today, s.date) then true
    else
      s.endTime.Some? &&
      var e := ClockMinutes(s.endTime.value);
      e.Some? && e.value > nowMinutes
  }

  /** A session on which the page's own test throws: dated today, with no end time,
      so `session_end_time.split` is called on null. */
  predicate Unguarded(s: Session, today: string) {
    !LexLess(s.date, today) && !LexLess(today, s.date) && s.endTime.None?
  }

  /** `sessions.find(...)` as guarded above, as the index of the first qualifying session. */
  function FirstNotEnded(sessions: seq<Session>, today: string, nowMinutes: int): (r: Option<nat>)
    ensures r.Some? ==> r.value < |sessions| && NotEnded(sessions[r.value], today, nowMinutes)
    ensures r.Some? ==> forall j :: 0 <= j < r.value ==> !NotEnded(sessions[j], today, nowMinutes)
    ensures r.None? ==> forall j :: 0 <= j < |sessions| ==> !NotEnded(sessions[j], today, nowMinutes)
  {
    if |sessions| == 0 then None
    else if NotEnded(sessions[0], today, nowMinutes) then Some(0)
    else
      match FirstNotEnded(sessions[1..], today, nowMinutes)
      case None => None
      case Some(k) => Some(k + 1)
  }

  /** `getUpNextSession` with the null end time guarded: nothing for a missing or
      empty list, otherwise the first session that has not ended, falling back to the
      first session. */
  function UpNext(sessions: Option<seq<Session>>, today: string, nowMinutes: int): (r: Option<Session>)
    ensures sessions.None? || sessions.value == [] ==> r.None?
    ensures sessions.Some? && sessions.value != [] ==> r.Some? && r.value in sessions.value
    ensures sessions.Some? && sessions.value != [] && r.Some? && !NotEnded(r.value, today, nowMinutes) ==>
      r.value == sessions.value[0] && forall s :: s in sessions.value ==> !NotEnded(s, today, nowMinutes)
    ensures sessions.Some? && FirstNotEnded(sessions.value, today, nowMinutes).Some? ==>
      r == Some(sessions.value[FirstNotEnded(sessions.value, today, nowMinutes).value])
  {
    if sessions.None? || |sessions.value| == 0 then None
    else
      match FirstNotEnded(sessions.value, today, nowMinutes)
      case Some(k) => Some(sessions.value[k])
      case None => Some(sessions.value[0])
  }

  // ----- the search as written -----

  /** How the page's own `find` ends: with the index of a qualifying session, with
      none, or by throwing at the index of an unguarded session. */
  datatype Search = Found(k: nat) | NoneFound | Throws(k: nat)

  /** `sessions.find(...)` exactly as written, where a same-day session with a null
      end time throws a TypeError. */
  function FindAsWritten(sessions: seq<Session>, today: string, nowMinutes: int): (r: Search)
    ensures r.Found? ==> r.k < |sessions| && NotEnded(sessions[r.k], today, nowMinutes)
    ensures r.Throws? ==> r.k < |sessions| && Unguarded(sessions[r.k], today)
    ensures forall j :: 0 <= j < |sessions| && (r.NoneFound? || (!r.NoneFound? && j < r.k)) ==>
      !NotEnded(sessions[j], today, nowMinutes) && !Unguarded(sessions[j], today)
  {
    if |sessions| == 0 then NoneFound
    else if Unguarded(sessions[0], today) then Throws(0)
    else if NotEnded(sessions[0], today, nowMinutes) then Found(0)
    else
      match FindAsWritten(sessions[1..], today, nowMinutes)
      case NoneFound => NoneFound
      case Found(k) => Found(k + 1)
      case Throws(k) => Throws(k + 1)
  }

  /** What the card gets from `getUpNextSession` as written: a session or null, or
      the render fails. */
  datatype Card = Shown(session: Option<Session>) | Crashed

  /** `getUpNextSession` exactly as written. */
  function UpNextAsWritten(sessions: Option<seq<Session>>, today: string, nowMinutes: int): (r: Card)
    ensures sessions.None? || sessions.value == [] ==> r == Shown(None)
    ensures r.Crashed? <==> sessions.Some? && FindAsWritten(sessions.value, today, nowMinutes).Throws?
    ensures r.Shown? && r.session.Some? ==> sessions.Some? && r.session.value in sessions.value
  {
    if sessions.None? || |sessions.value| == 0 then Shown(None)
    else
      match FindAsWritten(sessions.value, today, nowMinutes)
      case Found(k) => Shown(Some(sessions.value[k]))
      case NoneFound => Shown(Some(sessions.value[0]))
      case Throws(_) => Crashed
  }

  // ----- properties -----

  /** A session dated before today is never the one found, and one dated after today
      always qualifies. */
  lemma PastAndFuture(s: Session, today: string, nowMinutes: int)
    ensures LexLess(s.date, today) ==> !NotEnded(s, today, nowMinutes)
    ensures LexLess(today, s.date) ==> NotEnded(s, today, nowMinutes)
  {
    LexLessAsymmetric(s.date, today);
  }

  /** A session of today qualifies exactly when it has an end time whose minute lies
      after now; one without an end time makes the search as written throw. */
  lemma SameDay(s: Session, today: string, nowMinutes: int)
    requires s.date == today
    ensures NotEnded(s, today, nowMinutes) <==>
      s.endTime.Some? && ClockMinutes(s.endTime.value).Some? && ClockMinutes(s.endTime.value).value > nowMinutes
    ensures Unguarded(s, today) <==> s.endTime.None?
  {
    LexLessIrreflexive(today);
  }

  /** The result is the first qualifying session: every earlier one has ended, and a
      session dated after today stops the search at the latest. */
  lemma {:induction false} FirstFutureBound(sessions: seq<Session>, today: string, nowMinutes: int, k: nat)
    requires k < |sessions| && LexLess(today, sessions[k].date)
    ensures FirstNotEnded(sessions, today, nowMinutes).Some?
    ensures FirstNotEnded(sessions, today, nowMinutes).value <= k
  {
    PastAndFuture(sessions[k], today, nowMinutes);
  }

  /** When every session is over the card shows the first session of the list. */
  lemma AllOverShowsFirst(sessions: seq<Session>, today: string, nowMinutes: int)
    requires sessions != []
    requires forall j :: 0 <= j < |sessions| ==> LexLess(sessions[j].date, today)
    ensures UpNext(Some(sessions), today, nowMinutes) == Some(sessions[0])
  {
    forall j | 0 <= j < |sessions| ensures !NotEnded(sessions[j], today, nowMinutes) {
      PastAndFuture(sessions[j], today, nowMinutes);
    }
  }

  /** The defect: one session of today without an end time, and the page as written
      fails to render, where the guarded search shows that session as the fallback. */
  lemma NullEndThrows(id: int, today: string, nowMinutes: int)
    ensures UpNextAsWritten(Some([Session(id, today, None)]), today, nowMinutes) == Crashed
    ensures UpNext(Some([Session(id, today, None)]), today, nowMinutes) == Some(Session(id, today, None))
  {
    LexLessIrreflexive(today);
    assert FindAsWritten([Session(id, today, None)], today, nowMinutes) == Throws(0);
  }

  /** Where the search as written does not throw, it finds what the guarded search
      finds, so the two cards agree. */
  lemma {:induction false} AsWrittenAgrees(sessions: seq<Session>, today: string, nowMinutes: int)
    requires !FindAsWritten(sessions, today, nowMinutes).Throws?
    ensures FindAsWritten(sessions, today, nowMinutes).Found? <==> FirstNotEnded(sessions, today, nowMinutes).Some?
    ensures FindAsWritten(sessions, today, nowMinutes).Found? ==>
      FindAsWritten(sessions, today, nowMinutes).k == FirstNotEnded(sessions, today, nowMinutes).value
    ensures UpNextAsWritten(Some(sessions), today, nowMinutes) == Shown(UpNext(Some(sessions), today, nowMinutes))
  {
    if |sessions| > 0 && !NotEnded(sessions[0], today, nowMinutes) {
      AsWrittenAgrees(sessions[1..], today, nowMinutes);
    }
  }

  /** The search as written throws exactly when an unguarded session comes before
      every qualifying one. */
  lemma ThrowsExactly(sessions: seq<Session>, today: string, nowMinutes: int, k: nat)
    requires k < |sessions| && Unguarded(sessions[k], today)
    requires forall j :: 0 <= j < k ==> !NotEnded(sessions[j], today, nowMinutes) && !Unguarded(sessions[j], today)
    ensures FindAsWritten(sessions, today, nowMinutes) == Throws(k)
  {
    var r := FindAsWritten(sessions, today, nowMinutes);
    assert !NotEnded(sessions[k], today, nowMinutes);
  }
}

=== FILE: important_updates_section.dfy ===
/**
 * The admin dashboard's editor for an event's important updates
 * (admin-dashboard/src/components/events/ImportantUpdatesSection.tsx): the list
 * of updates and their links, the edits on them, the delete that waits for the
 * server, and the save loop that sends every update with PUT or POST.
 */
module ImportantUpdatesSection {
  import opened Wrappers
  import opened Text
  import opened Lists

  /** An update as the editor holds it; `id` is absent for one not yet saved. */
  datatype Update = Update(
    id: Option<int>, title: string, description: string, links: seq<string>,
    dateTime: string, createdAt: Option<string>)

  /** An update as `GET /admin/updates/event/:id` returns it; `null` is `None`. */
  datatype StoredUpdate = StoredUpdate(
    id: Option<int>, title: Option<string>, description: Option<string>,
    links: Option<seq<string>>, dateTime: Option<string>, createdAt: Option<string>)

  /** The text field an input edits. */
  datatype Field = Title | Description | DateTime

  /** The body sent for one update; `null` is `None`. */
  datatype UpdatePayload = UpdatePayload(title: string, description: Option<string>, links: seq<string>, dateTime: string)

  /** One request of the save loop. */
  datatype Request = Put(id: int, body: UpdatePayload) | Post(eventId: string, body: UpdatePayload)

  /** `if (update.id)`: an id that is present and not 0. */
  predicate Saved(u: Update) {
    u.id.Some? && u.id.value != 0
  }

  /** The effect that loads the updates: missing texts become empty and missing
      links an empty list, and a stored time is shown as the first 16 characters of
      its ISO 8601 text. `toIso` is the browser's `new Date(..).toISOString()`. */
  function Loaded(stored: seq<StoredUpdate>, toIso: string -> string): (r: seq<Update>)
    ensures |r| == |stored|
    ensures forall k :: 0 <= k < |r| ==>
      r[k].id == stored[k].id && r[k].title == OrEmpty(stored[k].title)
      && r[k].description == OrEmpty(stored[k].description)
      && r[k].links == (if stored[k].links.Some? then stored[k].links.value else [])
    ensures forall k :: 0 <= k < |r| ==> |r[k].dateTime| <= 16
  {
    seq(|stored|, k requires 0 <= k < |stored| =>
      var s := stored[k];
      Update(
        s.id, OrEmpty(s.title), OrEmpty(s.description),
        if s.links.Some? then s.links.value else [],
        if s.dateTime.Some? && s.dateTime.value != "" then Prefix(toIso(s.dateTime.value), 16) else "",
        s.createdAt))
  }

  /** `addUpdate`: a blank, unsaved update stamped with the current time `now` (an
      ISO 8601 text) goes first. */
  function AddUpdate(updates: seq<Update>, now: string): (r: seq<Update>)
    ensures |r| == |updates| + 1 && r[1..] == updates
    ensures r[0].id.None? && r[0].title == "" && r[0].description == "" && r[0].links == []
    ensures r[0].dateTime == Prefix(now, 16)
  {
    [Update(None, "", "", [], Prefix(now, 16), Some(now))] + updates
  }

  /** `{ ...u, [field]: value }`. */
  function WithField(u: Update, field: Field, value: string): (r: Update)
    ensures r.id == u.id && r.links == u.links
    ensures field == Title ==> r == u.(title := value)
    ensures field == Description ==> r == u.(description := value)
    ensures field == DateTime ==> r == u.(dateTime := value)
  {
    match field
    case Title => u.(title := value)
    case Description => u.(description := value)
    case DateTime => u.(dateTime := value)
  }

  /** The update at `index` replaced by `f` of it; any other index changes nothing. */
  function AtIndex(updates: seq<Update>, index: int, f: Update -> Update): (r: seq<Update>)
    ensures |r| == |updates|
    ensures forall j :: 0 <= j < |r| ==> r[j] == if j == index then f(updates[j]) else updates[j]
  {
    if 0 <= index < |updates| then ReplaceAt(updates, index, f(updates[index])) else updates
  }

  /** `updateField`. */
  function UpdateField(updates: seq<Update>, index: int, field: Field, value: string): (r: seq<Update>)
    ensures |r| == |updates|
    ensures forall j :: 0 <= j < |r| ==> r[j] == if j == index then WithField(updates[j], field, value) else updates[j]
  {
    AtIndex(updates, index, u => WithField(u, field, value))
  }

  /** `addLink`: an empty link at the end of one update's links. */
  function AddLink(updates: seq<Update>, index: int): (r: seq<Update>)
    ensures |r| == |updates|
    ensures forall j :: 0 <= j < |r| ==> r[j] == if j == index then updates[j].(links := updates[j].links + [""]) else updates[j]
  {
    AtIndex(updates, index, (u: Update) => u.(links := u.links + [""]))
  }

  /** `updateLink`: one link of one update changes. */
  function UpdateLink(updates: seq<Update>, updateIndex: int, linkIndex: int, value: string): (r: seq<Update>)
    ensures |r| == |updates|
    ensures forall j :: 0 <= j < |r| && j != updateIndex ==> r[j] == updates[j]
    ensures 0 <= updateIndex < |r| ==>
      var u, v := updates[updateIndex], r[updateIndex];
      v == u.(links := v.links) && |v.links| == |u.links|
      && forall li :: 0 <= li < |u.links| ==> v.links[li] == if li == linkIndex then value else u.links[li]
  {
    AtIndex(updates, updateIndex, (u: Update) =>
      u.(links := if 0 <= linkIndex < |u.links| then ReplaceAt(u.links, linkIndex, value) else u.links))
  }

  /** `removeLink`: one link of one update goes. */
  function RemoveLink(updates: seq<Update>, updateIndex: int, linkIndex: int): (r: seq<Update>)
    ensures |r| == |updates|
    ensures forall j :: 0 <= j < |r| && j != updateIndex ==> r[j] == updates[j]
    ensures 0 <= updateIndex < |r| ==>
      var u := updates[updateIndex];
      r[updateIndex] == u.(links := if 0 <= linkIndex < |u.links| then RemoveAt(u.links, linkIndex) else u.links)
  {
    AtIndex(updates, updateIndex, (u: Update) =>
      u.(links := if 0 <= linkIndex < |u.links| then RemoveAt(u.links, linkIndex) else u.links))
  }

  /** A link that is not blank. */
  predicate NonBlank(l: string) {
    Trim(l) != ""
  }

  /** The body sent for an update: an empty title becomes "Untitled Update", an
      empty description `null`, and blank links are dropped. */
  function Payload(u: Update): (p: UpdatePayload)
    ensures p.title != "" && (u.title != "" ==> p.title == u.title)
    ensures p.description.None? <==> u.description == ""
    ensures p.description.Some? ==> p.description.value == u.description
    ensures forall l :: l in p.links <==> l in u.links && NonBlank(l)
    ensures p.dateTime == u.dateTime
  {
    UpdatePayload(
      if u.title != "" then u.title else "Untitled Update", OrNull(u.description),
      Filter(u.links, NonBlank), u.dateTime)
  }

  /** The request for one update: PUT to its id when saved, otherwise POST to the
      event. */
  function RequestFor(u: Update, eventId: string): (r: Request)
    ensures r.body == Payload(u)
    ensures r.Put? <==> Saved(u)
    ensures r.Put? ==> Some(r.id) == u.id
    ensures r.Post? ==> r.eventId == eventId
  {
    if Saved(u) then Put(u.id.value, Payload(u)) else Post(eventId, Payload(u))
  }

  /** The requests for a list of updates, in order. */
  function Requests(updates: seq<Update>, eventId: string): (r: seq<Request>)
    ensures |r| == |updates| && forall k :: 0 <= k < |r| ==> r[k] == RequestFor(updates[k], eventId)
  {
    seq(|updates|, k requires 0 <= k < |updates| => RequestFor(updates[k], eventId))
  }

  /** `handleSave`: the requests go out one after another; `failsAt` is the position
      of the first request the server refuses, if any, after which the loop stops. */
  method Save(updates: seq<Update>, eventId: string, failsAt: Option<nat>) returns (sent: seq<Request>, ok: bool)
    ensures ok <==> failsAt.None? || failsAt.value >= |updates|
    ensures ok ==> sent == Requests(updates, eventId)
    ensures !ok ==> sent == Requests(updates, eventId)[..failsAt.value + 1]
  {
    sent := [];
    var i := 0;
    while i < |updates|
      invariant 0 <= i <= |updates|
      invariant failsAt.Some? ==> i <= failsAt.value
      invariant sent == Requests(updates, eventId)[..i]
    {
      RequestsPrefix(updates, eventId, i);
      sent := sent + [RequestFor(updates[i], eventId)];
      if failsAt == Some(i) {
        return sent, false;
      }
      i := i + 1;
    }
    assert Requests(updates, eventId)[..i] == Requests(updates, eventId);
    ok := true;
  }

  /** One more request of the loop extends what was sent by the next update's. */
  lemma RequestsPrefix(updates: seq<Update>, eventId: string, i: int)
    requires 0 <= i < |updates|
    ensures Requests(updates, eventId)[..i + 1] == Requests(updates, eventId)[..i] + [RequestFor(updates[i], eventId)]
  {
    var r := Requests(updates, eventId);
    assert r[..i + 1] == r[..i] + [r[i]];
  }

  /** The editor's list of updates. */
  class Editor {
    /** `updates`. */
    var updates: seq<Update>

    constructor ()
      ensures updates == []
    {
      updates := [];
    }

    /** `removeUpdate`: a saved update is deleted on the server first (`deleted`
        says whether that succeeded); the local entry goes only when it was never
        saved or the delete succeeded. */
    method RemoveUpdate(index: nat, deleted: bool)
      requires index < |updates|
      modifies this
      ensures !Saved(old(updates)[index]) || deleted ==> updates == RemoveAt(old(updates), index)
      ensures Saved(old(updates)[index]) && !deleted ==> updates == old(updates)
    {
      var u := updates[index];
      if Saved(u) && !deleted {
        return;
      }
      updates := RemoveAt(updates, index);
    }
  }

  // ----- properties -----

  /** Adding a link to an update and removing that last link restores the list. */
  lemma AddThenRemoveLink(updates: seq<Update>, index: int)
    requires 0 <= index < |updates|
    ensures RemoveLink(AddLink(updates, index), index, |updates[index].links|) == updates
  {
    var a := AddLink(updates, index);
    var r := RemoveLink(a, index, |updates[index].links|);
    var ls := updates[index].links;
    assert (ls + [""])[..|ls|] == ls;
    assert r[index] == updates[index];
  }

  /** The links sent keep the order in which they were typed: sending a list of
      links made of two parts sends each part's non-blank links. */
  lemma LinksKeepOrder(u: Update, a: seq<string>, b: seq<string>)
    requires u.links == a + b
    ensures Payload(u).links == Filter(a, NonBlank) + Filter(b, NonBlank)
  {
    FilterConcat(a, b, NonBlank);
  }

  /** A blank update added and saved without changes goes out as a POST titled
      "Untitled Update" with no description and no links. */
  lemma NewUpdateSaved(updates: seq<Update>, now: string, eventId: string)
    ensures var r := RequestFor(AddUpdate(updates, now)[0], eventId);
      r == Post(eventId, UpdatePayload("Untitled Update", None, [], Prefix(now, 16)))
  {
    var u := AddUpdate(updates, now)[0];
    assert Filter(u.links, NonBlank) == [];
  }

  /** An update whose id is 0 counts as unsaved and is posted again. */
  lemma ZeroIdPosted(u: Update, eventId: string)
    requires u.id == Some(0)
    ensures RequestFor(u, eventId).Post?
  {
  }
}

=== FILE: lists.dfy ===
/**
 * `Array.prototype.filter` and the single-position edits the pages make on their
 * lists (replace one element, drop one element), with the facts the pages rely on.
 */
module Lists {

  /** The elements of `xs` that satisfy `p`, in their order in `xs`. */
  function Filter<T(!new)>(xs: seq<T>, p: T -> bool): (r: seq<T>)
    ensures |r| <= |xs|
    ensures forall x :: x in r <==> x in xs && p(x)
    ensures forall i :: 0 <= i < |r| ==> p(r[i])
  {
    if xs == [] then []
    else
      var rest := Filter(xs[1..], p);
      assert forall x :: x in xs <==> x == xs[0] || x in xs[1..];
      if p(xs[0]) then [xs[0]] + rest else rest
  }

  /** Filtering keeps order: it distributes over concatenation. */
  lemma {:induction false} FilterConcat<T(!new)>(xs: seq<T>, ys: seq<T>, p: T -> bool)
    ensures Filter(xs + ys, p) == Filter(xs, p) + Filter(ys, p)
  {
    if xs == [] {
      assert xs + ys == ys;
    } else {
      assert (xs + ys)[1..] == xs[1..] + ys;
      FilterConcat(xs[1..], ys, p);
    }
  }

  /** A list every element of which passes is kept whole. */
  lemma {:induction false} FilterAll<T(!new)>(xs: seq<T>, p: T -> bool)
    requires forall i :: 0 <= i < |xs| ==> p(xs[i])
    ensures Filter(xs, p) == xs
  {
    if xs != [] {
      FilterAll(xs[1..], p);
    }
  }

  /** Filtering twice by the same test is filtering once. */
  lemma FilterIdempotent<T(!new)>(xs: seq<T>, p: T -> bool)
    ensures Filter(Filter(xs, p), p) == Filter(xs, p)
  {
    FilterAll(Filter(xs, p), p);
  }

  /** `xs.map((x, idx) => idx === i ? y : x)`. */
  function ReplaceAt<T>(xs: seq<T>, i: nat, y: T): (r: seq<T>)
    ensures |r| == |xs|
    ensures forall j :: 0 <= j < |xs| ==> r[j] == if j == i then y else xs[j]
  {
    seq(|xs|, j requires 0 <= j < |xs| => if j == i then y else xs[j])
  }

  /** `xs.filter((_, idx) => idx !== i)`. */
  function RemoveAt<T>(xs: seq<T>, i: nat): (r: seq<T>)
    ensures i < |xs| ==> |r| == |xs| - 1 && r == xs[..i] + xs[i + 1..]
    ensures i >= |xs| ==> r == xs
  {
    if i < |xs| then xs[..i] + xs[i + 1..] else xs
  }

  /** After removing position `i`, position `j` holds what was at `j` before `i`
      and at `j + 1` from `i` on. */
  lemma RemoveAtShift<T>(xs: seq<T>, i: nat, j: nat)
    requires i < |xs| && j < |xs| - 1
    ensures RemoveAt(xs, i)[j] == if j < i then xs[j] else xs[j + 1]
  {
  }
}

=== FILE: pg_date.dfy ===
/**
 * How PostgreSQL reads the text bound to a `DATE` column or compared with one
 * (`event_start_date`, `event_end_date`, `session_date`): white space around the
 * value is skipped, the year-month-day form with a four-digit year and one- or
 * two-digit month and day is read, and the value is stored and given back in the
 * `YYYY-MM-DD` form. Text that is not a date is refused with SQLSTATE 22007, and
 * year-month-day fields that name no calendar day with 22008.
 */
module PgDate {
  import opened Wrappers
  import opened Text
  import opened CivilDate
  import opened Rows
  import opened ErrorMiddleware

  /** The text without its trailing white space. */
  function PgTrimEnd(s: string): (r: string)
    ensures |r| <= |s| && r == s[..|r|]
    ensures r == [] || !PgSpace(r[|r| - 1])
  {
    if |s| > 0 && PgSpace(s[|s| - 1]) then PgTrimEnd(s[..|s| - 1]) else s
  }

  /** A month or day field: one or two digits. */
  predicate ShortField(f: string) {
    1 <= |f| <= 2 && AllDigits(f)
  }

  /** The fields of `YYYY-M-D` (month and day of one or two digits), or `None` when
      the text has another shape. */
  function DateFields(u: string): (r: Option<Date>)
    ensures r.Some? ==> 0 <= r.value.year <= 9999
  {
    if |u| < 8 || u[4] != '-' || !AllDigits(u[..4]) then None
    else
      var rest := u[5..];
      var mLen := if rest[1] == '-' then 1 else 2;
      if |rest| <= mLen + 1 || rest[mLen] != '-' then None
      else
        var m, d := rest[..mLen], rest[mLen + 1..];
        if ShortField(m) && ShortField(d) then
          PadDigitsOfValue(u[..4]);
          assert Pow10(4) == 10000;
          Some(Date(DigitsValue(u[..4]), DigitsValue(m), DigitsValue(d)))
        else None
  }

  /** The fields of the text with its surrounding white space skipped. */
  function TrimmedFields(text: string): Option<Date> {
    DateFields(PgTrimEnd(PgTrimStart(text)))
  }

  /** The stored `YYYY-MM-DD` form of a date input, or `None` when PostgreSQL refuses
      it. What comes back always reads as a day from year 1 on. */
  function PgDateInput(text: string): (r: Option<string>)
    ensures r.Some? ==> ParseIso(r.value).Some? && ParseIso(r.value).value.year >= 1
    ensures r.Some? <==> (TrimmedFields(text).Some? && Valid(TrimmedFields(text).value)
      && TrimmedFields(text).value.year >= 1)
  {
    var f := TrimmedFields(text);
    if f.Some? && Valid(f.value) && f.value.year >= 1 then
      ParseFormat(f.value);
      Some(FormatIso(f.value))
    else None
  }

  /** The driver's error for date text that is not a date (SQLSTATE 22007). */
  function DateSyntaxError(text: string): (e: Thrown)
    ensures e.Failure? && !e.isOperational && e.code == Some("22007")
    ensures forall production :: HandleError(e, production).status == 500
  {
    Failure("invalid input syntax for type date: \"" + text + "\"", None, false, Some("22007"), None)
  }

  /** The driver's error for year-month-day fields that name no day (SQLSTATE 22008). */
  function DateRangeError(text: string): (e: Thrown)
    ensures e.Failure? && !e.isOperational && e.code == Some("22008")
    ensures forall production :: HandleError(e, production).status == 500
  {
    Failure("date/time field value out of range: \"" + text + "\"", None, false, Some("22008"), None)
  }

  /** The error raised for a refused date input: out of range when the fields were
      read but name no day, a syntax error otherwise; both are answered 500. */
  function DateInputError(text: string): (e: Thrown)
    ensures e == DateRangeError(text) || e == DateSyntaxError(text)
    ensures e.code == Some("22008") <==> TrimmedFields(text).Some?
  {
    if TrimmedFields(text).Some? then DateRangeError(text) else DateSyntaxError(text)
  }

  /** The first text among the given date `columns` of `data` that PostgreSQL
      refuses, in the order of the columns. */
  function FirstBadDate(data: map<string, Value>, columns: seq<string>): (r: Option<string>)
    ensures r.Some? ==> (PgDateInput(r.value).None?
      && exists c :: c in columns && c in data && data[c] == Str(r.value))
    ensures r.None? ==> forall c :: c in columns && c in data && data[c].Str? ==> PgDateInput(data[c].s).Some?
  {
    if |columns| == 0 then None
    else
      var c := columns[0];
      if c in data && data[c].Str? && PgDateInput(data[c].s).None? then Some(data[c].s)
      else FirstBadDate(data, columns[1..])
  }

  /** `data` as stored: each date text of `columns` that PostgreSQL reads is replaced
      by its `YYYY-MM-DD` form; every other value is kept. */
  function StoredDates(data: map<string, Value>, columns: seq<string>): (r: map<string, Value>)
    ensures r.Keys == data.Keys
    ensures forall c :: c in data && c !in columns ==> r[c] == data[c]
    ensures forall c :: c in data && c in columns && data[c].Str? && PgDateInput(data[c].s).Some? ==>
      r[c] == Str(PgDateInput(data[c].s).value) && ParseIso(r[c].s).Some?
  {
    map c | c in data ::
      if c in columns && data[c].Str? && PgDateInput(data[c].s).Some? then Str(PgDateInput(data[c].s).value)
      else data[c]
  }

  // ----- properties -----

  /** A date already in the `YYYY-MM-DD` form is stored unchanged. */
  lemma PgDateOfIso(s: string)
    requires ParseIso(s).Some? && ParseIso(s).value.year >= 1
    ensures PgDateInput(s) == Some(s)
  {
    assert IsIsoShape(s);
    assert !PgSpace(s[0]) && !PgSpace(s[9]);
    assert PgTrimStart(s) == s;
    assert PgTrimEnd(s) == s;
    var rest := s[5..];
    assert rest[1] == s[6] && rest[2] == s[7];
    assert rest[..2] == s[5..7] && rest[3..] == s[8..];
    assert DateFields(s) == ParseIso(s);
    FormatParse(s);
  }

  /** Text with no digit at all (the empty text, a word such as "tbd") is refused
      as a syntax error. */
  lemma PgDateRefusesDigitless(s: string)
    requires forall i :: 0 <= i < |s| ==> !IsDigit(s[i])
    ensures PgDateInput(s).None?
    ensures DateInputError(s) == DateSyntaxError(s)
  {
    DigitlessFields(s);
  }

  lemma DigitlessFields(s: string)
    requires forall i :: 0 <= i < |s| ==> !IsDigit(s[i])
    ensures TrimmedFields(s).None?
  {
    var t := PgTrimStart(s);
    var u := PgTrimEnd(t);
    if |u| > 0 {
      assert u[0] == t[0] == s[|s| - |t|];
    }
    FieldsStartWithDigit(u);
  }

  /** The fields begin with the year's first digit. */
  lemma FieldsStartWithDigit(u: string)
    requires u == [] || !IsDigit(u[0])
    ensures DateFields(u).None?
  {
    if |u| >= 8 {
      assert !AllDigits(u[..4]) by { assert u[..4][0] == u[0]; }
    }
  }

  /** A one-digit month is read and stored with its leading zero: "2026-3-16" is
      stored as "2026-03-16". */
  lemma PgDateUnpaddedMonth(y: string, m: char, d: string)
    requires |y| == 4 && AllDigits(y) && IsDigit(m) && |d| == 2 && AllDigits(d)
    requires Valid(Date(DigitsValue(y), DigitValue(m), DigitsValue(d))) && DigitsValue(y) >= 1
    ensures PgDateInput(y + "-" + [m] + "-" + d) == Some(y + "-" + ['0', m] + "-" + d)
  {
    var s := y + "-" + [m] + "-" + d;
    var day := Date(DigitsValue(y), DigitValue(m), DigitsValue(d));
    UnpaddedFields(y, m, d);
    assert PgDateInput(s) == Some(FormatIso(day));
    var z := ['0', m];
    LeadingZero(m);
    FormatOfDigits(y, z, d);
  }

  lemma UnpaddedFields(y: string, m: char, d: string)
    requires |y| == 4 && AllDigits(y) && IsDigit(m) && |d| == 2 && AllDigits(d)
    ensures TrimmedFields(y + "-" + [m] + "-" + d) == Some(Date(DigitsValue(y), DigitValue(m), DigitsValue(d)))
  {
    var s := y + "-" + [m] + "-" + d;
    assert !PgSpace(s[0]) && !PgSpace(s[8]);
    assert PgTrimStart(s) == s;
    assert PgTrimEnd(s) == s;
    assert s[..4] == y && s[5] == m && s[7..] == d;
    ShortMonthFields(s);
  }

  /** `YYYY-M-DD` is read field by field. */
  lemma ShortMonthFields(u: string)
    requires |u| == 9 && u[4] == '-' && u[6] == '-' && AllDigits(u[..4]) && IsDigit(u[5]) && AllDigits(u[7..])
    ensures DateFields(u) == Some(Date(DigitsValue(u[..4]), DigitValue(u[5]), DigitsValue(u[7..])))
  {
    var rest := u[5..];
    assert rest[1] == '-' && rest[..1] == [u[5]] && rest[2..] == u[7..];
    assert DigitsValue([u[5]]) == DigitValue(u[5]);
  }

  lemma LeadingZero(m: char)
    requires IsDigit(m)
    ensures AllDigits(['0', m]) && DigitsValue(['0', m]) == DigitValue(m)
  {
    var z := ['0', m];
    assert z[..1] == ['0'] && ['0'][..0] == [];
    assert DigitsValue(['0']) == 0;
  }

  /** Fields that name no day are refused with 22008: "2026-02-30", say. */
  lemma PgDateRefusesNonDay(s: string)
    requires ParseIso(s).None? && IsIsoShape(s)
    ensures PgDateInput(s).None?
    ensures DateInputError(s) == DateRangeError(s)
  {
    assert !PgSpace(s[0]) && !PgSpace(s[9]);
    assert PgTrimStart(s) == s;
    assert PgTrimEnd(s) == s;
    var rest := s[5..];
    assert rest[1] == s[6] && rest[2] == s[7];
    assert rest[..2] == s[5..7] && rest[3..] == s[8..];
  }
}

=== FILE: profile_page.dfy ===
/**
 * The attendee's department selection on the profile page
 * (pwa/src/pages/ProfilePage.tsx): reading the stored department text into a
 * selection, writing a selection back, and the toggle that keeps "ALL"
 * exclusive.
 */
module ProfilePage {
  import opened Wrappers
  import opened Text
  import opened Lists
  import Visibility

  /** A row of `GET /app/departments`. */
  datatype Department = Department(id: int, name: string)

  /** `parseDepartmentValue`: nothing for a missing or empty value, `["ALL"]` for
      "ALL" in any letter case, and otherwise the trimmed non-empty comma pieces. */
  function ParseDepartmentValue(val: Option<string>): (r: seq<string>)
    ensures val == None || val == Some("") ==> r == []
    ensures val.Some? && val.value != "" && Upper(val.value) == "ALL" ==> r == ["ALL"]
    ensures val.Some? && Upper(val.value) != "ALL" ==> forall k :: 0 <= k < |r| ==> Visibility.ListableName(r[k])
    ensures val.Some? && val.value != "" && Upper(val.value) != "ALL" ==>
      r == Visibility.TrimmedNonEmpty(Split(val.value, ','))
  {
    if val.None? || val.value == "" then []
    else if Upper(val.value) == "ALL" then ["ALL"]
    else Visibility.ParseDepartments(val).departments
  }

  /** `serializeDepartments`: "ALL" whenever the selection holds it, otherwise the
      names joined by ','. */
  function SerializeDepartments(selected: seq<string>): (r: string)
    ensures "ALL" in selected ==> r == "ALL"
  {
    if "ALL" in selected then "ALL" else Join(selected, ",")
  }

  /** The selection never holds "ALL" beside another name. */
  predicate AllExclusive(selected: seq<string>) {
    "ALL" in selected ==> selected == ["ALL"]
  }

  /** The new selection after clicking `name`. "ALL" switches between everything and
      nothing; any other name drops "ALL" and flips that name. */
  function Toggled(prev: seq<string>, name: string): (r: seq<string>)
    ensures name == "ALL" ==> r == (if "ALL" in prev then [] else ["ALL"])
    ensures name != "ALL" ==> "ALL" !in r && (name in r <==> name !in prev)
    ensures name != "ALL" ==> forall d :: d != name && d != "ALL" ==> (d in r <==> d in prev)
  {
    if name == "ALL" then (if "ALL" in prev then [] else ["ALL"])
    else
      var withoutAll := Filter(prev, d => d != "ALL");
      if name in withoutAll then Filter(withoutAll, d => d != name) else withoutAll + [name]
  }

  /** The value `handleSave` sends: `null` for an empty selection. */
  function SaveValue(selected: seq<string>): (r: Option<string>)
    ensures r.None? <==> selected == []
    ensures "ALL" in selected ==> r == Some("ALL")
  {
    if |selected| > 0 then Some(SerializeDepartments(selected)) else None
  }

  /** `deptOptions`: the departments not named "ALL" in any letter case, in order. */
  function DeptOptions(departments: seq<Department>): (r: seq<Department>)
    ensures forall d :: d in r <==> d in departments && Upper(d.name) != "ALL"
  {
    Filter(departments, (d: Department) => Upper(d.name) != "ALL")
  }

  /** The page's selection state. */
  class Selection {
    /** `selectedDepts`. */
    var selected: seq<string>
    /** `saveSuccess`. */
    var saveSuccess: bool

    constructor ()
      ensures selected == [] && !saveSuccess
    {
      selected, saveSuccess := [], false;
    }

    /** The effect that loads the profile: a non-empty department replaces the
        selection, anything else leaves it alone. */
    method LoadProfile(department: Option<string>)
      modifies this`selected
      ensures department.Some? && department.value != "" ==> selected == ParseDepartmentValue(department)
      ensures department.None? || department.value == "" ==> selected == old(selected)
    {
      if department.Some? && department.value != "" {
        selected := ParseDepartmentValue(department);
      }
    }

    /** `toggleDept`: clears the saved mark and updates the selection. */
    method ToggleDept(name: string)
      modifies this
      ensures selected == Toggled(old(selected), name) && !saveSuccess
      ensures AllExclusive(selected)
    {
      saveSuccess := false;
      selected := Toggled(selected, name);
      ToggleKeepsAllExclusive(old(selected), name);
    }
  }

  // ----- properties -----

  /** Whatever came before, a toggle leaves "ALL" exclusive. */
  lemma ToggleKeepsAllExclusive(prev: seq<string>, name: string)
    ensures AllExclusive(Toggled(prev, name))
  {
  }

  /** A name not yet selected is appended at the end (after dropping "ALL"), and
      clicking it again takes it out. */
  lemma ToggleAppendsThenRemoves(prev: seq<string>, name: string)
    requires name != "ALL" && name !in prev
    ensures Toggled(prev, name) == Filter(prev, d => d != "ALL") + [name]
    ensures Toggled(Toggled(prev, name), name) == Filter(prev, d => d != "ALL")
  {
    var w := Filter(prev, d => d != "ALL");
    assert name !in w;
    var once := w + [name];
    assert Filter(once, d => d != "ALL") == once by {
      FilterAll(once, d => d != "ALL");
    }
    FilterConcat(w, [name], d => d != name);
    FilterAll(w, d => d != name);
    assert Filter([name], d => d != name) == [];
  }

  /** The page reads a stored value exactly as the backend does: "ALL" stands for
      every department and any other text for its listed names. */
  lemma AgreesWithBackend(val: Option<string>)
    ensures var scope := Visibility.ParseDepartments(val);
      ParseDepartmentValue(val) == if scope.isAll then ["ALL"] else scope.departments
  {
  }

  /** Writing a selection of listable names other than "ALL", whose joined text
      does not read as "ALL", and reading it back gives it again. */
  lemma SerializeRoundTrip(xs: seq<string>)
    requires "ALL" !in xs
    requires forall k :: 0 <= k < |xs| ==> Visibility.ListableName(xs[k])
    requires Upper(Join(xs, ",")) != "ALL"
    ensures ParseDepartmentValue(Some(SerializeDepartments(xs))) == xs
  {
    var text := Join(xs, ",");
    assert SerializeDepartments(xs) == text;
    if xs != [] {
      Visibility.JoinNonEmpty(xs, ",");
      Visibility.ParseJoined(xs);
      assert ParseDepartmentValue(Some(text)) == Visibility.ParseDepartments(Some(text)).departments;
    }
  }

  /** `["ALL"]` is written as "ALL" and read back as `["ALL"]`. */
  lemma SerializeAllRoundTrip(xs: seq<string>)
    requires xs == ["ALL"]
    ensures ParseDepartmentValue(Some(SerializeDepartments(xs))) == xs
  {
    assert "ALL" in xs;
    assert Upper("ALL") == "ALL";
  }

  /** A department spelled "All" does not survive the round trip: it reads back as
      every department. */
  lemma LowerCaseAllReadsAsEverything()
    ensures ParseDepartmentValue(Some(SerializeDepartments(["All"]))) == ["ALL"]
  {
    var xs := ["All"];
    assert "ALL" !in xs by { assert "All" != "ALL" by { assert "All"[1] != "ALL"[1]; } }
    assert Join(xs, ",") == "All";
    var text := SerializeDepartments(xs);
    assert text == "All";
    assert Upper(text) == "ALL";
  }

  /** What is saved reads back as the selection, for any selection a toggle can
      produce from listable names. */
  lemma SaveRoundTrip(selected: seq<string>)
    requires AllExclusive(selected)
    requires "ALL" !in selected ==>
      (forall k :: 0 <= k < |selected| ==> Visibility.ListableName(selected[k])) && Upper(Join(selected, ",")) != "ALL"
    ensures ParseDepartmentValue(SaveValue(selected)) == selected
  {
    if selected == ["ALL"] {
      SerializeAllRoundTrip(selected);
    } else if selected != [] {
      SerializeRoundTrip(selected);
    }
  }
}

=== FILE: pwa_api.dfy ===
/**
 * The attendee app's in-memory demo API (pwa/src/config/api.ts): URL patterns
 * tried in order, a mutable set of favourite session ids, and session listings
 * stamped with `is_favourite` from that set. The static fixtures are given to
 * the API when it is created.
 */
module PwaApi {
  import opened Wrappers
  import opened Text
  import opened Rows
  import opened Lists

  /** The fixtures a route answers with verbatim. */
  datatype Fixture = User | PublishedEvents | Event | Days | Updates | Departments | Profile

  /** The `data` of an `ok(...)` answer. */
  datatype Reply =
    | Static(fixture: Fixture)
    | Sessions(rows: seq<Row>)
    | Favourites(rows: seq<Row>)
    | Message(text: string)
    | LoginReply
    | Merged(row: Row)
    | NullReply

  /** What `localStorage` holds under `demo_favourites`: nothing (or the empty
      string), text that is not a JSON list, or a list of ids. */
  datatype Saved = Nothing | Unreadable | Ids(ids: seq<int>)

  const InitialFavouriteIds: set<int> := {2, 8, 15, 22}

  /** The columns `GET /app/favourites` copies from each session. */
  const FavouriteColumns: set<string> := {
    "id", "session_name", "session_description", "session_date", "session_start_time",
    "session_end_time", "session_tag", "session_location", "timezone", "department",
    "event_slug", "event_name"}

  /** `loadFavourites`: the saved ids, or the initial set when nothing usable is saved. */
  function LoadFavourites(saved: Saved): (r: set<int>)
    ensures saved.Ids? ==> forall x :: x in r <==> x in saved.ids
    ensures !saved.Ids? ==> r == InitialFavouriteIds
  {
    if saved.Ids? then set x | x in saved.ids else InitialFavouriteIds
  }

  // ----- URL patterns -----

  /** `/^\/app\/events\/[^/]+$/`. */
  predicate IsEventPath(url: string) {
    StartsWith(url, "/app/events/") && |url| > 12 && '/' !in url[12..]
  }

  /** The longest prefix of `s` without `c`. */
  function Before(s: string, c: char): (r: string)
    ensures r <= s && c !in r
    ensures |r| < |s| ==> s[|r|] == c
  {
    if s == [] || s[0] == c then []
    else
      var rest := Before(s[1..], c);
      assert forall x :: x in [s[0]] + rest ==> x == s[0] || x in rest;
      [s[0]] + rest
  }

  /** "date=" starts at `i` and is followed by a character other than '&'. */
  predicate DateAt(url: string, i: nat) {
    i + 5 < |url| && url[i..i + 5] == "date=" && url[i + 5] != '&'
  }

  /** Where the regular expression `/date=([^&]+)/` first matches, searching from
      `from`. */
  function DateIndex(url: string, from: nat): (r: Option<nat>)
    ensures r.Some? ==> from <= r.value && DateAt(url, r.value) && forall j :: from <= j < r.value ==> !DateAt(url, j)
    ensures r.None? ==> forall j :: from <= j ==> !DateAt(url, j)
    decreases |url| - from
  {
    if from + 5 >= |url| then None
    else if DateAt(url, from) then Some(from)
    else DateIndex(url, from + 1)
  }

  /** The group of `url.match(/date=([^&]+)/)`: the run of characters other than
      '&' after the first match. */
  function DateParam(url: string): (r: Option<string>)
    ensures r.Some? ==> |r.value| >= 1 && '&' !in r.value
    ensures r.None? <==> forall j :: !DateAt(url, j)
  {
    match DateIndex(url, 0)
    case None => None
    case Some(i) => Some(Before(url[i + 5..], '&'))
  }

  /** `/^\/app\/favourites\/(\d+)$/` and `Number` of its group. */
  function FavouritePath(url: string): (r: Option<nat>)
    ensures r.Some? <==> StartsWith(url, "/app/favourites/") && |url| > 16 && AllDigits(url[16..])
    ensures r.Some? ==> r.value == DigitsValue(url[16..])
  {
    if StartsWith(url, "/app/favourites/") && |url| > 16 && AllDigits(url[16..])
    then Some(DigitsValue(url[16..]))
    else None
  }

  // ----- listings -----

  /** `favouriteIds.has(s.id)`. */
  predicate IsFavourite(s: Row, favs: set<int>) {
    "id" in s && s["id"].Int? && s["id"].i in favs
  }

  /** `{ ...s, is_favourite: favouriteIds.has(s.id) }`. */
  function Stamp(s: Row, favs: set<int>): (r: Row)
    ensures r.Keys == s.Keys + {"is_favourite"}
    ensures forall c :: c in s && c != "is_favourite" ==> r[c] == s[c]
    ensures "is_favourite" in r && r["is_favourite"] == Bool(IsFavourite(s, favs))
  {
    s["is_favourite" := Bool(IsFavourite(s, favs))]
  }

  function StampAll(xs: seq<Row>, favs: set<int>): (r: seq<Row>)
    ensures |r| == |xs| && forall i :: 0 <= i < |xs| ==> r[i] == Stamp(xs[i], favs)
  {
    seq(|xs|, i requires 0 <= i < |xs| => Stamp(xs[i], favs))
  }

  predicate DatedOn(d: string, s: Row) {
    TextIs(s, "session_date", d)
  }

  /** `STATIC_SESSIONS.filter((s) => s.session_date === date)`. */
  function OnDate(xs: seq<Row>, d: string): (r: seq<Row>)
    ensures forall s :: s in r <==> s in xs && DatedOn(d, s)
  {
    Filter(xs, s => DatedOn(d, s))
  }

  predicate Flagged(s: Row) {
    "is_favourite" in s && s["is_favourite"] == Bool(true)
  }

  /** `GET /app/favourites`: the favourite sessions, in fixture order, cut down to
      the favourite columns. */
  function FavouriteList(xs: seq<Row>, favs: set<int>): (r: seq<Row>)
    ensures |r| <= |xs|
    ensures forall i :: 0 <= i < |r| ==> r[i].Keys <= FavouriteColumns && IsFavourite(r[i], favs)
  {
    if xs == [] then []
    else
      var rest := FavouriteList(xs[1..], favs);
      if IsFavourite(xs[0], favs) then [Project(xs[0], FavouriteColumns)] + rest else rest
  }

  class MockApi {
    /** `favouriteIds`. */
    var favouriteIds: set<int>
    /** `STATIC_SESSIONS`. */
    const sessions: seq<Row>
    /** `STATIC_PROFILE`. */
    const profile: Row

    constructor (sessions: seq<Row>, profile: Row, saved: Saved)
      ensures this.sessions == sessions && this.profile == profile
      ensures favouriteIds == LoadFavourites(saved)
    {
      this.sessions := sessions;
      this.profile := profile;
      favouriteIds := LoadFavourites(saved);
    }

    /** `api.get(url)`: the first pattern that matches decides; an unmatched URL
        answers `null`. */
    function Get(url: string): (r: Reply)
      reads this
      ensures r.Static? || r.Sessions? || r.Favourites? || r.NullReply?
      ensures r.Sessions? ==> (|r.rows| <= |sessions| &&
        forall i :: 0 <= i < |r.rows| ==>
          ("is_favourite" in r.rows[i] && r.rows[i]["is_favourite"] == Bool(IsFavourite(r.rows[i], favouriteIds))))
      ensures r.Favourites? ==> forall i :: 0 <= i < |r.rows| ==> IsFavourite(r.rows[i], favouriteIds)
    {
      var favs := favouriteIds;
      if url == "/auth/me" then Static(User)
      else if url == "/app/events" then Static(PublishedEvents)
      else if IsEventPath(url) then Static(Event)
      else if EndsWith(url, "/days") then Static(Days)
      else if Contains(url, "/sessions?") then
        var listed := match DateParam(url) case Some(d) => OnDate(sessions, d) case None => sessions;
        Sessions(StampAll(listed, favs))
      else if EndsWith(url, "/sessions") then Sessions(StampAll(sessions, favs))
      else if EndsWith(url, "/updates") then Static(Updates)
      else if url == "/app/favourites" then Favourites(FavouriteList(sessions, favs))
      else if url == "/app/departments" then Static(Departments)
      else if url == "/app/profile" then Static(Profile)
      else NullReply
    }

    /** `api.post(url)`: log in, or add a favourite; adding one twice is adding it
        once. */
    method Post(url: string) returns (r: Reply)
      modifies this
      ensures url == "/auth/login" ==> r == LoginReply && favouriteIds == old(favouriteIds)
      ensures url != "/auth/login" && FavouritePath(url).Some? ==>
        r == Message("Added") && favouriteIds == old(favouriteIds) + {FavouritePath(url).value}
      ensures url != "/auth/login" && FavouritePath(url).None? ==> r == NullReply && favouriteIds == old(favouriteIds)
      ensures FavouritePath(url).Some? && FavouritePath(url).value in old(favouriteIds) ==> favouriteIds == old(favouriteIds)
    {
      if url == "/auth/login" {
        return LoginReply;
      }
      var id := FavouritePath(url);
      if id.Some? {
        favouriteIds := favouriteIds + {id.value};
        return Message("Added");
      }
      r := NullReply;
    }

    /** `api.delete(url)`: remove a favourite; an id that is not there is removed
        without complaint. */
    method Delete(url: string) returns (r: Reply)
      modifies this
      ensures FavouritePath(url).Some? ==>
        r == Message("Removed") && favouriteIds == old(favouriteIds) - {FavouritePath(url).value}
      ensures FavouritePath(url).Some? && FavouritePath(url).value !in old(favouriteIds) ==> favouriteIds == old(favouriteIds)
      ensures FavouritePath(url).None? ==> r == NullReply && favouriteIds == old(favouriteIds)
    {
      var id := FavouritePath(url);
      if id.Some? {
        favouriteIds := favouriteIds - {id.value};
        return Message("Removed");
      }
      r := NullReply;
    }

    /** `api.patch(url, data)`: the profile with `data` laid over it. */
    function Patch(url: string, data: Row): (r: Reply)
      reads this
      ensures url == "/app/profile" ==> (r.Merged? && r.row.Keys == profile.Keys + data.Keys
        && forall c :: c in r.row ==> r.row[c] == if c in data then data[c] else profile[c])
      ensures url != "/app/profile" ==> r == NullReply
    {
      if url == "/app/profile" then Merged(profile + data) else NullReply
    }

    /** `api.put(url)`: no route. */
    function Put(url: string): (r: Reply)
      ensures r == NullReply
    {
      NullReply
    }
  }

  // ----- properties -----

  /** Stamping does not touch `session_date`, so the listing for `?date=D` is the
      full listing filtered to day D, in fixture order. */
  lemma {:induction false} DateFilterCommutes(xs: seq<Row>, favs: set<int>, d: string)
    ensures StampAll(OnDate(xs, d), favs) == OnDate(StampAll(xs, favs), d)
  {
    if xs != [] {
      DateFilterCommutes(xs[1..], favs, d);
      assert StampAll(xs, favs)[1..] == StampAll(xs[1..], favs);
      assert DatedOn(d, Stamp(xs[0], favs)) == DatedOn(d, xs[0]);
    }
  }

  /** The favourites list is the listing's flagged sessions, in the same order, cut
      down to the favourite columns. */
  lemma {:induction false} FavouritesAreFlagged(xs: seq<Row>, favs: set<int>)
    ensures FavouriteList(xs, favs) == ProjectAll(Filter(StampAll(xs, favs), Flagged))
  {
    if xs != [] {
      var ys := StampAll(xs, favs);
      var s := ys[0];
      assert ys[1..] == StampAll(xs[1..], favs);
      FavouritesAreFlagged(xs[1..], favs);
      StampProjected(xs[0], favs);
      var head := if Flagged(s) then [s] else [];
      assert Filter(ys, Flagged) == head + Filter(ys[1..], Flagged);
      ProjectAllConcat(head, Filter(ys[1..], Flagged));
    }
  }

  /** Stamping a session flags it exactly when it is a favourite, and leaves its
      favourite columns as they were. */
  lemma StampProjected(x: Row, favs: set<int>)
    ensures Flagged(Stamp(x, favs)) == IsFavourite(x, favs)
    ensures Project(Stamp(x, favs), FavouriteColumns) == Project(x, FavouriteColumns)
  {
    assert "is_favourite" !in FavouriteColumns;
  }

  function ProjectAll(xs: seq<Row>): (r: seq<Row>)
    ensures |r| == |xs| && forall i :: 0 <= i < |xs| ==> r[i] == Project(xs[i], FavouriteColumns)
  {
    seq(|xs|, i requires 0 <= i < |xs| => Project(xs[i], FavouriteColumns))
  }

  lemma ProjectAllConcat(xs: seq<Row>, ys: seq<Row>)
    ensures ProjectAll(xs + ys) == ProjectAll(xs) + ProjectAll(ys)
  {
  }

  /** Patterns are tried in order: a slug spelled "days" reaches the event route
      before the days route can. */
  lemma EventRouteFirst(api: MockApi)
    ensures api.Get("/app/events/days") == Static(Event)
  {
    var url := "/app/events/days";
    assert url[..12] == "/app/events/" && url[12..] == "days";
    assert url != "/auth/me" && url != "/app/events" by { assert |url| == 16; }
    assert IsEventPath(url);
  }

  /** A days URL below a slug reaches the days route. */
  lemma DaysRoute(api: MockApi)
    ensures api.Get("/app/events/spring/days") == Static(Days)
  {
    assert "/app/events/spring/days"[12..] == "spring/days";
    assert "/app/events/spring/days"[18..] == "/days";
  }

  /** Every pattern has a '/', so a URL without one answers `null`. */
  lemma UnmatchedRoute(api: MockApi, url: string)
    requires '/' !in url
    ensures api.Get(url) == NullReply
  {
    assert url != "/auth/me" && url != "/app/events" && url != "/app/favourites"
      && url != "/app/departments" && url != "/app/profile" by {
      assert "/auth/me"[0] == '/' && "/app/events"[0] == '/' && "/app/favourites"[0] == '/';
      assert "/app/departments"[0] == '/' && "/app/profile"[0] == '/';
    }
    assert !IsEventPath(url) by {
      if |url| > 0 { assert url[0] in url; }
    }
    assert !Contains(url, "/sessions?") by {
      if Contains(url, "/sessions?") { ContainsChars(url, "/sessions?", '/'); }
    }
    assert !EndsWith(url, "/days") && !EndsWith(url, "/sessions") && !EndsWith(url, "/updates") by {
      if |url| >= 5 { assert url[|url| - 5] in url; }
      if |url| >= 9 { assert url[|url| - 9] in url; }
      if |url| >= 8 { assert url[|url| - 8] in url; }
    }
  }

  /** The favourite path takes a decimal id, leading zeros included, and nothing
      else. */
  lemma FavouritePathExamples()
    ensures FavouritePath("/app/favourites/007") == Some(7)
    ensures FavouritePath("/app/favourites/") == None && FavouritePath("/app/favourites/x1") == None
  {
    assert "/app/favourites/007"[16..] == "007";
    assert "007"[..2] == "00" && "00"[..1] == "0" && "0"[..0] == "";
    assert "/app/favourites/x1"[16..] == "x1" && !IsDigit("x1"[0]);
  }

  /** A session listing URL whose `date=` match is `d` lists the fixture sessions of
      day `d`, in fixture order, each stamped from the favourite set. */
  lemma DatedSessionsRoute(api: MockApi, slug: string, d: string)
    requires slug != "" && '/' !in slug && '/' !in d
    requires DateParam("/app/events/" + slug + "/sessions?date=" + d) == Some(d)
    ensures api.Get("/app/events/" + slug + "/sessions?date=" + d) == Sessions(StampAll(OnDate(api.sessions, d), api.favouriteIds))
  {
    DatedUrlShape(slug, d);
    DatedUrlNotDays(slug, d);
    DatedUrlContains(slug, d);
  }

  lemma DatedUrlShape(slug: string, d: string)
    requires slug != "" && '/' !in slug
    ensures var url := "/app/events/" + slug + "/sessions?date=" + d;
      url != "/auth/me" && url != "/app/events" && !IsEventPath(url)
  {
    assert "/app/events/" + slug + "/sessions?date=" + d == ("/app/events/" + slug) + ("/sessions?date=" + d);
    SessionsUrlShape("/app/events/" + slug, "/sessions?date=" + d, slug);
  }

  lemma DatedUrlNotDays(slug: string, d: string)
    requires '/' !in d
    ensures !EndsWith("/app/events/" + slug + "/sessions?date=" + d, "/days")
  {
    var url := "/app/events/" + slug + "/sessions?date=" + d;
    var tail := "date=" + d;
    assert url == ("/app/events/" + slug + "/sessions?") + tail;
    assert url[|url| - 5] == tail[|tail| - 5];
    assert '/' !in tail by { assert '/' !in "date="; }
  }

  lemma DatedUrlContains(slug: string, d: string)
    ensures Contains("/app/events/" + slug + "/sessions?date=" + d, "/sessions?")
  {
    ContainsPart("/app/events/" + slug, "/sessions?", "date=" + d);
    assert "/app/events/" + slug + "/sessions?" + ("date=" + d) == "/app/events/" + slug + "/sessions?date=" + d;
  }

  /** The session listing URL without a query lists every fixture session, in
      fixture order, each stamped from the favourite set. */
  lemma SessionsRoute(api: MockApi, slug: string)
    requires slug != "" && '/' !in slug && '?' !in slug
    ensures api.Get("/app/events/" + slug + "/sessions") == Sessions(StampAll(api.sessions, api.favouriteIds))
  {
    var url := "/app/events/" + slug + "/sessions";
    SessionsUrlShape("/app/events/" + slug, "/sessions", slug);
    assert url[|url| - 9..] == "/sessions";
    assert url[|url| - 5..] == "sions";
    assert '?' !in url by {
      assert '?' !in "/app/events/" && '?' !in "/sessions";
    }
    if Contains(url, "/sessions?") {
      ContainsChars(url, "/sessions?", '?');
    }
  }

  /** The favourites URL lists the favourite sessions, cut down to the favourite
      columns. */
  lemma FavouritesRoute(api: MockApi)
    ensures api.Get("/app/favourites") == Favourites(FavouriteList(api.sessions, api.favouriteIds))
  {
    var url := "/app/favourites";
    assert url != "/auth/me" && url != "/app/events" by { assert |url| == 15; }
    assert !StartsWith(url, "/app/events/") by { assert url[5] != "/app/events/"[5]; }
    assert url[10..] == "rites" && url[6..] == "avourites" && url[7..] == "vourites";
    assert !Contains(url, "/sessions?") by {
      assert '?' !in url;
      if Contains(url, "/sessions?") { ContainsChars(url, "/sessions?", '?'); }
    }
    assert !IsEventPath(url) && !EndsWith(url, "/days") && !EndsWith(url, "/sessions") && !EndsWith(url, "/updates");
  }

  /** A URL made of the event path, a non-empty slug without '/', and a suffix that
      starts with '/' is not the event route nor one of the fixed URLs. */
  lemma SessionsUrlShape(head: string, suffix: string, slug: string)
    requires head == "/app/events/" + slug && slug != "" && '/' !in slug
    requires |suffix| > 0 && suffix[0] == '/'
    ensures head + suffix != "/auth/me" && head + suffix != "/app/events" && head + suffix != "/app/favourites"
    ensures !IsEventPath(head + suffix)
  {
    var url := head + suffix;
    assert |url| > 12 && url[..12] == "/app/events/";
    assert url[12..][|slug|] == '/';
    assert url != "/auth/me" && url != "/app/events" by { assert |"/auth/me"| < 12 && |"/app/events"| < 12; }
    assert url != "/app/favourites" by { assert url[5] != "/app/favourites"[5]; }
  }
}

=== FILE: pwa_utils.dfy ===
/**
 * The attendee app's 24-hour to 12-hour clock formatting (pwa/src/lib/utils.ts).
 */
module PwaUtils {
  import opened Wrappers
  import opened Text

  /** JavaScript's `%` with a positive divisor: the remainder keeps the dividend's sign. */
  function JsRem(a: int, b: int): (r: int)
    requires b > 0
    ensures a >= 0 ==> r == a % b
    ensures a < 0 ==> -b < r <= 0 && r == -((-a) % b)
  {
    if a >= 0 then a % b else -((-a) % b)
  }

  /** `h % 12 || 12`: a zero or NaN remainder shows as 12. */
  function Hour12(h: Option<int>): (r: int)
    ensures h.None? ==> r == 12
    ensures h.Some? && h.value >= 0 ==> 1 <= r <= 12 && r % 12 == h.value % 12
  {
    if h.None? then 12
    else
      var x := JsRem(h.value, 12);
      if x == 0 then 12 else x
  }

  /** `h >= 12 ? 'PM' : 'AM'`, where NaN compares false. */
  function Meridiem(h: Option<int>): (r: string)
    ensures r == "PM" || r == "AM"
    ensures r == "PM" <==> h.Some? && h.value >= 12
  {
    if h.Some? && h.value >= 12 then "PM" else "AM"
  }

  /** `${hour12}:${minutes} ${ampm}` for the hour `h` as `parseInt` read it. */
  function Clock12(h: Option<int>, minutes: string): (r: string)
    ensures EndsWith(r, " PM") <==> h.Some? && h.value >= 12
    ensures EndsWith(r, " AM") || EndsWith(r, " PM")
  {
    var head := IntToString(Hour12(h)) + ":" + minutes;
    var tail := " " + Meridiem(h);
    assert (head + tail)[|head + tail| - 3..] == tail;
    assert " AM" != " PM" by { assert " AM"[1] != " PM"[1]; }
    head + tail
  }

  /** `formatTime`: the hour is the first ':' field read by `parseInt`, the minutes are
      the second field copied as they are (`undefined` when there is none). */
  function FormatTime(time: string): (r: string)
    ensures var h := JsParseInt(Split(time, ':')[0]);
      EndsWith(r, " PM") <==> h.Some? && h.value >= 12
  {
    var fields := Split(time, ':');
    Clock12(JsParseInt(fields[0]), if |fields| >= 2 then fields[1] else "undefined")
  }

  /** The 12-hour clock's hour for a 24-hour one: 0 and 12 are 12, 13 is 1. */
  function ClockHour(h: nat): (r: nat)
    requires h < 24
    ensures 1 <= r <= 12
  {
    if h == 0 then 12 else if h <= 12 then h else h - 12
  }

  /** A well-formed time `HH:MM` or `HH:MM:SS...` with hour 0..23 is shown as the
      12-hour clock hour, the minutes text unchanged, and AM before noon, PM after. */
  lemma FormatClockTime(hh: string, mm: string, rest: string)
    requires |hh| >= 1 && AllDigits(hh) && DigitsValue(hh) < 24
    requires ':' !in hh && ':' !in mm
    requires rest == "" || rest[0] == ':'
    ensures FormatTime(hh + ":" + mm + rest)
      == NatToString(ClockHour(DigitsValue(hh))) + ":" + mm + " " + (if DigitsValue(hh) >= 12 then "PM" else "AM")
  {
    var v := DigitsValue(hh);
    SplitFirstTwo(hh, mm, rest, ':');
    JsParseIntOfDigits(hh);
    assert FormatTime(hh + ":" + mm + rest) == Clock12(Some(v), mm);
    ClockText(v, mm);
  }

  /** The text for an hour of the day and a minutes field. */
  lemma ClockText(v: nat, mm: string)
    requires v < 24
    ensures Clock12(Some(v), mm) == NatToString(ClockHour(v)) + ":" + mm + " " + (if v >= 12 then "PM" else "AM")
  {
    ClockHourIsHour12(v);
    assert IntToString(Hour12(Some(v))) == NatToString(ClockHour(v));
    var m := Meridiem(Some(v));
    assert m == if v >= 12 then "PM" else "AM";
    var n := NatToString(ClockHour(v));
    assert Clock12(Some(v), mm) == (n + ":" + mm) + (" " + m);
    assert (n + ":" + mm) + (" " + m) == n + ":" + mm + " " + m;
  }

  /** Two different hours of the day never look alike: the shown hour and the suffix
      give the hour back. */
  lemma ClockHourDistinct(h1: nat, h2: nat)
    requires h1 < 24 && h2 < 24
    requires ClockHour(h1) == ClockHour(h2) && (h1 >= 12 <==> h2 >= 12)
    ensures h1 == h2
  {
  }

  /** `ClockHour` is the source's `h % 12 || 12` on the hours of a day. */
  lemma ClockHourIsHour12(h: nat)
    requires h < 24
    ensures Hour12(Some(h)) == ClockHour(h)
  {
  }

  /** "08:00:00" is shown as "8:00 AM": the seconds are ignored and the hour loses
      its leading zero. */
  lemma MorningExample(t: string)
    requires t == "08:00:00"
    ensures FormatTime(t) == "8:00 AM"
  {
    MorningParts(t, "8:00 AM");
    FormatClockTime("08", "00", ":00");
  }

  /** "00:30" is shown as "12:30 AM". */
  lemma MidnightExample(t: string)
    requires t == "00:30"
    ensures FormatTime(t) == "12:30 AM"
  {
    MidnightParts(t, "12:30 AM");
    FormatClockTime("00", "30", "");
  }

  /** "13:05:00" is shown as "1:05 PM". */
  lemma AfternoonExample(t: string)
    requires t == "13:05:00"
    ensures FormatTime(t) == "1:05 PM"
  {
    AfternoonParts(t, "1:05 PM");
    FormatClockTime("13", "05", ":00");
  }

  /** The pieces of the time "08:00:00" and of its display. */
  lemma MorningParts(t: string, shown: string)
    requires t == "08:00:00" && shown == "8:00 AM"
    ensures t == "08" + ":" + "00" + ":00" && AllDigits("08") && DigitsValue("08") == 8
    ensures shown == NatToString(ClockHour(8)) + ":" + "00" + " " + "AM"
  {
    assert "08"[..1] == "0" && "0"[..0] == "";
    assert NatToString(8) == "8";
  }

  /** The pieces of the time "00:30" and of its display. */
  lemma MidnightParts(t: string, shown: string)
    requires t == "00:30" && shown == "12:30 AM"
    ensures t == "00" + ":" + "30" + "" && AllDigits("00") && DigitsValue("00") == 0
    ensures shown == NatToString(ClockHour(0)) + ":" + "30" + " " + "AM"
  {
    assert "00"[..1] == "0" && "0"[..0] == "";
    assert ClockHour(0) == 12;
    assert DigitChar(1) == '1' && DigitChar(2) == '2';
    assert NatToString(1) == "1";
    assert NatToString(12) == NatToString(12 / 10) + [DigitChar(12 % 10)];
  }

  /** The pieces of the time "13:05:00" and of its display. */
  lemma AfternoonParts(t: string, shown: string)
    requires t == "13:05:00" && shown == "1:05 PM"
    ensures t == "13" + ":" + "05" + ":00" && AllDigits("13") && DigitsValue("13") == 13
    ensures shown == NatToString(ClockHour(13)) + ":" + "05" + " " + "PM"
  {
    assert "13"[..1] == "1" && "1"[..0] == "";
    assert NatToString(1) == "1";
  }
}

=== FILE: quick_links_section.dfy ===
/**
 * The admin dashboard's quick-links editor for one event
 * (admin-dashboard/src/components/events/QuickLinksSection.tsx): every handler
 * computes a new list of links, and saving sends the non-blank ones.
 */
module QuickLinksSection {
  import opened Wrappers
  import opened Text
  import opened Lists

  /** A link as the editor holds it. */
  datatype Link = Link(title: string, url: string)

  /** A stored link as it arrives; a missing field is `None`. */
  datatype StoredLink = StoredLink(title: Option<string>, url: Option<string>)

  /** The field an input edits. */
  datatype Field = Title | Url

  /** The effect that loads the stored links: missing fields become empty. */
  function Loaded(stored: seq<StoredLink>): (r: seq<Link>)
    ensures |r| == |stored|
    ensures forall k :: 0 <= k < |r| ==> r[k] == Link(OrEmpty(stored[k].title), OrEmpty(stored[k].url))
  {
    seq(|stored|, k requires 0 <= k < |stored| => Link(OrEmpty(stored[k].title), OrEmpty(stored[k].url)))
  }

  /** `addLink`: an empty link at the end. */
  function AddLink(links: seq<Link>): (r: seq<Link>)
    ensures |r| == |links| + 1 && r[..|links|] == links && r[|links|] == Link("", "")
  {
    links + [Link("", "")]
  }

  /** `removeLink`: the link at `index` goes; any other index changes nothing. */
  function RemoveLink(links: seq<Link>, index: int): (r: seq<Link>)
    ensures 0 <= index < |links| ==>
      |r| == |links| - 1 && (forall j :: 0 <= j < |r| ==> r[j] == links[if j < index then j else j + 1])
    ensures !(0 <= index < |links|) ==> r == links
  {
    if 0 <= index < |links| then
      var r := RemoveAt(links, index);
      assert forall j :: 0 <= j < |r| ==> r[j] == links[if j < index then j else j + 1] by {
        forall j | 0 <= j < |r| { RemoveAtShift(links, index, j); }
      }
      r
    else links
  }

  /** `{ ...l, [field]: value }`. */
  function WithField(l: Link, field: Field, value: string): (r: Link)
    ensures field == Title ==> r == Link(value, l.url)
    ensures field == Url ==> r == Link(l.title, value)
  {
    match field
    case Title => l.(title := value)
    case Url => l.(url := value)
  }

  /** `updateField`: one field of the link at `index` changes and nothing else. */
  function UpdateField(links: seq<Link>, index: int, field: Field, value: string): (r: seq<Link>)
    ensures |r| == |links|
    ensures forall j :: 0 <= j < |r| ==> r[j] == if j == index then WithField(links[j], field, value) else links[j]
  {
    if 0 <= index < |links| then ReplaceAt(links, index, WithField(links[index], field, value)) else links
  }

  /** A link `handleSave` keeps: its title or its url is not blank. */
  predicate Filled(l: Link) {
    Trim(l.title) != "" || Trim(l.url) != ""
  }

  /** The entry sent for a kept link: an empty title becomes "Untitled Link". */
  function Entry(l: Link): (r: Link)
    ensures r.url == l.url && r.title != ""
    ensures l.title != "" ==> r.title == l.title
  {
    Link(if l.title != "" then l.title else "Untitled Link", l.url)
  }

  /** The `quick_links` list `handleSave` sends: the filled links, in order, each as
      its entry. */
  function Payload(links: seq<Link>): (r: seq<Link>)
    ensures |r| <= |links|
    ensures forall k :: 0 <= k < |r| ==> r[k].title != ""
  {
    if links == [] then []
    else
      var rest := Payload(links[1..]);
      if Filled(links[0]) then [Entry(links[0])] + rest else rest
  }

  // ----- properties -----

  /** Saving keeps order: saving a list made of two parts is saving each part. */
  lemma {:induction false} PayloadSplits(xs: seq<Link>, ys: seq<Link>)
    ensures Payload(xs + ys) == Payload(xs) + Payload(ys)
  {
    if xs == [] {
      assert xs + ys == ys;
    } else {
      assert (xs + ys)[1..] == xs[1..] + ys;
      PayloadSplits(xs[1..], ys);
    }
  }

  /** Saving a single link sends its entry exactly when it is filled. */
  lemma PayloadOne(l: Link)
    ensures Payload([l]) == if Filled(l) then [Entry(l)] else []
  {
    assert [l][1..] == [];
  }

  /** A link is sent exactly when it is filled: every filled link's entry is sent,
      and everything sent is the entry of a filled link. */
  lemma {:induction false} PayloadMembers(links: seq<Link>, l: Link)
    ensures l in links && Filled(l) ==> Entry(l) in Payload(links)
    ensures forall e :: e in Payload(links) ==> exists m :: m in links && Filled(m) && e == Entry(m)
  {
    if links != [] {
      PayloadMembers(links[1..], l);
    }
  }

  /** A link just added is not sent until something is typed into it. */
  lemma AddedLinkNotSent(links: seq<Link>)
    ensures Payload(AddLink(links)) == Payload(links)
  {
    PayloadSplits(links, [Link("", "")]);
    assert !Filled(Link("", "")) by { assert |Trim("")| == 0; }
    PayloadOne(Link("", ""));
  }

  /** A link whose title is only spaces but whose url is set is sent with that
      title, not "Untitled Link": only an empty title is replaced. */
  lemma BlankTitleKept(l: Link)
    requires l.title == " " && Trim(l.url) != ""
    ensures Payload([l]) == [l]
  {
    PayloadOne(l);
  }

  /** Removing a link and then saving sends what saving the rest would. */
  lemma RemoveThenSave(links: seq<Link>, index: int)
    requires 0 <= index < |links|
    ensures Payload(RemoveLink(links, index)) == Payload(links[..index]) + Payload(links[index + 1..])
  {
    PayloadSplits(links[..index], links[index + 1..]);
  }
}

=== FILE: rows.dfy ===
/**
 * Database rows as the route handlers see them: a row maps column names to
 * values, and SQL `NULL` is a value of its own. A `WHERE` clause built only from
 * `AND`, `OR` and comparisons keeps a row exactly when it evaluates to TRUE, so
 * a comparison with `NULL` (UNKNOWN) can be read as false; the column tests
 * below are stated that way.
 */
module Rows {
  import opened Wrappers
  import opened Text

  datatype Value = Null | Str(s: string) | Bool(b: bool) | Int(i: int)

  type Row = map<string, Value>

  /** `col = true`. */
  predicate IsTrue(r: Row, col: string) {
    col in r && r[col] == Bool(true)
  }

  /** `col = false`. */
  predicate IsFalse(r: Row, col: string) {
    col in r && r[col] == Bool(false)
  }

  /** `col = $k` for a text parameter. */
  predicate TextIs(r: Row, col: string, t: string) {
    col in r && r[col] == Str(t)
  }

  /** `col = ANY($k::text[])`. */
  predicate TextIn(r: Row, col: string, ts: seq<string>) {
    col in r && r[col].Str? && r[col].s in ts
  }

  /** `col = $k` for an integer parameter. */
  predicate IntIs(r: Row, col: string, n: int) {
    col in r && r[col] == Int(n)
  }

  /** The text held in `col`; `""` when it is `NULL` or not text. */
  function TextOf(r: Row, col: string): string {
    if col in r && r[col].Str? then r[col].s else ""
  }

  /** The value of `col`; `NULL` for a column the row does not have. */
  function Get(r: Row, col: string): Value {
    if col in r then r[col] else Null
  }

  // ----- integer parameters sent as text -----

  /** The blanks C's `isspace` recognises, which PostgreSQL's integer input skips. */
  predicate PgSpace(c: char) {
    c == ' ' || c == '\t' || c == '\n' || c == '\r' || c == '\U{B}' || c == '\U{C}'
  }

  function PgTrimStart(s: string): (r: string)
    ensures |r| <= |s| && r == s[|s| - |r|..]
    ensures r == [] || !PgSpace(r[0])
  {
    if |s| > 0 && PgSpace(s[0]) then PgTrimStart(s[1..]) else s
  }

  predicate AllPgSpace(s: string) {
    forall i :: 0 <= i < |s| ==> PgSpace(s[i])
  }

  /**
   * PostgreSQL's reading of a text parameter bound to an integer column: blanks, an
   * optional sign, at least one decimal digit, blanks. `None` is the `22P02`
   * "invalid input syntax" error.
   */
  function PgIntegerInput(s: string): Option<int> {
    SignedInteger(PgTrimStart(s))
  }

  /** The part after the leading blanks. */
  function SignedInteger(t: string): Option<int> {
    var u := if |t| > 0 && (t[0] == '-' || t[0] == '+') then t[1..] else t;
    var n := LeadingDigits(u);
    if n == 0 || !AllPgSpace(u[n..]) then None
    else
      var v: int := DigitsValue(u[..n]);
      Some(if t[0] == '-' then -v else v)
  }

  /** Text PostgreSQL accepts as an integer reads as the same integer under
      JavaScript's `parseInt`. */
  lemma PgIntegerAgreesWithParseInt(s: string)
    requires PgIntegerInput(s).Some?
    ensures JsParseInt(s) == PgIntegerInput(s)
  {
    var t := PgTrimStart(s);
    SignedIntegerHead(t);
    TrimStartsAgree(s);
    ParseIntOfTrimmed(s, t);
  }

  lemma SignedIntegerHead(t: string)
    requires SignedInteger(t).Some?
    ensures |t| > 0 && !IsSpace(t[0])
  {
    assert IsDigit(t[0]) || t[0] == '-' || t[0] == '+';
  }

  lemma ParseIntOfTrimmed(s: string, t: string)
    requires TrimStart(s) == t && SignedInteger(t).Some?
    ensures JsParseInt(s) == SignedInteger(t)
  {
    var u := if |t| > 0 && (t[0] == '-' || t[0] == '+') then t[1..] else t;
    NoHexAfterDigits(u);
  }

  /** Digits followed only by blanks never open with `0x`. */
  lemma NoHexAfterDigits(u: string)
    requires LeadingDigits(u) >= 1 && AllPgSpace(u[LeadingDigits(u)..])
    ensures !HexPrefixed(u)
  {
    if |u| >= 2 && !IsDigit(u[1]) {
      assert LeadingDigits(u[1..]) == 0;
      assert u[1..][0] == u[1];
    }
  }

  lemma {:induction false} TrimStartsAgree(s: string)
    requires |PgTrimStart(s)| > 0 && !IsSpace(PgTrimStart(s)[0])
    ensures TrimStart(s) == PgTrimStart(s)
  {
    if |s| > 0 && PgSpace(s[0]) {
      TrimStartsAgree(s[1..]);
    }
  }

  /** A plain string of digits is read as its decimal value by both. */
  lemma PgIntegerOfDigits(d: string)
    requires |d| >= 1 && AllDigits(d)
    ensures PgIntegerInput(d) == Some(DigitsValue(d)) && JsParseInt(d) == Some(DigitsValue(d))
  {
    PgTrimStartOfDigit(d);
    SignedIntegerOfDigits(d, "");
    assert d + "" == d;
    JsParseIntOfDigits(d);
  }

  /** Digits followed by other text ("12abc", "1.5"): `parseInt` reads the digits
      (unless the text opens with `0x`, read in base 16), PostgreSQL refuses the whole. */
  lemma PgIntegerRefusesTrailingText(d: string, rest: string)
    requires |d| >= 1 && AllDigits(d)
    requires |rest| > 0 && !IsDigit(rest[0]) && !PgSpace(rest[0])
    ensures PgIntegerInput(d + rest).None?
    ensures !HexPrefixed(d + rest) ==> JsParseInt(d + rest) == Some(DigitsValue(d))
  {
    var s := d + rest;
    PgTrimStartOfDigit(s);
    SignedIntegerOfDigits(d, rest);
    assert !AllPgSpace(rest);
    ParseIntOfDigits(d, rest);
  }

  lemma PgTrimStartOfDigit(s: string)
    requires |s| > 0 && IsDigit(s[0])
    ensures PgTrimStart(s) == s && TrimStart(s) == s
  {
    assert !PgSpace(s[0]) && !IsSpace(s[0]);
  }

  lemma SignedIntegerOfDigits(d: string, rest: string)
    requires |d| >= 1 && AllDigits(d) && (|rest| == 0 || !IsDigit(rest[0]))
    ensures SignedInteger(d + rest) == if AllPgSpace(rest) then Some(DigitsValue(d)) else None
  {
    var t := d + rest;
    assert t[0] == d[0];
    LeadingDigitsOfPrefix(d, rest);
    assert t[..|d|] == d && t[|d|..] == rest;
  }

  lemma ParseIntOfDigits(d: string, rest: string)
    requires |d| >= 1 && AllDigits(d) && (|rest| == 0 || !IsDigit(rest[0]))
    ensures !HexPrefixed(d + rest) ==> JsParseInt(d + rest) == Some(DigitsValue(d))
  {
    var t := d + rest;
    PgTrimStartOfDigit(t);
    LeadingDigitsOfPrefix(d, rest);
    assert t[..|d|] == d;
  }

  /** Text with no digit at its head, after blanks and a sign, is refused by both. */
  lemma PgIntegerRefusesWord(s: string)
    requires |s| > 0 && !IsDigit(s[0]) && !IsSpace(s[0]) && s[0] != '-' && s[0] != '+'
    ensures PgIntegerInput(s).None? && JsParseInt(s).None?
  {
    assert !PgSpace(s[0]);
    assert PgTrimStart(s) == s && TrimStart(s) == s;
  }

  lemma {:induction false} LeadingDigitsOfPrefix(d: string, rest: string)
    requires AllDigits(d) && (|rest| == 0 || !IsDigit(rest[0]))
    ensures LeadingDigits(d + rest) == |d|
  {
    if |d| > 0 {
      assert (d + rest)[1..] == d[1..] + rest;
      LeadingDigitsOfPrefix(d[1..], rest);
    } else {
      assert d + rest == rest;
    }
  }

  /** The row cut down to the columns in `cols`: a `SELECT` list, or an object
      literal that copies the listed properties. */
  function Project(a: Row, cols: set<string>): (r: Row)
    ensures forall c :: c in r <==> c in a && c in cols
    ensures forall c :: c in r ==> r[c] == a[c]
  {
    map c | c in a && c in cols :: a[c]
  }

  /** The names in `fields`, in order, that `data` supplies. */
  function Supplied(fields: seq<string>, data: map<string, Value>): (r: seq<string>)
    ensures forall f :: f in r <==> f in fields && f in data
    ensures |r| <= |fields|
  {
    if |fields| == 0 then []
    else if fields[0] in data then [fields[0]] + Supplied(fields[1..], data)
    else Supplied(fields[1..], data)
  }

  /** Which fields are supplied depends on the keys alone. */
  lemma {:induction false} SuppliedOfKeys(fields: seq<string>, a: map<string, Value>, b: map<string, Value>)
    requires a.Keys == b.Keys
    ensures Supplied(fields, a) == Supplied(fields, b)
  {
    if |fields| > 0 {
      SuppliedOfKeys(fields[1..], a, b);
    }
  }

  /** One `column = $k` item of an `UPDATE ... SET` list. */
  datatype Assignment = Assignment(column: string, param: nat)

  /**
   * The loop of a partial `PUT`: for each field in the fixed order that the
   * body supplies, push `field = $k` and the value, numbering from `$1`.
   */
  method BuildSetClause(fields: seq<string>, data: map<string, Value>)
    returns (updates: seq<Assignment>, values: seq<Value>)
    ensures |updates| == |values| == |Supplied(fields, data)|
    ensures forall k :: 0 <= k < |updates| ==>
      updates[k] == Assignment(Supplied(fields, data)[k], k + 1) && values[k] == data[updates[k].column]
  {
    updates, values := [], [];
    var paramIndex := 1;
    var i := 0;
    while i < |fields|
      invariant 0 <= i <= |fields|
      invariant paramIndex == |updates| + 1
      invariant |updates| == |values| == |Supplied(fields[..i], data)|
      invariant forall k :: 0 <= k < |updates| ==>
        updates[k] == Assignment(Supplied(fields[..i], data)[k], k + 1) && values[k] == data[updates[k].column]
    {
      SuppliedStep(fields, i, data);
      if fields[i] in data {
        updates := updates + [Assignment(fields[i], paramIndex)];
        values := values + [data[fields[i]]];
        paramIndex := paramIndex + 1;
      }
      i := i + 1;
    }
    assert fields[..i] == fields;
  }

  lemma SuppliedStep(fields: seq<string>, i: nat, data: map<string, Value>)
    requires i < |fields|
    ensures Supplied(fields[..i + 1], data) == Supplied(fields[..i], data)
      + (if fields[i] in data then [fields[i]] else [])
  {
    SuppliedAppend(fields[..i], [fields[i]], data);
    assert fields[..i] + [fields[i]] == fields[..i + 1];
  }

  lemma {:induction false} SuppliedAppend(a: seq<string>, b: seq<string>, data: map<string, Value>)
    ensures Supplied(a + b, data) == Supplied(a, data) + Supplied(b, data)
  {
    if |a| > 0 {
      SuppliedAppend(a[1..], b, data);
      assert (a + b)[1..] == a[1..] + b;
    } else {
      assert a + b == b;
    }
  }

  /** The row after `UPDATE ... SET` with the given items and values. */
  function ApplySet(row: Row, updates: seq<Assignment>, values: seq<Value>): Row
    requires |updates| == |values|
    decreases |updates|
  {
    if |updates| == 0 then row
    else ApplySet(row[updates[0].column := values[0]], updates[1..], values[1..])
  }

  /** The supplied part of the body. */
  function Restrict(data: map<string, Value>, fields: seq<string>): (m: map<string, Value>)
    ensures forall f :: f in m <==> f in fields && f in data
    ensures forall f :: f in m ==> m[f] == data[f]
  {
    map f | f in data && f in fields :: data[f]
  }

  /** Applying a SET list built from `data` overwrites exactly the supplied columns
      with the supplied values and keeps every other column. */
  lemma {:induction false} ApplySetEffect(row: Row, names: seq<string>, data: map<string, Value>,
                                          updates: seq<Assignment>, values: seq<Value>, from: nat)
    requires |updates| == |values| == |names|
    requires forall f :: f in names ==> f in data
    requires forall k :: 0 <= k < |updates| ==>
      updates[k] == Assignment(names[k], from + k) && values[k] == data[names[k]]
    ensures var r := ApplySet(row, updates, values);
      (forall c :: c in r <==> c in row || c in names)
      && (forall c :: c in r ==> r[c] == if c in names then data[c] else row[c])
    decreases |updates|
  {
    if |updates| > 0 {
      var row' := row[updates[0].column := values[0]];
      assert forall k :: 0 <= k < |updates| - 1 ==>
        updates[1..][k] == Assignment(names[1..][k], (from + 1) + k) && values[1..][k] == data[names[1..][k]];
      ApplySetEffect(row', names[1..], data, updates[1..], values[1..], from + 1);
      forall c ensures c in names <==> c == names[0] || c in names[1..] {
        assert names == [names[0]] + names[1..];
      }
    }
  }

  /** The row an `UPDATE` built by `BuildSetClause` leaves: the old row overridden by
      the supplied fields of the body, and nothing else changed. */
  lemma SetClauseEffect(row: Row, fields: seq<string>, data: map<string, Value>,
                        updates: seq<Assignment>, values: seq<Value>)
    requires |updates| == |values| == |Supplied(fields, data)|
    requires forall k :: 0 <= k < |updates| ==>
      updates[k] == Assignment(Supplied(fields, data)[k], k + 1) && values[k] == data[updates[k].column]
    ensures ApplySet(row, updates, values) == row + Restrict(data, fields)
  {
    var names := Supplied(fields, data);
    ApplySetEffect(row, names, data, updates, values, 1);
    var r := ApplySet(row, updates, values);
    var m := row + Restrict(data, fields);
    assert forall c :: c in r <==> c in m;
    forall c | c in r ensures r[c] == m[c] { }
  }
}

=== FILE: schedule_page.dfy ===
/**
 * The attendee schedule (pwa/src/pages/SchedulePage.tsx): the day tabs (stored
 * days, or days built from the event's dates), the department chips and their
 * filter, the optimistic favourite flip, the tag colours and the transport test.
 */
module SchedulePage {
  import opened Wrappers
  import opened Text
  import opened Sorting
  import opened Lists
  import opened CivilDate
  import EventsRoutes

  /** A day tab: its number and its `YYYY-MM-DD` date. */
  datatype DayTab = DayTab(dayNumber: int, dayDate: string)

  /** The fields of a listed session the page reads. */
  datatype Session = Session(
    id: int, name: string, date: string, startTime: string, tag: Option<string>,
    isGeneric: bool, department: Option<string>, isFavourite: bool)

  // ----- day tabs -----

  /** Stored days as tabs, each date cut to its first ten characters. */
  function StoredTabs(apiDays: seq<DayTab>): (r: seq<DayTab>)
    ensures |r| == |apiDays|
    ensures forall k :: 0 <= k < |r| ==> r[k].dayNumber == apiDays[k].dayNumber && r[k].dayDate == Prefix(apiDays[k].dayDate, 10)
  {
    seq(|apiDays|, k requires 0 <= k < |apiDays| => DayTab(apiDays[k].dayNumber, Prefix(apiDays[k].dayDate, 10)))
  }

  /** The tabs of the rows the backend generates for the same dates. */
  function TabsOf(rows: seq<EventsRoutes.DayRow>): (r: seq<DayTab>)
    ensures |r| == |rows| && forall k :: 0 <= k < |r| ==> r[k] == DayTab(rows[k].dayNumber, rows[k].dayDate)
  {
    seq(|rows|, k requires 0 <= k < |rows| => DayTab(rows[k].dayNumber, rows[k].dayDate))
  }

  /** One more row adds its tab at the end. */
  lemma TabsSnoc(rows: seq<EventsRoutes.DayRow>, row: EventsRoutes.DayRow)
    ensures TabsOf(rows + [row]) == TabsOf(rows) + [DayTab(row.dayNumber, row.dayDate)]
  {
  }

  /** A date the page holds: missing or empty reads as absent. */
  function Present(s: Option<string>): string {
    if s.Some? then s.value else ""
  }

  /** The fallback loop: with both event dates present and valid, one tab per day
      from start to end, numbered from 1; it is exactly the backend's day rows. */
  method BuildFallbackTabs(startDate: Option<string>, endDate: Option<string>) returns (tabs: seq<DayTab>)
    ensures tabs == TabsOf(EventsRoutes.EventDays(0, Present(startDate), Present(endDate)))
    ensures startDate.None? || endDate.None? ==> tabs == []
  {
    if startDate.None? || startDate.value == "" || endDate.None? || endDate.value == "" {
      assert ParseIso(Prefix("", 10)).None?;
      return [];
    }
    var start := ParseIso(Prefix(startDate.value, 10));
    var end := ParseIso(Prefix(endDate.value, 10));
    if start.None? || end.None? {
      return [];
    }
    tabs := TabsFromTo(start.value, end.value);
  }

  /** The `while (d <= end)` loop: one tab per day from `start` to `end`. */
  method TabsFromTo(start: Date, end: Date) returns (tabs: seq<DayTab>)
    requires Valid(start) && Valid(end) && end.year <= 9999
    ensures tabs == TabsOf(EventsRoutes.DaysFrom(0, start, end, 1))
  {
    ghost var all := EventsRoutes.DaysFrom(0, start, end, 1);
    tabs := [];
    var dayNum := 1;
    var d := start;
    while DayIndex(d) <= DayIndex(end)
      invariant Valid(d) && DayIndex(start) <= DayIndex(d)
      invariant DayIndex(d) <= DayIndex(end) + 1 || d == start
      invariant dayNum == DayIndex(d) - DayIndex(start) + 1
      invariant 0 <= dayNum - 1 <= |all|
      invariant tabs == TabsOf(all[..dayNum - 1])
      invariant all[dayNum - 1..] == EventsRoutes.DaysFrom(0, d, end, dayNum)
      decreases DayIndex(end) - DayIndex(d)
    {
      EventsRoutes.GenerateNext(all, 0, d, end, dayNum);
      tabs := tabs + [DayTab(dayNum, FormatIso(d))];
      TabsSnoc(all[..dayNum - 1], all[dayNum - 1]);
      dayNum := dayNum + 1;
      d := NextDay(d);
    }
    assert all[..dayNum - 1] == all;
  }

  /** `dayTabs`: stored days when there are any, otherwise the fallback. */
  method DayTabs(apiDays: Option<seq<DayTab>>, startDate: Option<string>, endDate: Option<string>)
    returns (tabs: seq<DayTab>)
    ensures apiDays.Some? && |apiDays.value| > 0 ==> tabs == StoredTabs(apiDays.value)
    ensures apiDays.None? || |apiDays.value| == 0 ==>
      tabs == TabsOf(EventsRoutes.EventDays(0, Present(startDate), Present(endDate)))
  {
    if apiDays.Some? && |apiDays.value| > 0 {
      return StoredTabs(apiDays.value);
    }
    tabs := BuildFallbackTabs(startDate, endDate);
  }

  // ----- departments -----

  /** `!s.is_generic && s.department`: a session that names a department chip. */
  predicate NamesDepartment(s: Session) {
    !s.isGeneric && s.department.Some? && s.department.value != ""
  }

  /** `departmentNames`: collect the departments in a set, then sort them. */
  method DepartmentNames(all: seq<Session>) returns (names: seq<string>)
    ensures StrictlyAscending(names)
    ensures forall y :: y in names <==> exists s :: s in all && NamesDepartment(s) && s.department.value == y
  {
    var seen: seq<string> := [];
    var i := 0;
    while i < |all|
      invariant 0 <= i <= |all|
      invariant forall y :: y in seen <==> exists j :: 0 <= j < i && NamesDepartment(all[j]) && all[j].department.value == y
    {
      if NamesDepartment(all[i]) && all[i].department.value !in seen {
        seen := seen + [all[i].department.value];
      }
      i := i + 1;
    }
    names := SortedDistinct(seen);
    forall y ensures y in names <==> exists s :: s in all && NamesDepartment(s) && s.department.value == y {
      if y in names {
        var j :| 0 <= j < |all| && NamesDepartment(all[j]) && all[j].department.value == y;
        assert all[j] in all;
      }
      if exists s :: s in all && NamesDepartment(s) && s.department.value == y {
        var s :| s in all && NamesDepartment(s) && s.department.value == y;
        var j :| 0 <= j < |all| && all[j] == s;
      }
    }
  }

  /** The department filter: with a department chosen, generic sessions and that
      department's; with none, every session. */
  function ByDepartment(sorted: seq<Session>, selectedDept: Option<string>): (r: seq<Session>)
    ensures selectedDept.None? || selectedDept.value == "" ==> r == sorted
    ensures selectedDept.Some? && selectedDept.value != "" ==>
      forall s :: s in r <==> s in sorted && (s.isGeneric || s.department == selectedDept)
  {
    if selectedDept.Some? && selectedDept.value != "" then
      Filter(sorted, (s: Session) => s.isGeneric || s.department == selectedDept)
    else sorted
  }

  /** Sessions in ascending order of start time. */
  function SortedByStart(sessions: seq<Session>): (r: seq<Session>)
    ensures multiset(r) == multiset(sessions)
    ensures SortedBy(r, (s: Session) => (s.startTime, ""))
  {
    SortBy(sessions, (s: Session) => (s.startTime, ""))
  }

  // ----- favourites -----

  /** The optimistic edit: every session with that id shows the flipped flag. */
  function Flip(sessions: seq<Session>, id: int, isFav: bool): (r: seq<Session>)
    ensures |r| == |sessions|
    ensures forall k :: 0 <= k < |r| ==>
      r[k] == if sessions[k].id == id then sessions[k].(isFavourite := !isFav) else sessions[k]
  {
    seq(|sessions|, k requires 0 <= k < |sessions| =>
      if sessions[k].id == id then sessions[k].(isFavourite := !isFav) else sessions[k])
  }

  // ----- tags -----

  const DefaultTagColor := "bg-az-graphite"

  const TagColors: map<string, string> := map[
    "registration" := "bg-[#8B7355]",
    "teambuilding/recognition" := "bg-[#D4860B]",
    "teambuidling" := "bg-[#D4860B]",
    "teambuidling/recognition" := "bg-[#D4860B]",
    "teambuilding" := "bg-[#D4860B]",
    "meals" := "bg-[#D4860B]",
    "wellness" := "bg-[#0891b2]",
    "keynote" := "bg-az-mulberry",
    "breakout" := "bg-[#7c3aed]",
    "networking" := "bg-[#2563eb]",
    "transport" := "bg-gray-500"]

  /** `getTagColor`: the colour of the lower-cased tag, or the default. */
  function TagColor(tag: Option<string>): (r: string)
    ensures tag.None? || tag.value == "" ==> r == DefaultTagColor
    ensures tag.Some? && tag.value != "" && Lower(tag.value) in TagColors ==> r == TagColors[Lower(tag.value)]
    ensures tag.Some? && Lower(tag.value) !in TagColors ==> r == DefaultTagColor
  {
    if tag.None? || tag.value == "" then DefaultTagColor
    else if Lower(tag.value) in TagColors then TagColors[Lower(tag.value)]
    else DefaultTagColor
  }

  /** `isTransportSession`: the tag is "transport" or the name mentions it, in any
      letter case. */
  predicate IsTransport(s: Session) {
    (s.tag.Some? && Lower(s.tag.value) == "transport") || Contains(Lower(s.name), "transport")
  }

  // ----- page state -----

  class ScheduleState {
    /** `selectedDate`. */
    var selectedDate: string
    /** `selectedDept`. */
    var selectedDept: Option<string>
    /** The cached `schedule-sessions` list of the selected date. */
    var cached: Option<seq<Session>>

    constructor ()
      ensures selectedDate == "" && selectedDept == None && cached == None
    {
      selectedDate, selectedDept, cached := "", None, None;
    }

    /** The first render with tabs selects the first day. */
    method InitialDate(tabs: seq<DayTab>)
      modifies this`selectedDate
      ensures |tabs| > 0 && old(selectedDate) == "" ==> selectedDate == tabs[0].dayDate
      ensures !(|tabs| > 0 && old(selectedDate) == "") ==> selectedDate == old(selectedDate)
    {
      if |tabs| > 0 && selectedDate == "" {
        selectedDate := tabs[0].dayDate;
      }
    }

    /** Clicking a day tab selects it and clears the department filter. */
    method SelectDate(date: string)
      modifies this`selectedDate, this`selectedDept
      ensures selectedDate == date && selectedDept == None
    {
      selectedDate := date;
      selectedDept := None;
    }

    /** Clicking a chip selects it, or deselects it when it is the active one. */
    method ClickChip(dept: string)
      modifies this`selectedDept
      ensures old(selectedDept) == Some(dept) ==> selectedDept == None
      ensures old(selectedDept) != Some(dept) ==> selectedDept == Some(dept)
    {
      selectedDept := if selectedDept == Some(dept) then None else Some(dept);
    }

    /** `onMutate`: remember the list and show the flipped flag. */
    method OnMutate(id: int, isFav: bool) returns (prev: Option<seq<Session>>)
      modifies this`cached
      ensures prev == old(cached)
      ensures cached == if prev.Some? then Some(Flip(prev.value, id, isFav)) else None
    {
      prev := cached;
      if cached.Some? {
        cached := Some(Flip(cached.value, id, isFav));
      }
    }

    /** `onError`: put the remembered list back, when there was one. */
    method OnError(prev: Option<seq<Session>>)
      modifies this`cached
      ensures prev.Some? ==> cached == prev
      ensures prev.None? ==> cached == old(cached)
    {
      if prev.Some? {
        cached := prev;
      }
    }
  }

  // ----- properties -----

  /** The fallback tabs are the backend's days: numbered 1..n, one per day from start
      to end, none for a reversed or invalid range. */
  lemma FallbackAgreesWithBackend(eventId: int, startDate: string, endDate: string)
    ensures TabsOf(EventsRoutes.EventDays(0, startDate, endDate))
      == TabsOf(EventsRoutes.EventDays(eventId, startDate, endDate))
  {
    match EventsRoutes.DayRange(startDate, endDate)
    case None =>
    case Some((s, e)) => DaysFromOwnerFree(eventId, s, e, 1);
  }

  /** The tabs do not depend on which event the rows belong to. */
  lemma {:induction false} DaysFromOwnerFree(eventId: int, d: Date, end: Date, num: int)
    requires Valid(d) && Valid(end) && end.year <= 9999
    ensures TabsOf(EventsRoutes.DaysFrom(0, d, end, num)) == TabsOf(EventsRoutes.DaysFrom(eventId, d, end, num))
    decreases DayIndex(end) - DayIndex(d) + 1
  {
    if DayIndex(d) <= DayIndex(end) {
      YearOrder(d, end);
      DaysFromOwnerFree(eventId, NextDay(d), end, num + 1);
      var rest0 := EventsRoutes.DaysFrom(0, NextDay(d), end, num + 1);
      var rest := EventsRoutes.DaysFrom(eventId, NextDay(d), end, num + 1);
      assert EventsRoutes.DaysFrom(0, d, end, num) == [EventsRoutes.DayRow(0, num, FormatIso(d))] + rest0;
      assert EventsRoutes.DaysFrom(eventId, d, end, num) == [EventsRoutes.DayRow(eventId, num, FormatIso(d))] + rest;
      TabsCons(EventsRoutes.DayRow(0, num, FormatIso(d)), rest0);
      TabsCons(EventsRoutes.DayRow(eventId, num, FormatIso(d)), rest);
    }
  }

  /** One row in front adds its tab in front. */
  lemma TabsCons(row: EventsRoutes.DayRow, rows: seq<EventsRoutes.DayRow>)
    ensures TabsOf([row] + rows) == [DayTab(row.dayNumber, row.dayDate)] + TabsOf(rows)
  {
  }

  /** Flipping changes only the sessions with that id, and flipping back with the
      flag it now shows restores a list in which that id showed `isFav`. */
  lemma FlipRestores(sessions: seq<Session>, id: int, isFav: bool)
    requires forall k :: 0 <= k < |sessions| && sessions[k].id == id ==> sessions[k].isFavourite == isFav
    ensures Flip(Flip(sessions, id, isFav), id, !isFav) == sessions
  {
  }

  /** Filtering by a department keeps the list's order. */
  lemma ByDepartmentKeepsOrder(xs: seq<Session>, ys: seq<Session>, dept: string)
    requires dept != ""
    ensures ByDepartment(xs + ys, Some(dept)) == ByDepartment(xs, Some(dept)) + ByDepartment(ys, Some(dept))
  {
    FilterConcat(xs, ys, (s: Session) => s.isGeneric || s.department == Some(dept));
  }

  /** Upper-casing then lower-casing is lower-casing. */
  lemma LowerOfUpper(s: string)
    ensures Lower(Upper(s)) == Lower(s)
  {
  }

  /** Tag colours and the transport test ignore letter case. */
  lemma CaseIgnored(s: Session)
    requires s.tag.Some?
    ensures TagColor(Some(Upper(s.tag.value))) == TagColor(s.tag)
    ensures IsTransport(s.(name := Upper(s.name), tag := Some(Upper(s.tag.value)))) == IsTransport(s)
  {
    LowerOfUpper(s.tag.value);
    LowerOfUpper(s.name);
    assert Upper(s.tag.value) == "" <==> s.tag.value == "";
  }

  /** Examples: a missing or unknown tag takes the default colour, and "KeyNote"
      takes the keynote colour. */
  lemma TagExamples()
    ensures TagColor(None) == DefaultTagColor && TagColor(Some("Lunch")) == DefaultTagColor
    ensures TagColor(Some("KeyNote")) == "bg-az-mulberry"
  {
    assert Lower("KeyNote") == "keynote";
    assert Lower("Lunch") == "lunch";
  }
}

=== FILE: schemas.dfy ===
/**
 * The request validators (backend/src/models/schemas.ts), written in the small
 * part of the Zod rule language they use: strings with length bounds and an
 * email check, booleans, coerced positive integers, arrays, objects with named
 * properties, and the `optional`, `nullable` and `default` wrappers.
 *
 * `Parse` follows Zod's behaviour: an absent value is `None` (`undefined`),
 * unknown object keys are dropped, every failing check is reported (object
 * properties in declaration order, each issue's path prefixed with its key or
 * index), and a default replaces an absent value before the inner rule runs.
 */
module Schemas {
  import opened Wrappers
  import opened Text
  import opened ErrorMiddleware

  /** A JSON request value; numbers are reals so that non-integers can be told apart. */
  datatype Json =
    | JNull
    | JBool(b: bool)
    | JNum(n: real)
    | JStr(s: string)
    | JArr(items: seq<Json>)
    | JObj(fields: map<string, Json>)

  datatype Rule =
    | Str(email: bool, min: nat, max: Option<nat>)   // z.string() with .email(), .min(), .max()
    | Boolean                                        // z.boolean()
    | CoercedPositiveInt                             // z.coerce.number().int().positive()
    | ArrayOf(item: Rule)                            // z.array(item)
    | Obj(props: seq<Prop>)                          // z.object({...})
    | Optional(inner: Rule)                          // .optional()
    | Nullable(inner: Rule)                          // .nullable()
    | Default(inner: Rule, value: Json)              // .default(value)

  datatype Prop = Prop(name: string, rule: Rule)

  /** The outcome of a parse: the output value (`None` is `undefined`), or the issues. */
  datatype Parsed = Ok(value: Option<Json>) | Bad(issues: seq<Issue>)

  /** What the properties or items of a container give before the verdict is taken. */
  datatype Collected<T> = Collected(issues: seq<Issue>, out: T)

  function Lookup(m: map<string, Json>, k: string): Option<Json> {
    if k in m then Some(m[k]) else None
  }

  /** The `received` word of an invalid-type message. */
  function TypeName(j: Json): string {
    match j
    case JNull => "null"
    case JBool(_) => "boolean"
    case JNum(_) => "number"
    case JStr(_) => "string"
    case JArr(_) => "array"
    case JObj(_) => "object"
  }

  /** An invalid-type issue: "Required" for an absent value. */
  function WrongType(expected: string, v: Option<Json>): (i: Issue)
    ensures i.path == []
  {
    Issue([], if v.None? then "Required" else "Expected " + expected + ", received " + TypeName(v.value))
  }

  function TooShort(n: nat): string {
    "String must contain at least " + NatToString(n) + " character(s)"
  }

  function TooLong(n: nat): string {
    "String must contain at most " + NatToString(n) + " character(s)"
  }

  const NotInteger := "Expected integer, received float"
  const NotPositive := "Number must be greater than 0"
  const NotANumber := "Expected number, received nan"

  /** `Number(v)` as `z.coerce.number()` applies it; `None` is NaN. An array goes
      through its `join(",")` text. */
  function Coerce(v: Option<Json>): (r: Option<real>)
    ensures v == Some(JNull) ==> r == Some(0.0)
    ensures v.None? ==> r.None?
    ensures v == Some(JArr([])) ==> r == Some(0.0)
    ensures v.Some? && v.value.JArr? && |v.value.items| >= 2 ==> r.None?
  {
    match v
    case None => None
    case Some(JNull) => Some(0.0)
    case Some(JBool(b)) => Some(if b then 1.0 else 0.0)
    case Some(JArr(_)) => ElementNumber(v.value)
    case Some(x) => ElementNumber(x)
  }

  /**
   * `Number(String(x))`: a number keeps its value, a string is read by `Number`, a
   * boolean's text ("true", "false") and an object's ("[object Object]") are NaN.
   * An array's text is its elements' texts joined by commas, `null` giving the empty
   * text: the empty array reads as 0, one element as that element, and two or more
   * hold a comma, which is NaN.
   */
  function ElementNumber(x: Json): Option<real> {
    match x
    case JNull => Some(0.0)
    case JBool(_) => None
    case JNum(n) => Some(n)
    case JStr(s) => (match JsNumber(s) case Some(i) => Some(i as real) case None => None)
    case JArr(items) =>
      if |items| == 0 then Some(0.0) else if |items| >= 2 then None else ElementNumber(items[0])
    case JObj(_) => None
  }

  predicate IsInteger(n: real) {
    n.Floor as real == n
  }

  /** The issues of a string check, in the order the checks are chained. */
  function StringIssues(email: bool, min: nat, max: Option<nat>, s: string, isEmail: string -> bool): (r: seq<Issue>)
    ensures r == [] <==> (!email || isEmail(s)) && min <= |s| && (max.None? || |s| <= max.value)
  {
    (if email && !isEmail(s) then [Issue([], "Invalid email")] else [])
    + (if |s| < min then [Issue([], TooShort(min))] else [])
    + (if max.Some? && |s| > max.value then [Issue([], TooLong(max.value))] else [])
  }

  function NumberIssues(n: real): (r: seq<Issue>)
    ensures r == [] <==> IsInteger(n) && n > 0.0
  {
    (if !IsInteger(n) then [Issue([], NotInteger)] else [])
    + (if n <= 0.0 then [Issue([], NotPositive)] else [])
  }

  function Verdict(issues: seq<Issue>, out: Json): (r: Parsed)
    ensures r.Ok? <==> issues == []
    ensures r.Ok? ==> r.value == Some(out)
    ensures r.Bad? ==> r.issues == issues
  {
    if issues == [] then Ok(Some(out)) else Bad(issues)
  }

  /** Every issue with `k` put in front of its path. */
  function Under(k: PathKey, issues: seq<Issue>): (r: seq<Issue>)
    ensures |r| == |issues|
    ensures forall j :: 0 <= j < |r| ==> r[j] == Issue([k] + issues[j].path, issues[j].message)
  {
    seq(|issues|, j requires 0 <= j < |issues| => Issue([k] + issues[j].path, issues[j].message))
  }

  function IssuesOf(p: Parsed): seq<Issue> {
    if p.Bad? then p.issues else []
  }

  /** `schema.safeParse(v)`, with the email pattern as a parameter. */
  function Parse(rule: Rule, v: Option<Json>, isEmail: string -> bool): (r: Parsed)
    ensures r.Bad? ==> |r.issues| > 0
    ensures v.Some? && r.Ok? ==> r.value.Some?
    decreases rule, 0, 0
  {
    match rule
    case Str(email, min, max) => ParseString(email, min, max, v, isEmail)
    case Boolean => ParseBoolean(v)
    case CoercedPositiveInt => ParseNumber(v)
    case ArrayOf(item) => ParseArray(item, v, isEmail)
    case Obj(props) => ParseObject(props, v, isEmail)
    case Optional(inner) => if v.None? then Ok(None) else Parse(inner, v, isEmail)
    case Nullable(inner) => if v == Some(JNull) then Ok(v) else Parse(inner, v, isEmail)
    case Default(inner, d) => Parse(inner, if v.None? then Some(d) else v, isEmail)
  }

  function ParseString(email: bool, min: nat, max: Option<nat>, v: Option<Json>, isEmail: string -> bool): (r: Parsed)
    ensures r.Bad? ==> |r.issues| > 0
    ensures r.Ok? <==> v.Some? && v.value.JStr? && StringIssues(email, min, max, v.value.s, isEmail) == []
    ensures r.Ok? ==> r.value == v
  {
    if v.Some? && v.value.JStr? then Verdict(StringIssues(email, min, max, v.value.s, isEmail), v.value)
    else Bad([WrongType("string", v)])
  }

  function ParseBoolean(v: Option<Json>): (r: Parsed)
    ensures r.Bad? ==> |r.issues| > 0
    ensures r.Ok? <==> v.Some? && v.value.JBool?
    ensures r.Ok? ==> r.value == v
  {
    if v.Some? && v.value.JBool? then Ok(v) else Bad([WrongType("boolean", v)])
  }

  function ParseNumber(v: Option<Json>): (r: Parsed)
    ensures r.Bad? ==> |r.issues| > 0
    ensures r.Ok? <==> Coerce(v).Some? && IsInteger(Coerce(v).value) && Coerce(v).value > 0.0
    ensures r.Ok? ==> r.value == Some(JNum(Coerce(v).value))
  {
    var n := Coerce(v);
    if n.None? then Bad([Issue([], NotANumber)]) else Verdict(NumberIssues(n.value), JNum(n.value))
  }

  function ParseArray(item: Rule, v: Option<Json>, isEmail: string -> bool): (r: Parsed)
    ensures r.Bad? ==> |r.issues| > 0
    ensures r.Ok? ==> r.value.Some? && r.value.value.JArr?
    decreases item, 2, 0
  {
    if v.Some? && v.value.JArr? then
      var c := ParseItems(item, v.value.items, 0, isEmail);
      Verdict(c.issues, JArr(c.out))
    else Bad([WrongType("array", v)])
  }

  function ParseObject(props: seq<Prop>, v: Option<Json>, isEmail: string -> bool): (r: Parsed)
    ensures r.Bad? ==> |r.issues| > 0
    ensures r.Ok? ==> r.value.Some? && r.value.value.JObj?
    decreases props, 2, 0
  {
    if v.Some? && v.value.JObj? then
      var c := ParseProps(props, v.value.fields, 0, isEmail);
      Verdict(c.issues, JObj(c.out))
    else Bad([WrongType("object", v)])
  }

  /** The items from `i` on: their issues under their index, and their outputs. */
  function ParseItems(item: Rule, xs: seq<Json>, i: nat, isEmail: string -> bool): (c: Collected<seq<Json>>)
    requires i <= |xs|
    decreases item, 1, |xs| - i
  {
    if i == |xs| then Collected([], [])
    else
      var p := Parse(item, Some(xs[i]), isEmail);
      var rest := ParseItems(item, xs, i + 1, isEmail);
      Collected(Under(Index(i), IssuesOf(p)) + rest.issues,
                (if p.Ok? then [p.value.value] else []) + rest.out)
  }

  /** The properties from `i` on: their issues under their key, and the output object
      (a property whose output is `undefined` is left out). */
  function ParseProps(props: seq<Prop>, m: map<string, Json>, i: nat, isEmail: string -> bool): (c: Collected<map<string, Json>>)
    requires i <= |props|
    decreases props, 1, |props| - i
  {
    if i == |props| then Collected([], map[])
    else
      var p := Parse(props[i].rule, Lookup(m, props[i].name), isEmail);
      var rest := ParseProps(props, m, i + 1, isEmail);
      Collected(Under(Field(props[i].name), IssuesOf(p)) + rest.issues,
                if p.Ok? && p.value.Some? then rest.out[props[i].name := p.value.value]
                else rest.out - {props[i].name})
  }

  /** `.partial()`: every property becomes optional. */
  function Partial(rule: Rule): (r: Rule)
    ensures rule.Obj? ==> (r.Obj? && |r.props| == |rule.props|
      && forall k :: 0 <= k < |r.props| ==> r.props[k] == Prop(rule.props[k].name, Optional(rule.props[k].rule)))
    ensures !rule.Obj? ==> r == rule
  {
    if rule.Obj? then
      Obj(seq(|rule.props|, k requires 0 <= k < |rule.props| => Prop(rule.props[k].name, Optional(rule.props[k].rule))))
    else rule
  }

  function Without(props: seq<Prop>, name: string): (r: seq<Prop>)
    ensures forall p :: p in r <==> p in props && p.name != name
  {
    if props == [] then []
    else (if props[0].name == name then [] else [props[0]]) + Without(props[1..], name)
  }

  /** `.omit({name: true})`. */
  function Omit(rule: Rule, name: string): (r: Rule)
    ensures rule.Obj? ==> r.Obj? && forall p :: p in r.props <==> p in rule.props && p.name != name
    ensures !rule.Obj? ==> r == rule
  {
    if rule.Obj? then Obj(Without(rule.props, name)) else rule
  }

  // ----- the schemas -----

  const AnyString := Str(false, 0, None)
  const NonEmpty := Str(false, 1, None)
  const Name255 := Str(false, 1, Some(255))
  /** `z.string().optional().nullable()`. */
  const OptText := Nullable(Optional(AnyString))

  const IdSchema := CoercedPositiveInt

  const WifiInfo := Obj([
    Prop("title", NonEmpty),
    Prop("desc", Default(Optional(AnyString), JStr(""))),
    Prop("wifi_name", NonEmpty),
    Prop("wifi_password", NonEmpty)])

  const HelpdeskInfo := Obj([
    Prop("title", NonEmpty),
    Prop("desc", Default(Optional(AnyString), JStr(""))),
    Prop("start_time", Default(Optional(AnyString), JStr(""))),
    Prop("end_time", Default(Optional(AnyString), JStr(""))),
    Prop("contact_numbers", Default(Optional(ArrayOf(AnyString)), JArr([]))),
    Prop("contact_emails", Default(Optional(ArrayOf(AnyString)), JArr([])))])

  const VenueMapInfo := Obj([Prop("title", NonEmpty), Prop("file_url", NonEmpty)])

  const QuickLink := Obj([Prop("title", NonEmpty), Prop("url", NonEmpty)])

  const BannerEntry := Obj([Prop("file_url", NonEmpty), Prop("original_name", NonEmpty)])

  const EventBanners := Default(Obj([
    Prop("mobile", Optional(BannerEntry)),
    Prop("tablet", Optional(BannerEntry)),
    Prop("desktop", Optional(BannerEntry))]), JObj(map[]))

  const CreateEventProps := [
    Prop("event_slug", Nullable(Optional(Str(false, 0, Some(255))))),
    Prop("pwa_name", Name255),
    Prop("pwa_logo_url", OptText),
    Prop("event_name", Name255),
    Prop("event_banner_url", OptText),
    Prop("event_description", OptText),
    Prop("department", OptText),
    Prop("event_location", OptText),
    Prop("event_location_map_url", OptText),
    Prop("event_start_date", AnyString),
    Prop("event_end_date", AnyString),
    Prop("event_venue_map_url", OptText),
    Prop("event_app_url", OptText),
    Prop("wifi", Default(ArrayOf(WifiInfo), JArr([]))),
    Prop("helpdesk", Default(ArrayOf(HelpdeskInfo), JArr([]))),
    Prop("venue_maps", Default(ArrayOf(VenueMapInfo), JArr([]))),
    Prop("event_banners", Default(EventBanners, JObj(map[]))),
    Prop("quick_links", Default(ArrayOf(QuickLink), JArr([]))),
    Prop("is_draft", Default(Boolean, JBool(true))),
    Prop("manifest_url", OptText)]

  const CreateEvent := Obj(CreateEventProps)

  const UpdateEvent := Partial(CreateEvent)

  const CreateSessionProps := [
    Prop("event_id", CoercedPositiveInt),
    Prop("session_name", Name255),
    Prop("session_description", OptText),
    Prop("session_date", AnyString),
    Prop("session_start_time", AnyString),
    Prop("session_end_time", OptText),
    Prop("session_tag", OptText),
    Prop("session_location", OptText),
    Prop("session_location_map_url", OptText),
    Prop("session_venue_map_url", OptText),
    Prop("is_generic", Default(Boolean, JBool(true))),
    Prop("department", OptText),
    Prop("is_dept_generic", Default(Boolean, JBool(true))),
    Prop("team", OptText),
    Prop("timezone", OptText),
    Prop("has_topics", Default(Boolean, JBool(false))),
    Prop("survey_url", OptText),
    Prop("supporting_material_url", OptText)]

  const CreateSession := Obj(CreateSessionProps)

  const UpdateSession := Omit(Partial(CreateSession), "event_id")

  const CreateSessionTopic := Obj([
    Prop("name", Name255), Prop("location", OptText), Prop("session_type", OptText)])

  const UpdateSessionTopic := Partial(CreateSessionTopic)

  const AssignSpeaker := Obj([Prop("speaker_id", CoercedPositiveInt)])

  const CreateAdmin := Obj([
    Prop("email", Str(true, 1, None)), Prop("password", Str(false, 6, None)), Prop("department", OptText)])

  const CreateAttendee := Obj([
    Prop("email", Str(true, 1, None)), Prop("password", Str(false, 6, None)),
    Prop("department", OptText), Prop("team", OptText)])

  const Login := Obj([Prop("email", Str(true, 1, None)), Prop("password", Str(false, 1, None))])

  // ----- general properties of parsing -----

  /** No property before the `k`-th has its name. */
  predicate FirstNamed(props: seq<Prop>, k: nat)
    requires k < |props|
  {
    forall j :: 0 <= j < k ==> props[j].name != props[k].name
  }

  /** An object parses exactly when every property does. */
  lemma PropsOk(props: seq<Prop>, m: map<string, Json>, i: nat, isEmail: string -> bool)
    requires i <= |props|
    ensures ParseProps(props, m, i, isEmail).issues == [] <==>
      forall k :: i <= k < |props| ==> Parse(props[k].rule, Lookup(m, props[k].name), isEmail).Ok?
  {
    PropsAllParse(props, m, i, isEmail);
    AllParseMeans(props, m, i, isEmail);
  }

  /** Every property from the `i`-th on parses. */
  predicate AllParse(props: seq<Prop>, m: map<string, Json>, i: nat, isEmail: string -> bool)
    requires i <= |props|
    decreases |props| - i
  {
    i == |props| || (Parse(props[i].rule, Lookup(m, props[i].name), isEmail).Ok? && AllParse(props, m, i + 1, isEmail))
  }

  lemma {:induction false} PropsAllParse(props: seq<Prop>, m: map<string, Json>, i: nat, isEmail: string -> bool)
    requires i <= |props|
    ensures ParseProps(props, m, i, isEmail).issues == [] <==> AllParse(props, m, i, isEmail)
    decreases |props| - i
  {
    if i < |props| {
      PropsAllParse(props, m, i + 1, isEmail);
      PropsStep(props, m, i, isEmail);
    }
  }

  lemma {:induction false} AllParseMeans(props: seq<Prop>, m: map<string, Json>, i: nat, isEmail: string -> bool)
    requires i <= |props|
    ensures AllParse(props, m, i, isEmail) <==>
      forall k :: i <= k < |props| ==> Parse(props[k].rule, Lookup(m, props[k].name), isEmail).Ok?
    decreases |props| - i
  {
    if i < |props| {
      AllParseMeans(props, m, i + 1, isEmail);
    }
  }

  /** The first property's issues come first: none at all exactly when that
      property parses and the rest raise none. */
  lemma PropsStep(props: seq<Prop>, m: map<string, Json>, i: nat, isEmail: string -> bool)
    requires i < |props|
    ensures ParseProps(props, m, i, isEmail).issues == [] <==>
      Parse(props[i].rule, Lookup(m, props[i].name), isEmail).Ok? && ParseProps(props, m, i + 1, isEmail).issues == []
  {
    var p := Parse(props[i].rule, Lookup(m, props[i].name), isEmail);
    var rest := ParseProps(props, m, i + 1, isEmail);
    assert ParseProps(props, m, i, isEmail).issues == Under(Field(props[i].name), IssuesOf(p)) + rest.issues;
    assert IssuesOf(p) == [] <==> p.Ok?;
  }

  /** The output object holds a property's output under its name, taken from the
      first property of that name; no other key appears. */
  lemma {:induction false} PropsOut(props: seq<Prop>, m: map<string, Json>, i: nat, k: nat, isEmail: string -> bool)
    requires i <= k < |props|
    requires forall j :: i <= j < k ==> props[j].name != props[k].name
    ensures var out := ParseProps(props, m, i, isEmail).out;
      var p := Parse(props[k].rule, Lookup(m, props[k].name), isEmail);
      (props[k].name in out <==> p.Ok? && p.value.Some?)
      && (props[k].name in out ==> out[props[k].name] == p.value.value)
    decreases k - i
  {
    if i < k {
      PropsOut(props, m, i + 1, k, isEmail);
      PropsOutStep(props, m, i, props[k].name, isEmail);
    }
  }

  /** A property of another name leaves a key of the output as the later
      properties set it. */
  lemma PropsOutStep(props: seq<Prop>, m: map<string, Json>, i: nat, key: string, isEmail: string -> bool)
    requires i < |props| && props[i].name != key
    ensures var o, o' := ParseProps(props, m, i, isEmail).out, ParseProps(props, m, i + 1, isEmail).out;
      (key in o <==> key in o') && (key in o ==> o[key] == o'[key])
  {
  }

  lemma {:induction false} PropsKeys(props: seq<Prop>, m: map<string, Json>, i: nat, isEmail: string -> bool)
    requires i <= |props|
    ensures forall key :: key in ParseProps(props, m, i, isEmail).out ==> exists k :: i <= k < |props| && props[k].name == key
    decreases |props| - i
  {
    if i < |props| {
      PropsKeys(props, m, i + 1, isEmail);
    }
  }

  /** A parsed array keeps its length. */
  lemma {:induction false} ItemsLength(item: Rule, xs: seq<Json>, i: nat, isEmail: string -> bool)
    requires i <= |xs|
    requires ParseItems(item, xs, i, isEmail).issues == []
    ensures |ParseItems(item, xs, i, isEmail).out| == |xs| - i
    decreases |xs| - i
  {
    if i < |xs| {
      var p := Parse(item, Some(xs[i]), isEmail);
      assert IssuesOf(p) == [];
      ItemsLength(item, xs, i + 1, isEmail);
    }
  }

  /** An object property's output, read off a successful parse. */
  lemma PropOfOk(props: seq<Prop>, m: map<string, Json>, k: nat, isEmail: string -> bool)
    requires k < |props|
    requires FirstNamed(props, k)
    requires Parse(Obj(props), Some(JObj(m)), isEmail).Ok?
    ensures var p := Parse(props[k].rule, Lookup(m, props[k].name), isEmail);
      var out := Parse(Obj(props), Some(JObj(m)), isEmail).value.value.fields;
      p.Ok? && (props[k].name in out <==> p.value.Some?) && (props[k].name in out ==> out[props[k].name] == p.value.value)
  {
    PropsOk(props, m, 0, isEmail);
    PropsOut(props, m, 0, k, isEmail);
  }

  /** A string property of a parsed object was present and within its bounds. */
  lemma PropString(props: seq<Prop>, m: map<string, Json>, k: nat, isEmail: string -> bool)
    requires k < |props| && props[k].rule.Str?
    requires FirstNamed(props, k)
    requires Parse(Obj(props), Some(JObj(m)), isEmail).Ok?
    ensures var name := props[k].name; var r := props[k].rule;
      name in m && m[name].JStr? && r.min <= |m[name].s| && (r.max.None? || |m[name].s| <= r.max.value)
  {
    PropOfOk(props, m, k, isEmail);
  }

  /** A defaulted property absent from the input takes its default through the inner
      rule. */
  lemma PropDefaulted(props: seq<Prop>, m: map<string, Json>, k: nat, isEmail: string -> bool)
    requires k < |props| && props[k].rule.Default? && props[k].name !in m
    requires FirstNamed(props, k)
    requires Parse(Obj(props), Some(JObj(m)), isEmail).Ok?
    ensures var out := Parse(Obj(props), Some(JObj(m)), isEmail).value.value.fields;
      var p := Parse(props[k].rule.inner, Some(props[k].rule.value), isEmail);
      p.Ok? && props[k].name in out && out[props[k].name] == p.value.value
  {
    PropOfOk(props, m, k, isEmail);
  }

  /** A string rule with bounds accepts exactly the strings within them. */
  lemma StringBounds(min: nat, max: nat, v: Option<Json>, isEmail: string -> bool)
    ensures Parse(Str(false, min, Some(max)), v, isEmail).Ok? <==>
      v.Some? && v.value.JStr? && min <= |v.value.s| <= max
  {
  }

  /** A defaulted rule fills in its default for an absent value only. */
  lemma DefaultRule(inner: Rule, d: Json, v: Json, isEmail: string -> bool)
    ensures Parse(Default(inner, d), None, isEmail) == Parse(inner, Some(d), isEmail)
    ensures Parse(Default(inner, d), Some(v), isEmail) == Parse(inner, Some(v), isEmail)
  {
  }

  /** The empty array satisfies every array rule. */
  lemma EmptyArray(item: Rule, isEmail: string -> bool)
    ensures Parse(ArrayOf(item), Some(JArr([])), isEmail) == Ok(Some(JArr([])))
  {
    assert ParseItems(item, [], 0, isEmail) == Collected([], []);
  }

  /** A partial object accepts the empty object and gives it back empty: no default of
      the full schema is applied. */
  lemma PartialOfEmpty(props: seq<Prop>, isEmail: string -> bool)
    ensures Parse(Partial(Obj(props)), Some(JObj(map[])), isEmail) == Ok(Some(JObj(map[])))
  {
    var q := Partial(Obj(props)).props;
    forall p | p in q
      ensures p.rule.Optional?
    {
      var k :| 0 <= k < |q| && q[k] == p;
    }
    PropsOkEmpty(q, 0, isEmail);
  }

  // ----- the identifier schema -----

  /** `idSchema` accepts exactly the values whose `Number(...)` is a positive integer. */
  lemma IdAcceptsPositiveIntegers(v: Option<Json>, isEmail: string -> bool)
    ensures Parse(IdSchema, v, isEmail).Ok? <==> (var n := Coerce(v); n.Some? && IsInteger(n.value) && n.value > 0.0)
    ensures Parse(IdSchema, v, isEmail).Ok? ==> Parse(IdSchema, v, isEmail).value == Some(JNum(Coerce(v).value))
  {
  }

  /** A one-element array coerces as its element does, except a boolean, whose text
      is NaN. */
  lemma CoerceSingleton(x: Json)
    ensures !x.JBool? ==> Coerce(Some(JArr([x]))) == Coerce(Some(x))
    ensures x.JBool? ==> Coerce(Some(JArr([x]))).None?
  {
    assert |[x]| == 1 && [x][0] == x;
    assert Coerce(Some(JArr([x]))) == ElementNumber(JArr([x])) == ElementNumber(x);
  }

  /** A one-element array is validated as its element would be (`[7]` and `["12"]`
      pass as 7 and 12), except a boolean, whose text is NaN. */
  lemma IdOfSingleton(x: Json, isEmail: string -> bool)
    ensures !x.JBool? ==> Parse(IdSchema, Some(JArr([x])), isEmail) == Parse(IdSchema, Some(x), isEmail)
    ensures x.JBool? ==> Parse(IdSchema, Some(JArr([x])), isEmail) == Bad([Issue([], NotANumber)])
  {
    CoerceSingleton(x);
    if x.JBool? { IdOfNaN(Some(JArr([x])), isEmail); }
  }

  /** The empty array reads as 0 and fails as not positive; two or more elements join
      with a comma and are NaN. */
  lemma IdOfOtherArrays(items: seq<Json>, isEmail: string -> bool)
    ensures Parse(IdSchema, Some(JArr([])), isEmail) == Bad([Issue([], NotPositive)])
    ensures |items| >= 2 ==> Parse(IdSchema, Some(JArr(items)), isEmail) == Bad([Issue([], NotANumber)])
  {
    assert IsInteger(0.0);
    IdOfCoerced(Some(JArr([])), 0.0, isEmail);
    if |items| >= 2 { IdOfNaN(Some(JArr(items)), isEmail); }
  }

  lemma IdOfCoerced(v: Option<Json>, n: real, isEmail: string -> bool)
    requires Coerce(v) == Some(n) && IsInteger(n)
    ensures Parse(IdSchema, v, isEmail) == if n > 0.0 then Ok(Some(JNum(n))) else Bad([Issue([], NotPositive)])
  {
  }

  lemma IdOfNaN(v: Option<Json>, isEmail: string -> bool)
    requires Coerce(v).None?
    ensures Parse(IdSchema, v, isEmail) == Bad([Issue([], NotANumber)])
  {
  }

  /** A route id made of decimal digits passes exactly when its value is positive;
      the empty string counts as 0. */
  lemma IdOfDigits(s: string, isEmail: string -> bool)
    requires AllDigits(s)
    ensures var n := if s == "" then 0 else DigitsValue(s);
      Parse(IdSchema, Some(JStr(s)), isEmail) == if n > 0 then Ok(Some(JNum(n as real))) else Bad([Issue([], NotPositive)])
  {
  }

  /** Route ids from the URL: "42" passes, "0" and the empty string do not. */
  lemma IdFromUrl(isEmail: string -> bool)
    ensures Parse(IdSchema, Some(JStr("42")), isEmail) == Ok(Some(JNum(42.0)))
    ensures Parse(IdSchema, Some(JStr("0")), isEmail) == Bad([Issue([], NotPositive)])
    ensures Parse(IdSchema, Some(JStr("")), isEmail) == Bad([Issue([], NotPositive)])
  {
    assert "42"[..1] == "4" && "4"[..0] == "";
    IdOfDigits("42", isEmail);
    IdOfDigits("0", isEmail);
    IdOfDigits("", isEmail);
  }

  /** Text that does not start with a digit or a sign is NaN, so not an id. */
  lemma IdRejectsText(s: string, isEmail: string -> bool)
    requires IsTrimmed(s) && |s| >= 1 && !IsDigit(s[0]) && s[0] != '+' && s[0] != '-'
    ensures Parse(IdSchema, Some(JStr(s)), isEmail) == Bad([Issue([], NotANumber)])
  {
    TrimOfTrimmed(s);
    assert !AllDigits(s);
  }

  /** A fraction fails the integer check. */
  lemma IdRejectsFraction(isEmail: string -> bool)
    ensures Parse(IdSchema, Some(JNum(2.5)), isEmail) == Bad([Issue([], NotInteger)])
    ensures Parse(IdSchema, Some(JNum(-0.5)), isEmail) == Bad([Issue([], NotInteger), Issue([], NotPositive)])
  {
    assert (2.5).Floor == 2;
    assert (-0.5).Floor == -1;
  }

  // ----- the session schemas -----

  lemma SessionRequiredNamed(props: seq<Prop>)
    requires props == CreateSessionProps
    ensures FirstNamed(props, 1) && FirstNamed(props, 3) && FirstNamed(props, 4)
  {
  }

  lemma SessionDefaultsNamed(props: seq<Prop>)
    requires props == CreateSessionProps
    ensures FirstNamed(props, 10) && FirstNamed(props, 12) && FirstNamed(props, 15)
  {
  }

  /** A created session that parses (`props` being the session schema's properties)
      carries a name of 1..255 characters and string date and start time, and the
      visibility fields it omits default to a generic session without topics. */
  lemma CreateSessionRules(props: seq<Prop>, m: map<string, Json>, isEmail: string -> bool)
    requires props == CreateSessionProps
    requires Parse(Obj(props), Some(JObj(m)), isEmail).Ok?
    ensures var out := Parse(Obj(props), Some(JObj(m)), isEmail).value.value.fields;
      "session_name" in m && m["session_name"].JStr? && 1 <= |m["session_name"].s| <= 255
      && "session_date" in m && m["session_date"].JStr? && "session_start_time" in m && m["session_start_time"].JStr?
      && ("is_generic" !in m ==> "is_generic" in out && out["is_generic"] == JBool(true))
      && ("is_dept_generic" !in m ==> "is_dept_generic" in out && out["is_dept_generic"] == JBool(true))
      && ("has_topics" !in m ==> "has_topics" in out && out["has_topics"] == JBool(false))
  {
    SessionRequiredNamed(props);
    SessionDefaultsNamed(props);
    PropString(props, m, 1, isEmail);
    PropString(props, m, 3, isEmail);
    PropString(props, m, 4, isEmail);
    if "is_generic" !in m { PropDefaulted(props, m, 10, isEmail); }
    if "is_dept_generic" !in m { PropDefaulted(props, m, 12, isEmail); }
    if "has_topics" !in m { PropDefaulted(props, m, 15, isEmail); }
  }

  /** The body of the smallest valid session: an event id, a name, a date and a start
      time. */
  function MinimalSession(eventId: nat, name: string, date: string, start: string): (m: map<string, Json>)
    ensures m.Keys == {"event_id", "session_name", "session_date", "session_start_time"}
  {
    map["event_id" := JNum(eventId as real), "session_name" := JStr(name),
        "session_date" := JStr(date), "session_start_time" := JStr(start)]
  }

  lemma MinimalSessionHead(props: seq<Prop>, eventId: nat, name: string, date: string, start: string, isEmail: string -> bool)
    requires props == CreateSessionProps
    requires eventId >= 1 && 1 <= |name| <= 255
    ensures forall k :: 0 <= k < 9 ==>
      Parse(props[k].rule, Lookup(MinimalSession(eventId, name, date, start), props[k].name), isEmail).Ok?
  {
    var m := MinimalSession(eventId, name, date, start);
    assert (eventId as real).Floor == eventId;
    forall k | 0 <= k < 9
      ensures Parse(props[k].rule, Lookup(m, props[k].name), isEmail).Ok?
    {
      assert k == 0 || k == 1 || k == 2 || k == 3 || k == 4 || k == 5 || k == 6 || k == 7 || k == 8;
    }
  }

  lemma MinimalSessionTail(props: seq<Prop>, eventId: nat, name: string, date: string, start: string, isEmail: string -> bool)
    requires props == CreateSessionProps
    ensures forall k :: 9 <= k < 18 ==>
      Parse(props[k].rule, Lookup(MinimalSession(eventId, name, date, start), props[k].name), isEmail).Ok?
  {
    var m := MinimalSession(eventId, name, date, start);
    forall k | 9 <= k < 18
      ensures Parse(props[k].rule, Lookup(m, props[k].name), isEmail).Ok?
    {
      assert k == 9 || k == 10 || k == 11 || k == 12 || k == 13 || k == 14 || k == 15 || k == 16 || k == 17;
    }
  }

  /** The smallest valid session is accepted. */
  lemma MinimalSessionAccepted(props: seq<Prop>, eventId: nat, name: string, date: string, start: string, isEmail: string -> bool)
    requires props == CreateSessionProps
    requires eventId >= 1 && 1 <= |name| <= 255
    ensures Parse(Obj(props), Some(JObj(MinimalSession(eventId, name, date, start))), isEmail).Ok?
  {
    MinimalSessionHead(props, eventId, name, date, start, isEmail);
    MinimalSessionTail(props, eventId, name, date, start, isEmail);
    PropsOk(props, MinimalSession(eventId, name, date, start), 0, isEmail);
  }

  /** The session update schema has no `event_id`, and every field it has is
      optional. */
  lemma UpdateSessionShape()
    ensures UpdateSession.Obj?
    ensures forall p :: p in UpdateSession.props ==> p.name != "event_id" && p.rule.Optional?
    ensures forall p :: p in CreateSessionProps && p.name != "event_id" ==> Prop(p.name, Optional(p.rule)) in UpdateSession.props
  {
    var full := Partial(CreateSession);
    forall p | p in CreateSessionProps && p.name != "event_id"
      ensures Prop(p.name, Optional(p.rule)) in UpdateSession.props
    {
      var k :| 0 <= k < |CreateSessionProps| && CreateSessionProps[k] == p;
      assert full.props[k] == Prop(p.name, Optional(p.rule));
    }
  }

  /** An object whose properties are all optional accepts the empty object and gives
      it back empty, applying no default; a key that names no property is dropped. */
  lemma OptionalObject(props: seq<Prop>, key: string, v: Json, isEmail: string -> bool)
    requires forall p :: p in props ==> p.rule.Optional? && p.name != key
    ensures Parse(Obj(props), Some(JObj(map[])), isEmail) == Ok(Some(JObj(map[])))
    ensures Parse(Obj(props), Some(JObj(map[key := v])), isEmail) == Ok(Some(JObj(map[])))
  {
    PropsOkEmpty(props, 0, isEmail);
    IgnoredKey(props, key, v, 0, isEmail);
  }

  /** An empty session update is accepted and applies no defaults, so it changes no
      column; an `event_id` in the body is dropped. */
  lemma UpdateSessionEmptyAndEventId(props: seq<Prop>, v: Json, isEmail: string -> bool)
    requires props == UpdateSession.props
    ensures Parse(Obj(props), Some(JObj(map[])), isEmail) == Ok(Some(JObj(map[])))
    ensures Parse(Obj(props), Some(JObj(map["event_id" := v])), isEmail) == Ok(Some(JObj(map[])))
  {
    UpdateSessionShape();
    OptionalObject(props, "event_id", v, isEmail);
  }

  /** A key that names no property is ignored. */
  lemma {:induction false} IgnoredKey(props: seq<Prop>, key: string, v: Json, i: nat, isEmail: string -> bool)
    requires i <= |props|
    requires forall p :: p in props ==> p.name != key
    ensures ParseProps(props, map[key := v], i, isEmail) == ParseProps(props, map[], i, isEmail)
    decreases |props| - i
  {
    if i < |props| {
      assert props[i] in props;
      IgnoredKey(props, key, v, i + 1, isEmail);
    }
  }

  /** Properties that are all optional accept the empty object with an empty output. */
  lemma {:induction false} PropsOkEmpty(props: seq<Prop>, i: nat, isEmail: string -> bool)
    requires i <= |props|
    requires forall p :: p in props ==> p.rule.Optional?
    ensures ParseProps(props, map[], i, isEmail) == Collected([], map[])
    decreases |props| - i
  {
    if i < |props| {
      assert props[i] in props;
      PropsOkEmpty(props, i + 1, isEmail);
      var p := Parse(props[i].rule, Lookup(map[], props[i].name), isEmail);
      assert p == Ok(None);
      assert Under(Field(props[i].name), IssuesOf(p)) == [];
    }
  }

  // ----- the event schemas -----

  lemma EventNamesNamed(props: seq<Prop>)
    requires props == CreateEventProps
    ensures FirstNamed(props, 1) && FirstNamed(props, 3) && FirstNamed(props, 18)
  {
  }

  lemma EventInfoNamed(props: seq<Prop>)
    requires props == CreateEventProps
    ensures FirstNamed(props, 13) && FirstNamed(props, 14)
  {
  }

  lemma EventLinksNamed(props: seq<Prop>)
    requires props == CreateEventProps
    ensures FirstNamed(props, 15) && FirstNamed(props, 17)
  {
  }

  /** A created event that parses (`props` being the event schema's properties) has
      `pwa_name` and `event_name` of 1..255 characters, and `is_draft` defaults to
      true. */
  lemma CreateEventRules(props: seq<Prop>, m: map<string, Json>, isEmail: string -> bool)
    requires props == CreateEventProps
    requires Parse(Obj(props), Some(JObj(m)), isEmail).Ok?
    ensures var out := Parse(Obj(props), Some(JObj(m)), isEmail).value.value.fields;
      "pwa_name" in m && m["pwa_name"].JStr? && 1 <= |m["pwa_name"].s| <= 255
      && "event_name" in m && m["event_name"].JStr? && 1 <= |m["event_name"].s| <= 255
      && ("is_draft" !in m ==> "is_draft" in out && out["is_draft"] == JBool(true))
  {
    EventNamesNamed(props);
    PropString(props, m, 1, isEmail);
    PropString(props, m, 3, isEmail);
    if "is_draft" !in m { PropDefaulted(props, m, 18, isEmail); }
  }

  /** The WiFi and help-desk lists of a created event default to empty lists. */
  lemma CreateEventInfoLists(props: seq<Prop>, m: map<string, Json>, isEmail: string -> bool)
    requires props == CreateEventProps
    requires Parse(Obj(props), Some(JObj(m)), isEmail).Ok?
    ensures var out := Parse(Obj(props), Some(JObj(m)), isEmail).value.value.fields;
      ("wifi" !in m ==> "wifi" in out && out["wifi"] == JArr([]))
      && ("helpdesk" !in m ==> "helpdesk" in out && out["helpdesk"] == JArr([]))
  {
    EventInfoNamed(props);
    if "wifi" !in m { PropDefaulted(props, m, 13, isEmail); EmptyArray(props[13].rule.inner.item, isEmail); }
    if "helpdesk" !in m { PropDefaulted(props, m, 14, isEmail); EmptyArray(props[14].rule.inner.item, isEmail); }
  }

  /** The venue-map and quick-link lists of a created event default to empty lists. */
  lemma CreateEventLinkLists(props: seq<Prop>, m: map<string, Json>, isEmail: string -> bool)
    requires props == CreateEventProps
    requires Parse(Obj(props), Some(JObj(m)), isEmail).Ok?
    ensures var out := Parse(Obj(props), Some(JObj(m)), isEmail).value.value.fields;
      ("venue_maps" !in m ==> "venue_maps" in out && out["venue_maps"] == JArr([]))
      && ("quick_links" !in m ==> "quick_links" in out && out["quick_links"] == JArr([]))
  {
    EventLinksNamed(props);
    if "venue_maps" !in m { PropDefaulted(props, m, 15, isEmail); EmptyArray(props[15].rule.inner.item, isEmail); }
    if "quick_links" !in m { PropDefaulted(props, m, 17, isEmail); EmptyArray(props[17].rule.inner.item, isEmail); }
  }

  /** Omitted banners become the empty object (`props` being the banner slots). */
  lemma EventBannersDefault(props: seq<Prop>, isEmail: string -> bool)
    requires props == EventBanners.inner.props
    ensures Parse(Default(Default(Obj(props), JObj(map[])), JObj(map[])), None, isEmail) == Ok(Some(JObj(map[])))
  {
    OptionalObject(props, "", JNull, isEmail);
  }

  /** A WiFi entry that parses has a non-empty title, name and password, and an
      omitted description becomes "". */
  lemma WifiRules(props: seq<Prop>, m: map<string, Json>, isEmail: string -> bool)
    requires props == WifiInfo.props
    requires Parse(Obj(props), Some(JObj(m)), isEmail).Ok?
    ensures var out := Parse(Obj(props), Some(JObj(m)), isEmail).value.value.fields;
      (forall key :: key in ["title", "wifi_name", "wifi_password"] ==> key in m && m[key].JStr? && |m[key].s| >= 1)
      && ("desc" !in m ==> "desc" in out && out["desc"] == JStr(""))
  {
    PropString(props, m, 0, isEmail);
    PropString(props, m, 2, isEmail);
    PropString(props, m, 3, isEmail);
    if "desc" !in m { PropDefaulted(props, m, 1, isEmail); }
  }

  // ----- the account schemas -----

  /** Admins and attendees are created with a password of at least six characters;
      logging in needs only a non-empty one. */
  lemma PasswordMinimums(m: map<string, Json>, isEmail: string -> bool)
    ensures Parse(CreateAdmin, Some(JObj(m)), isEmail).Ok? ==> "password" in m && m["password"].JStr? && |m["password"].s| >= 6
    ensures Parse(CreateAttendee, Some(JObj(m)), isEmail).Ok? ==> "password" in m && m["password"].JStr? && |m["password"].s| >= 6
    ensures Parse(Login, Some(JObj(m)), isEmail).Ok? ==> "password" in m && m["password"].JStr? && |m["password"].s| >= 1
  {
    if Parse(CreateAdmin, Some(JObj(m)), isEmail).Ok? { PropOfOk(CreateAdmin.props, m, 1, isEmail); }
    if Parse(CreateAttendee, Some(JObj(m)), isEmail).Ok? { PropOfOk(CreateAttendee.props, m, 1, isEmail); }
    if Parse(Login, Some(JObj(m)), isEmail).Ok? { PropOfOk(Login.props, m, 1, isEmail); }
  }

  /** A five-character password is enough to log in (`props` being the login
      schema's properties). */
  lemma ShortPasswordLogsIn(props: seq<Prop>, email: string, password: string, isEmail: string -> bool)
    requires props == Login.props
    requires isEmail(email) && |email| >= 1 && |password| == 5
    ensures Parse(Obj(props), Some(JObj(map["email" := JStr(email), "password" := JStr(password)])), isEmail).Ok?
  {
    var m := map["email" := JStr(email), "password" := JStr(password)];
    assert ParseProps(props, m, 1, isEmail).issues == [];
    assert ParseProps(props, m, 0, isEmail).issues == [];
  }

  /** A password that is too short reaches the client as a 400 whose one detail
      names the field. */
  lemma ShortPasswordResponse(production: bool)
    ensures HandleError(ZodFailure([Issue([Field("password")], TooShort(6))]), production)
      == Response(400, ValidationBody([FieldMessage("password", TooShort(6))]))
  {
    assert JoinPath([Field("password")]) == "password";
  }
}

=== FILE: sessions_routes.dfy ===
/**
 * The admin session routes (backend/src/routes/sessions.routes.ts): partial
 * session update, session delete, the topics of a session with the
 * `has_topics` flag kept beside them, and speaker unassignment.
 */
module SessionsRoutes {
  import opened Wrappers
  import opened Rows
  import opened ErrorMiddleware
  import opened PgDate
  import Text

  datatype Outcome<T> = Ok(value: T) | Err(error: Thrown)

  /** A row of `session_topics`; `location` and `session_type` may be `NULL`. */
  datatype Topic = Topic(sessionId: int, name: string, location: Option<string>, sessionType: Option<string>)

  /** The columns a `PUT` may set, in the order their `SET` items are numbered. */
  const SessionFields: seq<string> := [
    "session_name", "session_description", "session_date",
    "session_start_time", "session_end_time", "session_tag",
    "session_location", "session_location_map_url", "session_venue_map_url",
    "is_generic", "department", "is_dept_generic", "team",
    "timezone", "has_topics", "survey_url", "supporting_material_url"]

  /** The `DATE` column of `sessions`. */
  const SessionDates: seq<string> := ["session_date"]

  /** `COALESCE($k, col)`: the new value unless it is `NULL`. */
  function Coalesce<T>(given: Option<T>, current: T): (r: T)
    ensures given.Some? ==> r == given.value
    ensures given.None? ==> r == current
  {
    if given.Some? then given.value else current
  }

  /** The topic after `UPDATE session_topics SET name = COALESCE(...), ...`; the
      nullable columns keep their value for a `NULL` or absent parameter too. */
  function UpdatedTopic(t: Topic, name: Option<string>, location: Option<string>, sessionType: Option<string>): (r: Topic)
    ensures r.sessionId == t.sessionId
    ensures r.name == Coalesce(name, t.name)
    ensures r.location == if location.Some? then location else t.location
    ensures r.sessionType == if sessionType.Some? then sessionType else t.sessionType
  {
    Topic(t.sessionId, Coalesce(name, t.name), if location.Some? then location else t.location,
          if sessionType.Some? then sessionType else t.sessionType)
  }

  /** Some topic belongs to session `id`. */
  predicate HasTopicFor(topics: map<int, Topic>, id: int) {
    exists k :: k in topics && topics[k].sessionId == id
  }

  /** `UPDATE sessions SET has_topics = $v WHERE id = $1` (no row changes when there is
      no such session). */
  function SetHasTopics(sessions: map<int, Row>, id: int, v: bool): (r: map<int, Row>)
    ensures r.Keys == sessions.Keys
    ensures forall k :: k in r && k != id ==> r[k] == sessions[k]
    ensures id in r ==> r[id] == sessions[id]["has_topics" := Bool(v)]
  {
    if id in sessions then sessions[id := sessions[id]["has_topics" := Bool(v)]] else sessions
  }

  /** Every topic belongs to a stored session (the foreign key of
      `session_topics.session_id`), and that session is flagged `has_topics`. */
  predicate TopicsFlagged(sessions: map<int, Row>, topics: map<int, Topic>) {
    forall k :: k in topics ==> topics[k].sessionId in sessions && IsTrue(sessions[topics[k].sessionId], "has_topics")
  }

  /** The error PostgreSQL raises when a topic names no stored session (SQLSTATE
      `23503`); the error middleware answers it with 400. The constraint's name is
      not part of this model. */
  function TopicSessionMissing(id: int): (e: Thrown)
    ensures e.Failure? && !e.isOperational && e.code == Some("23503") && e.detail == Some(MissingSessionDetail(id))
  {
    Failure(ForeignKeyMessage(), None, false, Some("23503"), Some(MissingSessionDetail(id)))
  }

  /** The error middleware answers the missing session with 400 and the
      foreign-key message, carrying PostgreSQL's detail, in every environment. */
  lemma TopicSessionMissingAnswer(id: int, production: bool)
    ensures HandleError(TopicSessionMissing(id), production)
      == Response(400, ConstraintBody("Referenced resource not found", Some(MissingSessionDetail(id))))
  {
  }

  /** The foreign-key error's message; the middleware never shows it for 23503. */
  function ForeignKeyMessage(): string {
    "violates foreign key constraint"
  }

  /** PostgreSQL's detail line for the missing key. */
  function MissingSessionDetail(id: int): string {
    "Key (session_id)=(" + Text.IntToString(id) + ") is not present in table \"sessions\"."
  }

  /** The topics that do not belong to session `id`. */
  function TopicsWithout(topics: map<int, Topic>, id: int): (r: map<int, Topic>)
    ensures forall k :: k in r <==> k in topics && topics[k].sessionId != id
    ensures forall k :: k in r ==> r[k] == topics[k]
  {
    map k | k in topics && topics[k].sessionId != id :: topics[k]
  }

  class SessionStore {
    /** `sessions` by id. */
    var sessions: map<int, Row>
    /** `session_topics` by id. */
    var topics: map<int, Topic>
    /** The next value of the `session_topics.id` sequence. */
    var nextTopicId: int
    /** `session_speaker` as (session, speaker) pairs. */
    var assignments: set<(int, int)>

    constructor ()
      ensures sessions == map[] && topics == map[] && nextTopicId == 1 && assignments == {}
    {
      sessions, topics, nextTopicId, assignments := map[], map[], 1, {};
    }

    /** `PUT /:id`: set exactly the supplied fields; with none supplied, answer the
        stored row. A supplied date PostgreSQL cannot read fails the update; otherwise
        the date is stored in `YYYY-MM-DD` form. A missing session is 404. */
    method UpdateSession(id: int, data: map<string, Value>) returns (r: Outcome<Row>)
      modifies this`sessions
      ensures Supplied(SessionFields, data) == [] ==>
        sessions == old(sessions)
        && r == if id in old(sessions) then Ok(old(sessions)[id]) else Err(NotFoundError("Session"))
      ensures Supplied(SessionFields, data) != [] && FirstBadDate(data, SessionDates).Some? ==>
        sessions == old(sessions) && r == Err(DateInputError(FirstBadDate(data, SessionDates).value))
      ensures Supplied(SessionFields, data) != [] && FirstBadDate(data, SessionDates).None? && id !in old(sessions) ==>
        sessions == old(sessions) && r == Err(NotFoundError("Session"))
      ensures Supplied(SessionFields, data) != [] && FirstBadDate(data, SessionDates).None? && id in old(sessions) ==>
        var updated := old(sessions)[id] + Restrict(StoredDates(data, SessionDates), SessionFields);
        r == Ok(updated) && sessions == old(sessions)[id := updated]
    {
      var stored := StoredDates(data, SessionDates);
      SuppliedOfKeys(SessionFields, stored, data);
      if Supplied(SessionFields, data) != [] {
        var bad := FirstBadDate(data, SessionDates);
        if bad.Some? {
          return Err(DateInputError(bad.value));
        }
      }
      r := SetColumns(id, stored);
    }

    /** The `UPDATE` once a supplied date has been read. */
    method SetColumns(id: int, data: map<string, Value>) returns (r: Outcome<Row>)
      modifies this`sessions
      ensures id !in old(sessions) ==> r == Err(NotFoundError("Session")) && sessions == old(sessions)
      ensures id in old(sessions) && Supplied(SessionFields, data) == [] ==>
        r == Ok(old(sessions)[id]) && sessions == old(sessions)
      ensures id in old(sessions) && Supplied(SessionFields, data) != [] ==>
        var updated := old(sessions)[id] + Restrict(data, SessionFields);
        r == Ok(updated) && sessions == old(sessions)[id := updated]
    {
      var updates, values := BuildSetClause(SessionFields, data);
      if |updates| == 0 {
        if id !in sessions {
          return Err(NotFoundError("Session"));
        }
        return Ok(sessions[id]);
      }
      if id !in sessions {
        return Err(NotFoundError("Session"));
      }
      var updated := ApplySet(sessions[id], updates, values);
      SetClauseEffect(sessions[id], SessionFields, data, updates, values);
      sessions := sessions[id := updated];
      r := Ok(updated);
    }

    /** `DELETE /:id`: 404 when there is no such session, 204 otherwise; the delete
        cascades to the session's topics and speaker assignments. */
    method DeleteSession(id: int) returns (r: Outcome<int>)
      modifies this`sessions, this`topics, this`assignments
      ensures id !in old(sessions) ==>
        r == Err(NotFoundError("Session")) && sessions == old(sessions)
        && topics == old(topics) && assignments == old(assignments)
      ensures id in old(sessions) ==>
        r == Ok(204) && sessions == old(sessions) - {id} && topics == TopicsWithout(old(topics), id)
        && assignments == (set p | p in old(assignments) && p.0 != id)
      ensures old(TopicsFlagged(sessions, topics)) ==> TopicsFlagged(sessions, topics)
    {
      if id !in sessions {
        return Err(NotFoundError("Session"));
      }
      sessions := sessions - {id};
      topics := TopicsWithout(topics, id);
      assignments := set p | p in assignments && p.0 != id;
      r := Ok(204);
    }

    /** `POST /:id/topics`: insert the topic and flag the session; a session that is
        not stored fails the insert's foreign key and nothing changes. */
    method AddTopic(id: int, name: string, location: Option<string>, sessionType: Option<string>)
      returns (r: Outcome<Topic>)
      modifies this`topics, this`sessions, this`nextTopicId
      ensures id !in old(sessions) ==>
        r == Err(TopicSessionMissing(id))
        && topics == old(topics) && sessions == old(sessions) && nextTopicId == old(nextTopicId)
      ensures id in old(sessions) ==>
        r == Ok(Topic(id, name, location, sessionType))
        && topics == old(topics)[old(nextTopicId) := r.value] && nextTopicId == old(nextTopicId) + 1
        && sessions == SetHasTopics(old(sessions), id, true)
      ensures old(nextTopicId) !in old(topics) && old(TopicsFlagged(sessions, topics)) ==> TopicsFlagged(sessions, topics)
    {
      if id !in sessions {
        return Err(TopicSessionMissing(id));
      }
      var created := Topic(id, name, location, sessionType);
      topics := topics[nextTopicId := created];
      nextTopicId := nextTopicId + 1;
      sessions := SetHasTopics(sessions, id, true);
      r := Ok(created);
    }

    /** `PUT /:id/topics/:topicId`: the topic is found by `topicId` alone. */
    method UpdateTopic(topicId: int, name: Option<string>, location: Option<string>, sessionType: Option<string>)
      returns (r: Outcome<Topic>)
      modifies this`topics
      ensures topicId !in old(topics) ==> r == Err(NotFoundError("Topic")) && topics == old(topics)
      ensures topicId in old(topics) ==>
        var t := UpdatedTopic(old(topics)[topicId], name, location, sessionType);
        r == Ok(t) && topics == old(topics)[topicId := t]
      ensures old(TopicsFlagged(sessions, topics)) ==> TopicsFlagged(sessions, topics)
    {
      if topicId !in topics {
        return Err(NotFoundError("Topic"));
      }
      var t := UpdatedTopic(topics[topicId], name, location, sessionType);
      topics := topics[topicId := t];
      r := Ok(t);
    }

    /** `DELETE /:id/topics/:topicId`: delete by `topicId` alone, then clear the flag
        of session `id` when it has no topics left. */
    method DeleteTopic(id: int, topicId: int) returns (r: Outcome<int>)
      modifies this`topics, this`sessions
      ensures topicId !in old(topics) ==>
        r == Err(NotFoundError("Topic")) && topics == old(topics) && sessions == old(sessions)
      ensures topicId in old(topics) ==>
        r == Ok(204) && topics == old(topics) - {topicId}
        && sessions == if HasTopicFor(topics, id) then old(sessions) else SetHasTopics(old(sessions), id, false)
      ensures old(TopicsFlagged(sessions, topics)) ==> TopicsFlagged(sessions, topics)
    {
      if topicId !in topics {
        return Err(NotFoundError("Topic"));
      }
      topics := topics - {topicId};
      if !HasTopicFor(topics, id) {
        sessions := SetHasTopics(sessions, id, false);
      }
      r := Ok(204);
    }

    /** `DELETE /:id/speakers/:speakerId`: 404 when the pair is not assigned. */
    method UnassignSpeaker(id: int, speakerId: int) returns (r: Outcome<int>)
      modifies this`assignments
      ensures (id, speakerId) !in old(assignments) ==>
        r == Err(NotFoundError("Session speaker assignment")) && assignments == old(assignments)
      ensures (id, speakerId) in old(assignments) ==>
        r == Ok(204) && assignments == old(assignments) - {(id, speakerId)}
    {
      if (id, speakerId) !in assignments {
        return Err(NotFoundError("Session speaker assignment"));
      }
      assignments := assignments - {(id, speakerId)};
      r := Ok(204);
    }
  }

  // ----- properties -----

  /** An update with every field `NULL` or absent leaves the topic as it was, and
      repeating an update changes nothing more. */
  lemma TopicUpdateRules(t: Topic, name: Option<string>, location: Option<string>, sessionType: Option<string>)
    ensures UpdatedTopic(t, None, None, None) == t
    ensures var u := UpdatedTopic(t, name, location, sessionType);
      UpdatedTopic(u, name, location, sessionType) == u
  {
  }

  /** After a delete the flag of session `id` is false exactly when none of its
      topics remain, and other sessions keep their rows. */
  lemma DeleteTopicFlag(sessions: map<int, Row>, topics: map<int, Topic>, id: int, topicId: int, other: int)
    requires id in sessions && other != id && other in sessions
    ensures var rest := topics - {topicId};
      var after := if HasTopicFor(rest, id) then sessions else SetHasTopics(sessions, id, false);
      (IsFalse(after[id], "has_topics") <==> !HasTopicFor(rest, id) || IsFalse(sessions[id], "has_topics"))
      && after[other] == sessions[other]
  {
  }

  /** Deleting a topic through another session's URL removes it, yet leaves its own
      session flagged with no topics, and clears the flag of the session named in
      the URL. */
  lemma DeleteThroughOtherSession()
    ensures var sessions := map[10 := map["has_topics" := Bool(true)], 20 := map["has_topics" := Bool(true)]];
      var topics := map[1 := Topic(10, "Keynote", None, None)];
      var rest := topics - {1};
      var after := if HasTopicFor(rest, 20) then sessions else SetHasTopics(sessions, 20, false);
      rest == map[] && IsTrue(after[10], "has_topics") && IsFalse(after[20], "has_topics")
  {
    var topics := map[1 := Topic(10, "Keynote", None, None)];
    assert topics - {1} == map[];
  }

  /** The flag invariant survives adding a topic under a fresh id. */
  lemma AddKeepsFlagged(sessions: map<int, Row>, topics: map<int, Topic>, topicId: int, t: Topic)
    requires TopicsFlagged(sessions, topics) && topicId !in topics && t.sessionId in sessions
    ensures TopicsFlagged(SetHasTopics(sessions, t.sessionId, true), topics[topicId := t])
  {
  }

  /** The flag invariant survives deleting a topic and recomputing any session's flag. */
  lemma DeleteKeepsFlagged(sessions: map<int, Row>, topics: map<int, Topic>, topicId: int, id: int)
    requires TopicsFlagged(sessions, topics)
    ensures var rest := topics - {topicId};
      TopicsFlagged(if HasTopicFor(rest, id) then sessions else SetHasTopics(sessions, id, false), rest)
  {
  }

  /** Deleting a session leaves no topic of it behind, and keeps every other topic. */
  lemma DeleteSessionKeepsFlagged(sessions: map<int, Row>, topics: map<int, Topic>, id: int)
    requires TopicsFlagged(sessions, topics)
    ensures TopicsFlagged(sessions - {id}, TopicsWithout(topics, id))
    ensures !HasTopicFor(TopicsWithout(topics, id), id)
  {
  }
}

=== FILE: sessions_section.dfy ===
/**
 * The admin dashboard's session editor for one event
 * (admin-dashboard/src/components/events/SessionsSection.tsx): the day tabs
 * (stored days, or days built from the event's dates), the short date and
 * duration labels, the form and the payload it sends, and the guards in front of
 * the create and update requests.
 */
module SessionsSection {
  import opened Wrappers
  import opened Text
  import opened Sorting
  import opened CivilDate
  import EventsRoutes

  // ----- labels -----

  /** The month abbreviations the short date uses, January first. */
  const MonthNames: seq<string> :=
    ["Jan", "Feb", "Mar", "Apr", "May", "Jun", "Jul", "Aug", "Sep", "Oct", "Nov", "Dec"]

  /** `months[m - 1]`: a month number outside 1..12, or NaN, reads as `undefined`. */
  function MonthText(m: Option<int>): (r: string)
    ensures m.Some? && 1 <= m.value <= 12 ==> r == MonthNames[m.value - 1]
    ensures m.None? || m.value < 1 || m.value > 12 ==> r == "undefined"
  {
    if m.Some? && 1 <= m.value <= 12 then MonthNames[m.value - 1] else "undefined"
  }

  /** A number as a template literal shows it (`NaN` for a failed conversion). */
  function NumberText(n: Option<int>): string {
    if n.Some? then IntToString(n.value) else "NaN"
  }

  /** `formatShortDate`: the second and third '-' fields read by `Number`, shown as
      the month's abbreviation and the day; a missing field is `undefined`. */
  function FormatShortDate(dateStr: string): string {
    var f := Split(dateStr, '-');
    var m := if |f| >= 2 then JsNumber(f[1]) else None;
    var day := if |f| >= 3 then NumberText(JsNumber(f[2])) else "undefined";
    MonthText(m) + " " + day
  }

  /** The short date of a calendar day: "Mar 6" for 2026-03-06. */
  function ShortDate(d: Date): string
    requires Valid(d)
  {
    MonthNames[d.month - 1] + " " + NatToString(d.day)
  }

  /** `${mins} min` between two `HH:MM` times: nothing without an end or when the
      end is not after the start; a time that `Number` cannot read gives NaN, and
      NaN is not `<= 0`, so it shows as "NaN min". */
  function CalcDuration(start: string, end: Option<string>): (r: string)
    ensures end.None? || end.value == "" ==> r == ""
    ensures end.Some? && end.value != "" && (ClockMinutes(start).None? || ClockMinutes(end.value).None?) ==> r == "NaN min"
    ensures end.Some? && end.value != "" && ClockMinutes(start).Some? && ClockMinutes(end.value).Some? ==>
      var mins := ClockMinutes(end.value).value - ClockMinutes(start).value;
      (r == "" <==> mins <= 0) && (mins > 0 ==> StartsWith(r, NatToString(mins)) && EndsWith(r, " min"))
  {
    if end.None? || end.value == "" then ""
    else
      var s := ClockMinutes(start);
      var e := ClockMinutes(end.value);
      if s.None? || e.None? then "NaN min"
      else MinutesLabel(e.value - s.value)
  }

  /** The label for a span of `mins` minutes: nothing unless it is positive. */
  function MinutesLabel(mins: int): string {
    if mins <= 0 then "" else NatToString(mins) + " min"
  }

  /** `formatTime`: the first five characters, `HH:MM` of `HH:MM:SS`. */
  function FormatTime(time: string): (r: string)
    ensures |time| >= 5 ==> |r| == 5 && r == time[..5]
    ensures |time| < 5 ==> r == time
  {
    Prefix(time, 5)
  }

  // ----- day tabs -----

  /** A day tab: its caption (`label`), its `YYYY-MM-DD` date and its short date. */
  datatype AdminTab = AdminTab(caption: string, date: string, shortDate: string)

  /** A stored day as `GET /admin/events/:id/days` returns it. */
  datatype StoredDay = StoredDay(dayNumber: int, dayDate: string)

  /** `DAY ${n}`. */
  function DayLabel(n: int): string {
    "DAY " + IntToString(n)
  }

  /** The tab of one day numbered `n` on date `date`. */
  function TabOf(n: int, date: string): AdminTab {
    AdminTab(DayLabel(n), date, FormatShortDate(date))
  }

  /** Stored days as tabs, each date cut to its first ten characters. */
  function StoredTabs(days: seq<StoredDay>): (r: seq<AdminTab>)
    ensures |r| == |days|
    ensures forall k :: 0 <= k < |r| ==> r[k] == TabOf(days[k].dayNumber, Prefix(days[k].dayDate, 10))
  {
    seq(|days|, k requires 0 <= k < |days| => TabOf(days[k].dayNumber, Prefix(days[k].dayDate, 10)))
  }

  /** The tabs of the rows the backend generates for the same dates. */
  function AdminTabsOf(rows: seq<EventsRoutes.DayRow>): (r: seq<AdminTab>)
    ensures |r| == |rows| && forall k :: 0 <= k < |r| ==> r[k] == TabOf(rows[k].dayNumber, rows[k].dayDate)
  {
    seq(|rows|, k requires 0 <= k < |rows| => TabOf(rows[k].dayNumber, rows[k].dayDate))
  }

  /** One more row adds its tab at the end. */
  lemma AdminTabsSnoc(rows: seq<EventsRoutes.DayRow>, row: EventsRoutes.DayRow)
    ensures AdminTabsOf(rows + [row]) == AdminTabsOf(rows) + [TabOf(row.dayNumber, row.dayDate)]
  {
  }

  /** `buildFallbackTabs`: nothing for an empty date or one that is not a calendar
      day written `YYYY-MM-DD`; otherwise one tab per day from start to end, which
      are exactly the backend's day rows for those dates. */
  method BuildFallbackTabs(startStr: string, endStr: string) returns (tabs: seq<AdminTab>)
    ensures ParseIso(startStr).None? || ParseIso(endStr).None? ==> tabs == []
    ensures |startStr| <= 10 && |endStr| <= 10 ==> tabs == AdminTabsOf(EventsRoutes.EventDays(0, startStr, endStr))
  {
    if startStr == "" || endStr == "" {
      assert ParseIso(Prefix("", 10)).None?;
      return [];
    }
    var start := ParseIso(startStr);
    var end := ParseIso(endStr);
    if start.None? || end.None? {
      return [];
    }
    assert Prefix(startStr, 10) == startStr && Prefix(endStr, 10) == endStr;
    tabs := TabsFromTo(start.value, end.value);
  }

  /** The `while (d <= end)` loop: one tab per day from `start` to `end`. */
  method TabsFromTo(start: Date, end: Date) returns (tabs: seq<AdminTab>)
    requires Valid(start) && Valid(end) && end.year <= 9999
    ensures tabs == AdminTabsOf(EventsRoutes.DaysFrom(0, start, end, 1))
  {
    ghost var all := EventsRoutes.DaysFrom(0, start, end, 1);
    tabs := [];
    var dayNum := 1;
    var d := start;
    while DayIndex(d) <= DayIndex(end)
      invariant Valid(d) && DayIndex(start) <= DayIndex(d)
      invariant DayIndex(d) <= DayIndex(end) + 1 || d == start
      invariant dayNum == DayIndex(d) - DayIndex(start) + 1
      invariant 0 <= dayNum - 1 <= |all|
      invariant tabs == AdminTabsOf(all[..dayNum - 1])
      invariant all[dayNum - 1..] == EventsRoutes.DaysFrom(0, d, end, dayNum)
      decreases DayIndex(end) - DayIndex(d)
    {
      EventsRoutes.GenerateNext(all, 0, d, end, dayNum);
      tabs := tabs + [TabOf(dayNum, FormatIso(d))];
      AdminTabsSnoc(all[..dayNum - 1], all[dayNum - 1]);
      dayNum := dayNum + 1;
      d := NextDay(d);
    }
    assert all[..dayNum - 1] == all;
  }

  /** The tabs `fetchEventDays` shows: the stored days when the request returned
      any, otherwise (no days, or a failed request, `None`) the fallback built from
      the event's dates cut to ten characters. */
  method LoadDayTabs(fetched: Option<seq<StoredDay>>, eventStartDate: string, eventEndDate: string)
    returns (tabs: seq<AdminTab>)
    ensures fetched.Some? && |fetched.value| > 0 ==> tabs == StoredTabs(fetched.value)
    ensures fetched.None? || |fetched.value| == 0 ==>
      tabs == AdminTabsOf(EventsRoutes.EventDays(0, eventStartDate, eventEndDate))
  {
    if fetched.Some? && |fetched.value| > 0 {
      return StoredTabs(fetched.value);
    }
    var s, e := Prefix(eventStartDate, 10), Prefix(eventEndDate, 10);
    assert Prefix(s, 10) == s && Prefix(e, 10) == e;
    tabs := BuildFallbackTabs(s, e);
  }

  /** The day selected after the tabs load: an existing selection stays, otherwise
      the first tab's date when there is one. */
  function SelectedAfterLoad(selectedDay: string, tabs: seq<AdminTab>): (r: string)
    ensures selectedDay != "" ==> r == selectedDay
    ensures selectedDay == "" && tabs != [] ==> r == tabs[0].date
    ensures selectedDay == "" && tabs == [] ==> r == ""
  {
    if selectedDay == "" && |tabs| > 0 then tabs[0].date else selectedDay
  }

  // ----- the form and its payload -----

  /** `SessionFormData`: every text field is a string, empty when unset. */
  datatype SessionForm = SessionForm(
    name: string, description: string, tag: string, startTime: string, endTime: string,
    isGeneric: bool, department: string, isDeptGeneric: bool, team: string, hasTopics: bool,
    location: string, locationMapUrl: string, venueMapUrl: string, surveyUrl: string,
    supportingMaterialUrl: string)

  /** `emptyForm`: a generic, department-generic session without topics. */
  const EmptyForm := SessionForm("", "", "", "", "", true, "", true, "", false, "", "", "", "", "")

  /** A stored session as the list returns it; `null` is `None`. */
  datatype SessionData = SessionData(
    id: int, name: string, description: Option<string>, date: string, startTime: string,
    endTime: Option<string>, tag: Option<string>, location: Option<string>,
    locationMapUrl: Option<string>, venueMapUrl: Option<string>, isGeneric: bool,
    department: Option<string>, isDeptGeneric: bool, team: Option<string>, hasTopics: bool,
    surveyUrl: Option<string>, supportingMaterialUrl: Option<string>)

  /** The body `buildPayload` produces; `null` is `None`. */
  datatype Payload = Payload(
    name: string, description: Option<string>, tag: Option<string>, startTime: string,
    endTime: Option<string>, isGeneric: bool, department: Option<string>, isDeptGeneric: bool,
    team: Option<string>, hasTopics: bool, location: Option<string>,
    locationMapUrl: Option<string>, venueMapUrl: Option<string>, surveyUrl: Option<string>,
    supportingMaterialUrl: Option<string>)

  /** No optional text is present and empty. */
  predicate NoEmptyText(o: Option<string>) {
    o.Some? ==> o.value != ""
  }

  /** The visibility fields are consistent: a generic session names no department
      and counts as department-generic, a department-generic one names no team. */
  predicate Normalised(isGeneric: bool, department: Option<string>, isDeptGeneric: bool, team: Option<string>) {
    (isGeneric ==> department.None? && isDeptGeneric) && (isDeptGeneric ==> team.None?)
  }

  /** `buildPayload`: empty text becomes `null`, and the visibility fields are
      normalised — a generic session drops its department and team, a
      department-generic one its team. */
  function BuildPayload(f: SessionForm): (p: Payload)
    ensures Normalised(p.isGeneric, p.department, p.isDeptGeneric, p.team)
    ensures p.isGeneric == f.isGeneric && p.name == f.name && p.startTime == f.startTime && p.hasTopics == f.hasTopics
    ensures !f.isGeneric ==> p.department == OrNull(f.department) && p.isDeptGeneric == f.isDeptGeneric
    ensures !f.isGeneric && !f.isDeptGeneric ==> p.team == OrNull(f.team)
    ensures NoEmptyText(p.description) && NoEmptyText(p.tag) && NoEmptyText(p.endTime)
      && NoEmptyText(p.department) && NoEmptyText(p.team) && NoEmptyText(p.location)
      && NoEmptyText(p.locationMapUrl) && NoEmptyText(p.venueMapUrl)
      && NoEmptyText(p.surveyUrl) && NoEmptyText(p.supportingMaterialUrl)
  {
    Payload(
      f.name, OrNull(f.description), OrNull(f.tag), f.startTime, OrNull(f.endTime),
      f.isGeneric,
      if f.isGeneric then None else OrNull(f.department),
      if f.isGeneric then true else f.isDeptGeneric,
      if f.isGeneric || f.isDeptGeneric then None else OrNull(f.team),
      f.hasTopics, OrNull(f.location), OrNull(f.locationMapUrl), OrNull(f.venueMapUrl),
      OrNull(f.surveyUrl), OrNull(f.supportingMaterialUrl))
  }

  /** `openEditPanel`'s form: `null` text becomes empty and the times are cut to
      `HH:MM`. */
  function EditForm(s: SessionData): (f: SessionForm)
    ensures f.name == s.name && f.isGeneric == s.isGeneric && f.isDeptGeneric == s.isDeptGeneric
    ensures f.startTime == FormatTime(s.startTime)
    ensures f.endTime == FormatTime(OrEmpty(s.endTime))
  {
    SessionForm(
      s.name, OrEmpty(s.description), OrEmpty(s.tag),
      if s.startTime != "" then FormatTime(s.startTime) else "",
      if s.endTime.Some? && s.endTime.value != "" then FormatTime(s.endTime.value) else "",
      s.isGeneric, OrEmpty(s.department), s.isDeptGeneric, OrEmpty(s.team), s.hasTopics,
      OrEmpty(s.location), OrEmpty(s.locationMapUrl), OrEmpty(s.venueMapUrl),
      OrEmpty(s.surveyUrl), OrEmpty(s.supportingMaterialUrl))
  }

  /** The payload that saves a stored session unchanged. */
  function StoredPayload(s: SessionData): Payload {
    Payload(
      s.name, s.description, s.tag, FormatTime(s.startTime),
      if s.endTime.Some? then OrNull(FormatTime(s.endTime.value)) else None,
      s.isGeneric, s.department, s.isDeptGeneric, s.team, s.hasTopics, s.location,
      s.locationMapUrl, s.venueMapUrl, s.surveyUrl, s.supportingMaterialUrl)
  }

  // ----- create and update -----

  /** What pressing "create" or "save" does. */
  datatype Action =
    | Nothing
    | Rejected(message: string)
    | Post(eventId: Option<int>, sessionDate: string, payload: Payload)
    | Put(sessionId: int, payload: Payload)

  /** `handleCreate`: a name and a start time are required; the request carries
      the event id read by `Number` and the selected day. */
  function CreateAction(f: SessionForm, eventId: string, selectedDay: string): (a: Action)
    ensures f.name == "" ==> a == Rejected("Session name is required")
    ensures f.name != "" && f.startTime == "" ==> a == Rejected("Start time is required")
    ensures f.name != "" && f.startTime != "" ==>
      a.Post? && a.sessionDate == selectedDay && a.payload == BuildPayload(f) && a.payload.startTime != ""
  {
    if f.name == "" then Rejected("Session name is required")
    else if f.startTime == "" then Rejected("Start time is required")
    else Post(JsNumber(eventId), selectedDay, BuildPayload(f))
  }

  /** `handleUpdate`: nothing without a (truthy) id being edited; a name is
      required; the start time is not checked. */
  function UpdateAction(editingId: Option<int>, f: SessionForm): (a: Action)
    ensures editingId.None? || editingId.value == 0 ==> a == Nothing
    ensures editingId.Some? && editingId.value != 0 && f.name == "" ==> a == Rejected("Session name is required")
    ensures editingId.Some? && editingId.value != 0 && f.name != "" ==>
      a == Put(editingId.value, BuildPayload(f))
  {
    if editingId.None? || editingId.value == 0 then Nothing
    else if f.name == "" then Rejected("Session name is required")
    else Put(editingId.value, BuildPayload(f))
  }

  /** `daySessions`: the sessions in ascending order of start time. */
  function SortedByStart(sessions: seq<SessionData>): (r: seq<SessionData>)
    ensures multiset(r) == multiset(sessions)
    ensures SortedBy(r, (s: SessionData) => (s.startTime, ""))
  {
    SortBy(sessions, (s: SessionData) => (s.startTime, ""))
  }

  /** The editor's state. */
  class Editor {
    /** `dayTabs`. */
    var dayTabs: seq<AdminTab>
    /** `selectedDay`, empty when none. */
    var selectedDay: string
    /** `panelOpen`. */
    var panelOpen: bool
    /** `editingId`, `None` for `null`. */
    var editingId: Option<int>
    /** `formData`. */
    var form: SessionForm

    constructor ()
      ensures dayTabs == [] && selectedDay == "" && !panelOpen && editingId.None? && form == EmptyForm
    {
      dayTabs, selectedDay, panelOpen, editingId, form := [], "", false, None, EmptyForm;
    }

    /** `fetchEventDays`: loads the tabs and selects the first day when none is. */
    method FetchEventDays(fetched: Option<seq<StoredDay>>, eventStartDate: string, eventEndDate: string)
      modifies this`dayTabs, this`selectedDay
      ensures fetched.Some? && |fetched.value| > 0 ==> dayTabs == StoredTabs(fetched.value)
      ensures fetched.None? || |fetched.value| == 0 ==>
        dayTabs == AdminTabsOf(EventsRoutes.EventDays(0, eventStartDate, eventEndDate))
      ensures selectedDay == SelectedAfterLoad(old(selectedDay), dayTabs)
    {
      var tabs := LoadDayTabs(fetched, eventStartDate, eventEndDate);
      dayTabs := tabs;
      selectedDay := SelectedAfterLoad(selectedDay, tabs);
    }

    /** A click on a tab selects its date. */
    method SelectDay(k: nat)
      requires k < |dayTabs|
      modifies this`selectedDay
      ensures selectedDay == dayTabs[k].date
    {
      selectedDay := dayTabs[k].date;
    }

    /** `openAddPanel`. */
    method OpenAddPanel()
      modifies this`editingId, this`form, this`panelOpen
      ensures editingId.None? && form == EmptyForm && panelOpen
    {
      editingId, form, panelOpen := None, EmptyForm, true;
    }

    /** `openEditPanel`. */
    method OpenEditPanel(s: SessionData)
      modifies this`editingId, this`form, this`panelOpen
      ensures editingId == Some(s.id) && form == EditForm(s) && panelOpen
    {
      editingId, form, panelOpen := Some(s.id), EditForm(s), true;
    }

    /** `closePanel`. */
    method ClosePanel()
      modifies this`editingId, this`form, this`panelOpen
      ensures editingId.None? && form == EmptyForm && !panelOpen
    {
      editingId, form, panelOpen := None, EmptyForm, false;
    }

    /** After a delete succeeds the panel closes when it was editing that session. */
    method Deleted(sessionId: int)
      modifies this`editingId, this`form, this`panelOpen
      ensures old(editingId) == Some(sessionId) ==> editingId.None? && form == EmptyForm && !panelOpen
      ensures old(editingId) != Some(sessionId) ==>
        editingId == old(editingId) && form == old(form) && panelOpen == old(panelOpen)
    {
      if editingId == Some(sessionId) {
        ClosePanel();
      }
    }
  }

  // ----- properties -----

  /** A `YYYY-MM-DD` calendar day is shown as its month's abbreviation and its day
      without a leading zero. */
  lemma ShortDateOfIso(s: string)
    requires ParseIso(s).Some?
    ensures FormatShortDate(s) == ShortDate(ParseIso(s).value)
  {
    var d := ParseIso(s).value;
    var y, m, dd := s[..4], s[5..7], s[8..];
    IsoPieces(s);
    assert '-' !in y && '-' !in m && '-' !in dd by {
      assert IsDigit('-') == false;
    }
    SplitDate(s, y, m, dd);
    assert JsNumber(m) == Some(d.month);
    assert JsNumber(dd) == Some(d.day);
  }

  /** A date written with three '-' free fields splits into those fields. */
  lemma SplitDate(s: string, y: string, m: string, dd: string)
    requires s == y + "-" + m + "-" + dd
    requires '-' !in y && '-' !in m && '-' !in dd
    ensures Split(s, '-') == [y, m, dd]
  {
    assert s == y + ['-'] + (m + ['-'] + dd);
    SplitAt(y, '-', m + ['-'] + dd);
    SplitAt(m, '-', dd);
    SplitWithout(dd, '-');
  }

  /** "2026-03-06" is shown as "Mar 6". */
  lemma ShortDateExample(s: string)
    requires s == "2026-03-06"
    ensures FormatShortDate(s) == "Mar 6"
  {
    var m, dd := "03", "06";
    assert Split(s, '-') == ["2026", m, dd] by { SplitDate(s, "2026", m, dd); }
    ShortDateOfFields(s, "2026", m, dd);
    assert JsNumber(m) == Some(3) by { TwoDigits(m, '0', '3', 3); }
    assert JsNumber(dd) == Some(6) by { TwoDigits(dd, '0', '6', 6); }
    assert MonthText(Some(3)) == "Mar";
    assert NumberText(Some(6)) == "6";
  }

  /** A date split into three fields shows the month field's name and the day field. */
  lemma ShortDateOfFields(s: string, y: string, m: string, dd: string)
    requires Split(s, '-') == [y, m, dd]
    ensures FormatShortDate(s) == MonthText(JsNumber(m)) + " " + NumberText(JsNumber(dd))
  {
  }

  /** Two digits read by `Number`. */
  lemma TwoDigits(s: string, a: char, b: char, v: int)
    requires s == [a, b] && IsDigit(a) && IsDigit(b) && v == DigitValue(a) * 10 + DigitValue(b)
    ensures JsNumber(s) == Some(v)
  {
    assert AllDigits(s) && s[..1] == [a];
    assert DigitsValue([a]) == DigitValue(a) by { assert [a][..0] == []; }
    assert DigitsValue(s) == DigitsValue(s[..1]) * 10 + DigitValue(b);
  }

  /** Every fallback tab is labelled with its position, counting from "DAY 1", and
      shows its own date's month and day. */
  lemma FallbackTabsLabelled(startDate: string, endDate: string)
    ensures var tabs := AdminTabsOf(EventsRoutes.EventDays(0, startDate, endDate));
      forall k :: 0 <= k < |tabs| ==>
        tabs[k].caption == DayLabel(k + 1) && ParseIso(tabs[k].date).Some?
        && tabs[k].shortDate == ShortDate(ParseIso(tabs[k].date).value)
  {
    var rows := EventsRoutes.EventDays(0, startDate, endDate);
    var tabs := AdminTabsOf(rows);
    forall k | 0 <= k < |tabs|
      ensures tabs[k].caption == DayLabel(k + 1) && ParseIso(tabs[k].date).Some?
        && tabs[k].shortDate == ShortDate(ParseIso(tabs[k].date).value)
    {
      ShortDateOfIso(rows[k].dayDate);
    }
  }

  /** "09:00" to "10:30" is shown as "90 min". */
  lemma DurationExample(start: string, end: string)
    requires start == "09:00" && end == "10:30"
    ensures CalcDuration(start, Some(end)) == "90 min"
  {
    assert ClockMinutes(start) == Some(540) by { NineOClock(start); }
    assert ClockMinutes(end) == Some(630) by { HalfPastTen(end); }
    DurationOfMinutes(start, end, 540, 630);
    assert NatToString(90) == NatToString(9) + [DigitChar(0)];
  }

  /** "09:00" is minute 540 of the day. */
  lemma NineOClock(t: string)
    requires t == "09:00"
    ensures ClockMinutes(t) == Some(540)
  {
    ClockOfDigits(t, '0', '9', '0', '0', 540);
  }

  /** "10:30" is minute 630 of the day. */
  lemma HalfPastTen(t: string)
    requires t == "10:30"
    ensures ClockMinutes(t) == Some(630)
  {
    ClockOfDigits(t, '1', '0', '3', '0', 630);
  }

  /** A time "HH:MM" written with two digits each counts HH * 60 + MM minutes. */
  lemma ClockOfDigits(t: string, h1: char, h2: char, m1: char, m2: char, v: int)
    requires IsDigit(h1) && IsDigit(h2) && IsDigit(m1) && IsDigit(m2)
    requires t == [h1, h2, ':', m1, m2]
    requires v == (DigitValue(h1) * 10 + DigitValue(h2)) * 60 + DigitValue(m1) * 10 + DigitValue(m2)
    ensures ClockMinutes(t) == Some(v)
  {
    var hh, mm := [h1, h2], [m1, m2];
    assert t == hh + ":" + mm + "";
    ClockFields(t, hh, mm, "");
    var f := Split(t, ':');
    TwoDigits(hh, h1, h2, DigitValue(h1) * 10 + DigitValue(h2));
    TwoDigits(mm, m1, m2, DigitValue(m1) * 10 + DigitValue(m2));
    assert MinutesOfFields(f) == Some(v);
  }

  /** Between two times read as minute counts the label is the positive span in
      minutes, or nothing when the end is not after the start. */
  lemma DurationOfMinutes(start: string, end: string, a: int, b: int)
    requires end != "" && ClockMinutes(start) == Some(a) && ClockMinutes(end) == Some(b)
    ensures CalcDuration(start, Some(end)) == if b - a <= 0 then "" else NatToString(b - a) + " min"
  {
    var e: Option<string> := Some(end);
    assert e.value == end;
    if b - a <= 0 {
      assert CalcDuration(start, e) == "";
    } else {
      assert CalcDuration(start, e) == NatToString(b - a) + " min";
    }
  }

  /** Opening a stored session whose visibility fields are consistent and whose
      optional texts are absent rather than empty, and saving it without a change,
      sends the session back as stored, its times cut to `HH:MM`. */
  lemma EditRoundTrip(s: SessionData)
    requires Normalised(s.isGeneric, s.department, s.isDeptGeneric, s.team)
    requires NoEmptyText(s.description) && NoEmptyText(s.tag) && NoEmptyText(s.department)
      && NoEmptyText(s.team) && NoEmptyText(s.location) && NoEmptyText(s.locationMapUrl)
      && NoEmptyText(s.venueMapUrl) && NoEmptyText(s.surveyUrl) && NoEmptyText(s.supportingMaterialUrl)
    ensures BuildPayload(EditForm(s)) == StoredPayload(s)
  {
  }

  /** Creating and updating differ only in the start-time check: a named form
      without a start time is refused on create and sent on update. */
  lemma StartTimeOnlyCheckedOnCreate(f: SessionForm, id: int, eventId: string, day: string)
    requires f.name != "" && f.startTime == "" && id != 0
    ensures CreateAction(f, eventId, day).Rejected?
    ensures UpdateAction(Some(id), f).Put?
  {
  }

  /** Sorting by start time keeps every session and only reorders. */
  lemma SortedKeepsSessions(sessions: seq<SessionData>, s: SessionData)
    ensures s in SortedByStart(sessions) <==> s in sessions
    ensures |SortedByStart(sessions)| == |sessions|
  {
    var r := SortedByStart(sessions);
    assert multiset(r) == multiset(sessions);
    assert s in r <==> s in multiset(r);
    assert |r| == |multiset(r)| && |sessions| == |multiset(sessions)|;
  }
}

=== FILE: sorting.dfy ===
/**
 * Orderings used by the application's `ORDER BY`, `Array.prototype.sort` and
 * string comparisons: code-point lexicographic order on strings, the order on
 * (primary, secondary) string keys, an insertion sort, and the sorted
 * duplicate-free list behind `SELECT DISTINCT ... ORDER BY`.
 */
module Sorting {

  /** Lexicographic order by code point: JavaScript's `<` on strings of the Basic
      Multilingual Plane, and SQL `ORDER BY` on text under the binary (C) collation.
      A database with a linguistic collation orders text differently. */
  predicate LexLess(a: string, b: string) {
    if |a| == 0 then |b| > 0
    else if |b| == 0 then false
    else if a[0] != b[0] then a[0] < b[0]
    else LexLess(a[1..], b[1..])
  }

  predicate LexLeq(a: string, b: string) {
    a == b || LexLess(a, b)
  }

  lemma {:induction false} LexLessIrreflexive(a: string)
    ensures !LexLess(a, a)
  {
    if |a| > 0 { LexLessIrreflexive(a[1..]); }
  }

  lemma {:induction false} LexLessTransitive(a: string, b: string, c: string)
    requires LexLess(a, b) && LexLess(b, c)
    ensures LexLess(a, c)
  {
    if |a| > 0 && a[0] == b[0] && b[0] == c[0] {
      LexLessTransitive(a[1..], b[1..], c[1..]);
    }
  }

  lemma {:induction false} LexTotal(a: string, b: string)
    ensures a == b || LexLess(a, b) || LexLess(b, a)
  {
    if |a| > 0 && |b| > 0 && a[0] == b[0] {
      LexTotal(a[1..], b[1..]);
      if a[1..] == b[1..] {
        assert a == [a[0]] + a[1..] && b == [b[0]] + b[1..];
      }
    }
  }

  lemma LexLessAsymmetric(a: string, b: string)
    ensures !(LexLess(a, b) && LexLess(b, a))
  {
    if LexLess(a, b) && LexLess(b, a) {
      LexLessTransitive(a, b, a);
      LexLessIrreflexive(a);
    }
  }

  /** A sort key: compared on its first component, then on its second. */
  type Key = (string, string)

  predicate KeyLess(x: Key, y: Key) {
    LexLess(x.0, y.0) || (x.0 == y.0 && LexLess(x.1, y.1))
  }

  predicate KeyLeq(x: Key, y: Key) {
    x == y || KeyLess(x, y)
  }

  lemma KeyLeqTransitive(x: Key, y: Key, z: Key)
    requires KeyLeq(x, y) && KeyLeq(y, z)
    ensures KeyLeq(x, z)
  {
    if KeyLess(x, y) && KeyLess(y, z) {
      LexLessIrreflexive(x.0);
      LexLessIrreflexive(y.0);
      if LexLess(x.0, y.0) && LexLess(y.0, z.0) { LexLessTransitive(x.0, y.0, z.0); }
      if x.0 == y.0 && y.0 == z.0 { LexLessTransitive(x.1, y.1, z.1); }
    }
  }

  lemma KeyTotal(x: Key, y: Key)
    ensures KeyLeq(x, y) || KeyLess(y, x)
  {
    LexTotal(x.0, y.0);
    LexTotal(x.1, y.1);
  }

  lemma KeyLessAsymmetric(x: Key, y: Key)
    ensures !(KeyLess(x, y) && KeyLeq(y, x))
  {
    LexLessAsymmetric(x.0, y.0);
    LexLessAsymmetric(x.1, y.1);
    LexLessIrreflexive(x.0);
    LexLessIrreflexive(x.1);
  }

  /** `xs` is in ascending order of `key`. */
  predicate SortedBy<T>(xs: seq<T>, key: T -> Key) {
    forall i, j :: 0 <= i < j < |xs| ==> KeyLeq(key(xs[i]), key(xs[j]))
  }

  /** Inserts `x` after every element whose key is not greater than its own. */
  function Insert<T>(x: T, xs: seq<T>, key: T -> Key): (r: seq<T>)
    requires SortedBy(xs, key)
    ensures multiset(r) == multiset(xs) + multiset{x}
    ensures SortedBy(r, key)
  {
    if |xs| == 0 then [x]
    else if KeyLess(key(x), key(xs[0])) then
      KeyLessSortedPrefix(x, xs, key);
      [x] + xs
    else
      var rest := Insert(x, xs[1..], key);
      assert xs == [xs[0]] + xs[1..];
      InsertHead(x, xs, key, rest);
      [xs[0]] + rest
  }

  lemma KeyLessSortedPrefix<T>(x: T, xs: seq<T>, key: T -> Key)
    requires SortedBy(xs, key) && |xs| > 0 && KeyLess(key(x), key(xs[0]))
    ensures SortedBy([x] + xs, key)
  {
    var r := [x] + xs;
    forall i, j | 0 <= i < j < |r| ensures KeyLeq(key(r[i]), key(r[j])) {
      if i == 0 && j > 1 { KeyLeqTransitive(key(x), key(xs[0]), key(xs[j - 1])); }
    }
  }

  lemma InsertHead<T>(x: T, xs: seq<T>, key: T -> Key, rest: seq<T>)
    requires SortedBy(xs, key) && |xs| > 0 && !KeyLess(key(x), key(xs[0]))
    requires SortedBy(rest, key)
    requires multiset(rest) == multiset(xs[1..]) + multiset{x}
    ensures SortedBy([xs[0]] + rest, key)
  {
    var r := [xs[0]] + rest;
    forall j | 0 <= j < |rest| ensures KeyLeq(key(xs[0]), key(rest[j])) {
      assert rest[j] in multiset(rest);
      if rest[j] == x {
        KeyTotal(key(xs[0]), key(x));
      } else {
        assert rest[j] in multiset(xs[1..]);
        var k :| 0 <= k < |xs[1..]| && xs[1..][k] == rest[j];
        assert xs[k + 1] == rest[j];
      }
    }
    forall i, j | 0 <= i < j < |r| ensures KeyLeq(key(r[i]), key(r[j])) {
      if i == 0 { assert r[j] == rest[j - 1]; } else { assert r[i] == rest[i - 1] && r[j] == rest[j - 1]; }
    }
  }

  /** Insertion sort by `key`: `ORDER BY` over the table's physical order. Rows with
      equal keys come out in some order; contracts rely only on sortedness and on the
      rows kept. */
  function SortBy<T>(xs: seq<T>, key: T -> Key): (r: seq<T>)
    ensures multiset(r) == multiset(xs)
    ensures SortedBy(r, key)
  {
    if |xs| == 0 then []
    else
      assert xs == xs[..|xs| - 1] + [xs[|xs| - 1]];
      Insert(xs[|xs| - 1], SortBy(xs[..|xs| - 1], key), key)
  }

  lemma SortByMembership<T>(xs: seq<T>, key: T -> Key, x: T)
    ensures x in SortBy(xs, key) <==> x in xs
  {
    var r := SortBy(xs, key);
    assert x in r <==> x in multiset(r);
    assert x in xs <==> x in multiset(xs);
  }

  lemma SortByLength<T>(xs: seq<T>, key: T -> Key)
    ensures |SortBy(xs, key)| == |xs|
  {
    assert |multiset(SortBy(xs, key))| == |multiset(xs)|;
  }

  // ----- sorted, duplicate-free lists of strings -----

  predicate StrictlyAscending(xs: seq<string>) {
    forall i, j :: 0 <= i < j < |xs| ==> LexLess(xs[i], xs[j])
  }

  function InsertDistinct(x: string, xs: seq<string>): (r: seq<string>)
    requires StrictlyAscending(xs)
    ensures StrictlyAscending(r)
    ensures forall y :: y in r <==> y == x || y in xs
  {
    if |xs| == 0 then [x]
    else if x == xs[0] then xs
    else if LexLess(x, xs[0]) then
      assert forall j :: 0 < j < |xs| ==> LexLess(x, xs[j]) by {
        forall j | 0 < j < |xs| ensures LexLess(x, xs[j]) { LexLessTransitive(x, xs[0], xs[j]); }
      }
      [x] + xs
    else
      LexTotal(x, xs[0]);
      var rest := InsertDistinct(x, xs[1..]);
      assert forall y :: y in rest ==> LexLess(xs[0], y);
      [xs[0]] + rest
  }

  /** The distinct strings of `xs` in ascending order (`SELECT DISTINCT ... ORDER BY`,
      or `Array.from(new Set(xs)).sort()`). */
  function SortedDistinct(xs: seq<string>): (r: seq<string>)
    ensures StrictlyAscending(r)
    ensures forall y :: y in r <==> y in xs
  {
    if |xs| == 0 then []
    else
      var r := InsertDistinct(xs[|xs| - 1], SortedDistinct(xs[..|xs| - 1]));
      assert forall y :: y in xs <==> y in xs[..|xs| - 1] || y == xs[|xs| - 1] by {
        assert xs == xs[..|xs| - 1] + [xs[|xs| - 1]];
      }
      r
  }

  /** A strictly ascending list is determined by its elements. */
  lemma {:induction false} StrictlyAscendingUnique(a: seq<string>, b: seq<string>)
    requires StrictlyAscending(a) && StrictlyAscending(b)
    requires forall y :: y in a <==> y in b
    ensures a == b
  {
    assert |a| > 0 ==> a[0] in a;
    assert |b| > 0 ==> b[0] in b;
    if |a| > 0 && |b| > 0 {
      if a[0] != b[0] {
        assert a[0] in b && b[0] in a;
        var m :| 0 <= m < |b| && b[m] == a[0];
        var k :| 0 <= k < |a| && a[k] == b[0];
        assert LexLess(b[0], a[0]) && LexLess(a[0], b[0]);
        LexLessAsymmetric(a[0], b[0]);
        assert false;
      }
      forall y ensures y in a[1..] <==> y in b[1..] {
        if y in a[1..] {
          var i :| 1 <= i < |a| && a[i] == y;
          LexLessIrreflexive(y);
          assert y != b[0] && y in b;
          var j :| 0 <= j < |b| && b[j] == y;
          assert b[1..][j - 1] == y;
        }
        if y in b[1..] {
          var i :| 1 <= i < |b| && b[i] == y;
          LexLessIrreflexive(y);
          assert y != a[0] && y in a;
          var j :| 0 <= j < |a| && a[j] == y;
          assert a[1..][j - 1] == y;
        }
      }
      StrictlyAscendingUnique(a[1..], b[1..]);
      assert a == [a[0]] + a[1..] && b == [b[0]] + b[1..];
    }
  }
}

=== FILE: text.dfy ===
/**
 * The JavaScript string operations the application relies on, stated over
 * Dafny strings (sequences of Unicode scalar values).
 *
 * Case mapping is the ASCII part of `toLowerCase`/`toUpperCase`; white space
 * is the set JavaScript's `\s` and `String.prototype.trim` recognise.
 */
module Text {
  import opened Wrappers

  /** JavaScript white space and line terminators (ECMA-262 WhiteSpace + LineTerminator). */
  predicate IsSpace(c: char) {
    c == ' ' || c == '\t' || c == '\n' || c == '\r' || c == '\U{B}' || c == '\U{C}'
    || c == '\U{A0}' || c == '\U{1680}' || ('\U{2000}' <= c <= '\U{200A}')
    || c == '\U{2028}' || c == '\U{2029}' || c == '\U{202F}' || c == '\U{205F}'
    || c == '\U{3000}' || c == '\U{FEFF}'
  }

  predicate IsDigit(c: char) { '0' <= c <= '9' }

  predicate IsUpperAscii(c: char) { 'A' <= c <= 'Z' }

  predicate IsLowerAscii(c: char) { 'a' <= c <= 'z' }

  function LowerChar(c: char): (r: char)
    ensures !IsUpperAscii(r)
    ensures IsUpperAscii(c) || r == c
  {
    if IsUpperAscii(c) then (c as int + 32) as char else c
  }

  function UpperChar(c: char): (r: char)
    ensures !IsLowerAscii(r)
    ensures IsLowerAscii(c) || r == c
  {
    if IsLowerAscii(c) then (c as int - 32) as char else c
  }

  /** `s.toLowerCase()` restricted to ASCII letters. */
  function Lower(s: string): (r: string)
    ensures |r| == |s| && forall i :: 0 <= i < |s| ==> r[i] == LowerChar(s[i])
  {
    seq(|s|, i requires 0 <= i < |s| => LowerChar(s[i]))
  }

  /** `s.toUpperCase()` restricted to ASCII letters. */
  function Upper(s: string): (r: string)
    ensures |r| == |s| && forall i :: 0 <= i < |s| ==> r[i] == UpperChar(s[i])
  {
    seq(|s|, i requires 0 <= i < |s| => UpperChar(s[i]))
  }

  /** Case-insensitive equality in the sense `a.toUpperCase() === b.toUpperCase()`. */
  predicate EqualsIgnoreCase(a: string, b: string) {
    Upper(a) == Upper(b)
  }

  /** `s.substring(0, n)`: the first `n` characters, or all of `s` when shorter. */
  function Prefix(s: string, n: nat): (r: string)
    ensures |r| == if |s| <= n then |s| else n
    ensures r <= s
  {
    if |s| <= n then s else s[..n]
  }

  /** `value || null` for a string. */
  function OrNull(s: string): (r: Option<string>)
    ensures r.None? <==> s == ""
    ensures r.Some? ==> r.value == s
  {
    if s == "" then None else Some(s)
  }

  /** `value || ''` for a nullable string. */
  function OrEmpty(s: Option<string>): (r: string)
    ensures s.None? ==> r == ""
    ensures s.Some? ==> r == s.value
  {
    if s.None? then "" else s.value
  }

  predicate StartsWith(s: string, p: string) { p <= s }

  predicate EndsWith(s: string, p: string) {
    |p| <= |s| && s[|s| - |p|..] == p
  }

  /** `s.includes(t)`. */
  predicate Contains(s: string, t: string) {
    StartsWith(s, t) || (|s| > 0 && Contains(s[1..], t))
  }

  /** A string contains what it is built around. */
  lemma {:induction false} ContainsPart(a: string, t: string, b: string)
    ensures Contains(a + t + b, t)
  {
    if |a| > 0 {
      ContainsPart(a[1..], t, b);
      assert (a + t + b)[1..] == a[1..] + t + b;
    } else {
      assert a + t + b == t + b;
    }
  }

  /** Every character of a contained string occurs in the containing one. */
  lemma {:induction false} ContainsChars(s: string, t: string, c: char)
    requires Contains(s, t) && c in t
    ensures c in s
  {
    if StartsWith(s, t) {
      var k :| 0 <= k < |t| && t[k] == c;
      assert s[k] == c;
    } else {
      ContainsChars(s[1..], t, c);
      assert forall x :: x in s[1..] ==> x in s;
    }
  }

  // ----- trimming -----

  function TrimStart(s: string): (r: string)
    ensures |r| <= |s| && r == s[|s| - |r|..]
    ensures r == [] || !IsSpace(r[0])
    ensures forall i :: 0 <= i < |s| - |r| ==> IsSpace(s[i])
  {
    if |s| > 0 && IsSpace(s[0]) then TrimStart(s[1..]) else s
  }

  function TrimEnd(s: string): (r: string)
    ensures |r| <= |s| && r == s[..|r|]
    ensures r == [] || !IsSpace(r[|r| - 1])
    ensures forall i :: |r| <= i < |s| ==> IsSpace(s[i])
  {
    if |s| > 0 && IsSpace(s[|s| - 1]) then TrimEnd(s[..|s| - 1]) else s
  }

  /** `s.trim()`. */
  function Trim(s: string): (r: string)
    ensures |r| <= |s|
    ensures r == [] || (!IsSpace(r[0]) && !IsSpace(r[|r| - 1]))
  {
    TrimEnd(TrimStart(s))
  }

  /** A string with no white space at either end. */
  predicate IsTrimmed(s: string) {
    s == [] || (!IsSpace(s[0]) && !IsSpace(s[|s| - 1]))
  }

  lemma TrimOfTrimmed(s: string)
    requires IsTrimmed(s)
    ensures Trim(s) == s
  {
  }

  /** `Trim(s)` is empty exactly when `s` consists only of white space. */
  lemma {:induction false} TrimEmptyIffAllSpace(s: string)
    ensures Trim(s) == [] <==> forall i :: 0 <= i < |s| ==> IsSpace(s[i])
  {
    var t := TrimStart(s);
    if t == [] {
      assert forall i :: 0 <= i < |s| ==> IsSpace(s[i]);
    } else {
      assert !IsSpace(t[0]);
      assert s[|s| - |t|] == t[0];
      assert TrimEnd(t) != [];
    }
  }

  // ----- split and join -----

  /** `s.split(c)` for a one-character separator: never empty, and "" splits to [""]. */
  function Split(s: string, c: char): (r: seq<string>)
    ensures |r| >= 1
    ensures forall k :: 0 <= k < |r| ==> c !in r[k]
  {
    if |s| == 0 then [""]
    else
      var rest := Split(s[1..], c);
      if s[0] == c then [""] + rest
      else [[s[0]] + rest[0]] + rest[1..]
  }

  /** `xs.join(sep)`. */
  function Join(xs: seq<string>, sep: string): string {
    if |xs| == 0 then ""
    else if |xs| == 1 then xs[0]
    else xs[0] + sep + Join(xs[1..], sep)
  }

  /** Splitting a string that lacks the separator yields the string itself. */
  lemma {:induction false} SplitWithout(s: string, c: char)
    requires c !in s
    ensures Split(s, c) == [s]
  {
    if |s| > 0 {
      SplitWithout(s[1..], c);
      assert [s[0]] + s[1..] == s;
    }
  }

  /** Splitting at the first separator. */
  lemma {:induction false} SplitAt(a: string, c: char, b: string)
    requires c !in a
    ensures Split(a + [c] + b, c) == [a] + Split(b, c)
  {
    if |a| == 0 {
      assert a + [c] + b == [c] + b;
      assert ([c] + b)[1..] == b;
    } else {
      var s := a + [c] + b;
      assert s[1..] == a[1..] + [c] + b;
      SplitAt(a[1..], c, b);
      assert [a[0]] + a[1..] == a;
    }
  }

  /** The first two fields of `a`, separator, `b`, then nothing or a separator and more. */
  lemma SplitFirstTwo(a: string, b: string, rest: string, c: char)
    requires c !in a && c !in b
    requires rest == "" || rest[0] == c
    ensures var fields := Split(a + [c] + b + rest, c);
      |fields| >= 2 && fields[0] == a && fields[1] == b
  {
    assert a + [c] + b + rest == a + [c] + (b + rest);
    SplitAt(a, c, b + rest);
    if rest == "" {
      assert b + rest == b;
      SplitWithout(b, c);
    } else {
      assert b + rest == b + [c] + rest[1..];
      SplitAt(b, c, rest[1..]);
    }
  }

  /** Joining pieces that lack the separator and splitting again gives the pieces back. */
  lemma {:induction false} SplitJoin(xs: seq<string>, c: char)
    requires |xs| >= 1
    requires forall k :: 0 <= k < |xs| ==> c !in xs[k]
    ensures Split(Join(xs, [c]), c) == xs
  {
    if |xs| == 1 {
      SplitWithout(xs[0], c);
    } else {
      SplitJoin(xs[1..], c);
      SplitAt(xs[0], c, Join(xs[1..], [c]));
      assert [xs[0]] + xs[1..] == xs;
    }
  }

  // ----- numbers -----

  function DigitValue(c: char): (r: nat)
    requires IsDigit(c)
    ensures r < 10
  {
    c as int - '0' as int
  }

  predicate AllDigits(s: string) {
    forall i :: 0 <= i < |s| ==> IsDigit(s[i])
  }

  /** The value of a string of decimal digits ("" is 0). */
  function DigitsValue(s: string): (r: nat)
    requires AllDigits(s)
  {
    if |s| == 0 then 0 else DigitsValue(s[..|s| - 1]) * 10 + DigitValue(s[|s| - 1])
  }

  function DigitChar(d: nat): (c: char)
    requires d < 10
    ensures IsDigit(c) && DigitValue(c) == d
  {
    ('0' as int + d) as char
  }

  /** Decimal rendering of a natural number, as `String(n)` gives it. */
  function NatToString(n: nat): (r: string)
    ensures |r| >= 1 && AllDigits(r)
    ensures DigitsValue(r) == n
    ensures r[0] == '0' ==> n == 0
  {
    if n < 10 then [DigitChar(n)]
    else
      var r := NatToString(n / 10) + [DigitChar(n % 10)];
      assert r[..|r| - 1] == NatToString(n / 10);
      r
  }

  /** Decimal rendering of an integer, as `String(i)` gives it. */
  function IntToString(i: int): (r: string)
    ensures |r| >= 1
    ensures i >= 0 ==> r == NatToString(i)
    ensures i < 0 ==> r == "-" + NatToString(-i)
  {
    if i >= 0 then NatToString(i) else "-" + NatToString(-i)
  }

  /** Optional sign followed by at least one digit: the integer literals `Number` accepts
      after trimming. */
  function SignedDigits(t: string): Option<int> {
    if |t| >= 1 && AllDigits(t) then Some(DigitsValue(t))
    else if |t| >= 2 && t[0] == '+' && AllDigits(t[1..]) then Some(DigitsValue(t[1..]))
    else if |t| >= 2 && t[0] == '-' && AllDigits(t[1..]) then Some(0 - DigitsValue(t[1..]))
    else None
  }

  /** `Number(s)` on integer literals: surrounding white space is ignored and a blank
      string is 0; `None` stands for NaN. */
  function JsNumber(s: string): (r: Option<int>)
    ensures AllDigits(s) ==> r == Some(if s == "" then 0 else DigitsValue(s))
  {
    var t := Trim(s);
    if AllDigits(s) then
      assert t == s by { TrimOfDigits(s); }
      if s == "" then Some(0) else Some(DigitsValue(s))
    else if t == "" then Some(0)
    else SignedDigits(t)
  }

  lemma TrimOfDigits(s: string)
    requires AllDigits(s)
    ensures Trim(s) == s
  {
    assert IsTrimmed(s);
  }

  /** Length of the longest run of digits at the front of `s`. */
  function LeadingDigits(s: string): (n: nat)
    ensures n <= |s| && AllDigits(s[..n])
    ensures n < |s| ==> !IsDigit(s[n])
  {
    if |s| > 0 && IsDigit(s[0]) then
      var n := 1 + LeadingDigits(s[1..]);
      assert s[..n] == [s[0]] + s[1..][..n - 1];
      n
    else 0
  }

  predicate IsHexDigit(c: char) {
    IsDigit(c) || 'a' <= c <= 'f' || 'A' <= c <= 'F'
  }

  function HexDigitValue(c: char): (r: nat)
    requires IsHexDigit(c)
    ensures r < 16
    ensures IsDigit(c) ==> r == DigitValue(c)
  {
    if IsDigit(c) then DigitValue(c)
    else if 'a' <= c <= 'f' then c as int - 'a' as int + 10
    else c as int - 'A' as int + 10
  }

  predicate AllHexDigits(s: string) {
    forall i :: 0 <= i < |s| ==> IsHexDigit(s[i])
  }

  /** The value of a string of hexadecimal digits ("" is 0). */
  function HexValue(s: string): (r: nat)
    requires AllHexDigits(s)
  {
    if |s| == 0 then 0 else HexValue(s[..|s| - 1]) * 16 + HexDigitValue(s[|s| - 1])
  }

  /** Length of the longest run of hexadecimal digits at the front of `s`. */
  function LeadingHexDigits(s: string): (n: nat)
    ensures n <= |s| && AllHexDigits(s[..n])
    ensures n < |s| ==> !IsHexDigit(s[n])
  {
    if |s| > 0 && IsHexDigit(s[0]) then
      var n := 1 + LeadingHexDigits(s[1..]);
      assert s[..n] == [s[0]] + s[1..][..n - 1];
      n
    else 0
  }

  /** `0x` or `0X` at the head: `parseInt` without a radix then reads base 16. */
  predicate HexPrefixed(u: string) {
    |u| >= 2 && u[0] == '0' && (u[1] == 'x' || u[1] == 'X')
  }

  /** The unsigned part of `parseInt(s)`: after `0x`/`0X` the longest run of
      hexadecimal digits, otherwise the longest run of decimal digits; `None` (NaN)
      when that run is empty. */
  function ParseMagnitude(u: string): Option<nat> {
    if HexPrefixed(u) then
      var h := u[2..];
      var n := LeadingHexDigits(h);
      if n == 0 then None else Some(HexValue(h[..n]))
    else
      var n := LeadingDigits(u);
      if n == 0 then None else Some(DigitsValue(u[..n]))
  }

  /** `parseInt(s)` with no radix: leading white space, an optional sign, then the
      magnitude; `None` (NaN) when no digit is read. */
  function JsParseInt(s: string): Option<int> {
    var t := TrimStart(s);
    var neg := |t| > 0 && t[0] == '-';
    var u := if |t| > 0 && (t[0] == '-' || t[0] == '+') then t[1..] else t;
    match ParseMagnitude(u)
    case None => None
    case Some(m) => var v: int := m; Some(if neg then -v else v)
  }

  /** `0x` followed by hexadecimal digits reads in base 16: "0x1A" is 26. */
  lemma JsParseIntOfHex(h: string)
    requires |h| >= 1 && AllHexDigits(h)
    ensures JsParseInt("0x" + h) == Some(HexValue(h))
  {
    var s := "0x" + h;
    assert !IsSpace(s[0]) && TrimStart(s) == s;
    assert HexPrefixed(s) && s[2..] == h;
    LeadingHexDigitsAll(h);
    assert h[..|h|] == h;
  }

  lemma {:induction false} LeadingHexDigitsAll(s: string)
    requires AllHexDigits(s)
    ensures LeadingHexDigits(s) == |s|
  {
    if |s| > 0 { LeadingHexDigitsAll(s[1..]); }
  }

  lemma JsParseIntOfDigits(s: string)
    requires |s| >= 1 && AllDigits(s)
    ensures JsParseInt(s) == Some(DigitsValue(s))
  {
    assert !IsSpace(s[0]);
    assert TrimStart(s) == s;
    assert s[0] != '-' && s[0] != '+';
    assert !HexPrefixed(s) by { assert |s| >= 2 ==> IsDigit(s[1]); }
    LeadingDigitsAll(s);
    assert s[..|s|] == s;
    assert ParseMagnitude(s) == Some(DigitsValue(s));
  }

  lemma {:induction false} LeadingDigitsAll(s: string)
    requires AllDigits(s)
    ensures LeadingDigits(s) == |s|
  {
    if |s| > 0 { LeadingDigitsAll(s[1..]); }
  }

  // ----- clock times -----

  /** `h * 60 + m` for `[h, m] = t.split(':').map(Number)`; `None` stands for NaN (a
      field that is not a number, or no second field). */
  function ClockMinutes(t: string): (r: Option<int>)
    ensures var f := Split(t, ':');
      r.Some? <==> |f| >= 2 && JsNumber(f[0]).Some? && JsNumber(f[1]).Some?
  {
    MinutesOfFields(Split(t, ':'))
  }

  /** `h * 60 + m` for the first two fields, read by `Number`. */
  function MinutesOfFields(f: seq<string>): (r: Option<int>)
    ensures r.Some? <==> |f| >= 2 && JsNumber(f[0]).Some? && JsNumber(f[1]).Some?
  {
    if |f| < 2 then None
    else
      var h := JsNumber(f[0]);
      var m := JsNumber(f[1]);
      if h.None? || m.None? then None else Some(h.value * 60 + m.value)
  }

  /** Times "HH:MM" and "HH:MM:SS" count HH * 60 + MM minutes. */
  lemma ClockMinutesOf(t: string, hh: string, mm: string, rest: string)
    requires t == hh + ":" + mm + rest
    requires AllDigits(hh) && AllDigits(mm) && |hh| >= 1 && |mm| >= 1
    requires rest == "" || rest[0] == ':'
    ensures ClockMinutes(t) == Some(DigitsValue(hh) * 60 + DigitsValue(mm))
  {
    ClockFields(t, hh, mm, rest);
    FieldMinutes(Split(t, ':'), hh, mm);
  }

  lemma FieldMinutes(f: seq<string>, hh: string, mm: string)
    requires |f| >= 2 && f[0] == hh && f[1] == mm
    requires AllDigits(hh) && AllDigits(mm) && |hh| >= 1 && |mm| >= 1
    ensures MinutesOfFields(f) == Some(DigitsValue(hh) * 60 + DigitsValue(mm))
  {
    assert JsNumber(hh) == Some(DigitsValue(hh)) && JsNumber(mm) == Some(DigitsValue(mm));
  }

  lemma ClockFields(t: string, hh: string, mm: string, rest: string)
    requires t == hh + ":" + mm + rest
    requires AllDigits(hh) && AllDigits(mm)
    requires rest == "" || rest[0] == ':'
    ensures var f := Split(t, ':');
      |f| >= 2 && f[0] == hh && f[1] == mm
  {
    DigitsLack(hh, ':');
    DigitsLack(mm, ':');
    SplitFirstTwo(hh, mm, rest, ':');
    assert t == hh + [':'] + mm + rest;
  }

  /** A string of digits holds no other character. */
  lemma DigitsLack(s: string, c: char)
    requires AllDigits(s) && !IsDigit(c)
    ensures c !in s
  {
  }

  // ----- replacement -----

  predicate NoSpace(s: string) {
    forall i :: 0 <= i < |s| ==> !IsSpace(s[i])
  }

  /** A non-empty run of white space. */
  predicate SpaceRun(w: string) {
    |w| > 0 && forall i :: 0 <= i < |w| ==> IsSpace(w[i])
  }

  /** `s.replace(/\s+/g, rep)`: every maximal run of white space becomes one `rep`. */
  function ReplaceSpaceRuns(s: string, rep: char): (r: string)
    ensures forall i :: 0 <= i < |r| ==> !IsSpace(r[i]) || r[i] == rep
    ensures !IsSpace(rep) ==> forall i :: 0 <= i < |r| ==> !IsSpace(r[i])
    ensures NoSpace(s) ==> r == s
  {
    if |s| == 0 then ""
    else if IsSpace(s[0]) then [rep] + ReplaceSpaceRuns(TrimStart(s), rep)
    else [s[0]] + ReplaceSpaceRuns(s[1..], rep)
  }

  /** Text without white space is kept, a maximal run of white space after it becomes
      one `rep`, and the replacement goes on after the run. */
  lemma {:induction false} ReplaceSpaceRunsOfRun(p: string, w: string, q: string, rep: char)
    requires NoSpace(p) && SpaceRun(w) && (q == [] || !IsSpace(q[0]))
    ensures ReplaceSpaceRuns(p + w + q, rep) == p + [rep] + ReplaceSpaceRuns(q, rep)
  {
    if |p| == 0 {
      assert p + w + q == w + q;
      ReplaceRunHead(w, q, rep);
    } else {
      var t := p[1..] + w + q;
      assert p + w + q == [p[0]] + t;
      ReplaceKeptHead(p[0], t, rep);
      ReplaceSpaceRunsOfRun(p[1..], w, q, rep);
      assert p == [p[0]] + p[1..];
    }
  }

  lemma ReplaceRunHead(w: string, q: string, rep: char)
    requires SpaceRun(w) && (q == [] || !IsSpace(q[0]))
    ensures ReplaceSpaceRuns(w + q, rep) == [rep] + ReplaceSpaceRuns(q, rep)
  {
    assert (w + q)[0] == w[0];
    TrimStartOfRun(w, q);
  }

  lemma ReplaceKeptHead(c: char, t: string, rep: char)
    requires !IsSpace(c)
    ensures ReplaceSpaceRuns([c] + t, rep) == [c] + ReplaceSpaceRuns(t, rep)
  {
    assert ([c] + t)[0] == c && ([c] + t)[1..] == t;
  }

  lemma {:induction false} TrimStartOfRun(w: string, q: string)
    requires forall i :: 0 <= i < |w| ==> IsSpace(w[i])
    requires q == [] || !IsSpace(q[0])
    ensures TrimStart(w + q) == q
  {
    if |w| > 0 {
      assert (w + q)[1..] == w[1..] + q;
      TrimStartOfRun(w[1..], q);
    } else {
      assert w + q == q;
    }
  }
}

=== FILE: upload_middleware.dfy ===
/**
 * The upload filter and file naming (backend/src/middleware/upload.middleware.ts):
 * which original file names an upload accepts, the name a stored file gets, and
 * the per-asset PDF policy.
 */
module UploadMiddleware {
  import opened Wrappers
  import opened Text
  import ErrorMiddleware

  datatype AssetType = Banners | Logos | VenueMaps | General

  const ImageExtensions: seq<string> := [".png", ".jpg", ".jpeg", ".webp"]
  const AllExtensions: seq<string> := ImageExtensions + [".pdf"]

  /** `limits.fileSize`: 10 MiB. */
  const MaxFileSize: nat := 10 * 1024 * 1024

  /** The `allowPdf` argument each exported upload is created with. */
  function AllowsPdf(asset: AssetType): bool {
    asset == VenueMaps || asset == General
  }

  /** Index of the last occurrence of `c` in `s`. */
  function LastIndexOf(s: string, c: char): (r: Option<nat>)
    ensures r.Some? ==> r.value < |s| && s[r.value] == c && forall i :: r.value < i < |s| ==> s[i] != c
    ensures r.None? ==> c !in s
  {
    if |s| == 0 then None
    else if s[|s| - 1] == c then Some(|s| - 1)
    else
      var r := LastIndexOf(s[..|s| - 1], c);
      assert forall x :: x in s ==> x in s[..|s| - 1] || x == s[|s| - 1];
      r
  }

  /** `s` without its trailing '/' characters. */
  function StripTrailingSlashes(s: string): (r: string)
    ensures r <= s && (r == [] || r[|r| - 1] != '/')
    ensures forall i :: |r| <= i < |s| ==> s[i] == '/'
  {
    if |s| > 0 && s[|s| - 1] == '/' then StripTrailingSlashes(s[..|s| - 1]) else s
  }

  /** The last path segment, the part `path.extname` looks at. */
  function BaseName(p: string): (b: string)
    ensures '/' !in b
  {
    var t := StripTrailingSlashes(p);
    match LastIndexOf(t, '/')
    case None => t
    case Some(i) =>
      var u := t[i + 1..];
      assert forall j :: 0 <= j < |u| ==> u[j] == t[i + 1 + j];
      u
  }

  /**
   * `path.extname` (POSIX): from the last '.' of the last segment to its end;
   * empty when the segment has no '.', when its only leading character run
   * before that '.' is nothing (".bashrc"), and for "..".
   */
  function Extname(p: string): (e: string)
    ensures e == [] || (e[0] == '.' && '.' !in e[1..] && '/' !in e)
  {
    var b := BaseName(p);
    match LastIndexOf(b, '.')
    case None => ""
    case Some(i) =>
      if i == 0 || b == ".." then ""
      else
        LastDotSuffix(b, i);
        b[i..]
  }

  /** The text from the last '.' on starts with it, holds no other, and has no '/'
      when the whole has none. */
  lemma LastDotSuffix(b: string, i: nat)
    requires '/' !in b && LastIndexOf(b, '.') == Some(i)
    ensures b[i..] != [] && b[i..][0] == '.' && '.' !in b[i..][1..] && '/' !in b[i..]
  {
    assert forall c :: c in b[i..] ==> c in b;
    assert forall j :: 0 <= j < |b[i..][1..]| ==> b[i..][1..][j] == b[i + 1 + j];
  }

  /** `createFileFilter(allowPdf)`: the lower-cased extension is in the allowed list. */
  predicate Accepts(originalName: string, allowPdf: bool) {
    Lower(Extname(originalName)) in (if allowPdf then AllExtensions else ImageExtensions)
  }

  /** The message of the error a rejected file is reported with. */
  function RejectionMessage(allowPdf: bool): string {
    if allowPdf then "Only PDF and image files are allowed" else "Only image files are allowed"
  }

  /** The error the filter hands to multer: a plain `Error` (neither operational nor
      carrying a SQLSTATE). */
  function Rejection(allowPdf: bool): (e: ErrorMiddleware.Thrown)
    ensures e.Failure? && !e.isOperational && e.code.None?
  {
    ErrorMiddleware.Failure(RejectionMessage(allowPdf), None, false, None, None)
  }

  /** A rejected upload reaches the error middleware as a 500. */
  lemma RejectionIsServerError(allowPdf: bool, production: bool)
    ensures ErrorMiddleware.HandleError(Rejection(allowPdf), production).status == 500
  {
  }

  /** The stored name: the unique suffix, '-', and the original name with every run
      of white space replaced by one '_'. */
  function StoredName(uniqueSuffix: string, originalName: string): (r: string)
    ensures uniqueSuffix + "-" <= r
    ensures NoSpace(originalName) ==> r == uniqueSuffix + "-" + originalName
    ensures forall p, w, q :: originalName == p + w + q && NoSpace(p) && SpaceRun(w) && (q == [] || !IsSpace(q[0])) ==>
      r == uniqueSuffix + "-" + (p + "_" + ReplaceSpaceRuns(q, '_'))
    ensures forall i :: |uniqueSuffix| < i < |r| ==> !IsSpace(r[i])
  {
    var tail := ReplaceSpaceRuns(originalName, '_');
    NoSpaceAfterSuffix(uniqueSuffix, tail);
    RunsOfName(originalName, tail);
    uniqueSuffix + "-" + tail
  }

  lemma NoSpaceAfterSuffix(uniqueSuffix: string, tail: string)
    requires NoSpace(tail)
    ensures forall i :: |uniqueSuffix| < i < |uniqueSuffix + "-" + tail| ==> !IsSpace((uniqueSuffix + "-" + tail)[i])
  {
    forall i | |uniqueSuffix| < i < |uniqueSuffix + "-" + tail|
      ensures !IsSpace((uniqueSuffix + "-" + tail)[i])
    {
      assert (uniqueSuffix + "-" + tail)[i] == tail[i - |uniqueSuffix| - 1];
    }
  }

  lemma RunsOfName(originalName: string, tail: string)
    requires tail == ReplaceSpaceRuns(originalName, '_')
    ensures forall p, w, q :: originalName == p + w + q && NoSpace(p) && SpaceRun(w) && (q == [] || !IsSpace(q[0])) ==>
      tail == p + "_" + ReplaceSpaceRuns(q, '_')
  {
    forall p, w, q | originalName == p + w + q && NoSpace(p) && SpaceRun(w) && (q == [] || !IsSpace(q[0]))
      ensures tail == p + "_" + ReplaceSpaceRuns(q, '_')
    {
      ReplaceSpaceRunsOfRun(p, w, q, '_');
    }
  }

  /** A name with one run of white space between two words ("my  report.pdf") is
      stored with the run as one '_' ("<suffix>-my_report.pdf"). */
  lemma StoredNameOneRun(uniqueSuffix: string, p: string, w: string, q: string)
    requires NoSpace(p) && SpaceRun(w) && NoSpace(q)
    ensures StoredName(uniqueSuffix, p + w + q) == uniqueSuffix + "-" + p + "_" + q
  {
    ReplaceSpaceRunsOfRun(p, w, q, '_');
    assert ReplaceSpaceRuns(q, '_') == q;
  }

  // ----- properties -----

  /** Accepting with PDFs allowed is accepting an image or a PDF. */
  lemma AcceptsIffListed(name: string, allowPdf: bool)
    ensures Accepts(name, allowPdf) <==>
      Lower(Extname(name)) in {".png", ".jpg", ".jpeg", ".webp"} || (allowPdf && Lower(Extname(name)) == ".pdf")
  {
  }

  /** Banner and logo uploads refuse PDFs; venue-map and general uploads take them. */
  lemma PdfPolicy(name: string)
    requires Lower(Extname(name)) == ".pdf"
    ensures !Accepts(name, AllowsPdf(Banners)) && !Accepts(name, AllowsPdf(Logos))
    ensures Accepts(name, AllowsPdf(VenueMaps)) && Accepts(name, AllowsPdf(General))
  {
  }

  /** Letter case of the name never matters. */
  lemma AcceptsIgnoresCase(name: string, allowPdf: bool)
    ensures Accepts(Lower(name), allowPdf) == Accepts(name, allowPdf)
  {
    ExtnameLower(name);
    LowerIdempotent(Extname(name));
  }

  lemma LowerIdempotent(s: string)
    ensures Lower(Lower(s)) == Lower(s)
  {
  }

  /** Lower-casing a name lower-cases its extension. */
  lemma ExtnameLower(p: string)
    ensures Extname(Lower(p)) == Lower(Extname(p))
  {
    BaseNameLower(p);
    var b := BaseName(p);
    LastIndexLower(b, '.');
    match LastIndexOf(b, '.')
    case None =>
    case Some(i) =>
      LowerDots(b);
      LowerFrom(b, i);
  }

  /** Only ".." lower-cases to "..". */
  lemma LowerDots(b: string)
    ensures b == ".." <==> Lower(b) == ".."
  {
    if Lower(b) == ".." {
      assert b[0] == '.' && b[1] == '.';
    }
  }

  /** Lower-casing commutes with taking a suffix. */
  lemma LowerFrom(s: string, i: nat)
    requires i <= |s|
    ensures Lower(s)[i..] == Lower(s[i..])
  {
  }

  lemma BaseNameLower(p: string)
    ensures BaseName(Lower(p)) == Lower(BaseName(p))
  {
    StripLower(p);
    var t := StripTrailingSlashes(p);
    LastIndexLower(t, '/');
    match LastIndexOf(t, '/')
    case None =>
    case Some(i) => assert Lower(t)[i + 1..] == Lower(t[i + 1..]);
  }

  lemma {:induction false} StripLower(s: string)
    ensures StripTrailingSlashes(Lower(s)) == Lower(StripTrailingSlashes(s))
  {
    if |s| > 0 && s[|s| - 1] == '/' {
      assert Lower(s)[..|s| - 1] == Lower(s[..|s| - 1]);
      StripLower(s[..|s| - 1]);
    }
  }

  /** '/' and '.' are not letters, so lower-casing keeps their positions. */
  lemma {:induction false} LastIndexLower(s: string, c: char)
    requires c == '/' || c == '.'
    ensures LastIndexOf(Lower(s), c) == LastIndexOf(s, c)
  {
    if |s| > 0 {
      assert Lower(s)[..|s| - 1] == Lower(s[..|s| - 1]);
      LastIndexLower(s[..|s| - 1], c);
    }
  }

  /** Examples of the extension rule. */
  lemma ExtnameExamples()
    ensures Extname("Venue Map.PDF") == ".PDF"
    ensures Extname(".bashrc") == "" && Extname("..") == "" && Extname("README") == ""
    ensures Extname("archive.") == "."
  {
    ExtnameOfPdf("Venue Map.PDF");
    ExtnameOfHidden(".bashrc");
    ExtnameOfDots("..");
    ExtnameOfPlain("README");
    ExtnameOfTrailingDot("archive.");
  }

  lemma ExtnameOfPdf(p: string)
    requires p == "Venue Map.PDF"
    ensures Extname(p) == ".PDF"
  {
    assert LastIndexOf(p, '/') == None;
    assert LastIndexOf(p, '.') == Some(9);
  }

  lemma ExtnameOfHidden(p: string)
    requires p == ".bashrc"
    ensures Extname(p) == ""
  {
    assert LastIndexOf(p, '/') == None;
    assert LastIndexOf(p, '.') == Some(0);
  }

  lemma ExtnameOfDots(p: string)
    requires p == ".."
    ensures Extname(p) == ""
  {
    assert LastIndexOf(p, '/') == None;
  }

  lemma ExtnameOfPlain(p: string)
    requires p == "README"
    ensures Extname(p) == ""
  {
    assert LastIndexOf(p, '/') == None;
    assert LastIndexOf(p, '.') == None;
  }

  lemma ExtnameOfTrailingDot(p: string)
    requires p == "archive."
    ensures Extname(p) == "."
  {
    assert LastIndexOf(p, '/') == None;
    assert LastIndexOf(p, '.') == Some(7);
  }

  /** Adding PDFs only widens what is accepted. */
  lemma AllowPdfWidens(name: string)
    ensures Accepts(name, false) ==> Accepts(name, true)
  {
  }
}

=== FILE: visibility.dfy ===
/**
 * Which sessions an attendee may see (backend/src/services/visibility.service.ts).
 *
 * An attendee's `department` text is parsed into a scope. The three queries of the
 * service (the personalised listing, the single-session check and the session
 * dates) each add the same visibility condition to their `WHERE` clause; here
 * that condition is `Admits`, and each query is a filter over the session
 * table joined with its event.
 */
module Visibility {
  import opened Wrappers
  import opened Text
  import opened Sorting
  import opened Rows
  import opened PgDate
  import CivilDate

  /** The parsed department field: every department, or an explicit list. */
  datatype Scope = Scope(isAll: bool, departments: seq<string>)

  /** `xs.map(d => d.trim()).filter(Boolean)`. */
  function TrimmedNonEmpty(xs: seq<string>): (r: seq<string>)
    ensures forall k :: 0 <= k < |r| ==> r[k] != "" && IsTrimmed(r[k])
    ensures forall y :: y in r <==> exists x :: x in xs && Trim(x) == y && y != ""
  {
    if |xs| == 0 then []
    else
      var rest := TrimmedNonEmpty(xs[1..]);
      var r := if Trim(xs[0]) == "" then rest else [Trim(xs[0])] + rest;
      KeepStep(xs, rest, r);
      r
  }

  /** One step of `TrimmedNonEmpty`: the first piece is kept, trimmed, in front of
      the pieces kept from the rest, unless it trims to nothing. */
  lemma KeepStep(xs: seq<string>, rest: seq<string>, r: seq<string>)
    requires |xs| > 0
    requires forall k :: 0 <= k < |rest| ==> rest[k] != "" && IsTrimmed(rest[k])
    requires forall y :: y in rest <==> exists x :: x in xs[1..] && Trim(x) == y && y != ""
    requires r == if Trim(xs[0]) == "" then rest else [Trim(xs[0])] + rest
    ensures forall k :: 0 <= k < |r| ==> r[k] != "" && IsTrimmed(r[k])
    ensures forall y :: y in r <==> exists x :: x in xs && Trim(x) == y && y != ""
  {
    KeepStepTrimmed(xs, rest, r);
    forall y | y in r
      ensures exists x :: x in xs && Trim(x) == y && y != ""
    {
      KeepStepSound(xs, rest, r, y);
    }
    forall x | x in xs && Trim(x) != ""
      ensures Trim(x) in r
    {
      KeepStepComplete(xs, rest, r, x);
    }
  }

  lemma KeepStepTrimmed(xs: seq<string>, rest: seq<string>, r: seq<string>)
    requires |xs| > 0
    requires forall k :: 0 <= k < |rest| ==> rest[k] != "" && IsTrimmed(rest[k])
    requires r == if Trim(xs[0]) == "" then rest else [Trim(xs[0])] + rest
    ensures forall k :: 0 <= k < |r| ==> r[k] != "" && IsTrimmed(r[k])
  {
    TrimIsTrimmed(xs[0]);
    if Trim(xs[0]) != "" {
      forall k | 0 <= k < |r|
        ensures r[k] != "" && IsTrimmed(r[k])
      {
        if k > 0 {
          assert r[k] == rest[k - 1];
        }
      }
    }
  }

  lemma KeepStepSound(xs: seq<string>, rest: seq<string>, r: seq<string>, y: string)
    requires |xs| > 0
    requires forall y :: y in rest ==> exists x :: x in xs[1..] && Trim(x) == y && y != ""
    requires r == if Trim(xs[0]) == "" then rest else [Trim(xs[0])] + rest
    requires y in r
    ensures exists x :: x in xs && Trim(x) == y && y != ""
  {
    if Trim(xs[0]) != "" && y == Trim(xs[0]) {
      assert xs[0] in xs;
    } else {
      assert y in rest;
      var x :| x in xs[1..] && Trim(x) == y && y != "";
      assert x in xs;
    }
  }

  lemma KeepStepComplete(xs: seq<string>, rest: seq<string>, r: seq<string>, x: string)
    requires |xs| > 0
    requires forall x :: x in xs[1..] && Trim(x) != "" ==> Trim(x) in rest
    requires r == if Trim(xs[0]) == "" then rest else [Trim(xs[0])] + rest
    requires x in xs && Trim(x) != ""
    ensures Trim(x) in r
  {
    if x != xs[0] {
      assert x in xs[1..];
    }
  }

  lemma TrimIsTrimmed(s: string)
    ensures IsTrimmed(Trim(s))
  {
  }

  /** The pieces of a concatenation are those of each part, in order. */
  lemma {:induction false} TrimmedNonEmptyAppend(xs: seq<string>, ys: seq<string>)
    ensures TrimmedNonEmpty(xs + ys) == TrimmedNonEmpty(xs) + TrimmedNonEmpty(ys)
  {
    if |xs| == 0 {
      assert xs + ys == ys;
    } else {
      assert (xs + ys)[0] == xs[0] && (xs + ys)[1..] == xs[1..] + ys;
      TrimmedNonEmptyAppend(xs[1..], ys);
    }
  }

  /** One piece is kept trimmed, unless it trims to nothing. */
  lemma TrimmedNonEmptyOne(x: string)
    ensures TrimmedNonEmpty([x]) == if Trim(x) == "" then [] else [Trim(x)]
  {
    assert [x][1..] == [];
  }

  /** A name as the department field can list it: non-empty, no surrounding
      white space, no comma. */
  predicate ListableName(d: string) {
    d != "" && IsTrimmed(d) && ',' !in d
  }

  /**
   * `parseDepartments`: a missing or empty field is an empty list, the text
   * "ALL" in any letter case is every department, and anything else is its
   * comma-separated pieces, trimmed, with the empty ones dropped.
   */
  function ParseDepartments(department: Option<string>): (r: Scope)
    ensures r.isAll <==> department.Some? && Upper(department.value) == "ALL"
    ensures r.isAll ==> r.departments == []
    ensures department == None || department == Some("") ==> r == Scope(false, [])
    ensures forall k :: 0 <= k < |r.departments| ==> ListableName(r.departments[k])
    ensures department.Some? && department.value != "" && Upper(department.value) != "ALL" ==>
      r == Scope(false, TrimmedNonEmpty(Split(department.value, ',')))
  {
    if department.None? || department.value == "" then Scope(false, [])
    else if Upper(department.value) == "ALL" then Scope(true, [])
    else
      var pieces := Split(department.value, ',');
      var r := TrimmedNonEmpty(pieces);
      forall k | 0 <= k < |r| ensures ',' !in r[k] {
        assert r[k] in r;
        var x :| x in pieces && Trim(x) == r[k];
        TrimIsInfix(x);
      }
      Scope(false, r)
  }

  /** Trimming never adds a character. */
  lemma TrimIsInfix(s: string)
    ensures forall c :: c in Trim(s) ==> c in s
  {
    var t := TrimStart(s);
    assert forall c :: c in t ==> c in s by {
      forall c | c in t ensures c in s {
        var i :| 0 <= i < |t| && t[i] == c;
        assert s[|s| - |t| + i] == c;
      }
    }
    assert forall c :: c in TrimEnd(t) ==> c in t by {
      forall c | c in TrimEnd(t) ensures c in t {
        var i :| 0 <= i < |TrimEnd(t)| && TrimEnd(t)[i] == c;
        assert t[i] == c;
      }
    }
  }

  /** Joining listable names with ',' and parsing gives the names back, unless the
      result would read as "ALL". */
  lemma {:induction false} ParseJoined(xs: seq<string>)
    requires |xs| >= 1
    requires forall k :: 0 <= k < |xs| ==> ListableName(xs[k])
    requires Upper(Join(xs, ",")) != "ALL"
    ensures ParseDepartments(Some(Join(xs, ","))) == Scope(false, xs)
  {
    JoinNonEmpty(xs, ",");
    SplitJoin(xs, ',');
    TrimmedNonEmptyOfListable(xs);
  }

  /** A field with no comma is one department, trimmed: " Oncology " lists
      "Oncology", and a blank field lists none. */
  lemma SingleDepartment(d: string)
    requires d != "" && ',' !in d && Upper(d) != "ALL"
    ensures ParseDepartments(Some(d)) == Scope(false, TrimmedNonEmpty([d]))
    ensures ParseDepartments(Some(d)).departments == if Trim(d) == "" then [] else [Trim(d)]
  {
    SplitWithout(d, ',');
    TrimmedNonEmptyOne(d);
  }

  /** The piece before the first comma is listed first, followed by the pieces of
      the rest in their order. */
  lemma ParseFirstPiece(a: string, b: string)
    requires ',' !in a
    ensures ParseDepartments(Some(a + "," + b)) == Scope(false, TrimmedNonEmpty([a]) + TrimmedNonEmpty(Split(b, ',')))
  {
    var s := a + "," + b;
    assert s == a + [','] + b;
    assert Upper(s) != "ALL" by {
      assert s[|a|] == ',' && Upper(s)[|a|] == ',';
    }
    SplitAt(a, ',', b);
    TrimmedNonEmptyAppend([a], Split(b, ','));
  }

  lemma {:induction false} JoinNonEmpty(xs: seq<string>, sep: string)
    requires |xs| >= 1 && xs[0] != ""
    ensures Join(xs, sep) != ""
  {
    if |xs| > 1 {
      assert Join(xs, sep) == xs[0] + sep + Join(xs[1..], sep);
      assert |Join(xs, sep)| >= |xs[0]|;
    }
  }

  lemma {:induction false} TrimmedNonEmptyOfListable(xs: seq<string>)
    requires forall k :: 0 <= k < |xs| ==> ListableName(xs[k])
    ensures TrimmedNonEmpty(xs) == xs
  {
    if |xs| > 0 {
      TrimOfTrimmed(xs[0]);
      TrimmedNonEmptyOfListable(xs[1..]);
      assert xs == [xs[0]] + xs[1..];
    }
  }

  /** No visibility condition is added: everything is visible. */
  predicate NoFilter(scope: Scope) {
    scope.isAll || |scope.departments| == 0
  }

  /**
   * The visibility condition of the three queries, disjunct by disjunct: generic
   * sessions; non-generic sessions of a listed department; non-generic,
   * non-department-generic sessions of a listed department and the user's team.
   */
  predicate Admits(scope: Scope, team: Option<string>, s: Row) {
    NoFilter(scope)
    || IsTrue(s, "is_generic")
    || (IsFalse(s, "is_generic") && TextIn(s, "department", scope.departments))
    || (IsFalse(s, "is_generic") && IsFalse(s, "is_dept_generic")
        && TextIn(s, "department", scope.departments) && SameTeam(s, team))
  }

  /** `s.team = $k`; a `NULL` parameter matches nothing. */
  predicate SameTeam(s: Row, team: Option<string>) {
    team.Some? && TextIs(s, "team", team.value)
  }

  /** The team disjunct adds nothing: a session is visible exactly when no filter
      applies, it is generic, or it is non-generic with a listed department. */
  lemma AdmitsIgnoresTeam(scope: Scope, team: Option<string>, s: Row)
    ensures Admits(scope, team, s) <==>
      NoFilter(scope) || IsTrue(s, "is_generic")
      || (IsFalse(s, "is_generic") && TextIn(s, "department", scope.departments))
    ensures Admits(scope, team, s) == Admits(scope, None, s)
  {
  }

  /** With an explicit list, a non-generic session whose department is NULL is hidden. */
  lemma NullDepartmentHidden(scope: Scope, team: Option<string>, s: Row)
    requires !NoFilter(scope) && IsFalse(s, "is_generic") && Get(s, "department") == Null
    ensures !Admits(scope, team, s)
  {
  }

  /** A department field of only white space and commas imposes no filter, like
      an absent one. */
  lemma BlankDepartmentSeesAll(d: string, team: Option<string>, s: Row)
    requires forall i :: 0 <= i < |d| ==> IsSpace(d[i]) || d[i] == ','
    ensures Admits(ParseDepartments(Some(d)), team, s)
  {
    if d != "" && Upper(d) != "ALL" {
      var pieces := Split(d, ',');
      BlankPieces(d);
      TrimmedNonEmptyOfBlanks(pieces);
    }
  }

  lemma {:induction false} TrimmedNonEmptyOfBlanks(xs: seq<string>)
    requires forall k, i :: 0 <= k < |xs| && 0 <= i < |xs[k]| ==> IsSpace(xs[k][i])
    ensures TrimmedNonEmpty(xs) == []
  {
    if |xs| > 0 {
      TrimEmptyIffAllSpace(xs[0]);
      TrimmedNonEmptyOfBlanks(xs[1..]);
    }
  }

  /** Pieces of a string of white space and commas are white space. */
  lemma {:induction false} BlankPieces(s: string)
    requires forall i :: 0 <= i < |s| ==> IsSpace(s[i]) || s[i] == ','
    ensures forall k, i :: 0 <= k < |Split(s, ',')| && 0 <= i < |Split(s, ',')[k]| ==> IsSpace(Split(s, ',')[k][i])
  {
    if |s| > 0 {
      BlankPieces(s[1..]);
    }
  }

  // ----- the tables the queries read -----

  /** `sessions` in physical order, `events` by id, favourites by (user, session)
      with the event id stored beside them. */
  datatype Tables = Tables(sessions: seq<Row>, events: map<int, Row>, favourites: map<(int, int), int>)

  /** A row of `sessions s JOIN events e`, with `e.event_slug`, `e.event_name` and the
      computed `is_favourite`. */
  datatype Listed = Listed(session: Row, eventSlug: Value, eventName: Value, isFavourite: bool)

  /** `JOIN events e ON s.event_id = e.id`. */
  function EventOf(t: Tables, s: Row): Option<Row> {
    if "event_id" in s && s["event_id"].Int? && s["event_id"].i in t.events
    then Some(t.events[s["event_id"].i]) else None
  }

  /** `LEFT JOIN user_favourite_sessions f ON s.id = f.session_id AND f.user_id = $1`
      finds a row. */
  predicate IsFavourite(t: Tables, userId: int, s: Row) {
    "id" in s && s["id"].Int? && (userId, s["id"].i) in t.favourites
  }

  function Stamp(t: Tables, userId: int, s: Row): Listed
    requires EventOf(t, s).Some?
  {
    var e := EventOf(t, s).value;
    Listed(s, Get(e, "event_slug"), Get(e, "event_name"), IsFavourite(t, userId, s))
  }

  // ----- getVisibleSessions -----

  /** `s.session_date = $n` when a date is given: the stored date equals the date
      PostgreSQL reads from the parameter. */
  predicate DateMatches(date: Option<string>, s: Row) {
    date.Some? && date.value != "" ==>
      PgDateInput(date.value).Some? && TextIs(s, "session_date", PgDateInput(date.value).value)
  }

  /** The parameters of `getVisibleSessions`; an absent or falsy filter is not applied. */
  datatype Query = Query(eventId: Option<int>, eventSlug: Option<string>, userId: int,
                         department: Option<string>, team: Option<string>,
                         date: Option<string>, favouritesOnly: bool)

  /** `WHERE e.is_draft = false` and the optional event, date, visibility and
      favourites conditions. The date parameter is compared as PostgreSQL reads it;
      text it cannot read fails the query, which the route answers before listing,
      and selects nothing here. */
  predicate Selected(t: Tables, q: Query, s: Row) {
    EventOf(t, s).Some?
    && var e := EventOf(t, s).value;
    IsFalse(e, "is_draft")
    && (if q.eventId.Some? && q.eventId.value != 0 then IntIs(s, "event_id", q.eventId.value)
        else if q.eventSlug.Some? && q.eventSlug.value != "" then TextIs(e, "event_slug", q.eventSlug.value)
        else true)
    && DateMatches(q.date, s)
    && Admits(ParseDepartments(q.department), q.team, s)
    && (q.favouritesOnly ==> IsFavourite(t, q.userId, s))
  }

  /** The selected rows of `rows`, in order, joined and stamped. */
  function Filtered(t: Tables, q: Query, rows: seq<Row>): (r: seq<Listed>)
    ensures forall l :: l in r <==> exists s :: s in rows && Selected(t, q, s) && l == Stamp(t, q.userId, s)
  {
    if |rows| == 0 then []
    else
      var rest := Filtered(t, q, rows[1..]);
      assert forall s :: s in rows <==> s == rows[0] || s in rows[1..];
      if Selected(t, q, rows[0]) then [Stamp(t, q.userId, rows[0])] + rest else rest
  }

  /** A date parameter already in `YYYY-MM-DD` form selects the sessions stored on
      that day. */
  lemma IsoDateFilter(d: string, s: Row)
    requires CivilDate.ParseIso(d).Some? && CivilDate.ParseIso(d).value.year >= 1
    ensures DateMatches(Some(d), s) <==> TextIs(s, "session_date", d)
  {
    PgDateOfIso(d);
  }

  /** A date parameter with a one-digit month ("2026-3-16") selects the sessions of
      the same day, stored as "2026-03-16". */
  lemma UnpaddedDateFilter(y: string, m: char, d: string, s: Row)
    requires |y| == 4 && AllDigits(y) && IsDigit(m) && |d| == 2 && AllDigits(d)
    requires CivilDate.Valid(CivilDate.Date(DigitsValue(y), DigitValue(m), DigitsValue(d))) && DigitsValue(y) >= 1
    ensures DateMatches(Some(y + "-" + [m] + "-" + d), s) <==> TextIs(s, "session_date", y + "-" + ['0', m] + "-" + d)
  {
    PgDateUnpaddedMonth(y, m, d);
  }

  /** A date parameter with no digit (a word, say) selects nothing. */
  lemma DigitlessDateFilter(d: string, s: Row)
    requires d != "" && forall i :: 0 <= i < |d| ==> !IsDigit(d[i])
    ensures !DateMatches(Some(d), s)
  {
    PgDateRefusesDigitless(d);
  }

  /** `ORDER BY s.session_date, s.session_start_time`. */
  function ListingKey(l: Listed): Key {
    (TextOf(l.session, "session_date"), TextOf(l.session, "session_start_time"))
  }

  /** `getVisibleSessions`: the selected sessions, ordered by date then start time. */
  function GetVisibleSessions(t: Tables, q: Query): (r: seq<Listed>)
    ensures SortedBy(r, ListingKey)
    ensures multiset(r) == multiset(Filtered(t, q, t.sessions))
    ensures forall l :: l in r <==> exists s :: s in t.sessions && Selected(t, q, s) && l == Stamp(t, q.userId, s)
  {
    var c := Filtered(t, q, t.sessions);
    var r := SortBy(c, ListingKey);
    assert forall l :: l in r <==> l in c by {
      forall l ensures l in r <==> l in c { SortByMembership(c, ListingKey, l); }
    }
    r
  }

  /** Every listed row says whether the user favourited it, and asking for
      favourites only keeps exactly the favourited rows. */
  lemma FavouritesOnlyKeepsFavourites(t: Tables, q: Query, l: Listed)
    ensures l in GetVisibleSessions(t, q) ==> l.isFavourite == IsFavourite(t, q.userId, l.session)
    ensures l in GetVisibleSessions(t, q.(favouritesOnly := true))
      <==> l in GetVisibleSessions(t, q.(favouritesOnly := false)) && l.isFavourite
  {
    var qt, qf := q.(favouritesOnly := true), q.(favouritesOnly := false);
    if l in GetVisibleSessions(t, qt) {
      var s :| s in t.sessions && Selected(t, qt, s) && l == Stamp(t, qt.userId, s);
      assert Selected(t, qf, s);
    }
    if l in GetVisibleSessions(t, qf) && l.isFavourite {
      var s :| s in t.sessions && Selected(t, qf, s) && l == Stamp(t, qf.userId, s);
      assert Selected(t, qt, s);
    }
  }

  // ----- getSessionWithVisibilityCheck -----

  /** `WHERE s.id = $2` plus the visibility condition, and no draft filter. */
  predicate Checked(t: Tables, sessionId: int, scope: Scope, team: Option<string>, s: Row) {
    EventOf(t, s).Some? && IntIs(s, "id", sessionId) && Admits(scope, team, s)
  }

  function FirstChecked(t: Tables, sessionId: int, userId: int, scope: Scope, team: Option<string>,
                        rows: seq<Row>): (r: Option<Listed>)
    ensures r.Some? ==> exists s :: s in rows && Checked(t, sessionId, scope, team, s) && r.value == Stamp(t, userId, s)
    ensures r.None? ==> forall s :: s in rows ==> !Checked(t, sessionId, scope, team, s)
  {
    if |rows| == 0 then None
    else if Checked(t, sessionId, scope, team, rows[0]) then Some(Stamp(t, userId, rows[0]))
    else
      assert forall s :: s in rows ==> s == rows[0] || s in rows[1..];
      FirstChecked(t, sessionId, userId, scope, team, rows[1..])
  }

  /** `getSessionWithVisibilityCheck`: the session with that id if the user may see
      it, whatever its event's draft state; `None` stands for `null`. */
  function GetSessionWithVisibilityCheck(t: Tables, sessionId: int, userId: int,
                                         department: Option<string>, team: Option<string>): (r: Option<Listed>)
    ensures r.Some? ==> (r.value.session in t.sessions && IntIs(r.value.session, "id", sessionId)
      && Admits(ParseDepartments(department), team, r.value.session)
      && r.value.isFavourite == IsFavourite(t, userId, r.value.session))
    ensures r.Some? ==> EventOf(t, r.value.session).Some? && r.value == Stamp(t, userId, r.value.session)
    ensures r.None? <==> forall s :: s in t.sessions ==> !Checked(t, sessionId, ParseDepartments(department), team, s)
  {
    FirstChecked(t, sessionId, userId, ParseDepartments(department), team, t.sessions)
  }

  /** `id` is a key of the session table. */
  predicate UniqueIds(rows: seq<Row>) {
    forall i, j :: 0 <= i < j < |rows| && "id" in rows[i] && "id" in rows[j] ==> rows[i]["id"] != rows[j]["id"]
  }

  /** The listing with no event, date or favourites filter. */
  function AllVisible(userId: int, department: Option<string>, team: Option<string>): Query {
    Query(None, None, userId, department, team, None, false)
  }

  /** For a session of a published event, the single check returns exactly the row
      the unfiltered listing holds for that id. */
  lemma CheckAgreesWithListing(t: Tables, sessionId: int, userId: int,
                               department: Option<string>, team: Option<string>, l: Listed)
    requires UniqueIds(t.sessions)
    requires IntIs(l.session, "id", sessionId)
    requires EventOf(t, l.session).Some? && IsFalse(EventOf(t, l.session).value, "is_draft")
    ensures l in GetVisibleSessions(t, AllVisible(userId, department, team))
      <==> GetSessionWithVisibilityCheck(t, sessionId, userId, department, team) == Some(l)
  {
    var q := AllVisible(userId, department, team);
    var scope := ParseDepartments(department);
    var r := GetSessionWithVisibilityCheck(t, sessionId, userId, department, team);
    if l in GetVisibleSessions(t, q) {
      var s :| s in t.sessions && Selected(t, q, s) && l == Stamp(t, userId, s);
      assert Checked(t, sessionId, scope, team, s);
      var s' :| s' in t.sessions && Checked(t, sessionId, scope, team, s') && r.value == Stamp(t, userId, s');
      SameId(t.sessions, s, s', sessionId);
    }
    if r == Some(l) {
      var s :| s in t.sessions && Checked(t, sessionId, scope, team, s) && l == Stamp(t, userId, s);
      assert Selected(t, q, s);
    }
  }

  lemma SameId(rows: seq<Row>, a: Row, b: Row, id: int)
    requires UniqueIds(rows) && a in rows && b in rows && IntIs(a, "id", id) && IntIs(b, "id", id)
    ensures a == b
  {
    var i :| 0 <= i < |rows| && rows[i] == a;
    var j :| 0 <= j < |rows| && rows[j] == b;
  }

  /** A session of a draft event still passes the single check (the listing would
      drop it). */
  lemma DraftSessionPassesCheck()
    ensures var s := map["id" := Int(7), "event_id" := Int(1), "is_generic" := Bool(true)];
      var t := Tables([s], map[1 := map["id" := Int(1), "is_draft" := Bool(true)]], map[]);
      GetSessionWithVisibilityCheck(t, 7, 3, None, None).Some?
      && forall l :: l !in GetVisibleSessions(t, AllVisible(3, None, None))
  {
    var s := map["id" := Int(7), "event_id" := Int(1), "is_generic" := Bool(true)];
    var t := Tables([s], map[1 := map["id" := Int(1), "is_draft" := Bool(true)]], map[]);
    assert Checked(t, 7, ParseDepartments(None), None, s);
    assert !Selected(t, AllVisible(3, None, None), s);
  }

  // ----- getSessionDates -----

  /** `WHERE e.event_slug = $1 AND e.is_draft = false` and the visibility condition. */
  predicate DatedIn(t: Tables, slug: string, scope: Scope, team: Option<string>, s: Row) {
    EventOf(t, s).Some? && TextIs(EventOf(t, s).value, "event_slug", slug)
    && IsFalse(EventOf(t, s).value, "is_draft") && Admits(scope, team, s)
  }

  function DatesOf(t: Tables, slug: string, scope: Scope, team: Option<string>, rows: seq<Row>): (r: seq<string>)
    ensures forall d :: d in r <==> exists s :: s in rows && DatedIn(t, slug, scope, team, s) && d == TextOf(s, "session_date")
  {
    if |rows| == 0 then []
    else
      assert forall s :: s in rows <==> s == rows[0] || s in rows[1..];
      (if DatedIn(t, slug, scope, team, rows[0]) then [TextOf(rows[0], "session_date")] else [])
      + DatesOf(t, slug, scope, team, rows[1..])
  }

  /** `getSessionDates`: `SELECT DISTINCT s.session_date ... ORDER BY s.session_date`. */
  function GetSessionDates(t: Tables, slug: string, department: Option<string>, team: Option<string>): (r: seq<string>)
    ensures StrictlyAscending(r)
    ensures forall d :: d in r <==> exists s :: (s in t.sessions
      && DatedIn(t, slug, ParseDepartments(department), team, s) && d == TextOf(s, "session_date"))
  {
    SortedDistinct(DatesOf(t, slug, ParseDepartments(department), team, t.sessions))
  }

  function ListedDates(ls: seq<Listed>): (r: seq<string>)
    ensures |r| == |ls| && forall k :: 0 <= k < |ls| ==> r[k] == TextOf(ls[k].session, "session_date")
  {
    seq(|ls|, k requires 0 <= k < |ls| => TextOf(ls[k].session, "session_date"))
  }

  /** The dates the picker offers are the distinct dates of the sessions the listing
      for the same event shows, in ascending order. */
  lemma DatesAgreeWithListing(t: Tables, slug: string, userId: int, department: Option<string>, team: Option<string>)
    requires slug != ""
    ensures var q := Query(None, Some(slug), userId, department, team, None, false);
      GetSessionDates(t, slug, department, team) == SortedDistinct(ListedDates(GetVisibleSessions(t, q)))
  {
    var q := Query(None, Some(slug), userId, department, team, None, false);
    var scope := ParseDepartments(department);
    var a := GetSessionDates(t, slug, department, team);
    var ls := GetVisibleSessions(t, q);
    var b := SortedDistinct(ListedDates(ls));
    forall d ensures d in a <==> d in b {
      if d in a {
        var s :| s in t.sessions && DatedIn(t, slug, scope, team, s) && d == TextOf(s, "session_date");
        assert Selected(t, q, s);
        var l := Stamp(t, userId, s);
        assert l in ls;
        var k :| 0 <= k < |ls| && ls[k] == l;
        assert ListedDates(ls)[k] == d;
      }
      if d in b {
        var k :| 0 <= k < |ls| && ListedDates(ls)[k] == d;
        assert ls[k] in ls;
        var s :| s in t.sessions && Selected(t, q, s) && ls[k] == Stamp(t, userId, s);
        assert DatedIn(t, slug, scope, team, s);
      }
    }
    StrictlyAscendingUnique(a, b);
  }
}

=== FILE: wifi_section.dfy ===
/**
 * The admin dashboard's WiFi editor for one event
 * (admin-dashboard/src/components/events/WifiSection.tsx): the list of networks,
 * the set of positions whose password is shown, the edits on both, and the list
 * sent on save.
 */
module WifiSection {
  import opened Wrappers
  import opened Text
  import opened Lists

  /** A network as the editor holds it. */
  datatype Network = Network(title: string, desc: string, wifiName: string, wifiPassword: string)

  /** The field an input edits. */
  datatype Field = Title | Desc | WifiName | WifiPassword

  /** `emptyNetwork`. */
  const EmptyNetwork := Network("", "", "", "")

  /** `{ ...n, [field]: value }`, and typing the network name also sets the title. */
  function Edited(n: Network, field: Field, value: string): (r: Network)
    ensures field == WifiName ==> r == n.(wifiName := value, title := value)
    ensures field == Title ==> r == n.(title := value)
    ensures field == Desc ==> r == n.(desc := value)
    ensures field == WifiPassword ==> r == n.(wifiPassword := value)
  {
    match field
    case Title => n.(title := value)
    case Desc => n.(desc := value)
    case WifiName => n.(wifiName := value, title := value)
    case WifiPassword => n.(wifiPassword := value)
  }

  /** Where a shown position goes when position `index` is removed: earlier ones
      stay, later ones move down by one. */
  function Shifted(i: int, index: int): int {
    if i < index then i else i - 1
  }

  /** The shown positions after removing `index`: `index` itself is dropped and the
      rest are shifted. */
  function RemapAfterRemove(visible: set<int>, index: int): set<int> {
    set i | i in visible && i != index :: Shifted(i, index)
  }

  /** `togglePasswordVisibility`: the position is added when absent and removed
      when present. */
  function Toggled(visible: set<int>, index: int): (r: set<int>)
    ensures index in r <==> index !in visible
    ensures r - {index} == visible - {index}
  {
    if index in visible then visible - {index} else visible + {index}
  }

  /** A network `handleSave` keeps: its name and password are not blank. */
  predicate Complete(n: Network) {
    Trim(n.wifiName) != "" && Trim(n.wifiPassword) != ""
  }

  /** The entry sent for a kept network: the title falls back to the name. */
  function Entry(n: Network): Network {
    Network(if n.title != "" then n.title else n.wifiName, n.desc, n.wifiName, n.wifiPassword)
  }

  /** The `wifi` list `handleSave` sends: the complete networks, in order, each as
      its entry. */
  function SavePayload(networks: seq<Network>): (r: seq<Network>)
    ensures |r| <= |networks|
    ensures forall k :: 0 <= k < |r| ==> r[k].title != "" && r[k].wifiName != "" && r[k].wifiPassword != ""
  {
    if networks == [] then []
    else
      var rest := SavePayload(networks[1..]);
      if Complete(networks[0]) then [Entry(networks[0])] + rest else rest
  }

  /** The editor's state. */
  class Editor {
    /** `networks`. */
    var networks: seq<Network>
    /** `visiblePasswords`: the positions whose password is shown. */
    var visible: set<int>

    constructor ()
      ensures networks == [] && visible == {}
    {
      networks, visible := [], {};
    }

    /** The effect that loads the event's stored networks. */
    method Load(initial: seq<Network>)
      modifies this`networks
      ensures networks == initial
    {
      networks := if |initial| > 0 then initial else [];
    }

    /** `addNetwork`: one empty network at the end. */
    method AddNetwork()
      modifies this`networks
      ensures networks == old(networks) + [EmptyNetwork]
    {
      networks := networks + [EmptyNetwork];
    }

    /** `removeNetwork`: the network at `index` goes, and the shown positions are
        rebuilt so that every remaining network keeps its flag. */
    method RemoveNetwork(index: int)
      modifies this
      ensures networks == if 0 <= index < |old(networks)| then RemoveAt(old(networks), index) else old(networks)
      ensures visible == RemapAfterRemove(old(visible), index)
    {
      var next := Remap(visible, index);
      if 0 <= index < |networks| {
        networks := RemoveAt(networks, index);
      }
      visible := next;
    }

    /** `updateNetwork`: only the network at `index` changes. */
    method UpdateNetwork(index: int, field: Field, value: string)
      modifies this`networks
      ensures |networks| == |old(networks)|
      ensures forall i :: 0 <= i < |networks| ==>
        networks[i] == if i == index then Edited(old(networks)[i], field, value) else old(networks)[i]
    {
      var prev := networks;
      networks := seq(|prev|, i requires 0 <= i < |prev| =>
        if i == index then Edited(prev[i], field, value) else prev[i]);
    }

    /** `togglePasswordVisibility`. */
    method TogglePasswordVisibility(index: int)
      modifies this`visible
      ensures visible == Toggled(old(visible), index)
    {
      if index in visible {
        visible := visible - {index};
      } else {
        visible := visible + {index};
      }
    }
  }

  /** The `prev.forEach` loop of `removeNetwork`, one shown position at a time. */
  method Remap(visible: set<int>, index: int) returns (next: set<int>)
    ensures next == RemapAfterRemove(visible, index)
  {
    next := {};
    var rest := visible;
    while rest != {}
      invariant rest <= visible
      invariant next == RemapAfterRemove(visible - rest, index)
      decreases |rest|
    {
      rest, next := RemapStep(visible, rest, next, index);
    }
    assert visible - rest == visible;
  }

  /** One turn of the loop: some position still to handle is handled. */
  method RemapStep(visible: set<int>, rest: set<int>, next: set<int>, index: int)
    returns (rest': set<int>, next': set<int>)
    requires rest != {} && rest <= visible
    requires next == RemapAfterRemove(visible - rest, index)
    ensures rest' <= rest && |rest'| == |rest| - 1
    ensures next' == RemapAfterRemove(visible - rest', index)
  {
    HasMember(rest);
    var i :| i in rest;
    RemapAdd(visible - rest, i, index);
    next' := next;
    if i < index {
      next' := next + {i};
    } else if i > index {
      next' := next + {i - 1};
    }
    DoneGrows(visible, rest, i);
    rest' := rest - {i};
  }

  /** A non-empty set has a member. */
  lemma HasMember(s: set<int>)
    requires s != {}
    ensures exists x :: x in s
  {
    if forall x :: x !in s {
      assert false;
    }
  }

  /** Taking `i` out of what is left adds it to what is done. */
  lemma DoneGrows(visible: set<int>, rest: set<int>, i: int)
    requires i in rest && rest <= visible
    ensures (visible - rest) + {i} == visible - (rest - {i})
  {
  }

  // ----- properties -----

  /** Handling one more shown position adds its shifted place, unless it is the
      removed one. */
  lemma RemapAdd(done: set<int>, i: int, index: int)
    ensures RemapAfterRemove(done + {i}, index)
      == RemapAfterRemove(done, index) + (if i == index then {} else {Shifted(i, index)})
  {
    var l := RemapAfterRemove(done + {i}, index);
    var r := RemapAfterRemove(done, index) + (if i == index then {} else {Shifted(i, index)});
    forall x | x in r ensures x in l {
      if x in RemapAfterRemove(done, index) {
        var j :| j in done && j != index && Shifted(j, index) == x;
        assert j in done + {i};
      } else {
        assert i in done + {i};
      }
    }
  }

  /** After a removal every remaining network keeps its flag: position `j` is shown
      exactly when the network that was at `j` (before the removed one) or at `j + 1`
      (after it) was shown. */
  lemma RemoveKeepsFlags(networks: seq<Network>, visible: set<int>, index: int, j: int)
    requires 0 <= index < |networks| && 0 <= j < |networks| - 1
    ensures RemoveAt(networks, index)[j] == networks[if j < index then j else j + 1]
    ensures j in RemapAfterRemove(visible, index) <==> (if j < index then j else j + 1) in visible
  {
    var src := if j < index then j else j + 1;
    if src in visible {
      assert src != index && Shifted(src, index) == j;
    }
    if j in RemapAfterRemove(visible, index) {
      var i :| i in visible && i != index && Shifted(i, index) == j;
      assert i == src;
    }
  }

  /** Toggling the same position twice restores the shown set. */
  lemma ToggleTwice(visible: set<int>, index: int)
    ensures Toggled(Toggled(visible, index), index) == visible
  {
  }

  /** Typing a network name changes exactly its name and title. */
  lemma NameSetsTitle(n: Network, value: string)
    ensures Edited(n, WifiName, value).wifiName == value && Edited(n, WifiName, value).title == value
    ensures Edited(n, WifiName, value).desc == n.desc && Edited(n, WifiName, value).wifiPassword == n.wifiPassword
  {
  }

  /** Saving keeps the complete networks and only those, in order: saving a list
      made of two parts is saving each part. */
  lemma {:induction false} SaveSplits(xs: seq<Network>, ys: seq<Network>)
    ensures SavePayload(xs + ys) == SavePayload(xs) + SavePayload(ys)
  {
    if xs == [] {
      assert xs + ys == ys;
    } else {
      assert (xs + ys)[1..] == xs[1..] + ys;
      SaveSplits(xs[1..], ys);
    }
  }

  /** A network is sent exactly when it is complete, as its entry. */
  lemma {:induction false} SaveMembers(networks: seq<Network>, n: Network)
    ensures n in networks && Complete(n) ==> Entry(n) in SavePayload(networks)
    ensures forall e :: e in SavePayload(networks) ==> exists m :: m in networks && Complete(m) && e == Entry(m)
  {
    if networks != [] {
      SaveMembers(networks[1..], n);
    }
  }

  /** A freshly added network is not sent until its name and password are filled. */
  lemma EmptyNetworkNotSent(networks: seq<Network>)
    ensures SavePayload(networks + [EmptyNetwork]) == SavePayload(networks)
  {
    SaveSplits(networks, [EmptyNetwork]);
    assert !Complete(EmptyNetwork) by { assert |Trim("")| == 0; }
    SaveOne(EmptyNetwork);
  }

  /** Saving a single network. */
  lemma SaveOne(n: Network)
    ensures SavePayload([n]) == if Complete(n) then [Entry(n)] else []
  {
    assert [n][1..] == [];
  }
}

=== FILE: wrappers.dfy ===
/** The optional-value wrapper shared by every module of the model. */
module Wrappers {

  /** A value that may be absent: JavaScript's `null`/`undefined`, SQL's NULL,
      or a lookup that found nothing. */
  datatype Option<+T> = None | Some(value: T) {

    /** The wrapped value, or `default` when there is none. */
    function GetOr(default: T): T {
      match this
      case Some(v) => v
      case None => default
    }
  }
}
